=== FILE: README.md ===
# supertimeline resolver, modelled in Dafny

This project models the core of the Rust crate `supertimeline`. The crate takes a timeline of
nested objects and keyframes, each enabled by `enable` expressions such as
`#intro.end + 2`, `.camera & !$bg` or `(1 + 2) * 3`. It then:

- **resolves** every object into a list of instances (start, optional end, the references that
  decided them, the parent caps that clipped them);
- **projects** the instances onto layers, deciding for each time who holds each layer, which
  keyframes apply and which start, end and keyframe events follow.

The model follows the crate's files:

| module | file | contents |
|---|---|---|
| `Base` | – | `Option`, `Result`, `Time` (the crate's `u64`), Rust's truncating `/` and `%`, `generate_id` |
| `References` | `src/references.rs` | the reference-set builder |
| `Caps` | `supertimeline/src/caps.rs` | the caps builder (one cap per parent id, a later cap wins) |
| `Ast`, `Words`, `Expression` | `supertimeline/src/expression.rs` | tokenising, parenthesis grouping, `interpret_phrase`, `interpret_expression`, `simplify_expression`, `is_constant` |
| `ExpressionExamples` | `supertimeline/src/expression.rs` | the crate's own parser tests, stated as lemmas |
| `InstanceTypes` | `supertimeline/src/instance.rs` | the records; `set_instance_start_time`, `set_instance_end_time`, `add_caps_to_resuming` |
| `Events` | `supertimeline/src/events.rs` | the event comparator and the sweep `into_instances` |
| `Util` | `supertimeline/src/util.rs` | clean, invert, operate on arrays, apply parent, repeat, cap |
| `Lookup` | `supertimeline/src/lookup_expression.rs` | the parts that do not resolve other objects: reference matching, arithmetic, the sweep that combines two lookups with a boolean operator |
| `LookupBoolean` | `supertimeline/src/lookup_expression.rs` | what the boolean sweep covers: the times at which the operator holds of its two sides |
| `Resolver` | `supertimeline/src/resolver.rs` and the recursive half of `lookup_expression.rs` | per-object resolution |
| `Api` | `supertimeline/src/api.rs` | flattening the nested timeline; `resolve_timeline` |
| `State` | `supertimeline/src/state.rs` | the layer states and `get_state`; the points the sweep visits, in order |
| `Holders` | `supertimeline/src/state.rs` | the sweep's layer holding: aspiring lists in precedence order, handovers |
| `StateSweep` | `supertimeline/src/state.rs` | keyframes, the sweep over all event times, the upcoming events; `resolve_all_states` |
| `Sorting` | – | the stable sort the crate gets from `sort_by` |

The layer sweep takes a `Holders.Reading`. `AsWritten` is the crate as it is written, and
`Corrected` fixes the two defects listed under Findings. Every sweep function takes the reading
and states its contract for both.

**Resolver.** `resolve_object` and the lookups call each other. The model gives every object a
status: `Pending`, `InProgress` or `Complete`. The first call on an object moves it out of
`Pending`, which both detects circular references and bounds the recursion. Every resolver
function states two things:

- on success, the state only moves forward (`Follows`) and stays well formed (`Valid`);
- on failure, the error is one the crate can report (`Reachable`).

**State projection.** The crate shares instances between several places through `Rc<Mutex<..>>`:

- the per-object record;
- the layer states;
- the sweep's current holders.

A holder that loses its layer is capped in place. The model keeps those instances in a heap and
refers to them by index. `SweepInv` is the invariant the sweep keeps:

- every index is in range;
- every object record is filed under its own id;
- every aspiring list is in precedence order;
- the keyframe iteration order lists exactly the active keyframes.

`Holders.TakesLayer` says what it means for an object to hold a layer from a time. The layer's
current holder, and its state at that time, are a new heap instance made from the object's
instance, and the object is active with it.

## Model

| member | source | states |
|---|---|---|
| Base.TruncRemBounds | supertimeline/src/expression.rs:126-130 | Rust's `%`: the remainder is smaller than the divisor and takes the dividend's sign; for non-negative operands it is the mathematical remainder |
| Base.RemOfAbs | supertimeline/src/expression.rs:126-130 | Rust's `%` is, up to the dividend's sign, the remainder of the magnitudes |
| References.NewIsEmpty | src/references.rs:7-11 | a new builder holds no reference |
| References.AddMembership | src/references.rs:13-16 | after `add`, an id is present iff it was present before or is in the added set |
| References.AddIdempotentAndOrderFree | src/references.rs:13-16 | adding the same set twice changes nothing, and the order of two `add`s does not matter |
| References.AddSomeCases | src/references.rs:23-35 | `add_some(None)` changes nothing; `add_some(Some(s))` adds exactly `s` |
| References.AddIdMembership | src/references.rs:37-40 | after `add_id`, the set is the old set plus that id |
| References.BuilderSpec | src/references.rs:1-45 | whatever sequence of `add`, `add_some` and `add_id` calls a new builder receives, `done` yields exactly the ids some call passed in |
| Caps.FindIn | supertimeline/src/caps.rs:46-48 | finding a cap by id succeeds iff the id is among the caps, and returns a cap with that id |
| Caps.InsertIds | supertimeline/src/caps.rs:24-33 | inserting one cap adds exactly its id to the set of ids |
| Caps.InsertFind | supertimeline/src/caps.rs:24-33 | after inserting a cap, its id finds it and every other id finds what it found before |
| Caps.InsertDistinct | supertimeline/src/caps.rs:24-33 | inserting keeps one cap per id |
| Caps.AddSpec | supertimeline/src/caps.rs:24-33 | `add` keeps one cap per id; the ids are the union; each id finds the last added cap with that id, else the old one |
| Caps.AddSomeCases | supertimeline/src/caps.rs:35-44 | `add_some(None)` is the identity; `add_some(Some(cs))` behaves as `add(cs)` |
| Caps.BuilderSpec | supertimeline/src/caps.rs:18-48 | `new().add(cs).done()` holds one cap per id, namely the last cap of `cs` with that id |
| Words.PadThenSplit | supertimeline/src/expression.rs:166-169 | padding every operator and parenthesis with spaces and then splitting on whitespace is the one-pass tokenizer |
| Words.WordsAreTokens | supertimeline/src/expression.rs:166-169 | the words of a padded string are its tokens, and each is either one operator or parenthesis character or a run without whitespace and operators |
| Words.NoWordsIffBlank | supertimeline/src/expression.rs:170-172 | a string has no words exactly when it is all whitespace (the case that parses to `Null`) |
| Words.TokenizeAppend | supertimeline/src/expression.rs:166-169 | tokenising a concatenation after a word boundary is tokenising each part |
| Words.WrapRoundTrip | supertimeline/src/expression.rs:342-390 | grouping the flattened words of any nested group list gives that list back (flatten, then group, is the identity) |
| Words.WrapFlattens | supertimeline/src/expression.rs:342-390 | whatever grouping returns flattens back to the words it was given, together with the groups still open |
| Words.WrapWords | supertimeline/src/expression.rs:342-390 | grouping keeps every word that satisfies a property when all its input words do |
| Words.WrapPlain | supertimeline/src/expression.rs:342-390 | words without parentheses are grouped as single words, in order |
| Words.UnopenedCloseFails | supertimeline/src/expression.rs:366-374 | a `)` with no open group is a mismatched-parenthesis error |
| Words.UnclosedOpenFails | supertimeline/src/expression.rs:385-386 | a `(` that is never closed is a mismatched-parenthesis error |
| Expression.EnsureNumberPolarity | supertimeline/src/expression.rs:178-188 | a number after no operator is kept; after `+` or `-` it keeps or flips its sign; after any other operator it is rejected |
| Expression.MatchOperator | supertimeline/src/expression.rs:190-208 | a word maps to the operator whose symbol it is, and to none exactly when no operator has that symbol |
| Expression.RPosition | supertimeline/src/expression.rs:243-260 | the position found is the last occurrence of the operator in the phrase, and none means it does not occur |
| Expression.FindOperatorFrom | supertimeline/src/expression.rs:243-260 | the split point is a single-word operator of the phrase |
| Expression.FindOperatorAt | supertimeline/src/expression.rs:243-260 | the split point is the last occurrence of the first operator, in the crate's operator order (boolean operators first, then `+ - * / % !`), that occurs at all |
| Expression.SingleWordLaw | supertimeline/src/expression.rs:223-233 | one word parses as a number, signed by a preceding `+`/`-`, or is rejected after another operator, or parses as a string when it is not a number |
| Expression.GroupLaw | supertimeline/src/expression.rs:234-240 | a lone group parses as its contents, and is rejected after an operator |
| Expression.SplitLaw | supertimeline/src/expression.rs:292-316 | a phrase splits at its operator into a binary expression of the two sides, and the first failing side's error is the result |
| Expression.SignLaw | supertimeline/src/expression.rs:286-291 | a leading `+` or `-` passes its sign on to the rest of the phrase |
| Expression.InvertLaw | supertimeline/src/expression.rs:280-282 | a leading `!` inverts the rest of the phrase |
| Expression.PhraseErrors | supertimeline/src/expression.rs:262-264 | an operator as the phrase's last word is invalid, and several words without an operator are a missing-operator error |
| Expression.InterpretString | supertimeline/src/expression.rs:166-176 | every string that parses gives an expression whose string leaves are single words that are neither numbers nor parentheses (a lone operator character such as `&` stays a string) |
| Expression.LeafWordIsStable | supertimeline/src/expression.rs:144-164 | a single word that is no number and no parenthesis, a lone operator character included, parses to itself as a string |
| Expression.Interpret | supertimeline/src/expression.rs:144-164 | re-interpreting keeps the operator of a binary node, an inversion stays an inversion, and numbers and null stay as they are |
| Expression.LeavesOkStable | supertimeline/src/expression.rs:144-164 | on a parsed expression, re-interpreting its string leaves changes nothing |
| Expression.Simplify | supertimeline/src/expression.rs:103-142 | simplifying keeps the nodes of the boolean operators, and inversions |
| Expression.IsConstantIff | supertimeline/src/expression.rs:93-101 | an expression is constant iff, under its inversions, it is not a string |
| Expression.SimplifyResultSimplified | supertimeline/src/expression.rs:103-142 | the result of simplifying has no arithmetic node over two numbers, and each string leaf parses back to itself |
| Expression.SimplifiedIsFixed | supertimeline/src/expression.rs:103-142 | a simplified expression simplifies to itself |
| Expression.SimplifyIdempotent | supertimeline/src/expression.rs:103-142 | simplifying twice is simplifying once |
| Expression.SimplifyEvaluates | supertimeline/src/expression.rs:119-139 | an arithmetic expression over numbers simplifies to its value under Rust's `i64` operators, and to the panic exactly when a divisor is zero or an intermediate result leaves `i64` (the overflow panic of a debug build) |
| Expression.InI64 | supertimeline/src/expression.rs:126-130 | a folded value is kept exactly when it fits in `i64`, and otherwise is the overflow panic |
| ExpressionExamples.ParsesNumber | supertimeline/src/expression.rs:398-401 | `"42"` parses to the number 42 |
| ExpressionExamples.ParsesPositive | supertimeline/src/expression.rs:402-405 | `"+42"` parses to 42 |
| ExpressionExamples.ParsesNegative | supertimeline/src/expression.rs:406-409 | `"-42"` parses to -42 |
| ExpressionExamples.TrailingOperatorIsInvalid | supertimeline/src/expression.rs:411-414 | `"42 -"` is invalid |
| ExpressionExamples.ParsesBinaryOperators | supertimeline/src/expression.rs:420-489 | `"1 o 2"` parses to `1 o 2` for each of the seven binary operators |
| ExpressionExamples.ParsesPadded | supertimeline/src/expression.rs:430-439 | extra whitespace around the words of `1 * 2` does not change the parse |
| ExpressionExamples.ParsesPrecedence | supertimeline/src/expression.rs:490-519 | `*` binds tighter than `+` on either side |
| ExpressionExamples.ParsesGroup | supertimeline/src/expression.rs:520-534 | `"1 * (2 + 3)"` parses with the group as the right operand |
| ExpressionExamples.ParsesAnd | supertimeline/src/expression.rs:535-544 | `"#first & #second"` parses to an `&` of two references |
| ExpressionExamples.ParsesInvert | supertimeline/src/expression.rs:545-549 | `"!thisOne"` parses to an inversion |
| ExpressionExamples.ParsesReference | supertimeline/src/expression.rs:585-589 | `"#obj.start"` parses to the reference string itself |
| ExpressionExamples.ParsesEmpty | supertimeline/src/expression.rs:594-597 | the empty string parses to `Null` |
| ExpressionExamples.ParsesLeftAssociative | supertimeline/src/expression.rs:599-614 | `"1+2+3"` associates to the left |
| ExpressionExamples.SimplifiesSum | supertimeline/src/expression.rs:617-622 | `(1 + 2) + 3` simplifies to 6 |
| ExpressionExamples.ParsesQuotient | supertimeline/src/expression.rs:629-634 | `"10 / 2 + 1"` parses to `(10 / 2) + 1` |
| ExpressionExamples.SimplifiesQuotient | supertimeline/src/expression.rs:629-634 | `(10 / 2) + 1` simplifies to 6 |
| ExpressionExamples.ParsesNames | supertimeline/src/expression.rs:635-640 | `"40+2+asdf"` parses to `(40 + 2) + asdf` |
| ExpressionExamples.SumOverflowPanics | supertimeline/src/expression.rs:127 | folding `9223372036854775807 + 1` overflows `i64` and panics |
| ExpressionExamples.SimplifiesGrouped | supertimeline/src/expression.rs:623-627 | the tree `"1+2*2+(4-2)"` parses to, `(1 + 2 * 2) + (4 - 2)`, folds to 7 |
| ExpressionExamples.SimplifiesPartially | supertimeline/src/expression.rs:635-640 | `(40 + 2) + asdf` simplifies to `42 + asdf` |
| ExpressionExamples.StringChain | supertimeline/src/expression.rs:490-519 | for any two operators, `a o1 b o2 c` groups to the left unless `o2` comes later in the operator order than `o1` |
| InstanceTypes.SetEndTime | supertimeline/src/util.rs:505-510 | setting the end stores it, records the first end ever set as the original end, and changes nothing else |
| InstanceTypes.SetStartTime | supertimeline/src/util.rs:512-518 | setting the start stores it, records the first start as the original start, and changes nothing else |
| InstanceTypes.FirstCapWins | supertimeline/src/util.rs:505-518 | after two changes the original start and end are those from before the first change |
| InstanceTypes.ResumingCaps | supertimeline/src/util.rs:134-155 | the caps added to a resuming instance are caps starting at 0 that end after the instance's end, and there are none for an instance without an end |
| InstanceTypes.AddCapsToResumingSpec | supertimeline/src/util.rs:134-155 | the instance's caps become the union of its own and the resuming caps, one per id, with a resuming cap winning |
| Events.CompareEventsSpec | supertimeline/src/events.rs:18-53 | the event order: earlier first; at one time an end before a start of another object; an object's start before its own end; the order is antisymmetric |
| Events.EventOrderNotTransitive | supertimeline/src/events.rs:18-53 | the comparator is not a total order: three events at one time form a cycle |
| Events.SortEventsSpec | supertimeline/src/events.rs:18-53 | sorting events is a permutation, orders them by time, leaves no adjacent pair out of order, and is idempotent |
| Events.Put | supertimeline/src/events.rs:108-109 | recording an active start adds its id to the active ids |
| Events.Remove | supertimeline/src/events.rs:110-112 | ending an id removes exactly that id from the active ids |
| Events.LatestStarted | supertimeline/src/events.rs:158-161 | the instance that continues is an active one with the latest start |
| Events.StepInv | supertimeline/src/events.rs:102-234 | each event keeps the instances built so far ordered, non-overlapping and not after the current time |
| Events.RunGrows | supertimeline/src/events.rs:102-234 | the sweep never drops instances, and produces at least one when any start event is given |
| Events.IntoInstances | supertimeline/src/events.rs:86-238 | the events become a chained (ordered, non-overlapping) instance list, which is non-empty when there is a start event |
| Util.EventsOf | supertimeline/src/util.rs:107-127 | each instance contributes its start event (and its end event when it has an end) |
| Util.EventsOfSound | supertimeline/src/util.rs:107-127 | every event comes from an instance, at its start or at its end, with its id, references and caps |
| Util.CleanInstances | supertimeline/src/util.rs:91-132 | cleaning returns a chained list, empty exactly when the input is; one instance is kept with its original times recorded |
| Util.InvertInstances | supertimeline/src/util.rs:15-88 | inverting covers exactly the times the cleaned list does not; nothing inverts to one instance from 0 without an end |
| Util.InvertCovers | supertimeline/src/util.rs:15-88 | filling the gaps of a chained list covers exactly the times the list does not |
| Util.FillGapsCovers | supertimeline/src/util.rs:40-88 | each step of the gap fill keeps "covered so far iff not covered by the list" |
| Util.Operand | supertimeline/src/util.rs:157-185 | a time operand becomes one instance at that time; instances are used as they are; null gives no operand |
| Util.PairInstance | supertimeline/src/util.rs:232-316 | two operands combine into one instance with merged caps; a `first` operand passes its times and references through unchanged |
| Util.OperatePairsSpec | supertimeline/src/util.rs:224-317 | the result holds exactly the pairings of the instances at the same index that produce an instance, and no pairing fails |
| Util.AssignIds | supertimeline/src/util.rs:296-297 | each result instance gets a fresh id from the counter, in order |
| Util.OperateOnArrays | supertimeline/src/util.rs:187-326 | a null side gives null; otherwise a list results; the operation never fails when the operator never fails |
| Util.AddTimes | supertimeline/src/util.rs:420-452 | adding two times adds the values and unions the references; a missing side gives no value, and adding never fails |
| Util.ApplyParent | supertimeline/src/util.rs:420-452 | without a parent, or for a null value, the result is null; otherwise it is a list |
| Util.ParentShift | supertimeline/src/util.rs:420-452 | a time offset paired with a parent instance shifts both its bounds by the offset (an open end stays open); an `is_first` parent passes through unshifted |
| Util.FirstRepeatStartSpec | supertimeline/src/util.rs:350-356 | the first repeat shown is the last start at or before the current time on the repeat grid, or the original start if that is later |
| Util.RepeatCap | supertimeline/src/util.rs:358-361 | the cap for a repeat is a cap whose id the instance references, and there is none when no cap is referenced |
| Util.CopiesSpec | supertimeline/src/util.rs:363-408 | each repetition is a non-empty copy on the repeat grid, starting before the time limit |
| Util.RepeatOneSpec | supertimeline/src/util.rs:363-408 | at most `limit_count` copies per instance, none before the original start, each referencing the instance and the repeat |
| Util.RepeatAll | supertimeline/src/util.rs:328-418 | every repeated instance is a copy of an input instance, and there are at most `limit_count` copies of each |
| Util.ApplyRepeating | supertimeline/src/util.rs:328-418 | without a repeat, or with a repeat of 0, the instances are unchanged |
| Util.WidestParent | supertimeline/src/util.rs:462-476 | the parent chosen for an instance that starts in or spans parents is the one ending last |
| Util.LastEndingIn | supertimeline/src/util.rs:478-484 | otherwise the parent chosen is one the instance ends in, and there is none when no parent qualifies |
| Util.CapInstance | supertimeline/src/util.rs:454-503 | capping fails iff no parent overlaps; otherwise the instance is clipped to some parent, keeping its id, references and caps |
| Util.CapInstanceSpec | supertimeline/src/util.rs:454-503 | the capped instance lies within the chosen parent, and that parent is the widest one the instance starts in or spans |
| Util.CapInstanceNotEmpty | supertimeline/src/util.rs:454-503 | a capped instance is never empty |
| Lookup.NonWordPrefix | supertimeline/src/lookup_expression.rs:15-19 | the `^\W*` of the reference patterns: the longest prefix of non-word characters |
| Lookup.SigilFrom | supertimeline/src/lookup_expression.rs:15-19 | the sigil position found is the last one matching the pattern, and none means no position matches |
| Lookup.MatchSigilPlain | supertimeline/src/lookup_expression.rs:15-19 | non-word characters, a sigil, a name without `.` and a remainder starting with `.` match as that name and remainder |
| Lookup.MatchSigilWord | supertimeline/src/lookup_expression.rs:15-19 | a string with a word character before any sigil does not match |
| Lookup.MatchReferences | supertimeline/src/lookup_expression.rs:104-141 | `#id` is tried first, then `.class`, then `$layer`; a class or layer selects its listed ids (none if unknown), and the reference recorded is the sigil plus the name |
| Lookup.RefTypeOf | supertimeline/src/lookup_expression.rs:183-194 | `.start`, `.end` and `.duration` select their reference type; any other remainder gives the default |
| Lookup.MinDuration | supertimeline/src/lookup_expression.rs:234-244 | the duration reported is the smallest of the durations found, and none when there are none |
| Lookup.EndInstancesCovers | supertimeline/src/lookup_expression.rs:276-290 | the `.end` instances cover exactly the times outside the referenced instances, except the leading gap from 0 |
| Lookup.Arith | supertimeline/src/lookup_expression.rs:429-445 | arithmetic on looked-up times fails exactly on `u64` underflow or division/remainder by zero, and the boolean operators give no value |
| Lookup.ArithAgreesWithFolding | supertimeline/src/lookup_expression.rs:429-445 | arithmetic on looked-up times agrees with constant folding in the parser on every result that fits in `i64`; a larger result makes the folding panic; where the time arithmetic fails, it is a subtraction below zero or the folding panics too |
| Lookup.SideEventsOf | supertimeline/src/lookup_expression.rs:499-531 | each side event belongs to an instance of its side, at its start or its end, and zero-length instances give none |
| Lookup.SortedSideEvents | supertimeline/src/lookup_expression.rs:340 | the side events are taken in time order |
| Lookup.PushInstance | supertimeline/src/lookup_expression.rs:371-390 | closing or opening a result instance leaves the side values unchanged |
| Lookup.BoolSweepInv | supertimeline/src/lookup_expression.rs:393-422 | the boolean sweep keeps its result instances chained and not after the current time |
| Lookup.BooleanLookup | supertimeline/src/lookup_expression.rs:334-428 | combining two lookups with a boolean operator gives a chained instance list |
| LookupBoolean.BooleanLookupCovers | supertimeline/src/lookup_expression.rs:334-424 | the combined instances cover a time exactly when the operator holds of the two sides there, each side taking the kind of its last event at or before that time, or its constant before any; so the result starts at 0 when the constants make it true |
| LookupBoolean.SweepCovers | supertimeline/src/lookup_expression.rs:361-422 | the sweep over time-sorted side events, from the state of the constants, covers exactly the times at which the operator holds |
| LookupBoolean.CoverStep | supertimeline/src/lookup_expression.rs:393-421 | each event keeps the invariant: the side values are those at the event's time, the result value is the operator's value once that time's group is settled, and the coverage before that time is exact |
| Sorting.InsertionSort | supertimeline/src/state.rs:375-401 | `sort_by` permutes its input |
| Sorting.SortedHasNoInversion | supertimeline/src/state.rs:375-401 | after `sort_by` with a comparator that never says `Less` both ways, no element compares `Less` than its left neighbour |
| Sorting.SortKeepsSorted | supertimeline/src/state.rs:375-401 | a list with no adjacent inversion is left as it is (stability) |
| Sorting.SortIdempotent | supertimeline/src/state.rs:375-401 | sorting twice is sorting once |
| Sorting.SortedByKey | supertimeline/src/state.rs:375-401 | when the comparator orders by a key, the sorted list is ordered by that key |
| Resolver.IsSelfReferencing | supertimeline/src/resolver.rs:66-77 | a pending object is not self-referencing; otherwise the flag is the one recorded |
| Resolver.ResolveObject | supertimeline/src/resolver.rs:122-472 | a resolved object is `Complete`, the state only moves forward and stays valid; an object met again while in progress is a circular dependency; a complete one is not resolved again |
| Resolver.Conclude | supertimeline/src/resolver.rs:448-471 | the stored instances are exactly those that end after they start, in order, and the object becomes `Complete` while the state stays valid; any error is one the crate can raise |
| Resolver.ResolveEnables | supertimeline/src/resolver.rs:153 | resolving every enable only moves the state forward, and fails only with a reachable error |
| Resolver.StartExpression | supertimeline/src/resolver.rs:184-193 | the start expression is the boolean hack's rewrite if any, else `while`, else `start`, else null |
| Resolver.ResolveEnable | supertimeline/src/resolver.rs:153-446 | resolving one enable only moves the state forward, and fails only with a reachable error |
| Resolver.LookupRepeating | supertimeline/src/resolver.rs:154-182 | looking up `repeating` only moves the state forward |
| Resolver.LookupParent | supertimeline/src/resolver.rs:195-220 | an object without a parent has no parent instances and no references |
| Resolver.WhileInstances | supertimeline/src/resolver.rs:230-280 | a `while` value becomes its instances; a time becomes one open instance from that time; null becomes none |
| Resolver.ValueEvents | supertimeline/src/resolver.rs:230-280 | a looked-up value becomes events of the requested kind, one per instance, or one for a time |
| Resolver.DurationEndsSpec | supertimeline/src/resolver.rs:364-390 | every start event gets exactly one end event at start plus duration, and every end event comes from a start |
| Resolver.DurationOf | supertimeline/src/resolver.rs:344-360 | a duration fails exactly when it looks up more than one instance |
| Resolver.EffectiveDuration | supertimeline/src/resolver.rs:365-369 | a repeating object's duration is cut to the repeat interval |
| Resolver.EnableEnds | supertimeline/src/resolver.rs:281-390 | end lookups give only end events, and none when the enable has neither an end nor a duration |
| Resolver.EndsFromEnd | supertimeline/src/resolver.rs:281-327 | an `end` expression gives only end events, and the state only moves forward |
| Resolver.EndsFromDuration | supertimeline/src/resolver.rs:328-390 | a `duration` gives only end events, and the state only moves forward |
| Resolver.CapOne | supertimeline/src/resolver.rs:400-432 | every instance a child instance leaves is that child capped into one of the parent instances |
| Resolver.ReferredParent | supertimeline/src/resolver.rs:401-404 | the parent an instance is capped to is one it references, and there is none if it references none |
| Resolver.CapInto | supertimeline/src/resolver.rs:395-436 | capping into a parent fails iff they do not overlap; otherwise the result lies within the parent and records the parent as a cap |
| Resolver.CapIntoParentsWithin | supertimeline/src/resolver.rs:395-436 | every instance of a child lies within a parent instance, whose cap it carries last |
| Resolver.LookupExpr | supertimeline/src/lookup_expression.rs:41-97 | null looks up nothing; a number looks up that time, clamped at 0; other lookups only move the state forward |
| Resolver.MarkSelf | supertimeline/src/lookup_expression.rs:153-166 | looking up the object itself marks it self-referencing and changes nothing else |
| Resolver.LookupStr | supertimeline/src/lookup_expression.rs:143-313 | a string that is no reference looks up nothing; otherwise its references are exactly those the pattern names |
| Resolver.LookupReferenced | supertimeline/src/lookup_expression.rs:196-302 | resolving the referenced objects only moves the state forward, and the result carries the expression's own references unchanged |
| Resolver.Readable | supertimeline/src/lookup_expression.rs:200-213 | a referenced object is read iff it is complete and not both it and the referring object are self-referencing |
| Resolver.CollectDurations | supertimeline/src/lookup_expression.rs:197-232 | at most one duration per referenced object |
| Resolver.CollectInstances | supertimeline/src/lookup_expression.rs:253-290 | every instance collected from referenced objects ends after it starts |
| Api.ObjectInfoOf | supertimeline/src/api.rs:112-125 | an object's record keeps its id, depth and parent, and is not a keyframe |
| Api.KeyframeInfoOf | supertimeline/src/api.rs:143-156 | a keyframe's record has its owner as parent, priority 0 and no layer |
| Api.Push | supertimeline/src/api.rs:85-91 | indexing an id under a key appends it to that key's list and leaves other keys alone |
| Api.PushAll | supertimeline/src/api.rs:71-80 | indexing an id under every class adds it to each class's list and nowhere else |
| Api.Register | supertimeline/src/api.rs:59-97 | registering an object stores it by id, indexes its classes and (non-empty) layer, and appends it to the entries |
| Api.AddObject | supertimeline/src/api.rs:99-167 | adding an object registers it and everything below it at a depth not less than its own |
| Api.AddChildren | supertimeline/src/api.rs:128-138 | every child is registered with the group as parent, one level deeper |
| Api.AddKeyframes | supertimeline/src/api.rs:141-164 | every keyframe is registered with its owner as parent |
| Api.FlattenInv | supertimeline/src/api.rs:193-197 | the flattened timeline's object map and class and layer indexes agree with each other |
| Api.Flatten | supertimeline/src/api.rs:193-197 | every top-level object is registered at depth 0 with no parent |
| Api.ResolveAll | supertimeline/src/api.rs:203-206 | resolving every object leaves each of them complete |
| Api.Unresolved | supertimeline/src/api.rs:208-219 | the unresolved ids are exactly those not complete |
| Api.ResolveFlat | supertimeline/src/api.rs:199-236 | the resolved timeline has one entry per object, with its own record and instances that end after they start, and the same class and layer indexes |
| Api.Output | supertimeline/src/api.rs:211-230 | the output lists every object with its record and its resolution |
| Api.ResolveFlatReachable | supertimeline/src/api.rs:232-236 | the unresolved-objects error cannot occur |
| Api.ResolveTimeline | supertimeline/src/api.rs:179-237 | a resolved timeline has one entry per flattened object |
| Api.ResolveTimelineReachable | supertimeline/src/api.rs:179-237 | every error of `resolve_timeline` is one the resolver can report |
| State.StrCmpFlip | supertimeline/src/state.rs:400 | string comparison is antisymmetric and equal only on equal strings |
| State.StrCmpGeTrans | supertimeline/src/state.rs:474 | string comparison is transitive |
| State.SortNextEventsSpec | supertimeline/src/state.rs:758-774 | the upcoming events are ordered by time and, at one time, by event type |
| State.SetStateAtTime | supertimeline/src/state.rs:827-848 | recording a layer state at a time sets exactly that entry and keeps every other time and layer |
| State.AddKeyframeAtTime | supertimeline/src/state.rs:850-870 | adding a keyframe appends it to the layer's state at that time (creating a state without an object if none), except where the layer is recorded empty |
| State.SortedTimes | supertimeline/src/state.rs:141-145 | a layer's recorded times in strictly increasing order |
| State.LayerStep | supertimeline/src/state.rs:149-190 | a recorded instance makes its object the layer's state, with exactly that state's keyframes that apply to it; keyframes alone keep the current holder, if any, and append exactly those of them that apply; `None`, or a state with neither, empties the layer |
| State.StateAtTimeForLayerLatest | supertimeline/src/state.rs:135-196 | a layer's state at a time is read from the latest recorded time not after it (`ReadsLatest`): `None` or an empty state gives none; an instance gives its object with the keyframes that apply; keyframes alone keep the holder the layer had just before that time and append those that apply; with no recorded time up to it, there is none |
| State.TakeLimit | supertimeline/src/state.rs:102-116 | the event limit keeps the first `n` events, and no limit (or 0) keeps all |
| State.GetState | supertimeline/src/state.rs:97-133 | the state at a time: each layer with a state at that time and only those, and the upcoming events after that time, within the limit |
| State.InstanceTimes | supertimeline/src/state.rs:788-814 | the times of a set of instances are exactly their starts and ends |
| State.TimesFromParent | supertimeline/src/state.rs:788-814 | an object's extra times include every start and end of its parent's instances, and there are none without a parent |
| State.InstancePoints | supertimeline/src/state.rs:279-307 | an instance yields a start point and, if it ends, an end point |
| State.CollectPoints | supertimeline/src/state.rs:244-333 | the points are those of objects on a layer and of active keyframes, each from one of the object's instances |
| State.SortPoints | supertimeline/src/state.rs:373-403 | the points are permuted into keyframe points first, then end points, then start points, and by depth within each kind |
| Holders.AdjacentToSorted | supertimeline/src/state.rs:443-475 | a list ordered pairwise by layer precedence is ordered for every pair |
| Holders.RemoveObjectSorted | supertimeline/src/state.rs:476-481 | removing an object from the aspiring list keeps exactly the others, still in precedence order |
| Holders.Aspire | supertimeline/src/state.rs:443-475 | adding a candidate keeps the aspiring list a precedence-ordered permutation |
| Holders.TopOfLayer | supertimeline/src/state.rs:445-485 | the head of the aspiring list has the highest priority, then the latest start, then the first id in string order |
| Holders.StateInstance | supertimeline/src/state.rs:583-595 | the instance that takes a layer starts at the handover time, is open, points back to the resolved instance and records its original times |
| Holders.Uniquify | supertimeline/src/state.rs:597-603 | a state instance id is kept if unused, else extended with a suffix |
| Holders.EndHolder | supertimeline/src/state.rs:502-528 | the previous holder's instance is capped at the handover time and made inactive, with an end event after `only_for_time` |
| Holders.Takeover | supertimeline/src/state.rs:502-643 | the previous holder's instance is capped at the handover time and the previous object is no longer active; the new object takes the layer (`TakesLayer`); the last event is the `Start` event, naming the handled point's object as written and the new holder corrected |
| Holders.PutOnTop | supertimeline/src/state.rs:529-643 | the object takes its record's layer at the handover time (`TakesLayer`): a new open instance made from `top`'s becomes the layer's current holder and its state at that time, and the object is active with it; after `only_for_time` exactly one `Start` event is appended, naming the handled point's object as written and the new holder corrected |
| Holders.ToBeEnabled | supertimeline/src/state.rs:412-433 | a point enables its object only inside its instance, and a child only while its parent has no layer or holds one; a point whose parent is unknown is enabled exactly inside its instance |
| Holders.LayerPoint | supertimeline/src/state.rs:417-502 | an enabling point joins its layer's aspiring list, otherwise its object leaves it; then the head of the list takes the layer unless it already holds it, and an emptied list vacates the layer |
| Holders.Handover | supertimeline/src/state.rs:483-502 | the head of a non-empty aspiring list holds the layer afterwards: unchanged if it already did, otherwise it takes the layer at that time (`TakesLayer`); an emptied list leaves the layer without holder and records `None` at that time; an empty list on a vacant layer changes nothing |
| Holders.Replace | supertimeline/src/state.rs:502-643 | a handover caps the old holder's instance at that time and the head of the aspiring list takes the layer (`TakesLayer`); its `Start` event names the handled point's object as written and the new holder corrected |
| Holders.ExampleEndPoint | supertimeline/src/state.rs:417-502 | with `a` holding `L` over 0–10 and `b` waiting over 0–20, the end point of `a` at 10 removes it from the aspiring list and hands `L` over to `b` |
| Holders.ExamplePutOnTop | supertimeline/src/state.rs:529-643 | `b` takes `L` at 10 with a new instance from its resolved instance, after `a`'s `End` event; the `Start` event names `a` as written and `b` corrected |
| Holders.StartEventNamesEndingObject | supertimeline/src/state.rs:636-641 | as written, the end point of `a` gives `L` to `b` while the events at 10 are `End a` and `Start a` |
| Holders.StartEventNamesNewHolder | supertimeline/src/state.rs:636-641 | corrected, the same point gives the events `End a` and `Start b` |
| Holders.Vacate | supertimeline/src/state.rs:644-650 | a layer nobody aspires to is recorded empty from that time, and its holder is capped and made inactive |
| StateSweep.KeyframePoint | supertimeline/src/state.rs:651-668 | a keyframe point inside its instance activates it, and one outside removes it and its mark |
| StateSweep.ApplyKeyframe | supertimeline/src/state.rs:692-731 | applying a keyframe adds it to its parent's layer state and records its keyframe event |
| StateSweep.KeyframeStep | supertimeline/src/state.rs:673-742 | a keyframe whose parent holds a layer and that is not marked is added to that layer's state at this time, with a new keyframe event; otherwise nothing is added. Corrected it is marked exactly when its parent holds a layer; as written the mark survives only where it already existed |
| StateSweep.KeyframeReappliedAsWritten | supertimeline/src/state.rs:680-741 | as written, a newly applied keyframe is left unmarked, so the next time it is added to the layer state again and a further keyframe event is recorded for that time |
| StateSweep.KeyframeAppliedOnce | supertimeline/src/state.rs:693-731 | corrected, once applied, a keyframe is not applied again while its parent holds the layer |
| StateSweep.NewKeyframeEvents | supertimeline/src/state.rs:745-751 | keyframe events are kept only at times without another event, one per time |
| StateSweep.NewKeyframeEventsCover | supertimeline/src/state.rs:745-751 | every keyframe event at a time without another event is represented |
| StateSweep.FinalEvents | supertimeline/src/state.rs:745-774 | the upcoming events come from the sweep or from keyframes, are sorted, and lie after `only_for_time` |
| StateSweep.ObjectsInOrder | supertimeline/src/state.rs:228-242 | the objects are taken in order of depth, each exactly once |
| StateSweep.ResolveAllStates | supertimeline/src/state.rs:212-781 | under either reading, every recorded layer state refers to an instance, and the upcoming events are sorted and after `only_for_time` |

## Left out

- Time arithmetic is on unbounded naturals. The crate's `u64` additions and multiplications can overflow past `Time::MAX` (a panic in a debug build, wrap-around in a release build); the model computes the exact value. The underflow of `-` and division by zero are modelled (as the `Panic` error).
- `Expression.Simplify`: an `i64` overflow in constant folding is modelled as the panic of a debug build; a release build wraps `+`, `-` and `*` instead.
- Panics (`unwrap` on failed arithmetic) are modelled as error values the caller propagates, not as preconditions, because the values are computed during resolution.
- `Lookup.NonWordPrefix`, `Lookup.MatchSigil`: the `\w` and `\W` classes of the reference patterns are approximated by `Lookup.IsWordChar`. ASCII letters, digits and `_` are word characters, and so is every character from U+0080 on. The crate's `\w` is Unicode-aware: among non-ASCII characters it takes only letters, marks, digits and connector punctuation. A non-ASCII non-word character before the sigil, such as U+00A0 (no-break space) or `×`, is skipped by the crate's `^\W*` but stops the model's prefix, so the model reports no match where the crate matches. Tables of Unicode properties are not part of this model.
- `HashMap` and `HashSet` iteration order is unspecified in the crate. Where it matters, the model fixes one order:
  - caps keep first-insertion order;
  - the active map of `into_instances` keeps insertion order;
  - the object order of `resolve_timeline` and `resolve_all_states` is a parameter listing the keys;
  - `Uniquify` takes its ids in insertion order;
  - `active_keyframes` (state.rs:673) is iterated in insertion order, kept as `Sweep.keyframeOrder`. This order decides the order of keyframes within a layer state, and which of two keyframe events at the same time survives the one-per-time filter at state.rs:746-751.
- The `src/` files other than `src/references.rs` are an older copy of the crate and are not part of this model. Also left out:
  - the napi, wasm, http and json bindings;
  - the test helpers;
  - all input and output.
- Keyframe content (`apply_keyframe_content`) is not part of this model; keyframes are tracked by identity and timing only.
- `slice::sort_by` is modelled by a stable insertion sort. It gives the same result as the standard library whenever the comparator is a total order; the event comparator of `events.rs` is not (see `Events.EventOrderNotTransitive`).
- Generated ids follow `@<counter>` through an explicitly threaded counter. The exact counter values are not claimed to match the crate's order of id generation.
- `State.TimesFromParent`: bounded by a fuel equal to the number of objects, because `get_times_from_parent` has no guard against a parent cycle.
- `hack_boolean_expression` is imported by the resolver from the crate's `expression` module (resolver.rs:8), but its definition is not part of this model. It is modelled as the unconstrained parameter `Ctx.hack` of the resolver context.
- Interior mutability (`Rc`, `Mutex`, `RefCell`) is modelled as the explicit heap of `ResolvedStates` and an explicit resolver state.
- `Expression::Bool`, matched in `lookup_expression.rs:56`, is part of the expression type. It simplifies, interprets and looks up as itself.
- The per-time de-duplication key `format!("{}_{}_{}", id, instance.id, enable)` is modelled as the triple it is built from. The model therefore does not reproduce collisions between different triples that format to the same string.
- The commented-out resolution cache is not part of this model.
- `Resolver.ResolveObject`: states that resolution completes the object and keeps the resolver state valid, not which instances result; the instances are given by the definition only.
- `Resolver.ResolveEnables`, `Resolver.ResolveEnable`, `Resolver.LookupRepeating`, `Resolver.EnableEnds`, `Resolver.CollectDurations`, `Resolver.CollectInstances`: these state progress and error reachability rather than the full value computed.
- `Events.IntoInstances`: states that the result is chained and non-empty when there is a start, not that it covers exactly the times some event keeps active.
- `Util.CleanInstances`: states that the result is chained and empty only for empty input; that it covers the union of its input is not proved.
- `LookupBoolean.BooleanLookupCovers`: each side's value at a time is read from its time-sorted events, not from the coverage of that side's instances. The statement is for times below `Time::MAX`, because the group of events at exactly `Time::MAX` is never settled.
- `Util.OperateOnArrays`: the result values are characterised pairwise by `Util.OperatePairsSpec`, not by a closed formula.
- `StateSweep.ResolveAllStates`: states reference integrity and the event order. Who holds a layer after each point is stated on the steps: `Holders.LayerPoint` and `Holders.Handover` give the layer to the head of its aspiring list (`Holders.TakesLayer`) or record it empty, and `Holders.TopOfLayer` says which candidate is the head. It is not restated as a property of the whole sweep's layer states.
- `Api.ResolveAll`: states completeness, not the order in which objects are resolved.

## Findings

| source | as written | input that shows it | evidently intended | confidence | as-written member | corrected member |
|---|---|---|---|---|---|---|
| supertimeline/src/state.rs:636-641 | the `Start` event of a handover names `obj`, the object of the point being handled | `a` (priority 1, 0–10) and `b` (priority 0, 0–20) on layer `L`: at 10 `a` ends and `b` takes over, but the `Start` event at 10 names `a` | the event names the new holder, `current_on_top_of_layer` | high, not executed | Holders.StartEventNamesEndingObject | Holders.StartEventNamesNewHolder |
| supertimeline/src/state.rs:680-741 | `unhandled` stays true after a keyframe is newly applied, so line 740 clears its mark again | a keyframe whose parent holds a layer over two successive event times is applied at both, so the layer state at the later time holds it a second time and `get_state` (state.rs:164-178) can list it twice; the repeated keyframe events fall at times already taken and are dropped by state.rs:746-751 | the mark is kept while the parent holds the layer, so each keyframe is applied once | high, not executed | StateSweep.KeyframeReappliedAsWritten | StateSweep.KeyframeAppliedOnce |

=== FILE: api.dfy ===
/** Flattening of the nested timeline into the resolver's object map with class and layer
    indexes, and the top-level `resolve_timeline` (supertimeline/src/api.rs). */
module Api {
  import opened Base
  import opened Ast
  import opened InstanceTypes
  import opened Util
  import opened Resolver

  /** A keyframe as the crate's `IsTimelineKeyframe` exposes it; its content is not modelled.
      Its classes are never indexed. */
  datatype Keyframe = Keyframe(id: string, enable: seq<Enable>, classes: seq<string>, disabled: bool)

  /** A timeline object as the crate's `IsTimelineObject` exposes it. A missing list of
      keyframes, classes or children is treated by the crate as an empty one, so the model uses
      plain (possibly empty) sequences. */
  datatype TimelineObject = TimelineObject(
    id: string,
    enable: seq<Enable>,
    layer: string,
    keyframes: seq<Keyframe>,
    classes: seq<string>,
    disabled: bool,
    children: seq<TimelineObject>,
    priority: nat
  )

  /** The info of an object placed at `depth` under `parentId`. */
  function ObjectInfoOf(obj: TimelineObject, depth: nat, parentId: Option<string>): (r: ObjectInfo)
    ensures r.id == obj.id && r.depth == depth && r.parentId == parentId && !r.isKeyframe
  {
    ObjectInfo(obj.id, obj.enable, obj.priority, obj.disabled, obj.layer, depth, parentId, false)
  }

  /** The info of a keyframe of the object `owner`: priority and layer are not supported. */
  function KeyframeInfoOf(kf: Keyframe, depth: nat, owner: string): (r: ObjectInfo)
    ensures r.id == kf.id && r.depth == depth && r.parentId == Some(owner) && r.isKeyframe
    ensures r.priority == 0 && r.layer == ""
  {
    ObjectInfo(kf.id, kf.enable, 0, kf.disabled, "", depth, Some(owner), true)
  }

  /** One registration, in order: the info and the classes it was indexed under. */
  datatype Registered = Registered(info: ObjectInfo, classes: seq<string>)

  /** The timeline being built: the object map (a later object replaces an earlier one with the
      same id), every registration in order, and the class and layer indexes. */
  datatype Flat = Flat(objects: map<string, ObjectInfo>, entries: seq<Registered>,
                       classes: map<string, seq<string>>, layers: map<string, seq<string>>)

  const EMPTY: Flat := Flat(map[], [], map[], map[])

  /** Appends `id` to the index entry of `key`, creating it when missing. */
  function Push(index: map<string, seq<string>>, key: string, id: string): (r: map<string, seq<string>>)
    ensures r.Keys == index.Keys + {key}
    ensures r[key] == (if key in index then index[key] else []) + [id]
    ensures forall k :: k in index && k != key ==> r[k] == index[k]
  {
    index[key := (if key in index then index[key] else []) + [id]]
  }

  /** Appends `id` under each class in turn. */
  function PushAll(index: map<string, seq<string>>, keys: seq<string>, id: string): (r: map<string, seq<string>>)
    ensures r.Keys == index.Keys + set k | k in keys
    ensures forall k :: k in keys ==> id in r[k]
    ensures forall k :: k in r ==> forall x :: x in r[k] ==> (k in keys && x == id) || (k in index && x in index[k])
    ensures forall k :: k in index ==> forall x :: x in index[k] ==> x in r[k]
    decreases |keys|
  {
    if |keys| == 0 then index
    else
      var pushed := Push(index, keys[0], id);
      var r := PushAll(pushed, keys[1..], id);
      PushAllStep(index, keys, id, pushed, r);
      r
  }

  /** The first class pushed, the rest pushed after it: together, every class. */
  lemma PushAllStep(index: map<string, seq<string>>, keys: seq<string>, id: string,
                    pushed: map<string, seq<string>>, r: map<string, seq<string>>)
    requires |keys| > 0 && pushed == Push(index, keys[0], id)
    requires r.Keys == pushed.Keys + set k | k in keys[1..]
    requires forall k :: k in keys[1..] ==> id in r[k]
    requires forall k :: k in r ==> forall x :: x in r[k] ==> (k in keys[1..] && x == id) || (k in pushed && x in pushed[k])
    requires forall k :: k in pushed ==> forall x :: x in pushed[k] ==> x in r[k]
    ensures r.Keys == index.Keys + set k | k in keys
    ensures forall k :: k in keys ==> id in r[k]
    ensures forall k :: k in r ==> forall x :: x in r[k] ==> (k in keys && x == id) || (k in index && x in index[k])
    ensures forall k :: k in index ==> forall x :: x in index[k] ==> x in r[k]
  {
    assert forall k :: k in keys ==> k == keys[0] || k in keys[1..];
  }

  /** `add_object_to_resolved_timeline`: an object (with its raw form) is indexed under its classes
      and, when it has one, its layer; a keyframe (no raw form) is only added to the map. */
  function Register(t: Flat, info: ObjectInfo, raw: Option<TimelineObject>): (r: Flat)
    ensures r.objects == t.objects[info.id := info]
    ensures raw.None? ==> r.classes == t.classes && r.layers == t.layers
    ensures raw.Some? && raw.value.layer == "" ==> r.layers == t.layers
    ensures raw.Some? && raw.value.layer != "" ==> r.layers == Push(t.layers, raw.value.layer, info.id)
    ensures r.entries == t.entries + [Registered(info, if raw.Some? then raw.value.classes else [])]
  {
    var classes := if raw.Some? then raw.value.classes else [];
    var layers := if raw.Some? && raw.value.layer != "" then Push(t.layers, raw.value.layer, info.id) else t.layers;
    Flat(t.objects[info.id := info], t.entries + [Registered(info, classes)], PushAll(t.classes, classes, info.id), layers)
  }

  /** `add_object_to_timeline`: children first (one level deeper, this object as parent), then
      keyframes, then the object itself. */
  function AddObject(t: Flat, obj: TimelineObject, depth: nat, parentId: Option<string>): (r: Flat)
    ensures t.entries <= r.entries && |r.entries| > |t.entries|
    ensures r.entries[|r.entries| - 1] == Registered(ObjectInfoOf(obj, depth, parentId), obj.classes)
    ensures forall k :: |t.entries| <= k < |r.entries| ==> r.entries[k].info.depth >= depth
    decreases obj, 1, 0
  {
    var t1 := AddChildren(t, obj, 0, depth + 1);
    var t2 := AddKeyframes(t1, obj.keyframes, 0, depth + 1, obj.id);
    Register(t2, ObjectInfoOf(obj, depth, parentId), Some(obj))
  }

  /** The children `k ..` of `parent`. */
  function AddChildren(t: Flat, parent: TimelineObject, k: nat, depth: nat): (r: Flat)
    requires k <= |parent.children|
    ensures t.entries <= r.entries
    ensures forall j :: |t.entries| <= j < |r.entries| ==> r.entries[j].info.depth >= depth
    ensures forall j :: k <= j < |parent.children| ==>
              Registered(ObjectInfoOf(parent.children[j], depth, Some(parent.id)), parent.children[j].classes) in r.entries
    decreases parent, 0, |parent.children| - k
  {
    if k == |parent.children| then t
    else
      var child := parent.children[k];
      var t1 := AddObject(t, child, depth, Some(parent.id));
      var r := AddChildren(t1, parent, k + 1, depth);
      assert r.entries[|t1.entries| - 1] == t1.entries[|t1.entries| - 1];
      r
  }

  /** The keyframes `k ..` of the object `owner`. */
  function AddKeyframes(t: Flat, kfs: seq<Keyframe>, k: nat, depth: nat, owner: string): (r: Flat)
    requires k <= |kfs|
    ensures t.entries <= r.entries
    ensures forall j :: |t.entries| <= j < |r.entries| ==> r.entries[j].info.depth >= depth
    ensures forall j :: k <= j < |kfs| ==> Registered(KeyframeInfoOf(kfs[j], depth, owner), []) in r.entries
    decreases |kfs| - k
  {
    if k == |kfs| then t
    else
      var t1 := Register(t, KeyframeInfoOf(kfs[k], depth, owner), None);
      var r := AddKeyframes(t1, kfs, k + 1, depth, owner);
      assert r.entries[|t.entries|] == t1.entries[|t.entries|];
      r
  }

  /** Step 1 of `resolve_timeline`: every top-level object at depth 0 without a parent. */
  function Flatten(timeline: seq<TimelineObject>): (r: Flat)
    ensures forall k :: 0 <= k < |timeline| ==>
              Registered(ObjectInfoOf(timeline[k], 0, None), timeline[k].classes) in r.entries
  {
    FlattenFrom(EMPTY, timeline, 0)
  }

  function FlattenFrom(t: Flat, timeline: seq<TimelineObject>, k: nat): (r: Flat)
    requires k <= |timeline|
    ensures t.entries <= r.entries
    ensures forall j :: k <= j < |timeline| ==>
              Registered(ObjectInfoOf(timeline[j], 0, None), timeline[j].classes) in r.entries
    decreases |timeline| - k
  {
    if k == |timeline| then t
    else
      var t1 := AddObject(t, timeline[k], 0, None);
      var r := FlattenFrom(t1, timeline, k + 1);
      assert r.entries[|t1.entries| - 1] == t1.entries[|t1.entries| - 1];
      r
  }

  /** Some registration has id `id`. */
  ghost predicate HasId(es: seq<Registered>, id: string) {
    exists k :: 0 <= k < |es| && es[k].info.id == id
  }

  /** `info` is the last registration with its id. */
  ghost predicate LastOf(es: seq<Registered>, info: ObjectInfo) {
    exists k :: 0 <= k < |es| && es[k].info == info && (forall j :: k < j < |es| ==> es[j].info.id != info.id)
  }

  /** Some registration with id `id` was indexed under class `c`. */
  ghost predicate HasClass(es: seq<Registered>, c: string, id: string) {
    exists k :: 0 <= k < |es| && es[k].info.id == id && c in es[k].classes
  }

  /** Some non-keyframe registration with id `id` has the non-empty layer `l`. */
  ghost predicate HasLayer(es: seq<Registered>, l: string, id: string) {
    l != "" && exists k :: 0 <= k < |es| && es[k].info.id == id && !es[k].info.isKeyframe && es[k].info.layer == l
  }

  /** Each id in the map was registered. */
  ghost predicate IdsInv(t: Flat) {
    forall id :: id in t.objects <==> HasId(t.entries, id)
  }

  /** Each id maps to the last registration with that id. */
  ghost predicate LastInv(t: Flat) {
    forall id :: id in t.objects ==> t.objects[id].id == id && LastOf(t.entries, t.objects[id])
  }

  /** An id is under class `c` exactly when a registration indexed under `c` has it. */
  ghost predicate ClassInv(t: Flat) {
    forall c, id :: c in t.classes && id in t.classes[c] <==> HasClass(t.entries, c, id)
  }

  /** An id is under layer `l` exactly when a non-keyframe registration with layer `l` has it, so
      the empty layer is never indexed. */
  ghost predicate LayerInv(t: Flat) {
    forall l, id :: l in t.layers && id in t.layers[l] <==> HasLayer(t.entries, l, id)
  }

  /** Keyframes are indexed under no class. */
  ghost predicate KeyframeInv(t: Flat) {
    forall k :: 0 <= k < |t.entries| && t.entries[k].info.isKeyframe ==> t.entries[k].classes == []
  }

  /** What the map and the indexes hold, in terms of the registrations. */
  ghost predicate FlatInv(t: Flat) {
    IdsInv(t) && LastInv(t) && ClassInv(t) && LayerInv(t) && KeyframeInv(t)
  }

  /** A registration as `add_object_to_timeline` makes it: objects are indexed by their own layer,
      keyframes are not indexed. */
  predicate Consistent(info: ObjectInfo, raw: Option<TimelineObject>) {
    if raw.Some? then !info.isKeyframe && info.layer == raw.value.layer else info.isKeyframe
  }

  lemma RegisterIds(t: Flat, info: ObjectInfo, raw: Option<TimelineObject>)
    requires IdsInv(t)
    ensures IdsInv(Register(t, info, raw))
  {
    var r := Register(t, info, raw);
    var n := |t.entries|;
    forall id ensures id in r.objects <==> HasId(r.entries, id) {
      if id in t.objects {
        var k :| 0 <= k < |t.entries| && t.entries[k].info.id == id;
        assert r.entries[k] == t.entries[k];
      }
      if id == info.id {
        assert r.entries[n].info.id == id;
      }
      if HasId(r.entries, id) && id != info.id {
        var k :| 0 <= k < |r.entries| && r.entries[k].info.id == id;
        assert r.entries[k] == t.entries[k];
        assert HasId(t.entries, id);
      }
    }
  }

  lemma RegisterLast(t: Flat, info: ObjectInfo, raw: Option<TimelineObject>)
    requires LastInv(t)
    ensures LastInv(Register(t, info, raw))
  {
    var r := Register(t, info, raw);
    var n := |t.entries|;
    forall id | id in r.objects ensures r.objects[id].id == id && LastOf(r.entries, r.objects[id]) {
      if id != info.id {
        var k :| 0 <= k < |t.entries| && t.entries[k].info == t.objects[id] && (forall j :: k < j < |t.entries| ==> t.entries[j].info.id != id);
        assert r.entries[k] == t.entries[k];
      } else {
        assert r.entries[n].info == r.objects[id];
      }
    }
  }

  lemma RegisterClasses(t: Flat, info: ObjectInfo, raw: Option<TimelineObject>)
    requires ClassInv(t)
    ensures ClassInv(Register(t, info, raw))
  {
    var r := Register(t, info, raw);
    var n := |t.entries|;
    var classes := if raw.Some? then raw.value.classes else [];
    assert r.entries[n] == Registered(info, classes);
    forall c, id ensures c in r.classes && id in r.classes[c] <==> HasClass(r.entries, c, id) {
      if c in r.classes && id in r.classes[c] {
        if c in classes && id == info.id {
          assert r.entries[n].info.id == id && c in r.entries[n].classes;
        } else {
          assert HasClass(t.entries, c, id);
          var k :| 0 <= k < |t.entries| && t.entries[k].info.id == id && c in t.entries[k].classes;
          assert r.entries[k] == t.entries[k];
        }
      }
      if HasClass(r.entries, c, id) {
        var k :| 0 <= k < |r.entries| && r.entries[k].info.id == id && c in r.entries[k].classes;
        if k < n {
          assert r.entries[k] == t.entries[k];
          assert HasClass(t.entries, c, id);
        }
      }
    }
  }

  lemma RegisterLayers(t: Flat, info: ObjectInfo, raw: Option<TimelineObject>)
    requires LayerInv(t) && Consistent(info, raw)
    ensures LayerInv(Register(t, info, raw))
  {
    var r := Register(t, info, raw);
    var n := |t.entries|;
    assert r.entries[n].info == info;
    forall l, id ensures l in r.layers && id in r.layers[l] <==> HasLayer(r.entries, l, id) {
      if l in r.layers && id in r.layers[l] {
        if l in t.layers && id in t.layers[l] {
          assert HasLayer(t.entries, l, id);
          var k :| 0 <= k < |t.entries| && t.entries[k].info.id == id && !t.entries[k].info.isKeyframe && t.entries[k].info.layer == l;
          assert r.entries[k] == t.entries[k];
        } else {
          assert raw.Some? && raw.value.layer != "" && l == raw.value.layer && id == info.id;
        }
      }
      if HasLayer(r.entries, l, id) {
        var k :| 0 <= k < |r.entries| && r.entries[k].info.id == id && !r.entries[k].info.isKeyframe && r.entries[k].info.layer == l;
        if k < n {
          assert r.entries[k] == t.entries[k];
          assert HasLayer(t.entries, l, id);
        }
      }
    }
  }

  lemma RegisterInv(t: Flat, info: ObjectInfo, raw: Option<TimelineObject>)
    requires FlatInv(t) && Consistent(info, raw)
    ensures FlatInv(Register(t, info, raw))
  {
    RegisterIds(t, info, raw);
    RegisterLast(t, info, raw);
    RegisterClasses(t, info, raw);
    RegisterLayers(t, info, raw);
    var r := Register(t, info, raw);
    assert forall k :: 0 <= k < |t.entries| ==> r.entries[k] == t.entries[k];
  }

  lemma {:induction false} AddObjectInv(t: Flat, obj: TimelineObject, depth: nat, parentId: Option<string>)
    requires FlatInv(t)
    ensures FlatInv(AddObject(t, obj, depth, parentId))
    decreases obj, 1, 0
  {
    AddChildrenInv(t, obj, 0, depth + 1);
    var t1 := AddChildren(t, obj, 0, depth + 1);
    var t2 := AddKeyframes(t1, obj.keyframes, 0, depth + 1, obj.id);
    AddKeyframesInv(t1, obj.keyframes, 0, depth + 1, obj.id);
    RegisterInv(t2, ObjectInfoOf(obj, depth, parentId), Some(obj));
  }

  lemma {:induction false} AddChildrenInv(t: Flat, parent: TimelineObject, k: nat, depth: nat)
    requires FlatInv(t) && k <= |parent.children|
    ensures FlatInv(AddChildren(t, parent, k, depth))
    decreases parent, 0, |parent.children| - k
  {
    if k < |parent.children| {
      var child := parent.children[k];
      AddObjectInv(t, child, depth, Some(parent.id));
      AddChildrenInv(AddObject(t, child, depth, Some(parent.id)), parent, k + 1, depth);
    }
  }

  lemma {:induction false} AddKeyframesInv(t: Flat, kfs: seq<Keyframe>, k: nat, depth: nat, owner: string)
    requires FlatInv(t) && k <= |kfs|
    ensures FlatInv(AddKeyframes(t, kfs, k, depth, owner))
    decreases |kfs| - k
  {
    if k < |kfs| {
      RegisterInv(t, KeyframeInfoOf(kfs[k], depth, owner), None);
      AddKeyframesInv(Register(t, KeyframeInfoOf(kfs[k], depth, owner), None), kfs, k + 1, depth, owner);
    }
  }

  lemma {:induction false} FlattenFromInv(t: Flat, timeline: seq<TimelineObject>, k: nat)
    requires FlatInv(t) && k <= |timeline|
    ensures FlatInv(FlattenFrom(t, timeline, k))
    decreases |timeline| - k
  {
    if k < |timeline| {
      AddObjectInv(t, timeline[k], 0, None);
      FlattenFromInv(AddObject(t, timeline[k], 0, None), timeline, k + 1);
    }
  }

  /** The flattened timeline's map and indexes agree with its registrations. */
  lemma FlattenInv(timeline: seq<TimelineObject>)
    ensures FlatInv(Flatten(timeline))
  {
    FlattenFromInv(EMPTY, timeline, 0);
  }

  // ---------------------------------------------------------------------------------------------
  // resolve_timeline

  /** `ResolvedTimelineObject`. */
  datatype ResolvedObject = ResolvedObject(info: ObjectInfo, resolved: Resolved)

  /** `ResolvedTimeline`. */
  datatype ResolvedTimeline = ResolvedTimeline(options: ResolveOptions, objects: map<string, ResolvedObject>,
                                               classes: map<string, seq<string>>, layers: map<string, seq<string>>)

  /** Step 2 of `resolve_timeline`: each object of `order` in turn; the first error aborts. */
  function ResolveAll(ctx: Ctx, st: St, order: seq<string>, k: nat): (r: Result<St, ResolveError>)
    requires Valid(ctx, st) && k <= |order|
    requires forall id :: id in order ==> id in st.status
    ensures r.Ok? ==> Follows(st, r.value) && Valid(ctx, r.value)
    ensures r.Ok? ==> forall j :: k <= j < |order| ==> r.value.status[order[j]].Complete?
    ensures r.Err? ==> Reachable(r.error)
    decreases |order| - k
  {
    if k == |order| then Ok(st)
    else
      var st1 :- ResolveObject(ctx, st, order[k]);
      var r :- ResolveAll(ctx, st1, order, k + 1);
      ResolvedStaysComplete(st, st1, r, order, k);
      Ok(r)
  }

  /** Resolving `order[k]` and then the rest leaves `order[k]` and the rest complete. */
  lemma ResolvedStaysComplete(st: St, st1: St, r: St, order: seq<string>, k: nat)
    requires k < |order| && forall j :: k <= j < |order| ==> order[j] in st.status
    requires Follows(st, st1) && st1.status[order[k]].Complete?
    requires Follows(st1, r) && forall j :: k + 1 <= j < |order| ==> r.status[order[j]].Complete?
    ensures Follows(st, r) && forall j :: k <= j < |order| ==> r.status[order[j]].Complete?
  {
    FollowsTrans(st, st1, r);
  }

  /** The object ids whose status is not `Complete`, in `order`. */
  function Unresolved(st: St, order: seq<string>): (r: seq<string>)
    ensures forall id :: id in r <==> id in order && (id !in st.status || !st.status[id].Complete?)
  {
    Filter(order, (id: string) => id !in st.status || !st.status[id].Complete?)
  }

  /** `resolve_timeline` after flattening. The crate iterates its hash map; the model takes that
      iteration `order` as a parameter, which lists the flattened objects' ids. Every object ends
      up `Complete`, so `UnresolvedObjects` is never returned. */
  function ResolveFlat(flat: Flat, options: ResolveOptions, hack: Option<Expr> -> Option<Expr>,
                       order: seq<string>): (r: Result<ResolvedTimeline, ResolveError>)
    requires forall id :: id in order <==> id in flat.objects
    ensures r.Ok? ==> r.value.objects.Keys == flat.objects.Keys
    ensures r.Ok? ==> forall id :: id in r.value.objects ==>
              r.value.objects[id].info == flat.objects[id] &&
              forall k :: 0 <= k < |r.value.objects[id].resolved.instances| ==> Positive(r.value.objects[id].resolved.instances[k])
    ensures r.Ok? ==> r.value.classes == flat.classes && r.value.layers == flat.layers
  {
    var ctx := Ctx(options, flat.objects, flat.classes, flat.layers, hack);
    var st :- ResolveAll(ctx, Initial(ctx), order, 0);
    var unresolved := Unresolved(st, order);
    if |unresolved| > 0 then Err(UnresolvedObjects(unresolved))
    else
      assert forall id :: id in st.status ==> st.status[id].Complete? by {
        forall id | id in st.status ensures st.status[id].Complete? {
          assert id in order && id !in unresolved;
        }
      }
      Ok(Output(ctx, st))
  }

  /** Every object pending, the counter at 0. */
  function Initial(ctx: Ctx): (r: St)
    ensures Valid(ctx, r) && r.counter == 0
    ensures forall id :: id in r.status ==> r.status[id] == Pending
  {
    St(map id | id in ctx.infos :: Pending, 0)
  }

  /** The resolved timeline once every object is complete. */
  function Output(ctx: Ctx, st: St): (r: ResolvedTimeline)
    requires Valid(ctx, st)
    requires forall id :: id in st.status ==> st.status[id].Complete?
    ensures r.objects.Keys == ctx.infos.Keys
    ensures forall id :: id in r.objects ==>
              r.objects[id].info == ctx.infos[id] && r.objects[id].resolved == st.status[id].resolved &&
              forall k :: 0 <= k < |r.objects[id].resolved.instances| ==> Positive(r.objects[id].resolved.instances[k])
    ensures r.classes == ctx.classes && r.layers == ctx.layers
  {
    ResolvedTimeline(ctx.options, map id | id in st.status :: ResolvedObject(ctx.infos[id], st.status[id].resolved),
                     ctx.classes, ctx.layers)
  }

  /** `resolve_timeline`: flatten, then resolve every object. */
  function ResolveTimeline(timeline: seq<TimelineObject>, options: ResolveOptions, hack: Option<Expr> -> Option<Expr>,
                           order: seq<string>): (r: Result<ResolvedTimeline, ResolveError>)
    requires forall id :: id in order <==> id in Flatten(timeline).objects
    ensures r.Ok? ==> r.value.objects.Keys == Flatten(timeline).objects.Keys
  {
    ResolveFlat(Flatten(timeline), options, hack, order)
  }

  /** Nothing is filtered out when no element qualifies. */
  lemma {:induction false} FilterNone<T>(s: seq<T>, p: T -> bool)
    requires forall k :: 0 <= k < |s| ==> !p(s[k])
    ensures Filter(s, p) == []
  {
    if |s| > 0 {
      FilterNone(s[1..], p);
    }
  }

  /** Every object of `order` is complete after `ResolveAll`, so the `UnresolvedObjects` branch of
      `resolve_timeline` is dead: its only errors are the ones `resolve_object` returns. */
  lemma ResolveFlatReachable(flat: Flat, options: ResolveOptions, hack: Option<Expr> -> Option<Expr>, order: seq<string>)
    requires forall id :: id in order <==> id in flat.objects
    ensures ResolveFlat(flat, options, hack, order).Err? ==> Reachable(ResolveFlat(flat, options, hack, order).error)
    ensures ResolveFlat(flat, options, hack, order).Err? ==> !ResolveFlat(flat, options, hack, order).error.UnresolvedObjects?
  {
    var ctx := Ctx(options, flat.objects, flat.classes, flat.layers, hack);
    var res := ResolveAll(ctx, Initial(ctx), order, 0);
    if res.Ok? {
      FilterNone(order, (id: string) => id !in res.value.status || !res.value.status[id].Complete?);
      assert Unresolved(res.value, order) == [];
    }
  }

  /** `resolve_timeline` fails only with an error of `resolve_object`. */
  lemma ResolveTimelineReachable(timeline: seq<TimelineObject>, options: ResolveOptions, hack: Option<Expr> -> Option<Expr>,
                                 order: seq<string>)
    requires forall id :: id in order <==> id in Flatten(timeline).objects
    ensures ResolveTimeline(timeline, options, hack, order).Err? ==> Reachable(ResolveTimeline(timeline, options, hack, order).error)
  {
    ResolveFlatReachable(Flatten(timeline), options, hack, order);
  }
}

=== FILE: ast.dfy ===
/** The expression AST of supertimeline/src/expression.rs: operators, expressions, the parser's
    error kinds and the parenthesis-grouped word lists the parser works on. */
module Ast {
  import opened Base

  datatype Operator = And | Or | Add | Subtract | Multiply | Divide | Remainder

  /** `Expression`. `Binary` is `Expression::Expression(ExpressionObj { l, o, r })`. `Bool` is used
      by the reference lookup but missing from the crate's enum; it is added here. */
  datatype Expr =
    | Null
    | Number(n: int)
    | Str(s: string)
    | Binary(l: Expr, o: Operator, r: Expr)
    | Invert(e: Expr)
    | Bool(b: bool)

  /** `ExpressionError`. `Panic` stands for the crate's division or remainder by zero, which
      aborts the process instead of returning an error. */
  datatype ExpressionError = MismatchedParenthesis | Invalid | MissingOperator | InvalidOperator | Panic

  /** `WrappedWords`: a word, or a parenthesised group of wrapped words. */
  datatype Wrapped = Single(word: string) | Group(items: seq<Wrapped>)

  /** The words a wrapped phrase was built from, with every group written back as `(` … `)`. */
  function Flatten(ws: seq<Wrapped>): seq<string>
    decreases ws
  {
    if |ws| == 0 then []
    else
      match ws[0]
      case Single(w) => [w] + Flatten(ws[1..])
      case Group(g) => ["("] + Flatten(g) + [")"] + Flatten(ws[1..])
  }

  /** Every word of the phrase, at any depth, satisfies `p`. */
  predicate AllWords(ws: seq<Wrapped>, p: string -> bool)
    decreases ws
  {
    forall i :: 0 <= i < |ws| ==>
      match ws[i]
      case Single(w) => p(w)
      case Group(g) => AllWords(g, p)
  }

  /** The words of a single item. */
  lemma FlattenOne(x: Wrapped)
    ensures x.Single? ==> Flatten([x]) == [x.word]
    ensures x.Group? ==> Flatten([x]) == ["("] + Flatten(x.items) + [")"]
  {
    assert [x][1..] == [];
  }

  lemma {:induction false} FlattenAppend(a: seq<Wrapped>, b: seq<Wrapped>)
    ensures Flatten(a + b) == Flatten(a) + Flatten(b)
    decreases |a|
  {
    if |a| == 0 {
      assert a + b == b;
    } else {
      assert (a + b)[0] == a[0];
      assert (a + b)[1..] == a[1..] + b;
      FlattenAppend(a[1..], b);
    }
  }

  /** Each wrapped item contributes at least one word, so every proper slice of a phrase and
      every group inside it flattens to fewer words: the measure `interpret_phrase` recurses on. */
  lemma FlattenSlices(ws: seq<Wrapped>, i: nat)
    requires i < |ws|
    ensures |Flatten(ws[..i])| < |Flatten(ws)|
    ensures |Flatten(ws[i + 1..])| < |Flatten(ws)|
    ensures ws[i].Group? ==> |Flatten(ws[i].items)| < |Flatten(ws)|
  {
    assert ws == ws[..i] + [ws[i]] + ws[i + 1..];
    FlattenAppend(ws[..i] + [ws[i]], ws[i + 1..]);
    FlattenAppend(ws[..i], [ws[i]]);
    assert [ws[i]][1..] == [];
  }

  lemma AllWordsAppend(a: seq<Wrapped>, b: seq<Wrapped>, p: string -> bool)
    ensures AllWords(a + b, p) <==> AllWords(a, p) && AllWords(b, p)
  {
    if AllWords(a, p) && AllWords(b, p) {
      forall i | 0 <= i < |a + b|
        ensures match (a + b)[i]
                case Single(w) => p(w)
                case Group(g) => AllWords(g, p)
      {
        if i < |a| {
          assert (a + b)[i] == a[i];
        } else {
          assert (a + b)[i] == b[i - |a|];
        }
      }
    }
    if AllWords(a + b, p) {
      forall i | 0 <= i < |b|
        ensures match b[i]
                case Single(w) => p(w)
                case Group(g) => AllWords(g, p)
      {
        assert (a + b)[i + |a|] == b[i];
      }
      forall i | 0 <= i < |a|
        ensures match a[i]
                case Single(w) => p(w)
                case Group(g) => AllWords(g, p)
      {
        assert (a + b)[i] == a[i];
      }
    }
  }

  lemma AllWordsSlice(ws: seq<Wrapped>, i: nat, j: nat, p: string -> bool)
    requires i <= j <= |ws|
    requires AllWords(ws, p)
    ensures AllWords(ws[i..j], p)
  {
    forall k | 0 <= k < j - i
      ensures match ws[i..j][k]
              case Single(w) => p(w)
              case Group(g) => AllWords(g, p)
    {
      assert ws[i..j][k] == ws[i + k];
    }
  }
}

=== FILE: base.dfy ===
/** Shared vocabulary of the model: optional values, results, the integer time line
    (`Time = u64` in the crate) and the counter-based id generator of the resolver context. */
module Base {

  /** Rust's `Option<T>`. */
  datatype Option<+T> = None | Some(value: T) {
    function GetOr(default: T): T {
      match this
      case Some(v) => v
      case None => default
    }
  }

  /** Rust's `Result<T, E>`, usable with `:-`. */
  datatype Result<+T, +E> = Ok(value: T) | Err(error: E) {
    predicate IsFailure() {
      Err?
    }

    function PropagateFailure<U>(): Result<U, E>
      requires Err?
    {
      Err(error)
    }

    function Extract(): T
      requires Ok?
    {
      value
    }

    /** Rust's `map_err`. */
    function MapFailure<F>(f: E -> F): Result<T, F> {
      match this
      case Ok(v) => Ok(v)
      case Err(e) => Err(f(e))
    }
  }

  /** Times are `u64` in the crate; the model uses unbounded naturals (see README). */
  type Time = nat

  /** `Time::MAX`, used by the crate as the stand-in for an unbounded end. */
  const TIME_MAX: nat := 0xFFFF_FFFF_FFFF_FFFF

  /** `end.unwrap_or(Time::MAX)`. */
  function EndOrMax(end: Option<Time>): Time {
    end.GetOr(TIME_MAX)
  }

  function Min(a: int, b: int): int {
    if a <= b then a else b
  }

  function Max(a: int, b: int): int {
    if a >= b then a else b
  }

  function Abs(a: int): nat {
    if a < 0 then -a else a
  }

  /** Rust's `/` on signed integers: the quotient is truncated toward zero. */
  function TruncDiv(a: int, b: int): int
    requires b != 0
  {
    var q := Abs(a) / Abs(b);
    if (a < 0) != (b < 0) then -q else q
  }

  /** Rust's `%` on signed integers: the remainder takes the sign of the dividend. */
  function TruncRem(a: int, b: int): int
    requires b != 0
  {
    a - b * TruncDiv(a, b)
  }

  /** The truncating remainder is smaller than the divisor and never has the opposite sign of
      the dividend. */
  lemma TruncRemBounds(a: int, b: int)
    requires b != 0
    ensures Abs(TruncRem(a, b)) < Abs(b)
    ensures a >= 0 ==> TruncRem(a, b) >= 0
    ensures a <= 0 ==> TruncRem(a, b) <= 0
    ensures a >= 0 && b > 0 ==> TruncRem(a, b) == a % b
  {
    var m := RemOfAbs(a, b);
    if a >= 0 {
      assert TruncRem(a, b) == m;
    } else {
      assert TruncRem(a, b) == 0 - m;
    }
  }

  /** The truncating remainder is, up to the dividend's sign, the remainder of the magnitudes. */
  lemma RemOfAbs(a: int, b: int) returns (m: int)
    requires b != 0
    ensures m == Abs(a) % Abs(b) && 0 <= m < Abs(b)
    ensures TruncRem(a, b) == if a >= 0 then m else 0 - m
  {
    var A, B := Abs(a), Abs(b);
    var q := A / B;
    m := A % B;
    assert A == B * q + m;
    if (a < 0) != (b < 0) {
      assert TruncDiv(a, b) == -q;
      assert b * TruncDiv(a, b) == -(b * q);
      assert b * q == (if b < 0 then -(B * q) else B * q);
    } else {
      assert TruncDiv(a, b) == q;
      assert b * q == (if b < 0 then -(B * q) else B * q);
    }
  }

  function DigitChar(d: nat): char
    requires d < 10
  {
    "0123456789"[d]
  }

  /** Decimal rendering of a natural number, as `format!("{}", n)`. */
  function NatToString(n: nat): string
    decreases n
  {
    if n < 10 then [DigitChar(n)] else NatToString(n / 10) + [DigitChar(n % 10)]
  }

  /** `ResolverContext::generate_id` (`format!("@{}", index)`); the counter is threaded through
      the model explicitly. */
  function GenerateId(counter: nat): string {
    "@" + NatToString(counter)
  }

  /** A value together with the id counter after producing it: the resolver context's
      `generate_id` counter, threaded explicitly. */
  datatype Counted<+T> = Counted(value: T, counter: nat)

  /** Keeps the elements of `s` that satisfy `p`, in order (`Vec::retain`, `Iterator::filter`). */
  function Filter<T>(s: seq<T>, p: T -> bool): (r: seq<T>)
    ensures |r| <= |s|
    ensures forall x :: x in r ==> x in s && p(x)
    ensures forall x :: x in s && p(x) ==> x in r
  {
    if |s| == 0 then []
    else if p(s[0]) then [s[0]] + Filter(s[1..], p)
    else Filter(s[1..], p)
  }
}

=== FILE: boolean_cover.dfy ===
/** What the `&` / `|` sweep of `lookup_expression_obj` (supertimeline/src/lookup_expression.rs)
    computes: its instances cover exactly the times at which the operator holds of the two sides,
    where a side's value at a time is set by its last event at or before that time. */
module LookupBoolean {
  import opened Base
  import opened Ast
  import opened InstanceTypes
  import opened Events
  import opened Lookup

  /** The value of one side at time `x`: the kind (start or end) of that side's last event at or
      before `x` in the event order, or the side's constant when there is none. */
  function SideAt(events: seq<SideEvent>, isLeft: bool, init: bool, x: int): bool
    decreases |events|
  {
    if |events| == 0 then init
    else
      var e := events[|events| - 1];
      if e.isLeft == isLeft && e.time <= x then e.isStart
      else SideAt(events[..|events| - 1], isLeft, init, x)
  }

  /** Whether the operator holds of the two sides at time `x`. */
  function ValueAt(o: Operator, events: seq<SideEvent>, lv: bool, rv: bool, x: int): bool {
    Calc(o, SideAt(events, true, lv, x), SideAt(events, false, rv, x))
  }

  ghost predicate SortedByTime(events: seq<SideEvent>) {
    forall a, b :: 0 <= a < b < |events| ==> events[a].time <= events[b].time
  }

  /** The time of the last handled event, 0 before the first. */
  function LastTime(events: seq<SideEvent>, i: nat): Time
    requires i <= |events|
  {
    if i == 0 then 0 else events[i - 1].time
  }

  /** After `events[.. i]`, the group of events at the last time has been settled: the result was
      recomputed there (as the sweep does when the next event is at another time). */
  predicate Settled(events: seq<SideEvent>, i: nat)
    requires i <= |events|
  {
    i == 0 || NextTime(events, i - 1) != events[i - 1].time
  }

  /** The sweep after `events[.. i]`: the side values are those at the last time, the result value
      is the operator's value there (just before it, while that time's group is unsettled), and the
      instances so far cover exactly the earlier times at which the operator holds. */
  ghost predicate CoverInv(o: Operator, events: seq<SideEvent>, lv: bool, rv: bool, i: nat, st: BoolState)
    requires i <= |events|
  {
    var t := LastTime(events, i);
    BoolInv(st, t) &&
    st.leftValue == SideAt(events[..i], true, lv, t) && st.rightValue == SideAt(events[..i], false, rv, t) &&
    st.resultValue == ValueAt(o, events[..i], lv, rv, if Settled(events, i) then t else t - 1) &&
    forall x: Time :: x < t ==> (Covers(st.instances, x) <==> ValueAt(o, events[..i], lv, rv, x))
  }

  /** A new last event only matters from its own time on. */
  lemma SideAtSnoc(s: seq<SideEvent>, e: SideEvent, isLeft: bool, init: bool, x: int)
    ensures SideAt(s + [e], isLeft, init, x) == if e.isLeft == isLeft && e.time <= x then e.isStart else SideAt(s, isLeft, init, x)
  {
    assert (s + [e])[..|s|] == s;
  }

  /** After the last event, a side's value no longer changes. */
  lemma {:induction false} SideAtSettled(s: seq<SideEvent>, isLeft: bool, init: bool, t: int, y: int)
    requires forall k :: 0 <= k < |s| ==> s[k].time <= t
    requires t <= y
    ensures SideAt(s, isLeft, init, y) == SideAt(s, isLeft, init, t)
    decreases |s|
  {
    if |s| > 0 {
      var init' := s[..|s| - 1];
      assert forall k :: 0 <= k < |init'| ==> init'[k] == s[k];
      SideAtSettled(init', isLeft, init, t, y);
    }
  }

  /** The operator's value after the last event is its value at that event. */
  lemma ValueAtSettled(o: Operator, s: seq<SideEvent>, lv: bool, rv: bool, t: int)
    requires forall k :: 0 <= k < |s| ==> s[k].time <= t
    ensures forall y: int :: t <= y ==> ValueAt(o, s, lv, rv, y) == ValueAt(o, s, lv, rv, t)
  {
    forall y: int | t <= y ensures ValueAt(o, s, lv, rv, y) == ValueAt(o, s, lv, rv, t) {
      SideAtSettled(s, true, lv, t, y);
      SideAtSettled(s, false, rv, t, y);
    }
  }

  /** Before a new last event's time, the operator's value is unchanged by it. */
  lemma ValueAtSnoc(o: Operator, s: seq<SideEvent>, e: SideEvent, lv: bool, rv: bool)
    ensures forall x: int :: x < e.time ==> ValueAt(o, s + [e], lv, rv, x) == ValueAt(o, s, lv, rv, x)
  {
    forall x: int | x < e.time ensures ValueAt(o, s + [e], lv, rv, x) == ValueAt(o, s, lv, rv, x) {
      SideAtSnoc(s, e, true, lv, x);
      SideAtSnoc(s, e, false, rv, x);
    }
  }

  /** From the last bound on, chained instances cover a time exactly when the last one is open. */
  lemma CoversAfter(r: seq<TimelineInstance>, t: Time, x: Time)
    requires Chained(r) && NotAfter(r, t) && t <= x
    ensures Covers(r, x) <==> |r| > 0 && r[|r| - 1].end.None?
  {
    if Covers(r, x) {
      var k :| 0 <= k < |r| && Contains(r[k], x);
      if k < |r| - 1 {
        assert r[k].end.Some? && r[k].end.value <= t;
      }
    }
    if |r| > 0 && r[|r| - 1].end.None? {
      assert Contains(r[|r| - 1], x);
    }
  }

  lemma CoversAppend(r: seq<TimelineInstance>, n: TimelineInstance, x: Time)
    requires x < n.start
    ensures Covers(r + [n], x) <==> Covers(r, x)
  {
    if Covers(r + [n], x) {
      var k :| 0 <= k < |r + [n]| && Contains((r + [n])[k], x);
      assert k < |r| && r[k] == (r + [n])[k];
    }
    if Covers(r, x) {
      var k :| 0 <= k < |r| && Contains(r[k], x);
      assert (r + [n])[k] == r[k];
    }
  }

  lemma CoversCloseLast(r: seq<TimelineInstance>, t: Time, x: Time)
    requires |r| > 0 && r[|r| - 1].end.None? && x < t
    ensures Covers(CloseLast(r, t), x) <==> Covers(r, x)
  {
    var c := CloseLast(r, t);
    assert forall k :: 0 <= k < |r| ==> (Contains(c[k], x) <==> Contains(r[k], x));
  }

  /** One step of the sweep leaves the coverage before the event's time as it was. */
  lemma StepKeepsPast(o: Operator, st: BoolState, e: SideEvent, nextTime: Time, t: Time, x: Time)
    requires BoolInv(st, t) && t <= e.time && x < e.time
    ensures Covers(BoolStep(o, st, e, nextTime).instances, x) <==> Covers(st.instances, x)
  {
    var st1 := if e.isLeft then st.(leftValue := e.isStart, left := Some(e.instance))
               else st.(rightValue := e.isStart, right := Some(e.instance));
    if nextTime != e.time {
      var v := Calc(o, st1.leftValue, st1.rightValue);
      if v != st1.resultValue {
        if v {
          CoversAppend(st.instances, NewInstance(GenerateId(st1.counter), e.time, None, RefsOf(st1.left) + RefsOf(st1.right),
                                                 MergeCaps(CapsOf(st1.left), CapsOf(st1.right))), x);
        } else {
          CoversCloseLast(st.instances, e.time, x);
        }
      }
    }
  }

  /** What a step does to the values: the event's side takes the event's kind, and the result is
      recomputed when the next event is at another time and kept otherwise. */
  lemma BoolStepShape(o: Operator, st: BoolState, e: SideEvent, nextTime: Time)
    ensures var r := BoolStep(o, st, e, nextTime);
            r.leftValue == (if e.isLeft then e.isStart else st.leftValue) &&
            r.rightValue == (if e.isLeft then st.rightValue else e.isStart) &&
            r.resultValue == (if nextTime != e.time then Calc(o, r.leftValue, r.rightValue) else st.resultValue)
  {
  }

  /** The side values after an event are those at its time. */
  lemma StepSides(pre: seq<SideEvent>, e: SideEvent, t: Time, lv: bool, rv: bool, l: bool, r: bool, l': bool, r': bool)
    requires forall k :: 0 <= k < |pre| ==> pre[k].time <= t
    requires t <= e.time
    requires l == SideAt(pre, true, lv, t) && r == SideAt(pre, false, rv, t)
    requires l' == (if e.isLeft then e.isStart else l) && r' == (if e.isLeft then r else e.isStart)
    ensures l' == SideAt(pre + [e], true, lv, e.time) && r' == SideAt(pre + [e], false, rv, e.time)
  {
    SideAtSnoc(pre, e, true, lv, e.time);
    SideAtSnoc(pre, e, false, rv, e.time);
    SideAtSettled(pre, true, lv, t, e.time);
    SideAtSettled(pre, false, rv, t, e.time);
  }

  /** The result value after an event: the operator's value at its time once the group there is
      settled, and its value just before that time while it is not. */
  lemma StepResult(o: Operator, pre: seq<SideEvent>, e: SideEvent, t: Time, lv: bool, rv: bool,
                   settledBefore: bool, settledAfter: bool, res: bool, res': bool, l': bool, r': bool)
    requires forall k :: 0 <= k < |pre| ==> pre[k].time <= t
    requires t <= e.time
    requires res == ValueAt(o, pre, lv, rv, if settledBefore then t else t - 1)
    requires settledBefore ==> t < e.time || |pre| == 0
    requires !settledBefore ==> t == e.time
    requires l' == SideAt(pre + [e], true, lv, e.time) && r' == SideAt(pre + [e], false, rv, e.time)
    requires res' == if settledAfter then Calc(o, l', r') else res
    ensures res' == ValueAt(o, pre + [e], lv, rv, if settledAfter then e.time else e.time - 1)
  {
    if !settledAfter {
      ValueAtSnoc(o, pre, e, lv, rv);
      if settledBefore && t < e.time {
        ValueAtSettled(o, pre, lv, rv, t);
      }
    }
  }

  /** The coverage before an event's time after the event: the earlier times as they were, and
      from the last time on the result value, which held there. */
  lemma StepPast(o: Operator, pre: seq<SideEvent>, e: SideEvent, t: Time, lv: bool, rv: bool, settledBefore: bool,
                 st: BoolState, st': BoolState)
    requires forall k :: 0 <= k < |pre| ==> pre[k].time <= t
    requires t <= e.time && BoolInv(st, t)
    requires st.resultValue == ValueAt(o, pre, lv, rv, if settledBefore then t else t - 1)
    requires !settledBefore ==> t == e.time
    requires forall x: Time :: x < t ==> (Covers(st.instances, x) <==> ValueAt(o, pre, lv, rv, x))
    requires forall x: Time :: x < e.time ==> (Covers(st'.instances, x) <==> Covers(st.instances, x))
    ensures forall x: Time :: x < e.time ==> (Covers(st'.instances, x) <==> ValueAt(o, pre + [e], lv, rv, x))
  {
    ValueAtSnoc(o, pre, e, lv, rv);
    forall x: Time | t <= x < e.time ensures Covers(st.instances, x) <==> ValueAt(o, pre, lv, rv, x) {
      CoversAfter(st.instances, t, x);
      ValueAtSettled(o, pre, lv, rv, t);
    }
  }

  lemma StepKeepsPastAll(o: Operator, st: BoolState, e: SideEvent, nextTime: Time, t: Time)
    requires BoolInv(st, t) && t <= e.time
    ensures forall x: Time :: x < e.time ==> (Covers(BoolStep(o, st, e, nextTime).instances, x) <==> Covers(st.instances, x))
  {
    forall x: Time | x < e.time ensures Covers(BoolStep(o, st, e, nextTime).instances, x) <==> Covers(st.instances, x) {
      StepKeepsPast(o, st, e, nextTime, t, x);
    }
  }

  /** The coverage invariant from its parts, for a given prefix of the events. */
  lemma CoverInvIntro(o: Operator, events: seq<SideEvent>, lv: bool, rv: bool, i: nat, st: BoolState, pre: seq<SideEvent>)
    requires i <= |events| && pre == events[..i]
    requires BoolInv(st, LastTime(events, i))
    requires st.leftValue == SideAt(pre, true, lv, LastTime(events, i)) && st.rightValue == SideAt(pre, false, rv, LastTime(events, i))
    requires st.resultValue == ValueAt(o, pre, lv, rv, if Settled(events, i) then LastTime(events, i) else LastTime(events, i) - 1)
    requires forall x: Time :: x < LastTime(events, i) ==> (Covers(st.instances, x) <==> ValueAt(o, pre, lv, rv, x))
    ensures CoverInv(o, events, lv, rv, i, st)
  {
  }

  /** The order facts a step relies on: the handled events are not after the last time, the next
      event is not before it, and the last time's group is unsettled only when the next event
      shares its time. */
  lemma StepTimes(events: seq<SideEvent>, i: nat)
    requires i < |events| && SortedByTime(events)
    ensures events[..i + 1] == events[..i] + [events[i]]
    ensures forall k :: 0 <= k < |events[..i]| ==> events[..i][k].time <= LastTime(events, i)
    ensures LastTime(events, i) <= events[i].time && LastTime(events, i + 1) == events[i].time
    ensures Settled(events, i) ==> LastTime(events, i) < events[i].time || i == 0
    ensures !Settled(events, i) ==> LastTime(events, i) == events[i].time
    ensures Settled(events, i + 1) <==> NextTime(events, i) != events[i].time
  {
  }

  /** One step on explicit parts: from the values and coverage after `pre` at time `t`, the step
      for `e` gives those after `pre + [e]` at `e`'s time. */
  lemma StepParts(o: Operator, pre: seq<SideEvent>, e: SideEvent, t: Time, lv: bool, rv: bool,
                  before: bool, after: bool, st: BoolState, st': BoolState)
    requires forall k :: 0 <= k < |pre| ==> pre[k].time <= t
    requires t <= e.time && BoolInv(st, t)
    requires before ==> t < e.time || |pre| == 0
    requires !before ==> t == e.time
    requires st.leftValue == SideAt(pre, true, lv, t) && st.rightValue == SideAt(pre, false, rv, t)
    requires st.resultValue == ValueAt(o, pre, lv, rv, if before then t else t - 1)
    requires forall x: Time :: x < t ==> (Covers(st.instances, x) <==> ValueAt(o, pre, lv, rv, x))
    requires st'.leftValue == (if e.isLeft then e.isStart else st.leftValue)
    requires st'.rightValue == (if e.isLeft then st.rightValue else e.isStart)
    requires st'.resultValue == (if after then Calc(o, st'.leftValue, st'.rightValue) else st.resultValue)
    requires forall x: Time :: x < e.time ==> (Covers(st'.instances, x) <==> Covers(st.instances, x))
    ensures st'.leftValue == SideAt(pre + [e], true, lv, e.time) && st'.rightValue == SideAt(pre + [e], false, rv, e.time)
    ensures st'.resultValue == ValueAt(o, pre + [e], lv, rv, if after then e.time else e.time - 1)
    ensures forall x: Time :: x < e.time ==> (Covers(st'.instances, x) <==> ValueAt(o, pre + [e], lv, rv, x))
  {
    StepSides(pre, e, t, lv, rv, st.leftValue, st.rightValue, st'.leftValue, st'.rightValue);
    StepResult(o, pre, e, t, lv, rv, before, after, st.resultValue, st'.resultValue, st'.leftValue, st'.rightValue);
    StepPast(o, pre, e, t, lv, rv, before, st, st');
  }

  /** A step's successor state, described by what the step does rather than how. */
  ghost predicate StepsTo(o: Operator, st: BoolState, e: SideEvent, nextTime: Time, st': BoolState) {
    st'.leftValue == (if e.isLeft then e.isStart else st.leftValue) &&
    st'.rightValue == (if e.isLeft then st.rightValue else e.isStart) &&
    st'.resultValue == (if nextTime != e.time then Calc(o, st'.leftValue, st'.rightValue) else st.resultValue) &&
    forall x: Time :: x < e.time ==> (Covers(st'.instances, x) <==> Covers(st.instances, x))
  }

  lemma BoolStepStepsTo(o: Operator, st: BoolState, e: SideEvent, nextTime: Time, t: Time)
    requires BoolInv(st, t) && t <= e.time
    ensures BoolInv(BoolStep(o, st, e, nextTime), e.time)
    ensures StepsTo(o, st, e, nextTime, BoolStep(o, st, e, nextTime))
  {
    BoolStepInv(o, st, e, nextTime, t);
    BoolStepShape(o, st, e, nextTime);
    StepKeepsPastAll(o, st, e, nextTime, t);
  }

  /** The coverage invariant carries over to any state a step leads to. */
  lemma CoverStepTo(o: Operator, events: seq<SideEvent>, lv: bool, rv: bool, i: nat, st: BoolState, st': BoolState)
    requires i < |events| && SortedByTime(events) && CoverInv(o, events, lv, rv, i, st)
    requires BoolInv(st', events[i].time) && StepsTo(o, st, events[i], NextTime(events, i), st')
    ensures CoverInv(o, events, lv, rv, i + 1, st')
  {
    StepTimes(events, i);
    StepParts(o, events[..i], events[i], LastTime(events, i), lv, rv, Settled(events, i), Settled(events, i + 1), st, st');
    CoverInvIntro(o, events, lv, rv, i + 1, st', events[..i] + [events[i]]);
  }

  /** Each step keeps the coverage invariant. */
  lemma CoverStep(o: Operator, events: seq<SideEvent>, lv: bool, rv: bool, i: nat, st: BoolState)
    requires i < |events| && SortedByTime(events) && CoverInv(o, events, lv, rv, i, st)
    ensures CoverInv(o, events, lv, rv, i + 1, BoolStep(o, st, events[i], NextTime(events, i)))
  {
    StepTimes(events, i);
    BoolStepStepsTo(o, st, events[i], NextTime(events, i), LastTime(events, i));
    CoverStepTo(o, events, lv, rv, i, st, BoolStep(o, st, events[i], NextTime(events, i)));
  }

  lemma {:induction false} CoverSweep(o: Operator, events: seq<SideEvent>, lv: bool, rv: bool, i: nat, st: BoolState)
    requires i <= |events| && SortedByTime(events) && CoverInv(o, events, lv, rv, i, st)
    ensures CoverInv(o, events, lv, rv, |events|, BoolSweep(o, events, i, st))
    decreases |events| - i
  {
    if i < |events| {
      CoverStep(o, events, lv, rv, i, st);
      CoverSweep(o, events, lv, rv, i + 1, BoolStep(o, st, events[i], NextTime(events, i)));
    }
  }

  /** Once every event is handled, the instances cover exactly the times (below `Time::MAX`) at
      which the operator holds: the last time's group is settled, and from there on nothing changes. */
  lemma CoverFinal(o: Operator, events: seq<SideEvent>, lv: bool, rv: bool, st: BoolState)
    requires SortedByTime(events) && CoverInv(o, events, lv, rv, |events|, st)
    ensures forall x: Time :: x < TIME_MAX ==> (Covers(st.instances, x) <==> ValueAt(o, events, lv, rv, x))
  {
    var t := LastTime(events, |events|);
    assert events[..|events|] == events;
    assert forall k :: 0 <= k < |events| ==> events[k].time <= t;
    assert t < TIME_MAX ==> Settled(events, |events|);
    ValueAtSettled(o, events, lv, rv, t);
    forall x: Time | t <= x < TIME_MAX ensures Covers(st.instances, x) <==> ValueAt(o, events, lv, rv, x) {
      CoversAfter(st.instances, t, x);
    }
  }

  /** The whole sweep, from the constants' state, covers exactly the times (below `Time::MAX`) at
      which the operator holds. */
  lemma SweepCovers(o: Operator, events: seq<SideEvent>, lv: bool, rv: bool, st0: BoolState)
    requires SortedByTime(events)
    requires BoolInv(st0, 0) && st0.leftValue == lv && st0.rightValue == rv && st0.resultValue == Calc(o, lv, rv)
    ensures forall x: Time :: x < TIME_MAX ==> (Covers(BoolSweep(o, events, 0, st0).instances, x) <==> ValueAt(o, events, lv, rv, x))
  {
    assert events[..0] == [];
    CoverSweep(o, events, lv, rv, 0, st0);
    CoverFinal(o, events, lv, rv, BoolSweep(o, events, 0, st0));
  }

  /** The `&` / `|` lookup covers exactly the times (below `Time::MAX`) at which the operator holds
      of the two sides, each side's value at a time being the kind of its last event at or before
      it in the sorted side events, or its constant (a time operand other than 0 is true) before
      any; in particular the result starts at 0 when the constants already make it true. */
  lemma BooleanLookupCovers(o: Operator, l: LookupResult, r: LookupResult, counter: nat)
    ensures var events := SortedSides(l.value, r.value);
            forall x: Time :: x < TIME_MAX ==>
              (Covers(BooleanLookup(o, l, r, counter).value, x) <==> ValueAt(o, events, Constant(l.value), Constant(r.value), x))
  {
    var events := SortedSides(l.value, r.value);
    var st0 := StartState(o, Constant(l.value), Constant(r.value), l.allReferences + r.allReferences, counter);
    SweepCovers(o, events, Constant(l.value), Constant(r.value), st0);
  }
}

=== FILE: caps.dfy ===
/** `Cap` and `CapsBuilder` (supertimeline/src/caps.rs). The crate keys caps by parent id in a
    `HashMap`, so a later cap with the same id replaces an earlier one and `done` lists one cap
    per id in an unspecified order. The model keeps the caps in a sequence with distinct ids, in
    first-insertion order (one of the orders the map may produce). */
module Caps {
  import opened Base

  /** The interval of a parent that an instance must stay inside. */
  datatype Cap = Cap(id: string, start: Time, end: Option<Time>)

  datatype CapsBuilder = CapsBuilder(value: seq<Cap>)

  predicate DistinctIds(caps: seq<Cap>) {
    forall i, j :: 0 <= i < j < |caps| ==> caps[i].id != caps[j].id
  }

  function Ids(caps: seq<Cap>): set<string> {
    set c | c in caps :: c.id
  }

  /** The cap stored under `id`, if any (a map lookup). */
  function Find(caps: seq<Cap>, id: string): Option<Cap> {
    if |caps| == 0 then None
    else if caps[0].id == id then Some(caps[0])
    else Find(caps[1..], id)
  }

  /** Reference definition: the last cap with `id` in `caps`, the one a sequence of map
      insertions leaves behind. */
  function Latest(caps: seq<Cap>, id: string): Option<Cap> {
    if |caps| == 0 then None
    else
      var rest := Latest(caps[1..], id);
      if rest.Some? then rest
      else if caps[0].id == id then Some(caps[0])
      else None
  }

  /** `HashMap::insert(cap.id, cap)`: replaces the cap with the same id, or adds it. */
  function Insert(caps: seq<Cap>, c: Cap): seq<Cap> {
    if |caps| == 0 then [c]
    else if caps[0].id == c.id then [c] + caps[1..]
    else [caps[0]] + Insert(caps[1..], c)
  }

  function New(): CapsBuilder {
    CapsBuilder([])
  }

  function AddAll(caps: seq<Cap>, others: seq<Cap>): seq<Cap>
    decreases |others|
  {
    if |others| == 0 then caps else AddAll(Insert(caps, others[0]), others[1..])
  }

  function Add(b: CapsBuilder, others: seq<Cap>): CapsBuilder {
    CapsBuilder(AddAll(b.value, others))
  }

  function AddSome(b: CapsBuilder, others: Option<seq<Cap>>): CapsBuilder {
    match others
    case Some(o) => Add(b, o)
    case None => b
  }

  function Done(b: CapsBuilder): seq<Cap> {
    b.value
  }

  lemma {:induction false} FindIn(caps: seq<Cap>, id: string)
    ensures Find(caps, id).Some? <==> id in Ids(caps)
    ensures Find(caps, id).Some? ==> Find(caps, id).value in caps && Find(caps, id).value.id == id
  {
    if |caps| > 0 {
      FindIn(caps[1..], id);
      assert caps == [caps[0]] + caps[1..];
      assert Ids(caps) == {caps[0].id} + Ids(caps[1..]);
    }
  }

  lemma {:induction false} InsertIds(caps: seq<Cap>, c: Cap)
    ensures Ids(Insert(caps, c)) == Ids(caps) + {c.id}
  {
    if |caps| > 0 {
      assert caps == [caps[0]] + caps[1..];
      assert Ids(caps) == {caps[0].id} + Ids(caps[1..]);
      if caps[0].id == c.id {
        assert Ids(Insert(caps, c)) == {c.id} + Ids(caps[1..]);
      } else {
        InsertIds(caps[1..], c);
        assert Ids(Insert(caps, c)) == {caps[0].id} + Ids(Insert(caps[1..], c));
      }
    }
  }

  lemma {:induction false} InsertFind(caps: seq<Cap>, c: Cap, id: string)
    ensures Find(Insert(caps, c), id) == if id == c.id then Some(c) else Find(caps, id)
  {
    if |caps| > 0 && caps[0].id != c.id {
      InsertFind(caps[1..], c, id);
      assert Insert(caps, c)[1..] == Insert(caps[1..], c);
    } else if |caps| > 0 {
      assert Insert(caps, c)[1..] == caps[1..];
    }
  }

  lemma {:induction false} InsertDistinct(caps: seq<Cap>, c: Cap)
    requires DistinctIds(caps)
    ensures DistinctIds(Insert(caps, c))
  {
    if |caps| > 0 && caps[0].id != c.id {
      var rest := caps[1..];
      var tail := Insert(rest, c);
      InsertDistinct(rest, c);
      InsertIds(rest, c);
      forall k | 0 <= k < |rest|
        ensures rest[k].id != caps[0].id
      {
        assert rest[k] == caps[k + 1];
      }
      assert caps[0].id !in Ids(rest);
      assert caps[0].id !in Ids(tail);
      var r := Insert(caps, c);
      assert r == [caps[0]] + tail;
      forall i, j | 0 <= i < j < |r|
        ensures r[i].id != r[j].id
      {
        assert r[j] == tail[j - 1];
        if i == 0 {
          assert tail[j - 1] in tail;
        } else {
          assert r[i] == tail[i - 1];
        }
      }
    } else if |caps| > 0 {
      var r := Insert(caps, c);
      forall i, j | 0 <= i < j < |r|
        ensures r[i].id != r[j].id
      {
        assert r[j] == caps[j];
        if i > 0 {
          assert r[i] == caps[i];
        }
      }
    }
  }

  /** `CapsBuilder::add` keeps one cap per parent id, and the ids it holds afterwards are the
      old ones and those of `others`. */
  lemma {:induction false} AddIds(caps: seq<Cap>, others: seq<Cap>)
    requires DistinctIds(caps)
    ensures DistinctIds(AddAll(caps, others))
    ensures Ids(AddAll(caps, others)) == Ids(caps) + Ids(others)
    decreases |others|
  {
    if |others| > 0 {
      var next := Insert(caps, others[0]);
      InsertIds(caps, others[0]);
      InsertDistinct(caps, others[0]);
      AddIds(next, others[1..]);
      IdsCons(others);
    }
  }

  lemma IdsCons(caps: seq<Cap>)
    requires |caps| > 0
    ensures Ids(caps) == {caps[0].id} + Ids(caps[1..])
  {
    assert caps == [caps[0]] + caps[1..];
  }

  /** After `CapsBuilder::add`, an id finds the last cap of `others` with that id, or what it
      found before when `others` has none. */
  lemma {:induction false} AddFind(caps: seq<Cap>, others: seq<Cap>, id: string)
    ensures Find(AddAll(caps, others), id) ==
            if Latest(others, id).Some? then Latest(others, id) else Find(caps, id)
    decreases |others|
  {
    if |others| > 0 {
      var next := Insert(caps, others[0]);
      InsertFind(caps, others[0], id);
      AddFind(next, others[1..], id);
    }
  }

  /** `CapsBuilder::add` keeps one cap per parent id: for every id, the builder afterwards holds
      the last cap of `others` with that id, or what it held before when `others` has none. */
  lemma AddSpec(caps: seq<Cap>, others: seq<Cap>)
    requires DistinctIds(caps)
    ensures DistinctIds(AddAll(caps, others))
    ensures Ids(AddAll(caps, others)) == Ids(caps) + Ids(others)
    ensures forall id :: Find(AddAll(caps, others), id) ==
                         if Latest(others, id).Some? then Latest(others, id) else Find(caps, id)
  {
    AddIds(caps, others);
    forall id
      ensures Find(AddAll(caps, others), id) ==
              if Latest(others, id).Some? then Latest(others, id) else Find(caps, id)
    {
      AddFind(caps, others, id);
    }
  }

  /** `add_some(None)` leaves the builder unchanged; `add_some(Some(o))` is `add(o)`, so it
      yields the caps of both with the added ones replacing those of the same id. */
  lemma AddSomeCases(b: CapsBuilder, others: Option<seq<Cap>>, id: string)
    requires DistinctIds(Done(b))
    ensures others.None? ==> AddSome(b, others) == b
    ensures others.Some? ==> DistinctIds(Done(AddSome(b, others))) &&
                             Ids(Done(AddSome(b, others))) == Ids(Done(b)) + Ids(others.value) &&
                             Find(Done(AddSome(b, others)), id) == (if Latest(others.value, id).Some? then Latest(others.value, id) else Find(Done(b), id))
  {
    if others.Some? {
      AddSpec(b.value, others.value);
    }
  }

  /** The caps `done` returns are exactly the builder's distinct-id entries: each id it lists
      appears once, and a lookup by id finds the last cap added for it. */
  lemma BuilderSpec(others: seq<Cap>, id: string)
    ensures DistinctIds(Done(Add(New(), others)))
    ensures Find(Done(Add(New(), others)), id) == Latest(others, id)
  {
    AddSpec([], others);
  }
}

=== FILE: events.dfy ===
/** Start/end events and the sweep that turns them into instances (supertimeline/src/events.rs). */
module Events {
  import opened Base
  import opened InstanceTypes
  import opened Sorting
  import Caps

  /** `EventForInstance`: one bound of one instance. */
  datatype EventForInstance = EventForInstance(time: Time, isStart: bool, references: set<string>, caps: seq<Caps.Cap>, id: string)

  /** The comparator of `VecIsEventExt::sort`, on the three things it reads (`IsEvent`): time
      first; at equal times an end goes before a start, except that one id's start goes before
      that same id's end. */
  function CompareEvents(aTime: Time, aStart: bool, aId: string, bTime: Time, bStart: bool, bId: string): Ordering {
    if aTime > bTime then Greater
    else if aTime < bTime then Less
    else if aId == bId then
      if aStart && !bStart then Less
      else if !aStart && bStart then Greater
      else Equal
    else
      if aStart && !bStart then Greater
      else if !aStart && bStart then Less
      else Equal
  }

  function EventOrder(a: EventForInstance, b: EventForInstance): Ordering {
    CompareEvents(a.time, a.isStart, a.id, b.time, b.isStart, b.id)
  }

  /** The three rules of the event order, and that swapping the operands swaps the answer. */
  lemma CompareEventsSpec(aTime: Time, aStart: bool, aId: string, bTime: Time, bStart: bool, bId: string)
    ensures aTime < bTime ==> CompareEvents(aTime, aStart, aId, bTime, bStart, bId) == Less
    ensures aTime == bTime && aId != bId && !aStart && bStart ==>
              CompareEvents(aTime, aStart, aId, bTime, bStart, bId) == Less
    ensures aTime == bTime && aId == bId && aStart && !bStart ==>
              CompareEvents(aTime, aStart, aId, bTime, bStart, bId) == Less
    ensures aTime == bTime && aStart == bStart ==> CompareEvents(aTime, aStart, aId, bTime, bStart, bId) == Equal
    ensures CompareEvents(aTime, aStart, aId, bTime, bStart, bId) == Less <==>
              CompareEvents(bTime, bStart, bId, aTime, aStart, aId) == Greater
  {
  }

  /** The event order is not transitive: a zero-length instance `x` and a start of `y`, all at
      one time, give `x.start < x.end < y.start` while `x.start` and `y.start` compare equal. */
  lemma EventOrderNotTransitive(t: Time)
    ensures CompareEvents(t, true, "x", t, false, "x") == Less
    ensures CompareEvents(t, false, "x", t, true, "y") == Less
    ensures CompareEvents(t, true, "x", t, true, "y") == Equal
  {
  }

  lemma EventOrderAntisymmetric()
    ensures Antisymmetric(EventOrder)
  {
    forall a: EventForInstance, b: EventForInstance
      ensures EventOrder(a, b) == Less ==> EventOrder(b, a) != Less
    {
      CompareEventsSpec(a.time, a.isStart, a.id, b.time, b.isStart, b.id);
    }
  }

  /** `VecIsEventExt::sort`. */
  function SortEvents(events: seq<EventForInstance>): seq<EventForInstance> {
    InsertionSort(events, EventOrder)
  }

  ghost predicate TimeSorted(events: seq<EventForInstance>) {
    forall i, j :: 0 <= i <= j < |events| ==> events[i].time <= events[j].time
  }

  /** Sorting keeps the events, orders them by time, leaves no neighbour pair out of order, and
      sorting again changes nothing. */
  lemma SortEventsSpec(events: seq<EventForInstance>)
    ensures multiset(SortEvents(events)) == multiset(events)
    ensures TimeSorted(SortEvents(events))
    ensures NoAdjacentInversion(SortEvents(events), EventOrder)
    ensures SortEvents(SortEvents(events)) == SortEvents(events)
  {
    EventOrderAntisymmetric();
    SortedHasNoInversion(events, EventOrder);
    var key := (e: EventForInstance) => e.time as int;
    forall a: EventForInstance, b: EventForInstance | key(a) < key(b) ensures EventOrder(a, b) == Less {
    }
    SortedByKey(SortEvents(events), EventOrder, key);
    SortIdempotent(events, EventOrder);
  }

  // ---------------------------------------------------------------------------------------------
  // The map of started events (`active_instances`), keyed by event id, kept in insertion order.

  function Keys(active: seq<EventForInstance>): set<string> {
    set e | e in active :: e.id
  }

  /** `HashMap::insert(event.id, event)`. */
  function Put(active: seq<EventForInstance>, e: EventForInstance): (r: seq<EventForInstance>)
    ensures Keys(r) == Keys(active) + {e.id}
    ensures forall a :: a in r ==> a in active || a == e
  {
    if |active| == 0 then [e]
    else
      KeysCons(active[0], active[1..]);
      if active[0].id == e.id then
        KeysCons(e, active[1..]);
        [e] + active[1..]
      else
        KeysCons(active[0], Put(active[1..], e));
        [active[0]] + Put(active[1..], e)
  }

  /** `HashMap::remove(id)`. */
  function Remove(active: seq<EventForInstance>, id: string): (r: seq<EventForInstance>)
    ensures Keys(r) == Keys(active) - {id}
    ensures forall a :: a in r ==> a in active
  {
    if |active| == 0 then []
    else
      KeysCons(active[0], active[1..]);
      if active[0].id == id then Remove(active[1..], id)
      else
        KeysCons(active[0], Remove(active[1..], id));
        [active[0]] + Remove(active[1..], id)
  }

  lemma KeysCons(a: EventForInstance, rest: seq<EventForInstance>)
    ensures Keys([a] + rest) == {a.id} + Keys(rest)
  {
    assert forall x :: x in [a] + rest <==> x == a || x in rest;
  }

  /** `iter().reduce(|a, b| if a.time < b.time { b } else { a })` from `acc` on: the first event
      with the greatest time. */
  function LatestFrom(acc: EventForInstance, rest: seq<EventForInstance>): (r: EventForInstance)
    ensures r == acc || r in rest
    ensures r.time >= acc.time
    ensures forall e :: e in rest ==> r.time >= e.time
    decreases |rest|
  {
    if |rest| == 0 then acc
    else
      assert rest == [rest[0]] + rest[1..];
      LatestFrom(if acc.time < rest[0].time then rest[0] else acc, rest[1..])
  }

  /** The most recently started of the active events. */
  function LatestStarted(active: seq<EventForInstance>): (r: EventForInstance)
    requires |active| > 0
    ensures r in active
    ensures forall e :: e in active ==> r.time >= e.time
  {
    assert active == [active[0]] + active[1..];
    LatestFrom(active[0], active[1..])
  }

  // ---------------------------------------------------------------------------------------------
  // The sweep

  /** The loop state of `into_instances`. */
  datatype SweepState = SweepState(
    result: seq<TimelineInstance>,
    active: seq<EventForInstance>,
    activeInstanceId: Option<string>,
    previousActive: bool,
    counter: nat)

  /** Sets the end of the last instance. */
  function CloseLast(r: seq<TimelineInstance>, t: Time): seq<TimelineInstance>
    requires |r| > 0
  {
    r[..|r| - 1] + [r[|r| - 1].(end := Some(t))]
  }

  /** Joins an event into the running instance: `add_caps_to_resuming` and the union of the
      references. */
  function Absorb(i: TimelineInstance, e: EventForInstance): TimelineInstance {
    AddCapsToResuming(i, e.caps).(references := i.references + e.references)
  }

  /** One iteration of the loop of `into_instances` (supertimeline/src/events.rs:102-234). */
  function Step(st: SweepState, e: EventForInstance, allowMerge: bool, allowZeroGaps: bool): SweepState {
    var active := if e.isStart then Put(st.active, e) else Remove(st.active, e.id);
    var r := st.result;
    if |active| == 0 then
      st.(result := if st.previousActive && |r| > 0 then CloseLast(r, e.time) else r,
          active := active, previousActive := false)
    else if |r| == 0 then
      st.(result := [NewInstance(e.id, e.time, None, e.references, e.caps)],
          active := active, activeInstanceId := Some(e.id), previousActive := true)
    else Continue(st, active, e, allowMerge, allowZeroGaps)
  }

  /** The iteration when some id stays active and an instance exists already: split, merge,
      start a new instance or extend the running one. */
  function Continue(st: SweepState, active: seq<EventForInstance>, e: EventForInstance, allowMerge: bool, allowZeroGaps: bool): SweepState
    requires |st.result| > 0 && |active| > 0
  {
    var r := st.result;
    var last := r[|r| - 1];
    var isActiveId := st.activeInstanceId == Some(e.id);
    var st1 := st.(active := active, previousActive := true);
    if !allowMerge && e.isStart && last.end.None? && !isActiveId then
      st1.(result := CloseLast(r, e.time) + [NewInstance(GenerateId(st.counter), e.time, None, e.references, [])],
           activeInstanceId := Some(e.id), counter := st.counter + 1)
    else if !allowMerge && !e.isStart && isActiveId then
      var latest := LatestStarted(active);
      st1.(result := CloseLast(r, e.time) +
                     [NewInstance(e.id + "_" + GenerateId(st.counter), e.time, None, latest.references, [])],
           activeInstanceId := Some(latest.id), counter := st.counter + 1)
    else if allowMerge && !allowZeroGaps && EndOf(last) == e.time then
      st1.(result := r[..|r| - 1] + [Absorb(last.(end := None), e)])
    else if last.end.Some? then
      st1.(result := r + [NewInstance(e.id, e.time, None, e.references, e.caps)], activeInstanceId := Some(e.id))
    else
      st1.(result := r[..|r| - 1] + [Absorb(last, e)])
  }

  function Run(st: SweepState, events: seq<EventForInstance>, allowMerge: bool, allowZeroGaps: bool): SweepState
    decreases |events|
  {
    if |events| == 0 then st else Run(Step(st, events[0], allowMerge, allowZeroGaps), events[1..], allowMerge, allowZeroGaps)
  }

  // ---------------------------------------------------------------------------------------------
  // What the sweep keeps true

  /** Instances ordered by start and not overlapping: every instance but the last is bounded and
      ends no later than the next one starts, and no instance ends before it starts. */
  ghost predicate Chained(r: seq<TimelineInstance>) {
    (forall k :: 0 <= k < |r| - 1 ==> r[k].end.Some? && r[k].end.value <= r[k + 1].start) &&
    (forall k :: 0 <= k < |r| ==> r[k].end.Some? ==> r[k].start <= r[k].end.value)
  }

  /** Every bound in `r` is at or before `t`. */
  ghost predicate NotAfter(r: seq<TimelineInstance>, t: Time) {
    forall k :: 0 <= k < |r| ==> r[k].start <= t && (r[k].end.Some? ==> r[k].end.value <= t)
  }

  /** Where the sweep's values come from: every start is an event time and every reference is
      one of the events' references. */
  ghost predicate FromEvents(r: seq<TimelineInstance>, active: seq<EventForInstance>, times: set<Time>, refs: set<string>) {
    (forall k :: 0 <= k < |r| ==> r[k].start in times && r[k].references <= refs) &&
    (forall a :: a in active ==> a.references <= refs)
  }

  /** The loop invariant: `previous_active` says whether some id is active, and it does exactly
      when the last instance is still open. */
  ghost predicate Inv(st: SweepState, t: Time) {
    (st.previousActive <==> Keys(st.active) != {}) &&
    (st.previousActive <==> |st.result| > 0 && st.result[|st.result| - 1].end.None?) &&
    Chained(st.result) &&
    NotAfter(st.result, t)
  }

  lemma KeysEmpty(active: seq<EventForInstance>)
    ensures Keys(active) == {} <==> |active| == 0
  {
    if |active| > 0 {
      assert active[0].id in Keys(active);
    }
  }

  lemma ChainedAppend(r: seq<TimelineInstance>, x: TimelineInstance)
    requires Chained(r)
    requires |r| > 0 ==> r[|r| - 1].end.Some? && r[|r| - 1].end.value <= x.start
    requires x.end.None?
    ensures Chained(r + [x])
  {
    var r' := r + [x];
    forall k | 0 <= k < |r'| - 1 ensures r'[k].end.Some? && r'[k].end.value <= r'[k + 1].start {
      assert r'[k] == r[k];
      if k + 1 < |r| {
        assert r'[k + 1] == r[k + 1];
      }
    }
    forall k | 0 <= k < |r'| ensures r'[k].end.Some? ==> r'[k].start <= r'[k].end.value {
      if k < |r| {
        assert r'[k] == r[k];
      }
    }
  }

  lemma ChainedReplaceLast(r: seq<TimelineInstance>, x: TimelineInstance)
    requires Chained(r) && |r| > 0
    requires x.start == r[|r| - 1].start
    requires x.end.Some? ==> x.start <= x.end.value
    ensures Chained(r[..|r| - 1] + [x])
  {
    var r' := r[..|r| - 1] + [x];
    forall k | 0 <= k < |r'| - 1 ensures r'[k].end.Some? && r'[k].end.value <= r'[k + 1].start {
      assert r'[k] == r[k];
      if k + 1 < |r| - 1 {
        assert r'[k + 1] == r[k + 1];
      }
    }
    forall k | 0 <= k < |r'| ensures r'[k].end.Some? ==> r'[k].start <= r'[k].end.value {
      if k < |r| - 1 {
        assert r'[k] == r[k];
      }
    }
  }

  lemma NotAfterReplaceLast(r: seq<TimelineInstance>, x: TimelineInstance, t: Time, t': Time)
    requires NotAfter(r, t) && |r| > 0 && t <= t'
    requires x.start <= t' && (x.end.Some? ==> x.end.value <= t')
    ensures NotAfter(r[..|r| - 1] + [x], t')
    ensures NotAfter(r + [x], t')
  {
    var r' := r[..|r| - 1] + [x];
    forall k | 0 <= k < |r'| ensures r'[k].start <= t' && (r'[k].end.Some? ==> r'[k].end.value <= t') {
      if k < |r| - 1 {
        assert r'[k] == r[k];
      }
    }
    var r2 := r + [x];
    forall k | 0 <= k < |r2| ensures r2[k].start <= t' && (r2[k].end.Some? ==> r2[k].end.value <= t') {
      if k < |r| {
        assert r2[k] == r[k];
      }
    }
  }

  /** Continuing with some id active leaves the instances chained, not after the event, and the
      last one open. */
  lemma ContinueInv(st: SweepState, t: Time, active: seq<EventForInstance>, e: EventForInstance, allowMerge: bool, allowZeroGaps: bool)
    requires |st.result| > 0 && |active| > 0 && Chained(st.result) && NotAfter(st.result, t) && t <= e.time
    requires st.previousActive <==> st.result[|st.result| - 1].end.None?
    ensures var st' := Continue(st, active, e, allowMerge, allowZeroGaps);
            st'.previousActive && st'.active == active &&
            |st'.result| > 0 && st'.result[|st'.result| - 1].end.None? &&
            Chained(st'.result) && NotAfter(st'.result, e.time)
  {
    var r := st.result;
    var st' := Continue(st, active, e, allowMerge, allowZeroGaps);
    var last := r[|r| - 1];
    var isActiveId := st.activeInstanceId == Some(e.id);
    var closed := last.(end := Some(e.time));
    if (!allowMerge && e.isStart && last.end.None? && !isActiveId) || (!allowMerge && !e.isStart && isActiveId) {
      ChainedReplaceLast(r, closed);
      NotAfterReplaceLast(r, closed, t, e.time);
      var c := CloseLast(r, e.time);
      var x := st'.result[|st'.result| - 1];
      assert st'.result == c + [x];
      assert x.start == e.time && x.end.None?;
      ChainedAppend(c, x);
      NotAfterReplaceLast(c, x, e.time, e.time);
    } else if allowMerge && !allowZeroGaps && EndOf(last) == e.time {
      var x := Absorb(last.(end := None), e);
      ChainedReplaceLast(r, x);
      NotAfterReplaceLast(r, x, t, e.time);
    } else if last.end.Some? {
      var x := NewInstance(e.id, e.time, None, e.references, e.caps);
      ChainedAppend(r, x);
      NotAfterReplaceLast(r, x, t, e.time);
    } else {
      var x := Absorb(last, e);
      ChainedReplaceLast(r, x);
      NotAfterReplaceLast(r, x, t, e.time);
    }
  }

  /** One event, no earlier than every bound so far, keeps the invariant. */
  lemma StepInv(st: SweepState, t: Time, e: EventForInstance, allowMerge: bool, allowZeroGaps: bool)
    requires Inv(st, t) && t <= e.time
    ensures Inv(Step(st, e, allowMerge, allowZeroGaps), e.time)
  {
    var active := if e.isStart then Put(st.active, e) else Remove(st.active, e.id);
    KeysEmpty(active);
    KeysEmpty(st.active);
    var r := st.result;
    var st' := Step(st, e, allowMerge, allowZeroGaps);
    if |active| == 0 {
      if st.previousActive && |r| > 0 {
        var x := r[|r| - 1].(end := Some(e.time));
        ChainedReplaceLast(r, x);
        NotAfterReplaceLast(r, x, t, e.time);
        assert st'.result == r[..|r| - 1] + [x];
      } else {
        assert NotAfter(r, e.time);
      }
    } else if |r| == 0 {
      assert st'.result == [] + [NewInstance(e.id, e.time, None, e.references, e.caps)];
      ChainedAppend([], NewInstance(e.id, e.time, None, e.references, e.caps));
    } else {
      ContinueInv(st, t, active, e, allowMerge, allowZeroGaps);
    }
  }

  /** Time-ordered events, none before `t`, keep the invariant to the end. */
  lemma {:induction false} RunInv(st: SweepState, t: Time, events: seq<EventForInstance>, allowMerge: bool, allowZeroGaps: bool)
    requires Inv(st, t)
    requires TimeSorted(events)
    requires forall k :: 0 <= k < |events| ==> t <= events[k].time
    ensures Inv(Run(st, events, allowMerge, allowZeroGaps), if |events| == 0 then t else events[|events| - 1].time)
    decreases |events|
  {
    if |events| > 0 {
      StepInv(st, t, events[0], allowMerge, allowZeroGaps);
      RunInv(Step(st, events[0], allowMerge, allowZeroGaps), events[0].time, events[1..], allowMerge, allowZeroGaps);
    }
  }

  /** The sweep never drops an instance, and a start event always leaves one behind. */
  lemma StepGrows(st: SweepState, e: EventForInstance, allowMerge: bool, allowZeroGaps: bool)
    ensures |Step(st, e, allowMerge, allowZeroGaps).result| >= |st.result|
    ensures e.isStart ==> |Step(st, e, allowMerge, allowZeroGaps).result| > 0
  {
    if e.isStart {
      KeysEmpty(Put(st.active, e));
    }
  }

  lemma {:induction false} RunGrows(st: SweepState, events: seq<EventForInstance>, allowMerge: bool, allowZeroGaps: bool)
    ensures |Run(st, events, allowMerge, allowZeroGaps).result| >= |st.result|
    ensures (exists e :: e in events && e.isStart) ==> |Run(st, events, allowMerge, allowZeroGaps).result| > 0
    ensures Run(st, events, allowMerge, allowZeroGaps).counter >= st.counter
    decreases |events|
  {
    if |events| > 0 {
      StepGrows(st, events[0], allowMerge, allowZeroGaps);
      RunGrows(Step(st, events[0], allowMerge, allowZeroGaps), events[1..], allowMerge, allowZeroGaps);
      if exists e :: e in events && e.isStart {
        var e :| e in events && e.isStart;
        if e != events[0] {
          assert e in events[1..];
        }
      }
    }
  }

  lemma SortKeepsStarts(events: seq<EventForInstance>)
    ensures (exists e :: e in events && e.isStart) ==> (exists e :: e in SortEvents(events) && e.isStart)
  {
    SortEventsSpec(events);
    if exists e :: e in events && e.isStart {
      var e :| e in events && e.isStart;
      assert e in multiset(SortEvents(events));
    }
  }

  /** The initial loop state, with the context's id counter. */
  function Start(counter: nat): SweepState {
    SweepState([], [], None, false, counter)
  }

  /** `EventForInstanceExt::into_instances`: sorts the events, then sweeps them once; the
      result is ordered by start and its instances do not overlap. */
  function IntoInstances(events: seq<EventForInstance>, allowMerge: bool, allowZeroGaps: bool, counter: nat): (r: Counted<seq<TimelineInstance>>)
    ensures Chained(r.value)
    ensures (exists e :: e in events && e.isStart) ==> |r.value| > 0
    ensures r.counter >= counter
  {
    var sorted := SortEvents(events);
    SortEventsSpec(events);
    RunGrows(Start(counter), sorted, allowMerge, allowZeroGaps);
    SortKeepsStarts(events);
    assert Inv(Start(counter), 0);
    RunInv(Start(counter), 0, sorted, allowMerge, allowZeroGaps);
    var st := Run(Start(counter), sorted, allowMerge, allowZeroGaps);
    Counted(st.result, st.counter)
  }
}

=== FILE: expression.dfy ===
/** Parsing, interpretation and constant folding of expressions
    (supertimeline/src/expression.rs: `interpret_phrase`, `interpret_expression_string`,
    `interpret_expression`, `simplify_expression`, `is_constant`). */
module Expression {
  import opened Base
  import opened Ast
  import opened Words

  const I64_MIN: int := -0x8000_0000_0000_0000
  const I64_MAX: int := 0x7FFF_FFFF_FFFF_FFFF

  /** The operators in the order the parser looks for them; the first one present splits the
      phrase. */
  const OPERATORS: seq<string> := ["&", "|", "+", "-", "*", "/", "%", "!"]

  predicate IsDigit(c: char) {
    '0' <= c <= '9'
  }

  predicate AllDigits(d: string) {
    forall i :: 0 <= i < |d| ==> IsDigit(d[i])
  }

  function DigitsValue(d: string): nat
    requires AllDigits(d)
  {
    if |d| == 0 then 0 else DigitsValue(d[..|d| - 1]) * 10 + (d[|d| - 1] as int - '0' as int)
  }

  /** `str::parse::<i64>`: an optional `+` or `-`, then one or more ASCII digits, in range. */
  function ParseI64(w: string): Option<int> {
    if |w| == 0 then None
    else
      var digits := if w[0] == '+' || w[0] == '-' then w[1..] else w;
      if |digits| == 0 || !AllDigits(digits) then None
      else
        var magnitude: int := DigitsValue(digits);
        var v := if w[0] == '-' then -magnitude else magnitude;
        if I64_MIN <= v <= I64_MAX then Some(v) else None
  }

  /** `ensure_number_polarity`: a number preceded by `+` keeps its sign, by `-` is negated, by any
      other operator is rejected. */
  function EnsureNumberPolarity(prevOp: Option<Operator>, v: int): (r: Option<int>)
    ensures prevOp.None? ==> r == Some(v)
    ensures prevOp.Some? ==> (r.Some? <==> prevOp.value in {Add, Subtract})
    ensures r.Some? ==> r.value == v || r.value == -v
  {
    match prevOp
    case None => Some(v)
    case Some(op) =>
      match op
      case Add => Some(v)
      case Subtract => Some(-v)
      case _ => None
  }

  /** The printed form of an operator (`Display for ExpressionOperator`). */
  function OperatorSymbol(o: Operator): string {
    match o
    case And => "&"
    case Or => "|"
    case Add => "+"
    case Subtract => "-"
    case Multiply => "*"
    case Divide => "/"
    case Remainder => "%"
  }

  /** `match_operator`: the operator a word spells, if any; `!` is not a binary operator. */
  function MatchOperator(w: string): (r: Option<Operator>)
    ensures r.Some? ==> OperatorSymbol(r.value) == w
    ensures r.None? ==> forall o: Operator :: OperatorSymbol(o) != w
  {
    if w == "+" then Some(Add)
    else if w == "-" then Some(Subtract)
    else if w == "*" then Some(Multiply)
    else if w == "/" then Some(Divide)
    else if w == "%" then Some(Remainder)
    else if w == "&" then Some(And)
    else if w == "|" then Some(Or)
    else None
  }

  /** `rposition`: the last position holding the word `op` (not inside a group). */
  function RPosition(phrase: seq<Wrapped>, op: string): (r: Option<nat>)
    ensures r.Some? ==> r.value < |phrase| && phrase[r.value] == Single(op)
    ensures r.Some? ==> forall j :: r.value < j < |phrase| ==> phrase[j] != Single(op)
    ensures r.None? ==> forall j :: 0 <= j < |phrase| ==> phrase[j] != Single(op)
  {
    if |phrase| == 0 then None
    else if phrase[|phrase| - 1] == Single(op) then Some(|phrase| - 1)
    else RPosition(phrase[..|phrase| - 1], op)
  }

  function FindOperatorFrom(phrase: seq<Wrapped>, k: nat): (r: Option<nat>)
    decreases |OPERATORS| - k
    ensures r.Some? ==> r.value < |phrase| && phrase[r.value].Single? && phrase[r.value].word in OPERATORS
  {
    if k >= |OPERATORS| then None
    else
      match RPosition(phrase, OPERATORS[k])
      case Some(i) => Some(i)
      case None => FindOperatorFrom(phrase, k + 1)
  }

  /** The split point of a phrase: the last occurrence of the first operator, in `OPERATORS`
      order, that occurs in it. */
  function FindOperator(phrase: seq<Wrapped>): Option<nat> {
    FindOperatorFrom(phrase, 0)
  }

  /** A word the tokenizer can produce and grouping keeps. */
  predicate IsPhraseWord(w: string) {
    IsToken(w) && NotParen(w)
  }

  /** A word that the parser leaves as a `String` leaf. */
  predicate IsLeafWord(w: string) {
    IsPhraseWord(w) && ParseI64(w).None?
  }

  predicate LeavesOk(e: Expr) {
    match e
    case Str(s) => IsLeafWord(s)
    case Binary(l, _, r) => LeavesOk(l) && LeavesOk(r)
    case Invert(x) => LeavesOk(x)
    case _ => true
  }

  /** `interpret_phrase`. `prevOp` is the operator that preceded the phrase, if the caller has
      already consumed one. */
  function InterpretPhrase(phrase: seq<Wrapped>, prevOp: Option<Operator>): Result<Expr, ExpressionError>
    decreases |Flatten(phrase)|, 1
  {
    if |phrase| == 0 then Ok(Null)
    else if |phrase| == 1 then InterpretItem(phrase, prevOp)
    else
      match FindOperator(phrase)
      case None => Err(MissingOperator)
      case Some(opIndex) =>
        if opIndex == |phrase| - 1 then Err(Invalid)
        else InterpretAt(phrase, prevOp, opIndex)
  }

  /** A one-item phrase: a number (signed by the pending operator), a string, or a group. */
  function InterpretItem(phrase: seq<Wrapped>, prevOp: Option<Operator>): Result<Expr, ExpressionError>
    requires |phrase| == 1
    decreases |Flatten(phrase)|, 0
  {
    match phrase[0]
    case Single(w) =>
      (match ParseI64(w)
       case Some(num) =>
         (match EnsureNumberPolarity(prevOp, num)
          case Some(v) => Ok(Number(v))
          case None => Err(Invalid))
       case None => Ok(Str(w)))
    case Group(g) =>
      if prevOp.Some? then Err(Invalid)
      else
        FlattenSlices(phrase, 0);
        InterpretPhrase(g, None)
  }

  /** A phrase split at the operator at `opIndex`, which is not its last item. An operator word
      just before it takes its place and turns it into the sign of the right-hand side. */
  function InterpretAt(phrase: seq<Wrapped>, prevOp: Option<Operator>, opIndex: nat): Result<Expr, ExpressionError>
    requires opIndex < |phrase| - 1
    decreases |Flatten(phrase)|, 0
  {
    match phrase[opIndex]
    case Group(_) => Err(MissingOperator)
    case Single(rawOp) =>
      var prevAsOp :=
        if opIndex > 0 then
          (match phrase[opIndex - 1]
           case Single(w2) => MatchOperator(w2)
           case Group(_) => None)
        else None;
      FlattenSlices(phrase, 0);
      FlattenSlices(phrase, opIndex);
      if opIndex == 0 && rawOp == "!" then
        var r2 :- InterpretPhrase(phrase[1..], None);
        Ok(Invert(r2))
      else
        match MatchOperator(rawOp)
        case None => Err(InvalidOperator)
        case Some(newOp) =>
          if opIndex == 0 then
            if prevOp.Some? then Err(Invalid) else InterpretPhrase(phrase[1..], Some(newOp))
          else
            var realOp := prevAsOp.GetOr(newOp);
            var index := if prevAsOp.Some? then opIndex - 1 else opIndex;
            FlattenSlices(phrase, index);
            var l2 :- InterpretPhrase(phrase[..index], prevOp);
            var r2 :- InterpretPhrase(phrase[opIndex + 1..], if prevAsOp.Some? then Some(newOp) else None);
            Ok(Binary(l2, realOp, r2))
  }

  /** Every `String` leaf of a parsed phrase is one of its words that does not read as a number. */
  lemma {:induction false} PhraseLeaves(phrase: seq<Wrapped>, prevOp: Option<Operator>)
    requires AllWords(phrase, IsPhraseWord)
    requires InterpretPhrase(phrase, prevOp).Ok?
    ensures LeavesOk(InterpretPhrase(phrase, prevOp).value)
    decreases |Flatten(phrase)|, 1
  {
    if |phrase| == 1 {
      ItemLeaves(phrase, prevOp);
    } else if |phrase| > 1 {
      var opIndex := FindOperator(phrase).value;
      AtLeaves(phrase, prevOp, opIndex);
    }
  }

  lemma {:induction false} ItemLeaves(phrase: seq<Wrapped>, prevOp: Option<Operator>)
    requires |phrase| == 1
    requires AllWords(phrase, IsPhraseWord)
    requires InterpretItem(phrase, prevOp).Ok?
    ensures LeavesOk(InterpretItem(phrase, prevOp).value)
    decreases |Flatten(phrase)|, 0
  {
    if phrase[0].Group? {
      FlattenSlices(phrase, 0);
      PhraseLeaves(phrase[0].items, None);
    }
  }

  lemma {:induction false} AtLeaves(phrase: seq<Wrapped>, prevOp: Option<Operator>, opIndex: nat)
    requires opIndex < |phrase| - 1
    requires AllWords(phrase, IsPhraseWord)
    requires InterpretAt(phrase, prevOp, opIndex).Ok?
    ensures LeavesOk(InterpretAt(phrase, prevOp, opIndex).value)
    decreases |Flatten(phrase)|, 0
  {
    FlattenSlices(phrase, 0);
    FlattenSlices(phrase, opIndex);
    AllWordsSlice(phrase, 1, |phrase|, IsPhraseWord);
    AllWordsSlice(phrase, opIndex + 1, |phrase|, IsPhraseWord);
    assert phrase[opIndex + 1..] == phrase[opIndex + 1..|phrase|];
    assert phrase[1..] == phrase[1..|phrase|];
    var rawOp := phrase[opIndex].word;
    var prevAsOp :=
      if opIndex > 0 then
        (match phrase[opIndex - 1]
         case Single(w2) => MatchOperator(w2)
         case Group(_) => None)
      else None;
    if opIndex == 0 && rawOp == "!" {
      PhraseLeaves(phrase[1..], None);
    } else {
      var newOp := MatchOperator(rawOp).value;
      if opIndex == 0 {
        PhraseLeaves(phrase[1..], Some(newOp));
      } else {
        var index := if prevAsOp.Some? then opIndex - 1 else opIndex;
        FlattenSlices(phrase, index);
        AllWordsSlice(phrase, 0, index, IsPhraseWord);
        assert phrase[..index] == phrase[0..index];
        PhraseLeaves(phrase[..index], prevOp);
        PhraseLeaves(phrase[opIndex + 1..], if prevAsOp.Some? then Some(newOp) else None);
      }
    }
  }

  /** A word is an operator word when it spells one of `OPERATORS`. */
  predicate IsOperatorWord(x: Wrapped) {
    x.Single? && x.word in OPERATORS
  }

  /** `FindOperator` picks the first operator of `OPERATORS` present at top level, at its last
      position. */
  lemma {:induction false} FindOperatorAt(phrase: seq<Wrapped>, k: nat, i: nat)
    requires k < |OPERATORS| && i < |phrase|
    requires forall m, j :: 0 <= m < k && 0 <= j < |phrase| ==> phrase[j] != Single(OPERATORS[m])
    requires phrase[i] == Single(OPERATORS[k])
    requires forall j :: i < j < |phrase| ==> phrase[j] != Single(OPERATORS[k])
    ensures FindOperator(phrase) == Some(i)
  {
    FindOperatorSkips(phrase, 0, k);
  }

  lemma {:induction false} FindOperatorSkips(phrase: seq<Wrapped>, from: nat, k: nat)
    requires from <= k <= |OPERATORS|
    requires forall m, j :: from <= m < k && 0 <= j < |phrase| ==> phrase[j] != Single(OPERATORS[m])
    ensures FindOperatorFrom(phrase, from) == FindOperatorFrom(phrase, k)
    decreases k - from
  {
    if from < k {
      assert RPosition(phrase, OPERATORS[from]).None?;
      FindOperatorSkips(phrase, from + 1, k);
    }
  }

  /** Without any operator word at top level there is no split point. */
  lemma {:induction false} FindOperatorNone(phrase: seq<Wrapped>, from: nat)
    requires from <= |OPERATORS|
    requires forall j :: 0 <= j < |phrase| ==> !IsOperatorWord(phrase[j])
    ensures FindOperatorFrom(phrase, from) == None
    decreases |OPERATORS| - from
  {
    if from < |OPERATORS| {
      assert RPosition(phrase, OPERATORS[from]).None?;
      FindOperatorNone(phrase, from + 1);
    }
  }

  /** A single word: a number, signed by the preceding `+` or `-`, or else a `String`. */
  lemma SingleWordLaw(w: string, prevOp: Option<Operator>)
    ensures ParseI64(w).None? ==> InterpretPhrase([Single(w)], prevOp) == Ok(Str(w))
    ensures ParseI64(w).Some? && prevOp.None? ==> InterpretPhrase([Single(w)], prevOp) == Ok(Number(ParseI64(w).value))
    ensures ParseI64(w).Some? && prevOp == Some(Subtract) ==> InterpretPhrase([Single(w)], prevOp) == Ok(Number(-ParseI64(w).value))
    ensures ParseI64(w).Some? && prevOp.Some? && prevOp.value !in {Add, Subtract} ==> InterpretPhrase([Single(w)], prevOp) == Err(Invalid)
  {
  }

  /** A parenthesised group alone is its contents; after an operator it is invalid. */
  lemma GroupLaw(g: seq<Wrapped>, prevOp: Option<Operator>)
    ensures prevOp.None? ==> InterpretPhrase([Group(g)], prevOp) == InterpretPhrase(g, None)
    ensures prevOp.Some? ==> InterpretPhrase([Group(g)], prevOp) == Err(Invalid)
  {
  }

  /** Precedence: the phrase splits at the chosen operator into a left part, parsed with the
      caller's pending operator, and a right part. */
  lemma SplitLaw(phrase: seq<Wrapped>, prevOp: Option<Operator>, i: nat, op: Operator)
    requires 0 < i < |phrase| - 1
    requires FindOperator(phrase) == Some(i)
    requires phrase[i] == Single(OperatorSymbol(op))
    requires phrase[i - 1].Group? || MatchOperator(phrase[i - 1].word).None?
    ensures InterpretPhrase(phrase[..i], prevOp).Err? ==>
              InterpretPhrase(phrase, prevOp) == InterpretPhrase(phrase[..i], prevOp)
    ensures InterpretPhrase(phrase[..i], prevOp).Ok? && InterpretPhrase(phrase[i + 1..], None).Err? ==>
              InterpretPhrase(phrase, prevOp) == InterpretPhrase(phrase[i + 1..], None)
    ensures InterpretPhrase(phrase[..i], prevOp).Ok? && InterpretPhrase(phrase[i + 1..], None).Ok? ==>
              InterpretPhrase(phrase, prevOp) ==
              Ok(Binary(InterpretPhrase(phrase[..i], prevOp).value, op, InterpretPhrase(phrase[i + 1..], None).value))
  {
    assert MatchOperator(OperatorSymbol(op)) == Some(op);
  }

  /** A leading `+` or `-` becomes the sign of what follows. */
  lemma SignLaw(phrase: seq<Wrapped>, op: Operator)
    requires |phrase| > 1 && op in {Add, Subtract}
    requires FindOperator(phrase) == Some(0)
    requires phrase[0] == Single(OperatorSymbol(op))
    ensures InterpretPhrase(phrase, None) == InterpretPhrase(phrase[1..], Some(op))
  {
  }

  /** A leading `!` that is the only operator of a phrase negates the rest of it. */
  lemma InvertLaw(phrase: seq<Wrapped>, prevOp: Option<Operator>)
    requires |phrase| > 1
    requires FindOperator(phrase) == Some(0)
    requires phrase[0] == Single("!")
    ensures InterpretPhrase(phrase[1..], None).Err? ==> InterpretPhrase(phrase, prevOp) == InterpretPhrase(phrase[1..], None)
    ensures InterpretPhrase(phrase[1..], None).Ok? ==>
              InterpretPhrase(phrase, prevOp) == Ok(Invert(InterpretPhrase(phrase[1..], None).value))
  {
  }

  /** Error cases: an operator with nothing after it is invalid, and several words without an
      operator between them are a missing operator. */
  lemma PhraseErrors(phrase: seq<Wrapped>, prevOp: Option<Operator>)
    requires |phrase| > 1
    ensures FindOperator(phrase) == Some(|phrase| - 1) ==> InterpretPhrase(phrase, prevOp) == Err(Invalid)
    ensures (forall j :: 0 <= j < |phrase| ==> !IsOperatorWord(phrase[j])) ==>
              InterpretPhrase(phrase, prevOp) == Err(MissingOperator)
  {
    if forall j :: 0 <= j < |phrase| ==> !IsOperatorWord(phrase[j]) {
      FindOperatorNone(phrase, 0);
    }
  }

  /** `interpret_expression_string`: blank input is `Null`; otherwise tokenise, group and parse.
      Every `String` leaf of a result is a word the parser would itself leave unchanged. */
  function InterpretString(s: string): (r: Result<Expr, ExpressionError>)
    ensures r.Ok? ==> LeavesOk(r.value)
  {
    var words := SplitWhitespace(Pad(s));
    WordsAreTokens(s);
    if |words| == 0 then Ok(Null)
    else
      match Wrap(words)
      case Err(e) => Err(e)
      case Ok(wrapped) =>
        WrapWords(words, [], [], IsPhraseWord);
        var r := InterpretPhrase(wrapped, None);
        if r.Ok? then PhraseLeaves(wrapped, None); r else r
  }

  /** A leaf word parses back to itself, so re-reading a parsed string terminates. */
  lemma LeafWordIsStable(w: string)
    requires IsLeafWord(w)
    ensures InterpretString(w) == Ok(Str(w))
  {
    WordsAreTokens(w);
    TokenizeToken(w);
    assert SplitWhitespace(Pad(w)) == [w];
    var none: seq<Wrapped> := [];
    assert [w][1..] == [] && none + [Single(w)] == [Single(w)];
    assert Wrap([w]) == WrapFrom([w][1..], [], none + [Single(w)]);
    assert InterpretPhrase([Single(w)], None) == Ok(Str(w));
    assert [Single(w)][0] == Single(w);
  }

  /** `interpret_expression`: parses every `String` in a tree once, without re-reading results. */
  function Interpret(e: Expr): (r: Result<Expr, ExpressionError>)
    ensures r.Ok? && e.Binary? ==> r.value.Binary? && r.value.o == e.o
    ensures r.Ok? && e.Invert? ==> r.value.Invert?
    ensures r.Ok? && !e.Str? && !e.Binary? && !e.Invert? ==> r.value == e
  {
    match e
    case Null => Ok(Null)
    case Number(v) => Ok(Number(v))
    case Bool(b) => Ok(Bool(b))
    case Str(s) => InterpretString(s)
    case Binary(l, o, r) =>
      var l2 :- Interpret(l);
      var r2 :- Interpret(r);
      Ok(Binary(l2, o, r2))
    case Invert(x) =>
      var x2 :- Interpret(x);
      Ok(Invert(x2))
  }

  /** Number of `String` leaves that would parse to something other than themselves. */
  function Unstable(e: Expr): nat {
    match e
    case Str(s) => if InterpretString(s) == Ok(Str(s)) then 0 else 1
    case Binary(l, _, r) => Unstable(l) + Unstable(r)
    case Invert(x) => Unstable(x)
    case _ => 0
  }

  lemma {:induction false} LeavesOkStable(e: Expr)
    requires LeavesOk(e)
    ensures Unstable(e) == 0
  {
    match e
    case Str(s) => LeafWordIsStable(s);
    case Binary(l, _, r) => LeavesOkStable(l); LeavesOkStable(r);
    case Invert(x) => LeavesOkStable(x);
    case _ =>
  }

  predicate IsArithmetic(o: Operator) {
    o in {Add, Subtract, Multiply, Divide, Remainder}
  }

  /** A folded value: a number when it fits in `i64`; otherwise the operation overflowed, which
      panics (in a debug build; see README). */
  function InI64(v: int): (r: Result<Expr, ExpressionError>)
    ensures r.Ok? <==> I64_MIN <= v <= I64_MAX
    ensures r.Ok? ==> r.value == Number(v)
    ensures r.Err? ==> r.error == Panic
  {
    if I64_MIN <= v <= I64_MAX then Ok(Number(v)) else Err(Panic)
  }

  /** Folding two numbers with an operator: Rust's `i64` operations, where a zero divisor and an
      overflow (a result outside `i64`, or `i64::MIN % -1`) are `Panic`; boolean operators are left
      as they are. */
  function FoldNumbers(a: int, o: Operator, b: int): Result<Expr, ExpressionError> {
    match o
    case Remainder => if b == 0 || (a == I64_MIN && b == -1) then Err(Panic) else InI64(TruncRem(a, b))
    case Add => InI64(a + b)
    case Subtract => InI64(a - b)
    case Multiply => InI64(a * b)
    case Divide => if b == 0 then Err(Panic) else InI64(TruncDiv(a, b))
    case _ => Ok(Binary(Number(a), o, Number(b)))
  }

  /** `simplify_expression`: parses strings (re-simplifying a parse only when it is not a plain
      `String`) and folds arithmetic on two numbers. */
  function Simplify(e: Expr): (r: Result<Expr, ExpressionError>)
    decreases Unstable(e), e
    ensures r.Ok? && e.Binary? && !IsArithmetic(e.o) ==> r.value.Binary? && r.value.o == e.o
    ensures r.Ok? && e.Invert? ==> r.value.Invert?
  {
    match e
    case Str(s) =>
      var n :- InterpretString(s);
      if n.Str? then Ok(n)
      else
        LeavesOkStable(n);
        Simplify(n)
    case Null => Ok(Null)
    case Bool(b) => Ok(Bool(b))
    case Invert(x) =>
      var x2 :- Simplify(x);
      Ok(Invert(x2))
    case Number(v) => Ok(Number(v))
    case Binary(l, o, r) =>
      var l2 :- Simplify(l);
      var r2 :- Simplify(r);
      if l2.Number? && r2.Number? then FoldNumbers(l2.n, o, r2.n)
      else Ok(Binary(l2, o, r2))
  }

  /** `is_constant`. */
  function IsConstant(e: Expr): bool {
    match e
    case Null => true
    case Number(_) => true
    case Str(_) => false
    case Binary(_, _, _) => true
    case Invert(x) => IsConstant(x)
    case Bool(_) => true
  }

  function StripInverts(e: Expr): (r: Expr)
    ensures !r.Invert?
  {
    if e.Invert? then StripInverts(e.e) else e
  }

  /** An expression is constant unless, under its leading inversions, it is a `String`. */
  lemma {:induction false} IsConstantIff(e: Expr)
    ensures IsConstant(e) <==> !StripInverts(e).Str?
  {
    if e.Invert? {
      IsConstantIff(e.e);
    }
  }

  /** A fixed point of `simplify_expression`: every `String` reads back as itself and no
      arithmetic operator has two numbers as operands. */
  predicate Simplified(e: Expr) {
    match e
    case Str(s) => InterpretString(s) == Ok(Str(s))
    case Binary(l, o, r) => Simplified(l) && Simplified(r) && !(l.Number? && r.Number? && IsArithmetic(o))
    case Invert(x) => Simplified(x)
    case _ => true
  }

  lemma {:induction false} SimplifyResultSimplified(e: Expr)
    requires Simplify(e).Ok?
    ensures Simplified(Simplify(e).value)
    decreases Unstable(e), e
  {
    match e
    case Str(s) =>
      var n := InterpretString(s).value;
      if n.Str? {
        LeafWordIsStable(n.s);
      } else {
        LeavesOkStable(n);
        SimplifyResultSimplified(n);
      }
    case Invert(x) => SimplifyResultSimplified(x);
    case Binary(l, o, r) =>
      SimplifyResultSimplified(l);
      SimplifyResultSimplified(r);
    case _ =>
  }

  lemma {:induction false} SimplifiedIsFixed(e: Expr)
    requires Simplified(e)
    ensures Simplify(e) == Ok(e)
  {
    match e
    case Str(s) =>
    case Invert(x) => SimplifiedIsFixed(x);
    case Binary(l, o, r) =>
      SimplifiedIsFixed(l);
      SimplifiedIsFixed(r);
    case _ =>
  }

  /** Simplifying twice is simplifying once. */
  lemma SimplifyIdempotent(e: Expr)
    requires Simplify(e).Ok?
    ensures Simplify(Simplify(e).value) == Simplify(e)
  {
    SimplifyResultSimplified(e);
    SimplifiedIsFixed(Simplify(e).value);
  }

  /** A tree of numbers joined by arithmetic operators. */
  predicate IsArithmeticTree(e: Expr) {
    match e
    case Number(_) => true
    case Binary(l, o, r) => IsArithmetic(o) && IsArithmeticTree(l) && IsArithmeticTree(r)
    case _ => false
  }

  /** Rust's checked `i64` arithmetic: a value outside `i64` is an overflow. */
  function Checked(v: int): Result<int, ExpressionError> {
    if v < I64_MIN || v > I64_MAX then Err(Panic) else Ok(v)
  }

  /** Reference evaluator for arithmetic trees with Rust's checked `i64` operators: a zero
      divisor or an overflow fails. */
  function Eval(e: Expr): Result<int, ExpressionError>
    requires IsArithmeticTree(e)
  {
    match e
    case Number(v) => Ok(v)
    case Binary(l, o, r) =>
      var a :- Eval(l);
      var b :- Eval(r);
      EvalOp(a, o, b)
  }

  /** One arithmetic operator on two values, checked as Rust's `i64` operators are. */
  function EvalOp(a: int, o: Operator, b: int): Result<int, ExpressionError>
    requires IsArithmetic(o)
  {
    match o
    case Add => Checked(a + b)
    case Subtract => Checked(a - b)
    case Multiply => Checked(a * b)
    case Divide => if b == 0 then Err(Panic) else Checked(TruncDiv(a, b))
    case Remainder => if b == 0 || (a == I64_MIN && b == -1) then Err(Panic) else Checked(TruncRem(a, b))
  }

  /** Folding two numbers is the checked operator: its value, or the panic. */
  lemma FoldIsEvalOp(a: int, o: Operator, b: int)
    requires IsArithmetic(o)
    ensures EvalOp(a, o, b).Ok? ==> FoldNumbers(a, o, b) == Ok(Number(EvalOp(a, o, b).value))
    ensures EvalOp(a, o, b).Err? ==> FoldNumbers(a, o, b) == Err(Panic)
  {
  }

  /** Constant folding computes the value of an arithmetic tree, and fails exactly when a
      divisor is zero or an operation overflows `i64`. */
  lemma {:induction false} SimplifyEvaluates(e: Expr)
    requires IsArithmeticTree(e)
    ensures Eval(e).Ok? ==> Simplify(e) == Ok(Number(Eval(e).value))
    ensures Eval(e).Err? ==> Simplify(e) == Err(Panic)
  {
    match e
    case Number(_) =>
    case Binary(l, o, r) =>
      SimplifyEvaluates(l);
      SimplifyEvaluates(r);
      if Eval(l).Ok? && Eval(r).Ok? {
        FoldIsEvalOp(Eval(l).value, o, Eval(r).value);
      }
  }
}

=== FILE: expression_examples.dfy ===
/** The expected parses and simplifications of the crate's own expression tests
    (supertimeline/src/expression.rs:396-645), derived from the model. Each example goes from the
    string through tokenising, grouping and `interpret_phrase`, using the parsing laws of module
    `Expression` for the last step. */
module ExpressionExamples {
  import opened Base
  import opened Ast
  import opened Words
  import opened Expression

  /** What a lone word parses to. */
  function Leaf(w: string): Expr {
    if ParseI64(w).Some? then Number(ParseI64(w).value) else Str(w)
  }

  /** Position of an operator's symbol in the search order. */
  function Rank(op: Operator): nat {
    match op
    case And => 0
    case Or => 1
    case Add => 2
    case Subtract => 3
    case Multiply => 4
    case Divide => 5
    case Remainder => 6
  }

  lemma RankOk(op: Operator)
    ensures Rank(op) < |OPERATORS| && OPERATORS[Rank(op)] == OperatorSymbol(op)
    ensures OperatorSymbol(op) in OPERATORS
    ensures forall m :: 0 <= m < Rank(op) ==> OPERATORS[m] != OperatorSymbol(op)
  {
  }

  lemma NotOperatorWord(w: string)
    requires w !in OPERATORS
    ensures MatchOperator(w).None?
  {
    if MatchOperator(w).Some? {
      RankOk(MatchOperator(w).value);
    }
  }

  lemma Digit(c: char)
    requires '0' <= c <= '9'
    ensures ParseI64([c]) == Some(c as int - '0' as int)
  {
    assert [c][..0] == "";
    assert AllDigits([c]);
    assert DigitsValue([c]) == c as int - '0' as int;
  }

  lemma TwoDigits(c: char, d: char)
    requires '0' <= c <= '9' && '0' <= d <= '9'
    ensures ParseI64([c, d]) == Some(10 * (c as int - '0' as int) + (d as int - '0' as int))
  {
    assert [c, d][..1] == [c];
    assert [c][..0] == "";
    assert AllDigits([c, d]);
    assert DigitsValue([c]) == c as int - '0' as int;
  }

  /** A word that starts with neither a sign nor a digit is not a number. */
  lemma NotNumber(w: string)
    requires |w| > 0 && w[0] != '+' && w[0] != '-' && !IsDigit(w[0])
    ensures ParseI64(w).None?
  {
  }

  lemma LeafLaw(w: string, prevOp: Option<Operator>)
    requires prevOp.None?
    ensures InterpretPhrase([Single(w)], prevOp) == Ok(Leaf(w))
  {
    SingleWordLaw(w, prevOp);
  }

  /** `a op b` over two non-operator words. */
  lemma PairLaw(a: string, op: Operator, b: string)
    requires a !in OPERATORS && b !in OPERATORS
    ensures InterpretPhrase([Single(a), Single(OperatorSymbol(op)), Single(b)], None) == Ok(Binary(Leaf(a), op, Leaf(b)))
  {
    var p := [Single(a), Single(OperatorSymbol(op)), Single(b)];
    RankOk(op);
    FindOperatorAt(p, Rank(op), 1);
    NotOperatorWord(a);
    SplitLaw(p, None, 1, op);
    assert p[..1] == [Single(a)] && p[2..] == [Single(b)];
    LeafLaw(a, None);
    LeafLaw(b, None);
  }

  /** `a op1 b op2 c` splits at `op2` when `op2` is searched first (or is the same operator). */
  lemma ChainLeftLaw(a: string, op1: Operator, b: string, op2: Operator, c: string)
    requires a !in OPERATORS && b !in OPERATORS && c !in OPERATORS
    requires Rank(op2) <= Rank(op1)
    ensures InterpretPhrase([Single(a), Single(OperatorSymbol(op1)), Single(b), Single(OperatorSymbol(op2)), Single(c)], None)
         == Ok(Binary(Binary(Leaf(a), op1, Leaf(b)), op2, Leaf(c)))
  {
    var p := [Single(a), Single(OperatorSymbol(op1)), Single(b), Single(OperatorSymbol(op2)), Single(c)];
    RankOk(op1);
    RankOk(op2);
    FindOperatorAt(p, Rank(op2), 3);
    NotOperatorWord(b);
    SplitLaw(p, None, 3, op2);
    assert p[..3] == [Single(a), Single(OperatorSymbol(op1)), Single(b)] && p[4..] == [Single(c)];
    PairLaw(a, op1, b);
    LeafLaw(c, None);
  }

  /** `a op1 b op2 c` splits at `op1` when `op1` is searched first. */
  lemma ChainRightLaw(a: string, op1: Operator, b: string, op2: Operator, c: string)
    requires a !in OPERATORS && b !in OPERATORS && c !in OPERATORS
    requires Rank(op1) < Rank(op2)
    ensures InterpretPhrase([Single(a), Single(OperatorSymbol(op1)), Single(b), Single(OperatorSymbol(op2)), Single(c)], None)
         == Ok(Binary(Leaf(a), op1, Binary(Leaf(b), op2, Leaf(c))))
  {
    var p := [Single(a), Single(OperatorSymbol(op1)), Single(b), Single(OperatorSymbol(op2)), Single(c)];
    RankOk(op1);
    RankOk(op2);
    FindOperatorAt(p, Rank(op1), 1);
    NotOperatorWord(a);
    SplitLaw(p, None, 1, op1);
    assert p[..1] == [Single(a)] && p[2..] == [Single(b), Single(OperatorSymbol(op2)), Single(c)];
    LeafLaw(a, None);
    PairLaw(b, op2, c);
  }

  /** From a string whose words contain no parenthesis to the phrase it parses as. */
  lemma PlainPhrase(s: string, words: seq<string>)
    requires Tokenize(s) == words && |words| > 0
    requires forall i :: 0 <= i < |words| ==> NotParen(words[i])
    ensures InterpretString(s) == InterpretPhrase(SinglesOf(words), None)
  {
    WordsAreTokens(s);
    WrapPlain(words, []);
    assert [] + SinglesOf(words) == SinglesOf(words);
  }

  /** `PlainPhrase` for a string of five words. */
  lemma PlainFive(s: string, a: string, b: string, c: string, d: string, e: string)
    requires Tokenize(s) == [a, b, c, d, e]
    requires NotParen(a) && NotParen(b) && NotParen(c) && NotParen(d) && NotParen(e)
    ensures InterpretString(s) == InterpretPhrase([Single(a), Single(b), Single(c), Single(d), Single(e)], None)
  {
    var words := [a, b, c, d, e];
    assert forall i :: 0 <= i < |words| ==> NotParen(words[i]) by {
      forall i | 0 <= i < |words| ensures NotParen(words[i]) {
        assert words[i] in {a, b, c, d, e};
      }
    }
    PlainPhrase(s, words);
    SinglesFive(a, b, c, d, e);
  }

  lemma SinglesFive(a: string, b: string, c: string, d: string, e: string)
    ensures SinglesOf([a, b, c, d, e]) == [Single(a), Single(b), Single(c), Single(d), Single(e)]
  {
  }

  /** `! a` over a non-operator word. */
  lemma InvertPairLaw(a: string)
    requires a !in OPERATORS
    ensures InterpretPhrase([Single("!"), Single(a)], None) == Ok(Invert(Leaf(a)))
  {
    var p := [Single("!"), Single(a)];
    NotOperatorWord(a);
    FindOperatorAt(p, 7, 0);
    InvertLaw(p, None);
    assert p[1..] == [Single(a)];
    LeafLaw(a, None);
  }

  lemma SymbolNotParen(op: Operator)
    ensures NotParen(OperatorSymbol(op)) && |OperatorSymbol(op)| == 1 && IsSplitChar(OperatorSymbol(op)[0])
  {
  }

  /** A string of the words `a op b`. */
  lemma StringPair(s: string, a: string, op: Operator, b: string)
    requires Tokenize(s) == [a, OperatorSymbol(op), b]
    requires a !in OPERATORS && b !in OPERATORS && NotParen(a) && NotParen(b)
    ensures InterpretString(s) == Ok(Binary(Leaf(a), op, Leaf(b)))
  {
    var words := [a, OperatorSymbol(op), b];
    SymbolNotParen(op);
    PlainPhrase(s, words);
    assert SinglesOf(words) == [Single(a), Single(OperatorSymbol(op)), Single(b)];
    PairLaw(a, op, b);
  }

  /** A string of the words `a op1 b op2 c`. */
  lemma StringChain(s: string, a: string, op1: Operator, b: string, op2: Operator, c: string)
    requires Tokenize(s) == [a, OperatorSymbol(op1), b, OperatorSymbol(op2), c]
    requires a !in OPERATORS && b !in OPERATORS && c !in OPERATORS
    requires NotParen(a) && NotParen(b) && NotParen(c)
    ensures Rank(op2) <= Rank(op1) ==> InterpretString(s) == Ok(Binary(Binary(Leaf(a), op1, Leaf(b)), op2, Leaf(c)))
    ensures Rank(op1) < Rank(op2) ==> InterpretString(s) == Ok(Binary(Leaf(a), op1, Binary(Leaf(b), op2, Leaf(c))))
  {
    SymbolNotParen(op1);
    SymbolNotParen(op2);
    PlainFive(s, a, OperatorSymbol(op1), b, OperatorSymbol(op2), c);
    if Rank(op2) <= Rank(op1) {
      ChainLeftLaw(a, op1, b, op2, c);
    } else {
      ChainRightLaw(a, op1, b, op2, c);
    }
  }

  /** A string of the words `op a`, with `op` one of the signs. */
  lemma StringSigned(s: string, op: Operator, a: string)
    requires Tokenize(s) == [OperatorSymbol(op), a] && op in {Add, Subtract}
    requires a !in OPERATORS && NotParen(a)
    ensures InterpretString(s) == InterpretPhrase([Single(a)], Some(op))
  {
    var words := [OperatorSymbol(op), a];
    SymbolNotParen(op);
    PlainPhrase(s, words);
    var p := [Single(OperatorSymbol(op)), Single(a)];
    assert SinglesOf(words) == p;
    RankOk(op);
    NotOperatorWord(a);
    FindOperatorAt(p, Rank(op), 0);
    SignLaw(p, op);
    assert p[1..] == [Single(a)];
  }

  /** A string of the words `! a`. */
  lemma StringInvert(s: string, a: string)
    requires Tokenize(s) == ["!", a]
    requires a !in OPERATORS && NotParen(a)
    ensures InterpretString(s) == Ok(Invert(Leaf(a)))
  {
    var words := ["!", a];
    PlainPhrase(s, words);
    assert SinglesOf(words) == [Single("!"), Single(a)];
    InvertPairLaw(a);
  }

  /** A string of the words `a op`. */
  lemma StringTrailing(s: string, a: string, op: Operator)
    requires Tokenize(s) == [a, OperatorSymbol(op)]
    requires a !in OPERATORS && NotParen(a)
    ensures InterpretString(s) == Err(Invalid)
  {
    var words := [a, OperatorSymbol(op)];
    SymbolNotParen(op);
    PlainPhrase(s, words);
    var p := [Single(a), Single(OperatorSymbol(op))];
    assert SinglesOf(words) == p;
    RankOk(op);
    NotOperatorWord(a);
    FindOperatorAt(p, Rank(op), 1);
    PhraseErrors(p, None);
  }

  // ---- the crate's expected parses ----

  lemma ParsesNumber()
    ensures InterpretString("42") == Ok(Number(42))
  {
    TokenizeToken("42");
    PlainPhrase("42", ["42"]);
    assert SinglesOf(["42"]) == [Single("42")];
    TwoDigits('4', '2');
    LeafLaw("42", None);
  }

  lemma ParsesPositive()
    ensures InterpretString("+42") == Ok(Number(42))
  {
    TwoDigits('4', '2');
    TokenizeSigned();
    StringSigned("+42", Add, "42");
    SingleWordLaw("42", Some(Add));
  }

  lemma ParsesNegative()
    ensures InterpretString("-42") == Ok(Number(-42))
  {
    TwoDigits('4', '2');
    TokenizeSigned();
    StringSigned("-42", Subtract, "42");
    SingleWordLaw("42", Some(Subtract));
  }

  lemma TrailingOperatorIsInvalid()
    ensures InterpretString("42 -") == Err(Invalid)
  {
    TokenizeTrailing();
    StringTrailing("42 -", "42", Subtract);
  }

  lemma ParsesEmpty()
    ensures InterpretString("") == Ok(Null)
  {
  }

  lemma ParsesReference()
    ensures InterpretString("#obj.start") == Ok(Str("#obj.start"))
  {
    NotNumber("#obj.start");
    LeafWordIsStable("#obj.start");
  }

  /** `1 op 2` parses to the binary node of `op`, for every operator. */
  lemma ParsesBinaryOperators(op: Operator)
    ensures InterpretString("1 " + OperatorSymbol(op) + " 2") == Ok(Binary(Number(1), op, Number(2)))
  {
    Digit('1');
    Digit('2');
    SymbolNotParen(op);
    var o := OperatorSymbol(op)[0];
    assert OperatorSymbol(op) == [o];
    TokenizePair(o);
    StringPair("1 " + [o] + " 2", "1", op, "2");
  }

  /** Any run of whitespace around and between the words is ignored. */
  lemma ParsesPadded(sp: string)
    requires |sp| > 0 && forall k :: 0 <= k < |sp| ==> IsWhitespace(sp[k])
    ensures InterpretString(sp + "1" + sp + "*" + sp + "2" + sp) == Ok(Binary(Number(1), Multiply, Number(2)))
  {
    Digit('1');
    Digit('2');
    assert "*" == ['*'];
    Padded3(sp, "1", '*', "2");
    StringPair(sp + "1" + sp + "*" + sp + "2" + sp, "1", Multiply, "2");
  }

  lemma ParsesAnd()
    ensures InterpretString("#first & #second") == Ok(Binary(Str("#first"), And, Str("#second")))
  {
    NotNumber("#first");
    NotNumber("#second");
    TokenizeAnd();
    StringPair("#first & #second", "#first", And, "#second");
  }

  lemma ParsesLeftAssociative()
    ensures InterpretString("1+2+3") == Ok(Binary(Binary(Number(1), Add, Number(2)), Add, Number(3)))
  {
    Digit('1');
    Digit('2');
    Digit('3');
    TokenizeSum();
    StringChain("1+2+3", "1", Add, "2", Add, "3");
  }

  /** `+` is searched before `*`, so it is the outer operator on either side. */
  lemma ParsesPrecedence()
    ensures InterpretString("1 + 2 * 3") == Ok(Binary(Number(1), Add, Binary(Number(2), Multiply, Number(3))))
    ensures InterpretString("1 * 2 + 3") == Ok(Binary(Binary(Number(1), Multiply, Number(2)), Add, Number(3)))
  {
    ParsesSumOfProduct();
    ParsesProductPlus();
  }

  lemma ParsesSumOfProduct()
    ensures InterpretString("1 + 2 * 3") == Ok(Binary(Number(1), Add, Binary(Number(2), Multiply, Number(3))))
  {
    Digit('1');
    Digit('2');
    Digit('3');
    assert Leaf("1") == Number(1) && Leaf("2") == Number(2) && Leaf("3") == Number(3);
    TokenizeSumOfProduct();
    StringChain("1 + 2 * 3", "1", Add, "2", Multiply, "3");
  }

  lemma ParsesProductPlus()
    ensures InterpretString("1 * 2 + 3") == Ok(Binary(Binary(Number(1), Multiply, Number(2)), Add, Number(3)))
  {
    Digit('1');
    Digit('2');
    Digit('3');
    assert Leaf("1") == Number(1) && Leaf("2") == Number(2) && Leaf("3") == Number(3);
    TokenizeProductPlus();
    StringChain("1 * 2 + 3", "1", Multiply, "2", Add, "3");
  }

  lemma Flatten3(x: Wrapped, y: Wrapped, z: Wrapped)
    ensures Flatten([x, y, z]) == Flatten([x]) + Flatten([y]) + Flatten([z])
  {
    FlattenAppend([x], [y]);
    assert [x] + [y] == [x, y];
    FlattenAppend([x, y], [z]);
    assert [x, y] + [z] == [x, y, z];
  }

  /** A string of the words `a op1 ( b op2 c )`. */
  lemma StringGroup(s: string, a: string, op1: Operator, b: string, op2: Operator, c: string)
    requires Tokenize(s) == [a, OperatorSymbol(op1), "(", b, OperatorSymbol(op2), c, ")"]
    requires a !in OPERATORS && b !in OPERATORS && c !in OPERATORS
    requires NotParen(a) && NotParen(b) && NotParen(c)
    ensures InterpretString(s) == Ok(Binary(Leaf(a), op1, Binary(Leaf(b), op2, Leaf(c))))
  {
    SymbolNotParen(op1);
    SymbolNotParen(op2);
    WordsAreTokens(s);
    var inner := [Single(b), Single(OperatorSymbol(op2)), Single(c)];
    var p := [Single(a), Single(OperatorSymbol(op1)), Group(inner)];
    Flatten3(Single(b), Single(OperatorSymbol(op2)), Single(c));
    Flatten3(Single(a), Single(OperatorSymbol(op1)), Group(inner));
    FlattenOne(Single(a));
    FlattenOne(Single(b));
    FlattenOne(Single(c));
    FlattenOne(Single(OperatorSymbol(op1)));
    FlattenOne(Single(OperatorSymbol(op2)));
    FlattenOne(Group(inner));
    assert Flatten(p) == Tokenize(s);
    assert AllWords(p, NotParen);
    WrapRoundTrip(p);
    RankOk(op1);
    NotOperatorWord(a);
    FindOperatorAt(p, Rank(op1), 1);
    SplitLaw(p, None, 1, op1);
    assert p[..1] == [Single(a)] && p[2..] == [Group(inner)];
    LeafLaw(a, None);
    GroupLaw(inner, None);
    PairLaw(b, op2, c);
  }

  lemma ParsesGroup()
    ensures InterpretString("1 * (2 + 3)") == Ok(Binary(Number(1), Multiply, Binary(Number(2), Add, Number(3))))
  {
    Digit('1');
    Digit('2');
    Digit('3');
    TokenizeGroup();
    StringGroup("1 * (2 + 3)", "1", Multiply, "2", Add, "3");
  }

  lemma ParsesInvert()
    ensures InterpretString("!thisOne") == Ok(Invert(Str("thisOne")))
  {
    NotNumber("thisOne");
    TokenizeSigned();
    StringInvert("!thisOne", "thisOne");
  }

  // ---- the crate's expected simplifications ----

  lemma SimplifiesSum()
    ensures Simplify(Binary(Binary(Number(1), Add, Number(2)), Add, Number(3))) == Ok(Number(6))
  {
    SimplifyEvaluates(Binary(Binary(Number(1), Add, Number(2)), Add, Number(3)));
  }

  /** `9223372036854775807 + 1` overflows `i64`: folding it panics. */
  lemma SumOverflowPanics()
    ensures Simplify(Binary(Number(I64_MAX), Add, Number(1))) == Err(Panic)
  {
    SimplifyEvaluates(Binary(Number(I64_MAX), Add, Number(1)));
  }

  lemma ParsesQuotient()
    ensures InterpretString("10 / 2 + 1") == Ok(Binary(Binary(Number(10), Divide, Number(2)), Add, Number(1)))
  {
    TwoDigits('1', '0');
    Digit('2');
    Digit('1');
    TokenizeQuotient();
    StringChain("10 / 2 + 1", "10", Divide, "2", Add, "1");
  }

  lemma SimplifiesQuotient()
    ensures Simplify(Binary(Binary(Number(10), Divide, Number(2)), Add, Number(1))) == Ok(Number(6))
  {
    assert TruncDiv(10, 2) == 5;
    SimplifyEvaluates(Binary(Binary(Number(10), Divide, Number(2)), Add, Number(1)));
  }

  lemma ParsesNames()
    ensures InterpretString("40+2+asdf") == Ok(Binary(Binary(Number(40), Add, Number(2)), Add, Str("asdf")))
  {
    TwoDigits('4', '0');
    Digit('2');
    NotNumber("asdf");
    TokenizeNames();
    StringChain("40+2+asdf", "40", Add, "2", Add, "asdf");
  }

  /** The tree `"1+2*2+(4-2)"` parses to, `(1 + 2 * 2) + (4 - 2)`, folds to 7. */
  lemma SimplifiesGrouped()
    ensures Simplify(Binary(Binary(Number(1), Add, Binary(Number(2), Multiply, Number(2))), Add, Binary(Number(4), Subtract, Number(2))))
         == Ok(Number(7))
  {
    SimplifyEvaluates(Binary(Binary(Number(1), Add, Binary(Number(2), Multiply, Number(2))), Add, Binary(Number(4), Subtract, Number(2))));
  }

  /** A non-numeric operand stops folding at the node it appears in. */
  lemma SimplifiesPartially()
    ensures Simplify(Binary(Binary(Number(40), Add, Number(2)), Add, Str("asdf"))) == Ok(Binary(Number(42), Add, Str("asdf")))
  {
    NotNumber("asdf");
    SimplifyEvaluates(Binary(Number(40), Add, Number(2)));
    LeafWordIsStable("asdf");
  }

  // ---- tokenising the example strings ----

  lemma {:induction false} BlankThen(sp: string, rest: string)
    requires forall k :: 0 <= k < |sp| ==> IsWhitespace(sp[k])
    ensures Tokenize(sp + rest) == Tokenize(rest)
  {
    if |sp| == 0 {
      assert sp + rest == rest;
    } else {
      assert sp + rest == [sp[0]] + (sp[1..] + rest);
      TokenizeSpaceThen(sp[0], sp[1..] + rest);
      BlankThen(sp[1..], rest);
    }
  }

  /** A word, a space, an operator and a space, in front of anything. */
  lemma SpacedPrefix(a: string, o: char, rest: string)
    requires |a| > 0 && AllWordChars(a) && IsSplitChar(o)
    ensures Tokenize(a + " " + [o] + " " + rest) == [a, [o]] + Tokenize(rest)
  {
    assert a + " " + [o] + " " + rest == a + (" " + ([o] + (" " + rest)));
    TokenizeWordThen(a, " " + ([o] + (" " + rest)));
    TokenizeSpaceThen(' ', [o] + (" " + rest));
    TokenizeSplitThen(o, " " + rest);
    TokenizeSpaceThen(' ', rest);
  }

  lemma WordAlone(a: string)
    requires |a| > 0 && AllWordChars(a)
    ensures Tokenize(a) == [a]
  {
    TokenizeWordThen(a, "");
    assert a + "" == a;
  }

  /** `a o b` with one space around the operator. */
  lemma Spaced3(a: string, o: char, b: string)
    requires |a| > 0 && AllWordChars(a) && |b| > 0 && AllWordChars(b) && IsSplitChar(o)
    ensures Tokenize(a + " " + [o] + " " + b) == [a, [o], b]
  {
    SpacedPrefix(a, o, b);
    WordAlone(b);
  }

  /** `a o b` with the same run of whitespace before, between and after every token. */
  lemma Padded3(sp: string, a: string, o: char, b: string)
    requires |sp| > 0 && forall k :: 0 <= k < |sp| ==> IsWhitespace(sp[k])
    requires |a| > 0 && AllWordChars(a) && |b| > 0 && AllWordChars(b) && IsSplitChar(o)
    ensures Tokenize(sp + a + sp + [o] + sp + b + sp) == [a, [o], b]
  {
    assert sp + a + sp + [o] + sp + b + sp == sp + (a + (sp + ([o] + (sp + (b + (sp + ""))))));
    BlankThen(sp, a + (sp + ([o] + (sp + (b + (sp + ""))))));
    TokenizeWordThen(a, sp + ([o] + (sp + (b + (sp + "")))));
    BlankThen(sp, [o] + (sp + (b + (sp + ""))));
    TokenizeSplitThen(o, sp + (b + (sp + "")));
    BlankThen(sp, b + (sp + ""));
    TokenizeWordThen(b, sp + "");
    BlankThen(sp, "");
  }

  /** `a o1 b o2 c` with one space around each operator. */
  lemma Spaced5(a: string, o1: char, b: string, o2: char, c: string)
    requires |a| > 0 && AllWordChars(a) && |b| > 0 && AllWordChars(b) && |c| > 0 && AllWordChars(c)
    requires IsSplitChar(o1) && IsSplitChar(o2)
    ensures Tokenize(a + " " + [o1] + " " + b + " " + [o2] + " " + c) == [a, [o1], b, [o2], c]
  {
    var rest := b + " " + [o2] + " " + c;
    assert a + " " + [o1] + " " + b + " " + [o2] + " " + c == a + " " + [o1] + " " + rest;
    SpacedPrefix(a, o1, rest);
    Spaced3(b, o2, c);
  }

  /** `a o1 b o2 c` without whitespace. */
  lemma Tight5(a: string, o1: char, b: string, o2: char, c: string)
    requires |a| > 0 && AllWordChars(a) && |b| > 0 && AllWordChars(b) && |c| > 0 && AllWordChars(c)
    requires IsSplitChar(o1) && IsSplitChar(o2)
    ensures Tokenize(a + [o1] + b + [o2] + c) == [a, [o1], b, [o2], c]
  {
    assert a + [o1] + b + [o2] + c == a + ([o1] + (b + ([o2] + (c + ""))));
    TokenizeWordThen(a, [o1] + (b + ([o2] + (c + ""))));
    TokenizeSplitThen(o1, b + ([o2] + (c + "")));
    TokenizeWordThen(b, [o2] + (c + ""));
    TokenizeSplitThen(o2, c + "");
    TokenizeWordThen(c, "");
  }

  /** An operator directly in front of a word. */
  lemma Prefixed(o: char, a: string)
    requires |a| > 0 && AllWordChars(a) && IsSplitChar(o)
    ensures Tokenize([o] + a) == [[o], a]
  {
    assert [o] + a == [o] + (a + "");
    TokenizeSplitThen(o, a + "");
    TokenizeWordThen(a, "");
  }

  /** A word followed by a space and an operator. */
  lemma Trailing(a: string, o: char)
    requires |a| > 0 && AllWordChars(a) && IsSplitChar(o)
    ensures Tokenize(a + " " + [o]) == [a, [o]]
  {
    assert a + " " + [o] == a + (" " + ([o] + ""));
    TokenizeWordThen(a, " " + ([o] + ""));
    TokenizeSpaceThen(' ', [o] + "");
    TokenizeSplitThen(o, "");
  }

  /** `(b o c)` with one space around the operator. */
  lemma SpacedParens(b: string, o: char, c: string)
    requires |b| > 0 && AllWordChars(b) && |c| > 0 && AllWordChars(c) && IsSplitChar(o)
    ensures Tokenize("(" + b + " " + [o] + " " + c + ")") == ["(", b, [o], c, ")"]
  {
    assert "(" + b + " " + [o] + " " + c + ")" == ['('] + (b + " " + [o] + " " + (c + [')']));
    TokenizeSplitThen('(', b + " " + [o] + " " + (c + [')']));
    SpacedPrefix(b, o, c + [')']);
    TokenizeWordThen(c, [')']);
    assert [')'] == [')'] + "";
    TokenizeSplitThen(')', "");
  }

  /** `a o1 (b o2 c)` with one space around each operator. */
  lemma SpacedGroup(a: string, o1: char, b: string, o2: char, c: string)
    requires |a| > 0 && AllWordChars(a) && |b| > 0 && AllWordChars(b) && |c| > 0 && AllWordChars(c)
    requires IsSplitChar(o1) && IsSplitChar(o2)
    ensures Tokenize(a + " " + [o1] + " (" + b + " " + [o2] + " " + c + ")")
         == [a, [o1], "(", b, [o2], c, ")"]
  {
    var rest := "(" + b + " " + [o2] + " " + c + ")";
    assert a + " " + [o1] + " (" + b + " " + [o2] + " " + c + ")" == a + " " + [o1] + " " + rest;
    SpacedPrefix(a, o1, rest);
    SpacedParens(b, o2, c);
  }

  lemma TokenizeSum()
    ensures Tokenize("1+2+3") == ["1", "+", "2", "+", "3"]
  {
    assert "1+2+3" == "1" + ['+'] + "2" + ['+'] + "3";
    Tight5("1", '+', "2", '+', "3");
  }

  lemma TokenizeNames()
    ensures Tokenize("40+2+asdf") == ["40", "+", "2", "+", "asdf"]
  {
    assert "40+2+asdf" == "40" + ['+'] + "2" + ['+'] + "asdf";
    Tight5("40", '+', "2", '+', "asdf");
  }

  lemma TokenizePair(o: char)
    requires IsSplitChar(o)
    ensures Tokenize("1 " + [o] + " 2") == ["1", [o], "2"]
  {
    assert "1 " + [o] + " 2" == "1" + " " + [o] + " " + "2";
    Spaced3("1", o, "2");
  }

  lemma TokenizeAnd()
    ensures Tokenize("#first & #second") == ["#first", "&", "#second"]
  {
    assert "#first & #second" == "#first" + " " + ['&'] + " " + "#second";
    Spaced3("#first", '&', "#second");
  }

  lemma TokenizeSumOfProduct()
    ensures Tokenize("1 + 2 * 3") == ["1", "+", "2", "*", "3"]
  {
    assert "1 + 2 * 3" == "1" + " " + ['+'] + " " + "2" + " " + ['*'] + " " + "3";
    Spaced5("1", '+', "2", '*', "3");
  }

  lemma TokenizeProductPlus()
    ensures Tokenize("1 * 2 + 3") == ["1", "*", "2", "+", "3"]
  {
    assert "1 * 2 + 3" == "1" + " " + ['*'] + " " + "2" + " " + ['+'] + " " + "3";
    Spaced5("1", '*', "2", '+', "3");
  }

  lemma TokenizeQuotient()
    ensures Tokenize("10 / 2 + 1") == ["10", "/", "2", "+", "1"]
  {
    assert "10 / 2 + 1" == "10" + " " + ['/'] + " " + "2" + " " + ['+'] + " " + "1";
    Spaced5("10", '/', "2", '+', "1");
  }

  lemma TokenizeGroup()
    ensures Tokenize("1 * (2 + 3)") == ["1", "*", "(", "2", "+", "3", ")"]
  {
    assert "1 * (2 + 3)" == "1" + " " + ['*'] + " (" + "2" + " " + ['+'] + " " + "3" + ")";
    SpacedGroup("1", '*', "2", '+', "3");
  }

  lemma TokenizeSigned()
    ensures Tokenize("-42") == ["-", "42"]
    ensures Tokenize("+42") == ["+", "42"]
    ensures Tokenize("!thisOne") == ["!", "thisOne"]
  {
    assert "-42" == ['-'] + "42";
    Prefixed('-', "42");
    assert "+42" == ['+'] + "42";
    Prefixed('+', "42");
    assert "!thisOne" == ['!'] + "thisOne";
    Prefixed('!', "thisOne");
  }

  lemma TokenizeTrailing()
    ensures Tokenize("42 -") == ["42", "-"]
  {
    assert "42 -" == "42" + " " + ['-'];
    Trailing("42", '-');
  }
}

=== FILE: holders.dfy ===
/** State projection, the sweep's layer holding (supertimeline/src/state.rs): the instances that
    aspire to a layer are kept in precedence order, and the head of that list holds the layer;
    a handover caps the old holder's state instance and starts a new one for the new holder. */
module Holders {
  import opened Base
  import opened InstanceTypes
  import opened Sorting
  import opened State
  import Api

  // ---------------------------------------------------------------------------------------------
  // resolve_all_states, step 2: the sweep

  /** Layer precedence: higher priority first, then the later start, then the smaller id. */
  function Precedence(a: PointObj, b: PointObj): Ordering {
    if a.info.priority < b.info.priority then Greater
    else if a.info.priority > b.info.priority then Less
    else if a.instance.start < b.instance.start then Greater
    else if a.instance.start > b.instance.start then Less
    else StrCmp(a.info.id, b.info.id)
  }

  lemma PrecedenceAntisymmetric()
    ensures Antisymmetric(Precedence)
  {
    forall a: PointObj, b: PointObj | Precedence(a, b) == Less ensures Precedence(b, a) != Less {
      StrCmpFlip(a.info.id, b.info.id);
    }
  }

  lemma PrecedenceTrans(a: PointObj, b: PointObj, c: PointObj)
    requires Precedence(b, a) != Less && Precedence(c, b) != Less
    ensures Precedence(c, a) != Less
  {
    if c.info.priority == b.info.priority == a.info.priority && c.instance.start == b.instance.start == a.instance.start {
      StrCmpGeTrans(c.info.id, b.info.id, a.info.id);
    }
  }

  /** With the transitive precedence, a sort without adjacent inversions is globally sorted. */
  lemma {:induction false} AdjacentToSorted(s: seq<PointObj>)
    requires NoAdjacentInversion(s, Precedence)
    ensures SortedBy(s, Precedence)
  {
    if |s| > 1 {
      var init := s[..|s| - 1];
      assert NoAdjacentInversion(init, Precedence) by {
        forall k | 0 < k < |init| ensures Precedence(init[k], init[k - 1]) != Less {
          assert init[k] == s[k] && init[k - 1] == s[k - 1];
        }
      }
      AdjacentToSorted(init);
      forall i, j | 0 <= i < j < |s| ensures Precedence(s[j], s[i]) != Less {
        if j < |s| - 1 {
          assert s[j] == init[j] && s[i] == init[i];
        } else if i < j - 1 {
          assert s[i] == init[i] && s[j - 1] == init[j - 1];
          PrecedenceTrans(s[i], s[j - 1], s[j]);
        }
      }
    }
  }

  /** An object's instances leave its layer's aspiring list. */
  function RemoveObject(aspiring: seq<PointObj>, id: string): (r: seq<PointObj>)
    ensures forall x :: x in r <==> x in aspiring && x.info.id != id
  {
    if |aspiring| == 0 then []
    else if aspiring[0].info.id != id then [aspiring[0]] + RemoveObject(aspiring[1..], id)
    else RemoveObject(aspiring[1..], id)
  }

  /** A sorted list without its head is sorted, and its head precedes the rest. */
  lemma SortedTail(s: seq<PointObj>)
    requires SortedBy(s, Precedence) && |s| > 0
    ensures SortedBy(s[1..], Precedence)
    ensures forall x :: x in s[1..] ==> Precedence(x, s[0]) != Less
  {
    var tail := s[1..];
    forall i, j | 0 <= i < j < |tail| ensures Precedence(tail[j], tail[i]) != Less {
      assert tail[j] == s[j + 1] && tail[i] == s[i + 1];
    }
    forall x | x in tail ensures Precedence(x, s[0]) != Less {
      var m :| 0 <= m < |tail| && tail[m] == x;
      assert s[m + 1] == x;
    }
  }

  /** A head that precedes a sorted rest makes a sorted list. */
  lemma SortedCons(h: PointObj, rest: seq<PointObj>)
    requires SortedBy(rest, Precedence)
    requires forall x :: x in rest ==> Precedence(x, h) != Less
    ensures SortedBy([h] + rest, Precedence)
  {
    var r := [h] + rest;
    forall i, j | 0 <= i < j < |r| ensures Precedence(r[j], r[i]) != Less {
      assert r[j] == rest[j - 1];
      if i > 0 {
        assert r[i] == rest[i - 1];
      }
    }
  }

  /** Leaving the list keeps it in precedence order. */
  lemma {:induction false} RemoveObjectSorted(aspiring: seq<PointObj>, id: string)
    ensures SortedBy(aspiring, Precedence) ==> SortedBy(RemoveObject(aspiring, id), Precedence)
  {
    if |aspiring| > 0 && SortedBy(aspiring, Precedence) {
      SortedTail(aspiring);
      RemoveObjectSorted(aspiring[1..], id);
      if aspiring[0].info.id != id {
        SortedCons(aspiring[0], RemoveObject(aspiring[1..], id));
      }
    }
  }

  /** An instance joins its layer's aspiring list, which is kept in precedence order. */
  function Aspire(aspiring: seq<PointObj>, o: PointObj): (r: seq<PointObj>)
    ensures multiset(r) == multiset(aspiring) + multiset{o}
    ensures SortedBy(r, Precedence)
  {
    PrecedenceAntisymmetric();
    SortedHasNoInversion(aspiring + [o], Precedence);
    var r := InsertionSort(aspiring + [o], Precedence);
    AdjacentToSorted(r);
    r
  }

  /** The head of a sorted aspiring list holds the layer: no other instance on it has a higher
      priority, or the same priority and a later start, or both the same and a smaller id. */
  lemma TopOfLayer(aspiring: seq<PointObj>)
    requires SortedBy(aspiring, Precedence) && |aspiring| > 0
    ensures forall x :: x in aspiring ==>
              x.info.priority <= aspiring[0].info.priority &&
              (x.info.priority == aspiring[0].info.priority ==> x.instance.start <= aspiring[0].instance.start) &&
              (x.info.priority == aspiring[0].info.priority && x.instance.start == aspiring[0].instance.start ==>
                 StrCmp(x.info.id, aspiring[0].info.id) != Less)
  {
    forall x | x in aspiring
      ensures x.info.priority <= aspiring[0].info.priority &&
              (x.info.priority == aspiring[0].info.priority ==> x.instance.start <= aspiring[0].instance.start) &&
              (x.info.priority == aspiring[0].info.priority && x.instance.start == aspiring[0].instance.start ==>
                 StrCmp(x.info.id, aspiring[0].info.id) != Less)
    {
      var j :| 0 <= j < |aspiring| && aspiring[j] == x;
      if j == 0 {
        StrCmpFlip(x.info.id, x.info.id);
      }
    }
  }

  /** The sweep's state. */
  datatype Sweep = Sweep(
    current: map<string, Holder>,             // `current_state`, by layer
    active: map<string, Holder>,              // `active_object_ids`
    activeKeyframes: map<string, PointObj>,   // `active_keyframes`
    keyframeOrder: seq<string>,               // the iteration order of `active_keyframes`
    checked: set<string>,                     // `active_keyframes_checked`
    eventTimes: set<Time>,                    // `event_object_times`
    aspiring: map<string, seq<PointObj>>,     // `aspiring_instances`, by layer
    keyframeEvents: seq<NextEvent>,
    rs: ResolvedStates
  )

  /** What the sweep keeps true: the heap references are valid, every object record is filed
      under its own id, every aspiring list is in precedence order, and the keyframe iteration
      order lists the active keyframes once. */
  ghost predicate SweepInv(sw: Sweep) {
    StateRefs(sw.rs.state, |sw.rs.heap|) &&
    (forall id :: id in sw.rs.objects ==> sw.rs.objects[id].info.id == id) &&
    (forall l :: l in sw.current ==> sw.current[l].ref < |sw.rs.heap|) &&
    (forall l :: l in sw.aspiring ==> SortedBy(sw.aspiring[l], Precedence)) &&
    (forall id :: id in sw.keyframeOrder <==> id in sw.activeKeyframes)
  }

  /** The instance a new holder gets: it starts now, is open, remembers its source, and fills in
      the original bounds the source had not recorded; everything else is the source's. */
  function StateInstance(raw: TimelineInstance, time: Time): (r: TimelineInstance)
    ensures r.start == time && r.end.None? && r.fromInstanceId == Some(raw.id)
    ensures r.originalStart == (if raw.originalStart.None? then Some(raw.start) else raw.originalStart)
    ensures r.originalEnd == (if raw.originalEnd.None? then raw.end else raw.originalEnd)
    ensures r.id == raw.id && r.isFirst == raw.isFirst && r.references == raw.references && r.caps == raw.caps
  {
    raw.(start := time, end := None, fromInstanceId := Some(raw.id),
         originalEnd := if raw.originalEnd.None? then raw.end else raw.originalEnd,
         originalStart := if raw.originalStart.None? then Some(raw.start) else raw.originalStart)
  }

  /** Makes an instance id differ from the object's existing ids by suffixing `_$n`, comparing
      against the ids in turn. */
  function Uniquify(id: string, ids: seq<string>, n: nat): (r: string)
    ensures id !in ids ==> r == id
    ensures id in ids ==> |r| > |id| && r[..|id|] == id
    decreases |ids|
  {
    if |ids| == 0 then id
    else
      var next := if ids[0] == id then id + "_$" + NatToString(n) else id;
      var r := Uniquify(next, ids[1..], n);
      assert next[..|id|] == id;
      assert |r| >= |next| && r[..|next|] == next;
      assert r[..|id|] == next[..|id|];
      r
  }

  /** The old holder loses its layer at `time`: its state instance is capped there (the first
      original end is kept), it is no longer active, and an `End` event is recorded unless it is
      not after `onlyForTime`. */
  function EndHolder(sw: Sweep, prev: Holder, time: Time, pointEnd: Option<Time>, onlyForTime: Option<Time>): (r: Sweep)
    requires prev.ref < |sw.rs.heap|
    ensures r.rs.heap == sw.rs.heap[prev.ref := SetEndTime(sw.rs.heap[prev.ref], time)]
    ensures r.active == sw.active - {prev.info.id}
    ensures (onlyForTime.None? || time > onlyForTime.value) ==> r.rs.nextEvents == sw.rs.nextEvents + [NextEvent(EndEvent, time, prev.info.id)]
    ensures !(onlyForTime.None? || time > onlyForTime.value) ==> r.rs.nextEvents == sw.rs.nextEvents
    ensures r.current == sw.current && r.aspiring == sw.aspiring && r.rs.state == sw.rs.state && r.rs.objects == sw.rs.objects
    ensures r.activeKeyframes == sw.activeKeyframes && r.keyframeOrder == sw.keyframeOrder && r.checked == sw.checked
  {
    var addEvent := onlyForTime.None? || time > onlyForTime.value;
    var events := if addEvent then sw.rs.nextEvents + [NextEvent(EndEvent, time, prev.info.id)] else sw.rs.nextEvents;
    var times := if addEvent && pointEnd.Some? then sw.eventTimes + {pointEnd.value} else sw.eventTimes;
    sw.(active := sw.active - {prev.info.id}, eventTimes := times, rs := CapInHeap(sw.rs, prev.ref, time, events))
  }

  /** The heap instance `ref` ends at `time`; the event list becomes `events`. */
  function CapInHeap(rs: ResolvedStates, ref: nat, time: Time, events: seq<NextEvent>): (r: ResolvedStates)
    requires ref < |rs.heap|
    ensures r.heap == rs.heap[ref := SetEndTime(rs.heap[ref], time)]
    ensures r.nextEvents == events && r.state == rs.state && r.objects == rs.objects && r.layers == rs.layers
  {
    rs.(heap := rs.heap[ref := SetEndTime(rs.heap[ref], time)], nextEvents := events)
  }

  /** Which reading of the sweep is followed. `AsWritten` is the crate: the `Start` event of a
      handover names the object of the point being handled, and a newly applied keyframe loses its
      applied mark again. `Corrected` names the new holder and keeps the mark (README, Findings). */
  datatype Reading = AsWritten | Corrected

  /** The object whose `Start` event records a handover: as written, the object of the point being
      handled, which is not the new holder when a lower instance takes over; corrected, the new
      holder. */
  function StartEventObject(reading: Reading, point: PointObj, top: PointObj): string {
    if reading == AsWritten then point.info.id else top.info.id
  }

  /** The record of `top`'s object, created on first use (its layer then indexed), with a new
      state instance for `top` from `time` under an id made unique among the record's ids. */
  function AdoptInstance(rs: ResolvedStates, top: PointObj, time: Time): (r: (StatesForObject, map<string, seq<string>>, TimelineInstance))
    ensures var (record, layers, inst) := r;
            inst == StateInstance(top.instance, time).(id := inst.id) &&
            inst.id in record.instances && record.instances[inst.id] == |rs.heap| &&
            record.info == (if top.info.id in rs.objects then rs.objects[top.info.id].info else top.info) &&
            (top.info.id in rs.objects && top.instance.id in rs.objects[top.info.id].ids ==> inst.id != top.instance.id)
  {
    var existing := top.info.id in rs.objects;
    var obj0 := if existing then rs.objects[top.info.id] else StatesForObject(top.info, map[], []);
    var layers := if !existing && obj0.info.layer != "" then Api.Push(rs.layers, obj0.info.layer, obj0.info.id) else rs.layers;
    var started := StateInstance(top.instance, time);
    var id := Uniquify(started.id, obj0.ids, |obj0.instances|);
    var obj1 := obj0.(instances := obj0.instances[id := |rs.heap|], ids := if id in obj0.instances then obj0.ids else obj0.ids + [id]);
    (obj1, layers, started.(id := id))
  }

  /** After `sw`, `top`'s object holds its layer from `time` in `r`: the layer's current holder and
      its state at `time` are the new heap instance, made from `top`'s instance, under the record
      of `top`'s object, and that object is active with it. */
  predicate TakesLayer(sw: Sweep, r: Sweep, top: PointObj, time: Time) {
    |r.rs.heap| == |sw.rs.heap| + 1 && top.info.id in r.rs.objects &&
    var o := r.rs.objects[top.info.id];
    var holder := Holder(o.info, r.rs.heap[|sw.rs.heap|].id, |sw.rs.heap|);
    o.info.id == top.info.id &&
    r.rs.heap[|sw.rs.heap|].fromInstanceId == Some(top.instance.id) && r.rs.heap[|sw.rs.heap|].start == time &&
    r.current == sw.current[o.info.layer := holder] &&
    r.rs.state == SetStateAtTime(sw.rs.state, o.info.layer, time, Some(holder)) &&
    o.info.id in r.active && r.active[o.info.id] == holder
  }

  /** The new top instance takes the layer at `time`: its state instance (see `AdoptInstance`)
      becomes the layer's holder, an active object and the layer's state; a `Start` event is
      recorded when `time` is after `onlyForTime` (or 0). */
  function PutOnTop(reading: Reading, sw: Sweep, top: PointObj, point: PointObj, time: Time, onlyForTime: Option<Time>): (r: Sweep)
    requires SweepInv(sw)
    ensures SweepInv(r)
    ensures |r.rs.heap| == |sw.rs.heap| + 1 && r.rs.heap == sw.rs.heap + [r.rs.heap[|sw.rs.heap|]]
    ensures var h := r.rs.heap[|sw.rs.heap|];
            h.start == time && h.end.None? && h.fromInstanceId == Some(top.instance.id) && h.references == top.instance.references
    ensures top.info.id in r.rs.objects && (top.info.id !in sw.rs.objects ==> r.rs.objects[top.info.id].info == top.info)
    ensures var o := r.rs.objects[top.info.id]; var holder := Holder(o.info, r.rs.heap[|sw.rs.heap|].id, |sw.rs.heap|);
            r.current == sw.current[o.info.layer := holder] && r.active == sw.active[o.info.id := holder]
    ensures TakesLayer(sw, r, top, time)
    ensures time > onlyForTime.GetOr(0) && reading == AsWritten ==> r.rs.nextEvents == sw.rs.nextEvents + [NextEvent(StartEvent, time, point.info.id)]
    ensures time > onlyForTime.GetOr(0) && reading == Corrected ==> r.rs.nextEvents == sw.rs.nextEvents + [NextEvent(StartEvent, time, top.info.id)]
    ensures !(time > onlyForTime.GetOr(0)) ==> r.rs.nextEvents == sw.rs.nextEvents
    ensures r.aspiring == sw.aspiring && r.activeKeyframes == sw.activeKeyframes && r.keyframeOrder == sw.keyframeOrder
  {
    var (record, layers, inst) := AdoptInstance(sw.rs, top, time);
    var holder := Holder(record.info, inst.id, |sw.rs.heap|);
    var addEvent := time > onlyForTime.GetOr(0);
    var events := if addEvent then sw.rs.nextEvents + [NextEvent(StartEvent, time, StartEventObject(reading, point, top))] else sw.rs.nextEvents;
    var times := if addEvent then sw.eventTimes + {time} else sw.eventTimes;
    var r := Install(sw, holder, inst, time, sw.rs.objects[top.info.id := record], layers, events, times);
    InstalledTakesLayer(sw, r, top, holder, time);
    r
  }

  /** An installed holder made from `top`'s instance, under the record of `top`'s object, means
      that object takes the layer. */
  lemma InstalledTakesLayer(sw: Sweep, r: Sweep, top: PointObj, holder: Holder, time: Time)
    requires holder.ref == |sw.rs.heap| && |r.rs.heap| == |sw.rs.heap| + 1 && holder.instanceId == r.rs.heap[holder.ref].id
    requires top.info.id in r.rs.objects && r.rs.objects[top.info.id].info == holder.info && holder.info.id == top.info.id
    requires r.rs.heap[holder.ref].fromInstanceId == Some(top.instance.id) && r.rs.heap[holder.ref].start == time
    requires r.current == sw.current[holder.info.layer := holder] && r.active == sw.active[holder.info.id := holder]
    requires r.rs.state == SetStateAtTime(sw.rs.state, holder.info.layer, time, Some(holder))
    ensures TakesLayer(sw, r, top, time)
  {
  }

  /** The holder and its heap instance take their layer at `time`. */
  function Install(sw: Sweep, holder: Holder, inst: TimelineInstance, time: Time, objects: map<string, StatesForObject>,
                   layers: map<string, seq<string>>, events: seq<NextEvent>, times: set<Time>): (r: Sweep)
    requires SweepInv(sw) && holder.ref == |sw.rs.heap|
    requires forall id :: id in objects ==> objects[id].info.id == id
    ensures SweepInv(r)
    ensures r.rs.heap == sw.rs.heap + [inst]
    ensures r.current == sw.current[holder.info.layer := holder] && r.active == sw.active[holder.info.id := holder]
    ensures r.rs.state == SetStateAtTime(sw.rs.state, holder.info.layer, time, Some(holder))
    ensures r.rs.objects == objects && r.rs.layers == layers && r.rs.nextEvents == events && r.eventTimes == times
    ensures r.aspiring == sw.aspiring && r.activeKeyframes == sw.activeKeyframes && r.keyframeOrder == sw.keyframeOrder
  {
    var r := sw.(current := sw.current[holder.info.layer := holder], active := sw.active[holder.info.id := holder], eventTimes := times,
                 rs := ResolvedStates(SetStateAtTime(sw.rs.state, holder.info.layer, time, Some(holder)), events, objects, layers, sw.rs.heap + [inst]));
    HolderKeepsInv(sw, holder.info.layer, holder, time, r);
    r
  }

  /** A fresh heap instance taking a layer keeps the sweep's invariant. */
  lemma HolderKeepsInv(sw: Sweep, layer: string, holder: Holder, time: Time, r: Sweep)
    requires SweepInv(sw)
    requires holder.ref == |sw.rs.heap| && |r.rs.heap| == |sw.rs.heap| + 1
    requires r.current == sw.current[layer := holder]
    requires r.rs.state == SetStateAtTime(sw.rs.state, layer, time, Some(holder))
    requires r.aspiring == sw.aspiring && r.keyframeOrder == sw.keyframeOrder && r.activeKeyframes == sw.activeKeyframes
    requires forall id :: id in r.rs.objects ==> r.rs.objects[id].info.id == id
    ensures SweepInv(r)
  {
    StateRefsGrow(sw.rs.state, |sw.rs.heap|, |r.rs.heap|);
  }

  lemma StateRefsGrow(state: AllStates, n: nat, m: nat)
    requires StateRefs(state, n) && n <= m
    ensures StateRefs(state, m)
  {
  }

  /** Whether the point's instance wants the layer: it is active at `time`, and a child only when
      its parent has no layer or is currently active. */
  function ToBeEnabled(objects: map<string, Api.ResolvedObject>, active: map<string, Holder>, o: PointObj, time: Time): (r: bool)
    ensures r ==> Contains(o.instance, time)
    ensures r && o.info.parentId.Some? && o.info.parentId.value in objects ==>
              objects[o.info.parentId.value].info.layer == "" || objects[o.info.parentId.value].info.id in active
    ensures Contains(o.instance, time) && (o.info.parentId.None? || o.info.parentId.value !in objects) ==> r
  {
    if !Contains(o.instance, time) then false
    else if o.info.parentId.Some? && o.info.parentId.value in objects then
      var parent := objects[o.info.parentId.value];
      parent.info.layer == "" || parent.info.id in active
    else true
  }

  /** A point of a layer object: the instance joins its layer's aspiring list when it wants the
      layer, and leaves it otherwise; then the head of the list takes the layer (`Handover`). */
  function LayerPoint(reading: Reading, objects: map<string, Api.ResolvedObject>, onlyForTime: Option<Time>, time: Time, sw: Sweep, o: Point): (r: Sweep)
    requires SweepInv(sw)
    ensures SweepInv(r)
    ensures var layer := o.obj.info.layer;
            layer in r.aspiring &&
            (ToBeEnabled(objects, sw.active, o.obj, time) ==> o.obj in r.aspiring[layer]) &&
            (!ToBeEnabled(objects, sw.active, o.obj, time) ==> forall x :: x in r.aspiring[layer] ==> x.info.id != o.obj.info.id)
    ensures var layer := o.obj.info.layer; var asp := r.aspiring[layer];
            (|asp| > 0 && !HeadHolds(sw.current, layer, asp) ==> TakesLayer(sw, r, asp[0], time)) &&
            (HeadHolds(sw.current, layer, asp) ==> r.current == sw.current && r.rs == sw.rs) &&
            (|asp| == 0 && layer in sw.current ==> layer !in r.current && layer in r.rs.state && time in r.rs.state[layer] && r.rs.state[layer][time].None?)
  {
    var layer := o.obj.info.layer;
    var before := if layer in sw.aspiring then sw.aspiring[layer] else [];
    var enable := ToBeEnabled(objects, sw.active, o.obj, time);
    var after := if enable then Aspire(before, o.obj) else RemoveObject(before, o.obj.info.id);
    RemoveObjectSorted(before, o.obj.info.id);
    assert enable ==> o.obj in multiset(after);
    var sw0 := sw.(aspiring := sw.aspiring[layer := after]);
    AspiringKeepsInv(sw, layer, after);
    Handover(reading, sw0, layer, time, o.obj, onlyForTime)
  }

  lemma AspiringKeepsInv(sw: Sweep, layer: string, after: seq<PointObj>)
    requires SweepInv(sw) && SortedBy(after, Precedence)
    ensures SweepInv(sw.(aspiring := sw.aspiring[layer := after]))
  {
  }

  /** A sweep state that agrees with an invariant one on what the invariant reads, with no fewer
      heap entries, is invariant too. */
  lemma InvFrame(sw: Sweep, r: Sweep)
    requires SweepInv(sw)
    requires r.rs.state == sw.rs.state && |r.rs.heap| >= |sw.rs.heap| && r.current == sw.current && r.rs.objects == sw.rs.objects
    requires r.aspiring == sw.aspiring && r.keyframeOrder == sw.keyframeOrder && r.activeKeyframes == sw.activeKeyframes
    ensures SweepInv(r)
  {
    StateRefsGrow(sw.rs.state, |sw.rs.heap|, |r.rs.heap|);
  }

  /** The head of the aspiring list already holds the layer: the same object and instance id. */
  predicate HeadHolds(current: map<string, Holder>, layer: string, aspiring: seq<PointObj>) {
    |aspiring| > 0 && layer in current && current[layer].info.id == aspiring[0].info.id && current[layer].instanceId == aspiring[0].instanceId
  }

  /** After the aspiring list of `layer` changed, its head takes the layer (`Replace`) unless it
      already holds it, and an empty list vacates the layer (`Vacate`). */
  function Handover(reading: Reading, sw: Sweep, layer: string, time: Time, point: PointObj, onlyForTime: Option<Time>): (r: Sweep)
    requires SweepInv(sw) && layer in sw.aspiring
    ensures SweepInv(r) && r.aspiring == sw.aspiring
    ensures |sw.aspiring[layer]| == 0 && layer !in sw.current ==> r == sw
    ensures HeadHolds(sw.current, layer, sw.aspiring[layer]) ==> r == sw
    ensures |sw.aspiring[layer]| > 0 && !HeadHolds(sw.current, layer, sw.aspiring[layer]) ==> TakesLayer(sw, r, sw.aspiring[layer][0], time)
    ensures |sw.aspiring[layer]| == 0 && layer in sw.current ==>
              layer !in r.current && layer in r.rs.state && time in r.rs.state[layer] && r.rs.state[layer][time].None?
  {
    var asp := sw.aspiring[layer];
    if HeadHolds(sw.current, layer, asp) || (|asp| == 0 && layer !in sw.current) then sw
    else if |asp| > 0 then Replace(reading, sw, layer, asp[0], time, point, onlyForTime)
    else Vacate(sw, layer, time, point, onlyForTime)
  }

  /** Object `a` (priority 1, instance `@0` over 0–10) on layer `L`. */
  function ExampleA(): PointObj {
    PointObj(ObjectInfo("a", [], 1, false, "L", 0, None, false), "@0", NewInstance("@0", 0, Some(10), {}, []))
  }

  /** Object `b` (priority 0, instance `@1` over 0–20) on layer `L`. */
  function ExampleB(): PointObj {
    PointObj(ObjectInfo("b", [], 0, false, "L", 0, None, false), "@1", NewInstance("@1", 0, Some(20), {}, []))
  }

  /** `a`'s holding of `L`: its state instance is heap entry `0`. */
  function ExampleHolder(): Holder {
    Holder(ExampleA().info, "@0", 0)
  }

  /** The sweep just before 10: `a` holds `L`, and `b` aspires to it. */
  function ExampleSweep(): (r: Sweep)
    ensures SweepInv(r)
  {
    var a := ExampleA();
    Sweep(map["L" := ExampleHolder()], map["a" := ExampleHolder()], map[], [], {}, {}, map["L" := [a, ExampleB()]], [],
          ResolvedStates(map["L" := map[0 := Some(LayerState("a", Some("@0"), Some(0), []))]], [], map[], map[], [a.instance]))
  }

  /** The sweep at 10 once `a` has left the aspiring list of `L`. */
  function ExampleLeft(): (r: Sweep)
    ensures SweepInv(r) && "L" in r.current && r.current["L"] == ExampleHolder() && |r.rs.heap| == 1
  {
    ExampleSweep().(aspiring := map["L" := [ExampleB()]])
  }

  /** `a`'s end point at 10 removes it from the aspiring list, and `b`, now the head, takes `L` from
      `a`. */
  lemma ExampleEndPoint(reading: Reading)
    ensures LayerPoint(reading, map[], None, 10, ExampleSweep(), Point(10, false, ExampleA())) ==
            Takeover(reading, ExampleLeft(), ExampleHolder(), ExampleB(), 10, ExampleA(), None)
  {
    var a, b, sw := ExampleA(), ExampleB(), ExampleSweep();
    assert !ToBeEnabled(map[], sw.active, a, 10);
    assert RemoveObject([a, b], "a") == [b] by {
      assert [a, b][1..] == [b] && [b][1..] == [];
    }
    assert sw.aspiring["L" := [b]] == map["L" := [b]];
    assert !HeadHolds(ExampleLeft().current, "L", [b]);
  }

  /** The sweep at 10 once `a`'s state instance is capped, with an `End` event for `a`. */
  function ExampleEnded(): (r: Sweep)
    ensures SweepInv(r) && r.rs.nextEvents == [NextEvent(EndEvent, 10, "a")] && r.rs.objects == map[] && |r.rs.heap| == 1
  {
    var r := EndHolder(ExampleLeft(), ExampleHolder(), 10, ExampleA().instance.end, None);
    InvFrame(ExampleLeft(), r);
    r
  }

  /** The takeover at 10 is `a`'s capping followed by `b` taking the top. */
  lemma ExampleTakeover(reading: Reading)
    ensures Takeover(reading, ExampleLeft(), ExampleHolder(), ExampleB(), 10, ExampleA(), None) ==
            PutOnTop(reading, ExampleEnded(), ExampleB(), ExampleA(), 10, None)
  {
  }

  /** `b` takes the top at 10: it gets a new state instance and holds `L`, and a `Start` event is
      recorded for the object `reading` names. */
  lemma ExamplePutOnTop(reading: Reading)
    ensures var r := PutOnTop(reading, ExampleEnded(), ExampleB(), ExampleA(), 10, None);
            |r.rs.heap| == 2 && r.rs.heap[1].fromInstanceId == Some("@1") && r.current["L"].info.id == "b" &&
            r.rs.nextEvents == [NextEvent(EndEvent, 10, "a"), NextEvent(StartEvent, 10, if reading == AsWritten then "a" else "b")]
  {
    var r := PutOnTop(reading, ExampleEnded(), ExampleB(), ExampleA(), 10, None);
    assert r.rs.objects["b"].info == ExampleB().info;
  }

  /** As written, the handover at 10 records its `Start` event for `a`, the object that just ended,
      although the new state instance is `b`'s. */
  lemma StartEventNamesEndingObject()
    ensures var r := LayerPoint(AsWritten, map[], None, 10, ExampleSweep(), Point(10, false, ExampleA()));
            |r.rs.heap| == 2 && r.rs.heap[1].fromInstanceId == Some("@1") && r.current["L"].info.id == "b" &&
            r.rs.nextEvents == [NextEvent(EndEvent, 10, "a"), NextEvent(StartEvent, 10, "a")]
  {
    ExampleEndPoint(AsWritten);
    ExampleTakeover(AsWritten);
    ExamplePutOnTop(AsWritten);
  }

  /** Corrected, the same handover records its `Start` event for `b`, the new holder. */
  lemma StartEventNamesNewHolder()
    ensures var r := LayerPoint(Corrected, map[], None, 10, ExampleSweep(), Point(10, false, ExampleA()));
            |r.rs.heap| == 2 && r.rs.heap[1].fromInstanceId == Some("@1") && r.current["L"].info.id == "b" &&
            r.rs.nextEvents == [NextEvent(EndEvent, 10, "a"), NextEvent(StartEvent, 10, "b")]
  {
    ExampleEndPoint(Corrected);
    ExampleTakeover(Corrected);
    ExamplePutOnTop(Corrected);
  }

  /** The head `top` of the layer's aspiring list takes the layer from its holder, if any: the
      holder's state instance ends at `time`, a new state instance of `top` starts there, and the
      `Start` event names the handled point's object as written, `top` corrected. */
  function Replace(reading: Reading, sw: Sweep, layer: string, top: PointObj, time: Time, point: PointObj, onlyForTime: Option<Time>): (r: Sweep)
    requires SweepInv(sw)
    ensures SweepInv(r) && r.aspiring == sw.aspiring
    ensures |r.rs.heap| == |sw.rs.heap| + 1
    ensures var h := r.rs.heap[|sw.rs.heap|]; h.start == time && h.end.None? && h.fromInstanceId == Some(top.instance.id)
    ensures layer in sw.current ==> var prev := sw.current[layer].ref;
              prev < |sw.rs.heap| && r.rs.heap[prev] == SetEndTime(sw.rs.heap[prev], time)
    ensures TakesLayer(sw, r, top, time)
    ensures time > onlyForTime.GetOr(0) ==>
              |r.rs.nextEvents| > 0 && r.rs.nextEvents[|r.rs.nextEvents| - 1] == NextEvent(StartEvent, time, if reading == AsWritten then point.info.id else top.info.id)
  {
    if layer in sw.current then
      var prev := sw.current[layer];
      assert prev.ref < |sw.rs.heap|;
      Takeover(reading, sw, prev, top, time, point, onlyForTime)
    else
      var r := PutOnTop(reading, sw, top, point, time, onlyForTime);
      if time > onlyForTime.GetOr(0) then
        LastEvent(sw.rs.nextEvents, r.rs.nextEvents, NextEvent(StartEvent, time, if reading == AsWritten then point.info.id else top.info.id));
        r
      else r
  }

  /** The event appended last is the last event. */
  lemma LastEvent(before: seq<NextEvent>, after: seq<NextEvent>, e: NextEvent)
    requires after == before + [e]
    ensures |after| > 0 && after[|after| - 1] == e
  {
  }

  /** The holder `prev` ends at `time` and `top` takes its place. */
  function Takeover(reading: Reading, sw: Sweep, prev: Holder, top: PointObj, time: Time, point: PointObj, onlyForTime: Option<Time>): (r: Sweep)
    requires SweepInv(sw) && prev.ref < |sw.rs.heap|
    ensures SweepInv(r) && r.aspiring == sw.aspiring
    ensures |r.rs.heap| == |sw.rs.heap| + 1
    ensures var h := r.rs.heap[|sw.rs.heap|]; h.start == time && h.end.None? && h.fromInstanceId == Some(top.instance.id)
    ensures r.rs.heap[prev.ref] == SetEndTime(sw.rs.heap[prev.ref], time)
    ensures TakesLayer(sw, r, top, time) && (prev.info.id != top.info.id ==> prev.info.id !in r.active)
    ensures time > onlyForTime.GetOr(0) ==>
              |r.rs.nextEvents| > 0 && r.rs.nextEvents[|r.rs.nextEvents| - 1] == NextEvent(StartEvent, time, if reading == AsWritten then point.info.id else top.info.id)
  {
    var sw1 := EndHolder(sw, prev, time, point.instance.end, onlyForTime);
    InvFrame(sw, sw1);
    var r := PutOnTop(reading, sw1, top, point, time, onlyForTime);
    TakesLayerFrom(sw, sw1, r, prev, top, time);
    r
  }

  /** Taking a layer after the previous holder was capped (a step that kept the holders and the
      layer states and capped one heap entry) is taking it from before the cap, with the capped
      entry kept. */
  lemma TakesLayerFrom(sw: Sweep, sw1: Sweep, r: Sweep, prev: Holder, top: PointObj, time: Time)
    requires prev.ref < |sw.rs.heap|
    requires sw1.current == sw.current && sw1.rs.state == sw.rs.state
    requires sw1.rs.heap == sw.rs.heap[prev.ref := SetEndTime(sw.rs.heap[prev.ref], time)]
    requires sw1.active == sw.active - {prev.info.id}
    requires TakesLayer(sw1, r, top, time) && r.rs.heap == sw1.rs.heap + [r.rs.heap[|sw1.rs.heap|]]
    requires r.active == sw1.active[top.info.id := r.active[top.info.id]]
    ensures TakesLayer(sw, r, top, time) && |r.rs.heap| == |sw.rs.heap| + 1
    ensures r.rs.heap[prev.ref] == SetEndTime(sw.rs.heap[prev.ref], time)
    ensures prev.info.id != top.info.id ==> prev.info.id !in r.active
  {
  }

  /** The layer's holder leaves and nobody takes over: its state instance ends at `time`, and the
      layer's state from `time` is `None`. */
  function Vacate(sw: Sweep, layer: string, time: Time, point: PointObj, onlyForTime: Option<Time>): (r: Sweep)
    requires SweepInv(sw) && layer in sw.current
    ensures SweepInv(r) && r.aspiring == sw.aspiring
    ensures layer !in r.current && layer in r.rs.state && time in r.rs.state[layer] && r.rs.state[layer][time].None?
    ensures |r.rs.heap| == |sw.rs.heap| && r.rs.heap[sw.current[layer].ref] == SetEndTime(sw.rs.heap[sw.current[layer].ref], time)
    ensures sw.current[layer].info.id !in r.active
  {
    var sw1 := EndHolder(sw, sw.current[layer], time, point.instance.end, onlyForTime);
    InvFrame(sw, sw1);
    var r := sw1.(current := sw1.current - {layer}, rs := sw1.rs.(state := SetStateAtTime(sw1.rs.state, layer, time, None)));
    assert SweepInv(r);
    r
  }
}

=== FILE: instance.dfy ===
/** The records the resolver works on (supertimeline/src/instance.rs), the value a lookup produces
    (`LookupExpressionResultType`, `TimeWithReference`), and the three helpers of util.rs that only
    rewrite one instance: `set_instance_end_time`, `set_instance_start_time` and
    `add_caps_to_resuming`. They live here, before the event sweep, because the sweep calls them
    and util.rs in turn calls the sweep. */
module InstanceTypes {
  import opened Base
  import opened Ast
  import Caps

  /** `TimelineObjectInstance`: the interval `[start, end)`, `end == None` meaning unbounded. */
  datatype TimelineInstance = TimelineInstance(
    id: string,
    isFirst: bool,
    start: Time,
    end: Option<Time>,
    originalStart: Option<Time>,
    originalEnd: Option<Time>,
    references: set<string>,
    caps: seq<Caps.Cap>,
    fromInstanceId: Option<string>)

  /** The shape every freshly built instance has in the crate: not first, nothing original, no source. */
  function NewInstance(id: string, start: Time, end: Option<Time>, references: set<string>, caps: seq<Caps.Cap>): TimelineInstance {
    TimelineInstance(id, false, start, end, None, None, references, caps, None)
  }

  /** `end.unwrap_or(Time::MAX)` of an instance. */
  function EndOf(i: TimelineInstance): Time {
    EndOrMax(i.end)
  }

  /** The instance covers time `x`: `start <= x < end`, an unbounded end covering everything after. */
  predicate Contains(i: TimelineInstance, x: Time) {
    i.start <= x && (i.end.None? || x < i.end.value)
  }

  /** Some instance of `r` covers `x`. */
  ghost predicate Covers(r: seq<TimelineInstance>, x: Time) {
    exists k :: 0 <= k < |r| && Contains(r[k], x)
  }

  /** The instance does not end before it starts. */
  predicate WellFormed(i: TimelineInstance) {
    i.end.None? || i.start <= i.end.value
  }

  /** `TimelineEnable`: the five optional expressions of one enable clause. */
  datatype Enable = Enable(
    enableStart: Option<Expr>,
    enableEnd: Option<Expr>,
    enableWhile: Option<Expr>,
    duration: Option<Expr>,
    repeating: Option<Expr>)

  /** `TimelineObjectInfo`. */
  datatype ObjectInfo = ObjectInfo(
    id: string,
    enable: seq<Enable>,
    priority: nat,
    disabled: bool,
    layer: string,
    depth: nat,
    parentId: Option<string>,
    isKeyframe: bool)

  /** `TimelineObjectResolved`. */
  datatype Resolved = Resolved(isSelfReferencing: bool, instances: seq<TimelineInstance>, directReferences: set<string>)

  /** `TimeWithReference`. */
  datatype TimeWithReference = TimeWithReference(value: Time, references: set<string>)

  /** `LookupExpressionResultType`. */
  datatype LookupValue = Instances(list: seq<TimelineInstance>) | TimeRef(timeRef: TimeWithReference) | NullValue

  /** `CapsBuilder::new().add(a).add(b).done()`. */
  function MergeCaps(a: seq<Caps.Cap>, b: seq<Caps.Cap>): seq<Caps.Cap> {
    Caps.AddAll(Caps.AddAll([], a), b)
  }

  /** `set_instance_end_time` (supertimeline/src/util.rs:505-511). */
  function SetEndTime(i: TimelineInstance, end: Time): (r: TimelineInstance)
    ensures r.end == Some(end)
    ensures r.originalEnd == if i.originalEnd.Some? then i.originalEnd else i.end
    ensures r.(end := i.end, originalEnd := i.originalEnd) == i
  {
    i.(end := Some(end), originalEnd := if i.originalEnd.None? then i.end else i.originalEnd)
  }

  /** `set_instance_start_time` (supertimeline/src/util.rs:512-518). */
  function SetStartTime(i: TimelineInstance, start: Time): (r: TimelineInstance)
    ensures r.start == start
    ensures r.originalStart == if i.originalStart.Some? then i.originalStart else Some(i.start)
    ensures r.(start := i.start, originalStart := i.originalStart) == i
  {
    i.(start := start, originalStart := if i.originalStart.None? then Some(i.start) else i.originalStart)
  }

  /** The first capping is the one remembered: capping again moves the bound but keeps the
      original recorded by the first call. For the end this holds only when something bounded was
      there to record: `None` stands both for "nothing recorded" and for an unbounded end, so an
      unbounded instance capped twice remembers the first cap as its original end. */
  lemma FirstCapWins(i: TimelineInstance, a: Time, b: Time, s: Time, t: Time)
    ensures SetStartTime(SetStartTime(i, s), t).originalStart == SetStartTime(i, s).originalStart
    ensures SetStartTime(SetStartTime(i, s), t).start == t
    ensures i.originalStart.None? ==> SetStartTime(SetStartTime(i, s), t).originalStart == Some(i.start)
    ensures SetEndTime(SetEndTime(i, a), b).end == Some(b)
    ensures i.originalEnd.Some? || i.end.Some? ==>
              SetEndTime(SetEndTime(i, a), b).originalEnd == SetEndTime(i, a).originalEnd
    ensures i.originalEnd.None? && i.end.Some? ==> SetEndTime(SetEndTime(i, a), b).originalEnd == i.end
    ensures i.originalEnd.None? && i.end.None? ==> SetEndTime(SetEndTime(i, a), b).originalEnd == Some(a)
  {
  }

  /** The caps a resuming instance gains: those of `caps` that end after the instance's own
      (bounded) end, restated from time 0. */
  function ResumingCaps(caps: seq<Caps.Cap>, end: Option<Time>): (r: seq<Caps.Cap>)
    ensures |r| <= |caps|
    ensures forall k :: 0 <= k < |r| ==> r[k].start == 0 && r[k].end.Some? && end.Some? && r[k].end.value > end.value
    ensures end.None? ==> r == []
  {
    if |caps| == 0 then []
    else
      var c := caps[0];
      var rest := ResumingCaps(caps[1..], end);
      if c.end.Some? && end.Some? && c.end.value > end.value then [Caps.Cap(c.id, 0, c.end)] + rest else rest
  }

  /** `add_caps_to_resuming` (supertimeline/src/util.rs:134-155). */
  function AddCapsToResuming(i: TimelineInstance, caps: seq<Caps.Cap>): (r: TimelineInstance)
    ensures r == i.(caps := r.caps)
    ensures Caps.DistinctIds(r.caps)
  {
    Caps.AddSpec([], i.caps);
    Caps.AddSpec(Caps.AddAll([], i.caps), ResumingCaps(caps, i.end));
    i.(caps := MergeCaps(i.caps, ResumingCaps(caps, i.end)))
  }

  /** Resuming only ever adds caps that outlast the instance, keeps one cap per id, and keeps the
      instance's own caps unless a new cap with the same id replaces it; an unbounded instance
      gains nothing. */
  lemma AddCapsToResumingSpec(i: TimelineInstance, caps: seq<Caps.Cap>, id: string)
    ensures Caps.Ids(AddCapsToResuming(i, caps).caps) == Caps.Ids(i.caps) + Caps.Ids(ResumingCaps(caps, i.end))
    ensures Caps.Find(AddCapsToResuming(i, caps).caps, id) ==
              if Caps.Latest(ResumingCaps(caps, i.end), id).Some? then Caps.Latest(ResumingCaps(caps, i.end), id)
              else Caps.Latest(i.caps, id)
    ensures i.end.None? ==> Caps.Ids(AddCapsToResuming(i, caps).caps) == Caps.Ids(i.caps)
  {
    Caps.BuilderSpec(i.caps, id);
    Caps.AddSpec([], i.caps);
    Caps.AddSpec(Caps.AddAll([], i.caps), ResumingCaps(caps, i.end));
  }
}

=== FILE: lookup.dfy ===
/** The parts of supertimeline/src/lookup_expression.rs that do not resolve other objects:
    recognising `#id`, `.class` and `$layer` references, the reference type a remainder selects,
    the arithmetic on looked-up times, the minimum of durations, the complement used for `.end`
    references, and the sweep that combines two interval lists with `&` or `|`. */
module Lookup {
  import opened Base
  import opened Ast
  import opened InstanceTypes
  import opened Sorting
  import opened Events
  import opened Util
  import Caps
  import Expression

  /** `ObjectRefType`. */
  datatype RefType = StartRef | EndRef | DurationRef

  /** What a lookup produces: the value and every reference token met on the way. */
  datatype LookupResult = LookupResult(value: LookupValue, allReferences: set<string>)

  // ---------------------------------------------------------------------------------------------
  // Reference syntax: `^\W*#([^.]+)(.*)` and its `.` and `$` siblings

  /** A word character of the regular expressions' `\w`, approximated: ASCII letters, digits and
      `_`, and every character from U+0080 on. The crate's `\w` is Unicode-aware, so among the
      non-ASCII characters it takes only letters, marks, digits and connector punctuation (not
      U+00A0 or `×`, say); see README, Left out. */
  predicate IsWordChar(c: char) {
    ('a' <= c <= 'z') || ('A' <= c <= 'Z') || ('0' <= c <= '9') || c == '_' || c >= 128 as char
  }

  /** The length of the longest prefix of non-word characters (what `\W*` can consume). */
  function NonWordPrefix(s: string): (r: nat)
    ensures r <= |s|
    ensures forall k :: 0 <= k < r ==> !IsWordChar(s[k])
    ensures r < |s| ==> IsWordChar(s[r])
  {
    if |s| == 0 || IsWordChar(s[0]) then 0 else 1 + NonWordPrefix(s[1..])
  }

  /** The first index at or after `i` holding `stop`, or `|s|`. */
  function IndexFrom(s: string, i: nat, stop: char): (r: nat)
    requires i <= |s|
    ensures i <= r <= |s|
    ensures forall k :: i <= k < r ==> s[k] != stop
    ensures r < |s| ==> s[r] == stop
    decreases |s| - i
  {
    if i == |s| || s[i] == stop then i else IndexFrom(s, i + 1, stop)
  }

  /** A matched reference: the captured name and the remainder of the line after it. */
  datatype RefMatch = RefMatch(name: string, remainder: string)

  /** The match with the sigil at `k`: a non-empty name up to the next `.`, then the rest of the
      line (`.` does not match a line break). */
  function MatchAt(s: string, k: nat): RefMatch
    requires k + 1 < |s|
  {
    var e := IndexFrom(s, k + 1, '.');
    RefMatch(s[k + 1..e], s[e..IndexFrom(s, e, '\n')])
  }

  /** The sigil can stand at `k` when it is there and a non-`.` character follows it. */
  predicate SigilAt(s: string, sigil: char, k: nat) {
    k + 1 < |s| && s[k] == sigil && s[k + 1] != '.'
  }

  /** Backtracking of the greedy `\W*`: the sigil position is tried from `k` downwards. */
  function SigilFrom(s: string, sigil: char, k: nat): (r: Option<nat>)
    ensures r.None? <==> forall j :: 0 <= j <= k ==> !SigilAt(s, sigil, j)
    ensures r.Some? ==> r.value <= k && SigilAt(s, sigil, r.value)
    ensures r.Some? ==> forall j :: r.value < j <= k ==> !SigilAt(s, sigil, j)
  {
    if SigilAt(s, sigil, k) then Some(k)
    else if k == 0 then None
    else SigilFrom(s, sigil, k - 1)
  }

  /** `^\W*` + sigil + `([^.]+)(.*)`: the sigil must lie in the leading run of non-word
      characters; the last such position that can start a name wins. */
  function MatchSigil(s: string, sigil: char): Option<RefMatch> {
    var p := NonWordPrefix(s);
    if p == 0 then None
    else
      var k := SigilFrom(s, sigil, p - 1);
      if k.None? then None else Some(MatchAt(s, k.value))
  }

  /** A reference written plainly, `sigil name tail`, is recognised with exactly that name and
      remainder, whatever non-word characters (other than the sigil) come before it. */
  lemma MatchSigilPlain(prefix: string, sigil: char, name: string, tail: string)
    requires !IsWordChar(sigil) && sigil != '.'
    requires forall k :: 0 <= k < |prefix| ==> !IsWordChar(prefix[k]) && prefix[k] != sigil
    requires |name| > 0 && IsWordChar(name[0]) && forall k :: 0 <= k < |name| ==> name[k] != '.'
    requires |tail| == 0 || tail[0] == '.'
    requires forall k :: 0 <= k < |tail| ==> tail[k] != '\n'
    ensures MatchSigil(prefix + [sigil] + name + tail, sigil) == Some(RefMatch(name, tail))
  {
    var s := prefix + [sigil] + name + tail;
    var k := |prefix|;
    PlainPrefix(prefix, sigil, name, tail);
    assert SigilAt(s, sigil, k);
    assert SigilFrom(s, sigil, k) == Some(k);
    PlainName(prefix, sigil, name, tail);
    var e := k + 1 + |name|;
    assert s[k + 1..e] == name;
    assert s[e..|s|] == tail;
  }

  /** The leading non-word run of a plain reference ends right after its sigil. */
  lemma PlainPrefix(prefix: string, sigil: char, name: string, tail: string)
    requires !IsWordChar(sigil)
    requires forall k :: 0 <= k < |prefix| ==> !IsWordChar(prefix[k])
    requires |name| > 0 && IsWordChar(name[0])
    ensures var s := prefix + [sigil] + name + tail;
            s[|prefix|] == sigil && s[|prefix| + 1] == name[0] && NonWordPrefix(s) == |prefix| + 1
  {
    var s := prefix + [sigil] + name + tail;
    var k := |prefix|;
    assert s[k] == sigil && s[k + 1] == name[0];
    assert forall j :: 0 <= j <= k ==> !IsWordChar(s[j]);
  }

  /** In a plain reference the name runs up to the first `.`, and the tail to the end of the line. */
  lemma PlainName(prefix: string, sigil: char, name: string, tail: string)
    requires forall k :: 0 <= k < |name| ==> name[k] != '.'
    requires |tail| == 0 || tail[0] == '.'
    requires forall k :: 0 <= k < |tail| ==> tail[k] != '\n'
    ensures var s := prefix + [sigil] + name + tail; var e := |prefix| + 1 + |name|;
            IndexFrom(s, |prefix| + 1, '.') == e && IndexFrom(s, e, '\n') == |s|
  {
    var s := prefix + [sigil] + name + tail;
    var k := |prefix|;
    var e := k + 1 + |name|;
    assert IndexFrom(s, k + 1, '.') == e by {
      forall j | k + 1 <= j < e ensures s[j] != '.' {
        assert s[j] == name[j - k - 1];
      }
      if |tail| > 0 {
        assert s[e] == tail[0];
      }
    }
    forall j | e <= j < |s| ensures s[j] != '\n' {
      assert s[j] == tail[j - e];
    }
  }

  /** A string that starts with a word character is no reference at all. */
  lemma MatchSigilWord(s: string, sigil: char)
    requires |s| > 0 && IsWordChar(s[0])
    ensures MatchSigil(s, sigil) == None
  {
  }

  /** `MatchExpressionReferences`. */
  datatype References = References(remaining: string, ids: seq<string>, allReferences: set<string>)

  /** `match_expression_references`: `#id` names one object, `.class` and `$layer` the objects
      indexed under that class or layer (none when unknown); anything else is no reference. */
  function MatchReferences(classes: map<string, seq<string>>, layers: map<string, seq<string>>, s: string): (r: Option<References>)
    ensures r.Some? <==> MatchSigil(s, '#').Some? || MatchSigil(s, '.').Some? || MatchSigil(s, '$').Some?
    ensures MatchSigil(s, '#').Some? ==> var m := MatchSigil(s, '#').value;
              r == Some(References(m.remainder, [m.name], {"#" + m.name}))
    ensures MatchSigil(s, '#').None? && MatchSigil(s, '.').Some? ==> var m := MatchSigil(s, '.').value;
              r == Some(References(m.remainder, if m.name in classes then classes[m.name] else [], {"." + m.name}))
    ensures MatchSigil(s, '#').None? && MatchSigil(s, '.').None? && MatchSigil(s, '$').Some? ==> var m := MatchSigil(s, '$').value;
              r == Some(References(m.remainder, if m.name in layers then layers[m.name] else [], {"$" + m.name}))
  {
    var byId := MatchSigil(s, '#');
    var byClass := MatchSigil(s, '.');
    var byLayer := MatchSigil(s, '$');
    if byId.Some? then Some(References(byId.value.remainder, [byId.value.name], {"#" + byId.value.name}))
    else if byClass.Some? then
      var m := byClass.value;
      Some(References(m.remainder, if m.name in classes then classes[m.name] else [], {"." + m.name}))
    else if byLayer.Some? then
      var m := byLayer.value;
      Some(References(m.remainder, if m.name in layers then layers[m.name] else [], {"$" + m.name}))
    else None
  }

  /** The reference type the remainder selects, or the caller's default. */
  function RefTypeOf(remaining: string, default: RefType): (r: RefType)
    ensures remaining == ".start" ==> r == StartRef
    ensures remaining == ".end" ==> r == EndRef
    ensures remaining == ".duration" ==> r == DurationRef
    ensures remaining !in {".start", ".end", ".duration"} ==> r == default
  {
    if remaining == ".start" then StartRef
    else if remaining == ".end" then EndRef
    else if remaining == ".duration" then DurationRef
    else default
  }

  // ---------------------------------------------------------------------------------------------
  // Durations and `.end` references

  /** The first of the shortest durations: a later duration replaces the current one only when it
      is strictly shorter. */
  function MinDuration(ds: seq<TimeWithReference>, acc: Option<TimeWithReference>): (r: Option<TimeWithReference>)
    ensures r.None? <==> acc.None? && |ds| == 0
    ensures r.Some? ==> r == acc || r.value in ds
    ensures r.Some? ==> forall d :: d in ds ==> r.value.value <= d.value
    ensures r.Some? && acc.Some? ==> r.value.value <= acc.value.value
    ensures acc.Some? && (forall d :: d in ds ==> acc.value.value <= d.value) ==> r == acc
    decreases |ds|
  {
    if |ds| == 0 then acc
    else
      var acc' := if acc.None? || ds[0].value < acc.value.value then Some(ds[0]) else acc;
      assert forall d :: d in ds ==> d == ds[0] || d in ds[1..];
      MinDuration(ds[1..], acc')
  }

  /** The instances an `.end` reference yields: the complement of the referenced instances, without
      a leading gap that starts at 0. */
  function EndInstances(instances: seq<TimelineInstance>, counter: nat): (r: Counted<seq<TimelineInstance>>)
    ensures r.counter >= counter
    ensures forall k :: 0 <= k < |r.value| ==> r.value[k] in InvertInstances(instances, counter).value
  {
    var inv := InvertInstances(instances, counter);
    if |inv.value| > 0 && inv.value[0].start == 0 then Counted(inv.value[1..], inv.counter)
    else inv
  }

  lemma CoversCons(r: seq<TimelineInstance>, x: Time)
    requires |r| > 0
    ensures Covers(r, x) <==> Contains(r[0], x) || Covers(r[1..], x)
  {
    if Covers(r, x) && !Contains(r[0], x) {
      var k :| 0 <= k < |r| && Contains(r[k], x);
      assert r[1..][k - 1] == r[k];
    }
    if Covers(r[1..], x) {
      var k :| 0 <= k < |r[1..]| && Contains(r[1..][k], x);
      assert r[k + 1] == r[1..][k];
    }
  }

  /** An `.end` reference covers exactly the times the referenced instances do not cover, except
      those in a gap starting at 0. */
  lemma EndInstancesCovers(instances: seq<TimelineInstance>, counter: nat, x: Time)
    requires |instances| > 0 && forall k :: 0 <= k < |instances| ==> WellFormed(instances[k])
    ensures var inv := InvertInstances(instances, counter).value;
            var leading := |inv| > 0 && inv[0].start == 0 && Contains(inv[0], x);
            Covers(EndInstances(instances, counter).value, x) <==>
              !Covers(CleanInstances(instances, true, true, counter).value, x) && (!leading || Covers(inv[1..], x))
  {
    var inv := InvertInstances(instances, counter).value;
    if |inv| > 0 {
      CoversCons(inv, x);
    } else {
      CoversEmpty(x);
    }
  }

  // ---------------------------------------------------------------------------------------------
  // Arithmetic on looked-up times

  /** The time arithmetic of `lookup_expression_obj` on `u64`: subtraction below zero and division
      or remainder by zero panic; `&` and `|` yield nothing here. */
  function Arith(o: Operator, a: Time, b: Time): (r: Result<Option<Time>, ExpressionError>)
    ensures r.Err? <==> (o == Subtract && b > a) || ((o == Divide || o == Remainder) && b == 0)
    ensures r.Ok? && r.value.None? <==> o == And || o == Or
  {
    match o
    case Add => Ok(Some(a + b))
    case Subtract => if b > a then Err(Panic) else Ok(Some(a - b))
    case Multiply => Ok(Some(a * b))
    case Divide => if b == 0 then Err(Panic) else Ok(Some(a / b))
    case Remainder => if b == 0 then Err(Panic) else Ok(Some(a % b))
    case _ => Ok(None)
  }

  /** The time arithmetic agrees with the constant folding of `simplify_expression` on every result
      that fits in `i64`; they differ in that a subtraction below zero panics here, and a result
      beyond `i64` panics there. */
  lemma ArithAgreesWithFolding(o: Operator, a: Time, b: Time)
    requires o != And && o != Or
    ensures Arith(o, a, b).Ok? && Arith(o, a, b).value.value <= Expression.I64_MAX ==> Expression.FoldNumbers(a, o, b) == Ok(Number(Arith(o, a, b).value.value))
    ensures Arith(o, a, b).Ok? && Arith(o, a, b).value.value > Expression.I64_MAX ==> Expression.FoldNumbers(a, o, b) == Err(Panic)
    ensures Arith(o, a, b).Err? ==> (o == Subtract && b > a) || Expression.FoldNumbers(a, o, b) == Err(Panic)
  {
    if b != 0 {
      TruncRemBounds(a, b);
      var m := RemOfAbs(a, b);
      DivMod(a, b);
    }
  }

  /** The operation `operate_on_arrays` receives for an arithmetic operator: both times present,
      their result with the union of their references. */
  function ArithTimes(o: Operator, x: Option<TimeWithReference>, y: Option<TimeWithReference>): Result<Option<TimeWithReference>, ExpressionError> {
    if x.Some? && y.Some? then
      var v :- Arith(o, x.value.value, y.value.value);
      Ok(if v.Some? then Some(TimeWithReference(v.value, x.value.references + y.value.references)) else None)
    else Ok(None)
  }

  // ---------------------------------------------------------------------------------------------
  // `&` and `|`

  /** `SideEvent`: a start or end of an instance of the left or right operand. */
  datatype SideEvent = SideEvent(time: Time, isLeft: bool, isStart: bool, instance: TimelineInstance)

  /** `get_side_events`: an end and a start event for each instance that is not zero-length. */
  function SideEvents(v: LookupValue, isLeft: bool): (r: seq<SideEvent>)
    ensures forall e :: e in r ==> e.isLeft == isLeft && v.Instances? && e.instance in v.list &&
                                   (e.instance.end.Some? ==> e.instance.end.value != e.instance.start) &&
                                   (e.isStart || e.instance.end.Some?) &&
                                   e.time == (if e.isStart then e.instance.start else EndOf(e.instance))
  {
    if v.Instances? then SideEventsOf(v.list, isLeft) else []
  }

  function SideEventsOf(list: seq<TimelineInstance>, isLeft: bool): (r: seq<SideEvent>)
    ensures forall e :: e in r ==> e.isLeft == isLeft && e.instance in list &&
                                   (e.instance.end.Some? ==> e.instance.end.value != e.instance.start) &&
                                   (e.isStart || e.instance.end.Some?) &&
                                   e.time == (if e.isStart then e.instance.start else EndOf(e.instance))
    decreases |list|
  {
    if |list| == 0 then []
    else
      var i := list[0];
      var rest := SideEventsOf(list[1..], isLeft);
      assert forall e :: e in rest ==> e.instance in list;
      if i.end.Some? && i.end.value == i.start then rest
      else
        (if i.end.Some? then [SideEvent(i.end.value, isLeft, false, i)] else []) + [SideEvent(i.start, isLeft, true, i)] + rest
  }

  /** The order of `VecIsEventExt::sort` applied to side events (identified by their instance). */
  function SideOrder(a: SideEvent, b: SideEvent): Ordering {
    CompareEvents(a.time, a.isStart, a.instance.id, b.time, b.isStart, b.instance.id)
  }

  /** `&` and `|` as boolean functions; the sweep is never run for other operators. */
  function Calc(o: Operator, a: bool, b: bool): bool {
    match o
    case And => a && b
    case Or => a || b
    case _ => false
  }

  /** The sweep's state: the instances so far, each side's current value and last instance, the
      current result value, and the id counter. */
  datatype BoolState = BoolState(instances: seq<TimelineInstance>, leftValue: bool, rightValue: bool,
                                 left: Option<TimelineInstance>, right: Option<TimelineInstance>, resultValue: bool, counter: nat)

  /** The `push_instance` closure: a true value opens a new instance at `time`, a false one
      closes the last instance there (its references are not updated). */
  function PushInstance(st: BoolState, time: Time, value: bool, refs: set<string>, caps: seq<Caps.Cap>): (r: BoolState)
    ensures r.leftValue == st.leftValue && r.rightValue == st.rightValue && r.left == st.left && r.right == st.right
    ensures r.resultValue == st.resultValue
  {
    if value then st.(instances := st.instances + [NewInstance(GenerateId(st.counter), time, None, refs, caps)], counter := st.counter + 1)
    else if |st.instances| > 0 then st.(instances := CloseLast(st.instances, time))
    else st
  }

  function RefsOf(i: Option<TimelineInstance>): set<string> {
    if i.Some? then i.value.references else {}
  }

  function CapsOf(i: Option<TimelineInstance>): seq<Caps.Cap> {
    if i.Some? then i.value.caps else []
  }

  /** One event of the sweep: update that side, and once the last event at this time is handled,
      open or close an instance if the combined value changed. */
  function BoolStep(o: Operator, st: BoolState, e: SideEvent, nextTime: Time): BoolState {
    var st1 := if e.isLeft then st.(leftValue := e.isStart, left := Some(e.instance))
               else st.(rightValue := e.isStart, right := Some(e.instance));
    if nextTime == e.time then st1
    else
      var v := Calc(o, st1.leftValue, st1.rightValue);
      if v == st1.resultValue then st1
      else
        PushInstance(st1, e.time, v, RefsOf(st1.left) + RefsOf(st1.right), MergeCaps(CapsOf(st1.left), CapsOf(st1.right))).(resultValue := v)
  }

  /** The time of the event after `events[i]`, or `Time::MAX` after the last. */
  function NextTime(events: seq<SideEvent>, i: nat): Time {
    if i + 1 < |events| then events[i + 1].time else TIME_MAX
  }

  function BoolSweep(o: Operator, events: seq<SideEvent>, i: nat, st: BoolState): BoolState
    requires i <= |events|
    decreases |events| - i
  {
    if i == |events| then st
    else BoolSweep(o, events, i + 1, BoolStep(o, st, events[i], NextTime(events, i)))
  }

  /** The constant value of an operand before its events: a time is true unless it is 0. */
  function Constant(v: LookupValue): bool {
    v.TimeRef? && v.timeRef.value != 0
  }

  /** The `&`/`|` branch of `lookup_expression_obj` once both sides are looked up: a time operand
      is a constant (true unless it is 0), an instance list contributes its events. */
  function BooleanLookup(o: Operator, l: LookupResult, r: LookupResult, counter: nat): (res: Counted<seq<TimelineInstance>>)
    ensures Chained(res.value)
    ensures res.counter >= counter
  {
    var events := SortedSides(l.value, r.value);
    var st0 := StartState(o, Constant(l.value), Constant(r.value), l.allReferences + r.allReferences, counter);
    var st := BoolSweep(o, events, 0, st0);
    BoolSweepInv(o, events, 0, st0, 0);
    Counted(st.instances, st.counter)
  }

  /** The side events of both operands, in the order of the event sort. */
  function SortedSides(l: LookupValue, r: LookupValue): (s: seq<SideEvent>)
    ensures forall a, b :: 0 <= a < b < |s| ==> s[a].time <= s[b].time
  {
    var events := SideEvents(l, true) + SideEvents(r, false);
    SortedSideEvents(events, InsertionSort(events, SideOrder));
    InsertionSort(events, SideOrder)
  }

  /** The sweep's state before the first event: the constant values of time operands, with an
      instance from 0 when they already make the result true. */
  function StartState(o: Operator, lv: bool, rv: bool, refs: set<string>, counter: nat): (st: BoolState)
    ensures BoolInv(st, 0) && st.counter >= counter
    ensures st.resultValue == Calc(o, lv, rv) && st.leftValue == lv && st.rightValue == rv
  {
    var v := Calc(o, lv, rv);
    PushInstance(BoolState([], lv, rv, None, None, v, counter), 0, v, refs, [])
  }

  /** Sorting side events orders them by time. */
  lemma SideEventsSorted(events: seq<SideEvent>)
    ensures var s := InsertionSort(events, SideOrder);
            forall a, b :: 0 <= a < b < |s| ==> s[a].time <= s[b].time
  {
    forall a: SideEvent, b: SideEvent ensures SideOrder(a, b) == Less ==> SideOrder(b, a) != Less {
      CompareEventsSpec(a.time, a.isStart, a.instance.id, b.time, b.isStart, b.instance.id);
    }
    SortedHasNoInversion(events, SideOrder);
    var key := (e: SideEvent) => e.time as int;
    forall a: SideEvent, b: SideEvent | key(a) < key(b) ensures SideOrder(a, b) == Less {
      CompareEventsSpec(a.time, a.isStart, a.instance.id, b.time, b.isStart, b.instance.id);
    }
    SortedByKey(InsertionSort(events, SideOrder), SideOrder, key);
  }

  lemma SortedSideEvents(events: seq<SideEvent>, sorted: seq<SideEvent>)
    requires sorted == InsertionSort(events, SideOrder)
    ensures forall a, b :: 0 <= a < b < |sorted| ==> sorted[a].time <= sorted[b].time
  {
    SideEventsSorted(events);
  }

  /** The sweep's invariant: the instances are chained and not after `t`, and the last one is open
      exactly when the current result value is true. */
  ghost predicate BoolInv(st: BoolState, t: Time) {
    Chained(st.instances) && NotAfter(st.instances, t) &&
    (st.resultValue <==> |st.instances| > 0 && st.instances[|st.instances| - 1].end.None?)
  }

  lemma BoolStepInv(o: Operator, st: BoolState, e: SideEvent, nextTime: Time, t: Time)
    requires BoolInv(st, t) && t <= e.time
    ensures BoolInv(BoolStep(o, st, e, nextTime), e.time) && BoolStep(o, st, e, nextTime).counter >= st.counter
  {
    var st1 := if e.isLeft then st.(leftValue := e.isStart, left := Some(e.instance))
               else st.(rightValue := e.isStart, right := Some(e.instance));
    assert NotAfter(st1.instances, e.time);
    if nextTime != e.time {
      var v := Calc(o, st1.leftValue, st1.rightValue);
      if v != st1.resultValue {
        var r := st1.instances;
        if v {
          var x := NewInstance(GenerateId(st1.counter), e.time, None, RefsOf(st1.left) + RefsOf(st1.right), MergeCaps(CapsOf(st1.left), CapsOf(st1.right)));
          ChainedAppend(r, x);
          if |r| > 0 {
            NotAfterReplaceLast(r, x, e.time, e.time);
          }
          assert NotAfter(r + [x], e.time);
        } else {
          var x := r[|r| - 1].(end := Some(e.time));
          ChainedReplaceLast(r, x);
          NotAfterReplaceLast(r, x, e.time, e.time);
          assert CloseLast(r, e.time) == r[..|r| - 1] + [x];
        }
      }
    }
  }

  lemma {:induction false} BoolSweepInv(o: Operator, events: seq<SideEvent>, i: nat, st: BoolState, t: Time)
    requires i <= |events|
    requires BoolInv(st, t)
    requires forall k :: i <= k < |events| ==> t <= events[k].time
    requires forall a, b :: i <= a < b < |events| ==> events[a].time <= events[b].time
    ensures BoolInv(BoolSweep(o, events, i, st), if i == |events| then t else events[|events| - 1].time)
    ensures BoolSweep(o, events, i, st).counter >= st.counter
    decreases |events| - i
  {
    if i < |events| {
      BoolStepInv(o, st, events[i], NextTime(events, i), t);
      BoolSweepInv(o, events, i + 1, BoolStep(o, st, events[i], NextTime(events, i)), events[i].time);
    }
  }
}

=== FILE: references.dfy ===
/** `ReferencesBuilder` (src/references.rs): accumulates the ids an instance or an
    expression depends on. A `HashSet<String>` in the crate, a `set<string>` here. */
module References {
  import opened Base

  datatype ReferencesBuilder = ReferencesBuilder(value: set<string>)

  function New(): ReferencesBuilder {
    ReferencesBuilder({})
  }

  function Add(b: ReferencesBuilder, other: set<string>): ReferencesBuilder {
    ReferencesBuilder(b.value + other)
  }

  /** `add_some` and `add_some2` (borrowed and owned argument) behave alike. */
  function AddSome(b: ReferencesBuilder, other: Option<set<string>>): ReferencesBuilder {
    match other
    case Some(o) => Add(b, o)
    case None => b
  }

  function AddId(b: ReferencesBuilder, id: string): ReferencesBuilder {
    ReferencesBuilder(b.value + {id})
  }

  function Done(b: ReferencesBuilder): set<string> {
    b.value
  }

  /** A freshly created builder yields no references. */
  lemma NewIsEmpty()
    ensures forall id :: id !in Done(New())
  {
  }

  /** An id is referenced after `add` exactly when it was referenced before or is in the added
      set: nothing is lost and nothing else appears. */
  lemma AddMembership(b: ReferencesBuilder, other: set<string>, id: string)
    ensures id in Done(Add(b, other)) <==> id in Done(b) || id in other
  {
  }

  /** Adding the same set twice is the same as adding it once, and the order in which two sets
      are added does not matter. */
  lemma AddIdempotentAndOrderFree(b: ReferencesBuilder, s: set<string>, t: set<string>)
    ensures Add(Add(b, s), s) == Add(b, s)
    ensures Add(Add(b, s), t) == Add(Add(b, t), s)
  {
  }

  /** `add_some(None)` leaves the builder unchanged; `add_some(Some(s))` is `add(s)`. */
  lemma AddSomeCases(b: ReferencesBuilder, other: Option<set<string>>)
    ensures other.None? ==> AddSome(b, other) == b
    ensures other.Some? ==> Done(AddSome(b, other)) == Done(b) + other.value
  {
  }

  /** `add_id` inserts exactly the one id. */
  lemma AddIdMembership(b: ReferencesBuilder, id: string, x: string)
    ensures x in Done(AddId(b, id)) <==> x == id || x in Done(b)
  {
  }

  /** One call on the builder: `add`, `add_some` or `add_id`. */
  datatype Call = AddCall(ids: set<string>) | AddSomeCall(some: Option<set<string>>) | AddIdCall(id: string)

  function Ids(c: Call): set<string> {
    match c
    case AddCall(s) => s
    case AddSomeCall(o) => if o.Some? then o.value else {}
    case AddIdCall(id) => {id}
  }

  function Perform(b: ReferencesBuilder, c: Call): ReferencesBuilder {
    match c
    case AddCall(s) => Add(b, s)
    case AddSomeCall(o) => AddSome(b, o)
    case AddIdCall(id) => AddId(b, id)
  }

  /** The calls `calls` made in order on `b`. */
  function PerformAll(b: ReferencesBuilder, calls: seq<Call>): ReferencesBuilder
    decreases |calls|
  {
    if |calls| == 0 then b else PerformAll(Perform(b, calls[0]), calls[1..])
  }

  /** Whatever calls a fresh builder receives, `done` yields exactly the ids some call passed in. */
  lemma {:induction false} BuilderSpec(calls: seq<Call>, id: string)
    ensures id in Done(PerformAll(New(), calls)) <==> exists k :: 0 <= k < |calls| && id in Ids(calls[k])
  {
    PerformAllSpec(New(), calls, id);
  }

  lemma {:induction false} PerformAllSpec(b: ReferencesBuilder, calls: seq<Call>, id: string)
    ensures id in Done(PerformAll(b, calls)) <==> id in Done(b) || exists k :: 0 <= k < |calls| && id in Ids(calls[k])
    decreases |calls|
  {
    if |calls| > 0 {
      PerformAllSpec(Perform(b, calls[0]), calls[1..], id);
      assert forall k :: 1 <= k < |calls| ==> calls[k] == calls[1..][k - 1];
      if id in Done(PerformAll(b, calls)) && id !in Done(b) && id !in Ids(calls[0]) {
        var j :| 0 <= j < |calls[1..]| && id in Ids(calls[1..][j]);
        assert calls[1..][j] == calls[j + 1];
      }
    }
  }
}

=== FILE: resolver.dfy ===
/** Per-object resolution (supertimeline/src/resolver.rs) together with the lookups that resolve
    the objects they reference (supertimeline/src/lookup_expression.rs): the two call each other,
    so they form one recursive group. Every object is `Pending`, `InProgress` or `Complete`; the
    first call on a `Pending` object makes it `InProgress`, which both detects cycles and makes the
    set of pending objects shrink, which is why the recursion ends. */
module Resolver {
  import opened Base
  import opened Ast
  import opened InstanceTypes
  import opened Events
  import opened Util
  import opened Lookup
  import Expression
  import Caps

  /** `TimelineObjectResolvingStatus`. */
  datatype Status = Pending | InProgress(selfReferencing: bool) | Complete(resolved: Resolved)

  /** `TimelineObjectResolvingStatus::is_self_referencing`. */
  function IsSelfReferencing(s: Status): (r: bool)
    ensures s.Pending? ==> !r
    ensures s.InProgress? ==> r == s.selfReferencing
    ensures s.Complete? ==> r == s.resolved.isSelfReferencing
  {
    match s
    case Pending => false
    case InProgress(f) => f
    case Complete(res) => res.isSelfReferencing
  }

  /** `ResolveError`. `Aborted` stands for an arithmetic panic of the crate (subtraction below
      zero, division or remainder by zero), which ends the process instead of returning. */
  datatype ResolveError =
    | CircularDependency(id: string)
    | BadExpression(id: string, what: string, err: ExpressionError)
    | InstancesArrayNotSupported(id: string, what: string)
    | ResolvedWhilePending(id: string)
    | ResolvedWhileResolvec(id: string)
    | UnresolvedObjects(ids: seq<string>)
    | Aborted

  /** An expression error of enable clause `what`: a parse error is reported, a panic aborts. */
  function Bad(id: string, what: string, e: ExpressionError): ResolveError {
    if e == Panic then Aborted else BadExpression(id, what, e)
  }

  /** What the resolver reads but never changes: options, the objects' infos, the class and layer
      indexes, and `hack_boolean_expression`, whose definition is not part of this model. */
  datatype Ctx = Ctx(options: ResolveOptions, infos: map<string, ObjectInfo>, classes: map<string, seq<string>>,
                     layers: map<string, seq<string>>, hack: Option<Expr> -> Option<Expr>)

  /** What the resolver changes: every object's status and the id counter. */
  datatype St = St(status: map<string, Status>, counter: nat)

  function PendingIds(st: St): set<string> {
    set id | id in st.status && st.status[id].Pending?
  }

  /** An instance the resolver keeps: it ends after it starts (`retain` at the end of
      `resolve_object`). */
  predicate Positive(i: TimelineInstance) {
    EndOf(i) > i.start
  }

  /** Every object has a status, and every completed object keeps only positive instances. */
  ghost predicate Valid(ctx: Ctx, st: St) {
    st.status.Keys == ctx.infos.Keys &&
    forall id :: id in st.status && st.status[id].Complete? ==>
      forall k :: 0 <= k < |st.status[id].resolved.instances| ==> Positive(st.status[id].resolved.instances[k])
  }

  /** How a state may evolve during resolution: no object appears, none becomes pending again, a
      completed object is never touched, an object in progress stays in progress (and stays
      self-referencing once marked), and the counter only grows. */
  ghost predicate Follows(st: St, st': St) {
    st'.status.Keys == st.status.Keys &&
    PendingIds(st') <= PendingIds(st) &&
    (forall id :: id in st.status && st.status[id].Complete? ==> st'.status[id] == st.status[id]) &&
    (forall id :: id in st.status && st.status[id].InProgress? ==>
       st'.status[id].InProgress? && (st.status[id].selfReferencing ==> st'.status[id].selfReferencing)) &&
    st'.counter >= st.counter
  }

  /** Moving forward is transitive. */
  lemma FollowsTrans(a: St, b: St, c: St)
    requires Follows(a, b) && Follows(b, c)
    ensures Follows(a, c)
  {
  }

  /** The state with the id counter advanced to `counter`. */
  function Advance(st: St, counter: nat): (r: St)
    requires counter >= st.counter
    ensures Follows(st, r) && r.status == st.status && r.counter == counter
  {
    st.(counter := counter)
  }

  /** Errors the resolver can actually produce. */
  predicate Reachable(e: ResolveError) {
    !e.ResolvedWhilePending? && !e.ResolvedWhileResolvec? && !e.UnresolvedObjects?
  }

  /** A lookup's outcome: the new state and the looked-up value. */
  datatype Looked = Looked(st: St, result: LookupResult)

  /** The outcome of resolving enable clauses: new state, instances, direct references. */
  datatype Enabled = Enabled(st: St, instances: seq<TimelineInstance>, references: set<string>)

  function ExprSize(e: Expr): nat {
    match e
    case Binary(l, _, r) => 1 + ExprSize(l) + ExprSize(r)
    case Invert(x) => 1 + ExprSize(x)
    case _ => 1
  }

  function NullResult(st: St, refs: set<string>): Looked {
    Looked(st, LookupResult(NullValue, refs))
  }

  // ---------------------------------------------------------------------------------------------
  // resolve_object

  /** `ResolverContext::resolve_object`. */
  function ResolveObject(ctx: Ctx, st: St, id: string): (r: Result<St, ResolveError>)
    requires Valid(ctx, st) && id in st.status
    ensures r.Ok? ==> Follows(st, r.value) && Valid(ctx, r.value) && r.value.status[id].Complete?
    ensures r.Err? ==> Reachable(r.error)
    ensures st.status[id].Complete? ==> r == Ok(st)
    ensures st.status[id].InProgress? ==> r == Err(CircularDependency(id))
    decreases PendingIds(st), 0, 0, 0
  {
    match st.status[id]
    case Complete(_) => Ok(st)
    case InProgress(_) => Err(CircularDependency(id))
    case Pending =>
      var st1 := st.(status := st.status[id := InProgress(false)]);
      assert PendingIds(st1) < PendingIds(st) by {
        assert id in PendingIds(st) && id !in PendingIds(st1);
      }
      var done :- ResolveEnables(ctx, st1, id, ctx.infos[id].enable, 0, [], {});
      Conclude(ctx, st, id, done)
  }

  /** The end of `resolve_object`: the object's positive instances and direct references are
      stored as its resolved value, with the self-reference flag gathered while it was in
      progress. */
  function Conclude(ctx: Ctx, st: St, id: string, done: Enabled): (r: Result<St, ResolveError>)
    requires Valid(ctx, st) && id in st.status && st.status[id].Pending?
    requires Follows(st.(status := st.status[id := InProgress(false)]), done.st) && Valid(ctx, done.st)
    ensures r.Ok? ==> Follows(st, r.value) && Valid(ctx, r.value) && r.value.status[id].Complete?
    ensures r.Ok? ==> r.value.status[id].resolved.instances == Filter(done.instances, Positive)
    ensures r.Err? ==> Reachable(r.error)
  {
    var kept := Filter(done.instances, Positive);
    match done.st.status[id]
    case Pending => Err(ResolvedWhilePending(id))
    case Complete(_) => Err(ResolvedWhileResolvec(id))
    case InProgress(flag) =>
      Ok(done.st.(status := done.st.status[id := Complete(Resolved(flag, kept, done.references))]))
  }

  /** The enable clauses `k ..` of object `id`, accumulating instances and direct references. */
  function ResolveEnables(ctx: Ctx, st: St, id: string, enables: seq<Enable>, k: nat,
                          instances: seq<TimelineInstance>, refs: set<string>): (r: Result<Enabled, ResolveError>)
    requires Valid(ctx, st) && id in st.status && st.status[id].InProgress? && k <= |enables|
    ensures r.Ok? ==> Follows(st, r.value.st) && Valid(ctx, r.value.st)
    ensures r.Err? ==> Reachable(r.error)
    decreases PendingIds(st), 6, 0, |enables| - k
  {
    if k == |enables| then Ok(Enabled(st, instances, refs))
    else
      var one :- ResolveEnable(ctx, st, id, enables[k]);
      var rest := ResolveEnables(ctx, one.st, id, enables, k + 1, instances + one.instances, refs + one.references);
      if rest.Ok? then FollowsTrans(st, one.st, rest.value.st); rest else rest
  }

  /** The start expression of an enable clause: the hacked `while`, else `while`, else `start`. */
  function StartExpression(ctx: Ctx, enable: Enable): (r: Expr)
    ensures ctx.hack(enable.enableWhile).Some? ==> r == ctx.hack(enable.enableWhile).value
    ensures ctx.hack(enable.enableWhile).None? && enable.enableWhile.Some? ==> r == enable.enableWhile.value
    ensures ctx.hack(enable.enableWhile).None? && enable.enableWhile.None? ==> r == enable.enableStart.GetOr(Null)
  {
    var hacked := ctx.hack(enable.enableWhile);
    if hacked.Some? then hacked.value
    else if enable.enableWhile.Some? then enable.enableWhile.value
    else if enable.enableStart.Some? then enable.enableStart.value
    else Null
  }

  /** One enable clause of object `id`: the repeat, the start (offset by the parent when constant),
      the instances from `while` or from start and end events, the capping into the parent, and
      the repetition. */
  function ResolveEnable(ctx: Ctx, st: St, id: string, enable: Enable): (r: Result<Enabled, ResolveError>)
    requires Valid(ctx, st) && id in st.status && st.status[id].InProgress?
    ensures r.Ok? ==> Follows(st, r.value.st) && Valid(ctx, r.value.st)
    ensures r.Err? ==> Reachable(r.error)
    decreases PendingIds(st), 5, 1, 0
  {
    var rep :- LookupRepeating(ctx, st, id, enable);
    var start :- Expression.Simplify(StartExpression(ctx, enable)).MapFailure(e => Bad(id, "simplify", e));
    var parent :- LookupParent(ctx, rep.st, id);
    FollowsTrans(st, rep.st, parent.st);
    var made :- EnableFrom(ctx, parent.st, id, enable, rep.repeat, start, parent);
    FollowsTrans(st, parent.st, made.st);
    Ok(Enabled(made.st, made.instances, rep.references + made.references))
  }

  /** The rest of an enable clause once the repeat, the start expression and the parent are
      known: the start lookup, the instances, the capping and the repetition. */
  function EnableFrom(ctx: Ctx, st: St, id: string, enable: Enable, repeat: Option<TimeWithReference>, start: Expr,
                      parent: Parent): (r: Result<Enabled, ResolveError>)
    requires Valid(ctx, st) && id in st.status && st.status[id].InProgress?
    ensures r.Ok? ==> Follows(st, r.value.st) && Valid(ctx, r.value.st)
    ensures r.Err? ==> Reachable(r.error)
    decreases PendingIds(st), 5, 0, 0
  {
    var referToParent := ctx.infos[id].parentId.Some? && Expression.IsConstant(start);
    var ls :- LookupExpr(ctx, st, id, start, StartRef);
    var applied := if referToParent then ApplyParent(parent.parents, ls.result.value, ls.st.counter)
                   else Counted(ls.result.value, ls.st.counter);
    var st4 := Advance(ls.st, applied.counter);
    FollowsTrans(st, ls.st, st4);
    var made :- if enable.enableWhile.Some? then Ok(WhileInstances(st4, applied.value))
                else EnableEvents(ctx, st4, id, enable, applied.value, repeat, referToParent, parent.parents);
    FollowsTrans(st, st4, made.st);
    var capped := if ctx.infos[id].parentId.Some? then CapIntoParents(made.instances, parent.parents) else made.instances;
    var repeated := ApplyRepeating(capped, repeat, ctx.options, made.st.counter);
    var fin := Advance(made.st, repeated.counter);
    FollowsTrans(st, made.st, fin);
    Ok(Enabled(fin, repeated.value, parent.references + ls.result.allReferences + made.references))
  }

  /** The outcome of looking up the repeat: new state, the repeat time, its references. */
  datatype Repeat = Repeat(st: St, repeat: Option<TimeWithReference>, references: set<string>)

  /** The repeating expression is interpreted and looked up as a duration; a list of instances is
      refused. */
  function LookupRepeating(ctx: Ctx, st: St, id: string, enable: Enable): (r: Result<Repeat, ResolveError>)
    requires Valid(ctx, st) && id in st.status && st.status[id].InProgress?
    ensures r.Ok? ==> Follows(st, r.value.st) && Valid(ctx, r.value.st)
    ensures r.Err? ==> Reachable(r.error)
    decreases PendingIds(st), 4, 0, 0
  {
    var expr :- if enable.repeating.Some? then Expression.Interpret(enable.repeating.value).MapFailure(e => Bad(id, "repeating", e))
                else Ok(Null);
    var looked :- LookupExpr(ctx, st, id, expr, DurationRef);
    match looked.result.value
    case Instances(_) => Err(InstancesArrayNotSupported(id, "repeating"))
    case TimeRef(t) => Ok(Repeat(looked.st, Some(t), looked.result.allReferences))
    case NullValue => Ok(Repeat(looked.st, None, looked.result.allReferences))
  }

  /** The outcome of looking up the parent: new state, the parent's instances, its references. */
  datatype Parent = Parent(st: St, parents: Option<seq<TimelineInstance>>, references: set<string>)

  /** The parent is looked up as `#parent` by its start; only a list of instances is kept. */
  function LookupParent(ctx: Ctx, st: St, id: string): (r: Result<Parent, ResolveError>)
    requires Valid(ctx, st) && id in st.status && st.status[id].InProgress?
    ensures r.Ok? ==> Follows(st, r.value.st) && Valid(ctx, r.value.st)
    ensures r.Ok? && ctx.infos[id].parentId.None? ==> r.value == Parent(st, None, {})
    ensures r.Err? ==> Reachable(r.error)
    decreases PendingIds(st), 4, 0, 0
  {
    if ctx.infos[id].parentId.None? then Ok(Parent(st, None, {}))
    else
      var looked :- LookupExpr(ctx, st, id, Str("#" + ctx.infos[id].parentId.value), StartRef);
      Ok(Parent(looked.st, if looked.result.value.Instances? then Some(looked.result.value.list) else None,
                looked.result.allReferences))
  }

  /** A `while` clause takes the looked-up instances as they are; a time starts one open instance. */
  function WhileInstances(st: St, v: LookupValue): (r: Enabled)
    ensures r.st.status == st.status && r.st.counter >= st.counter && r.references == {}
    ensures v.Instances? ==> r.instances == v.list
    ensures v.TimeRef? ==> |r.instances| == 1 && r.instances[0].start == v.timeRef.value && r.instances[0].end.None?
    ensures v.NullValue? ==> r.instances == []
  {
    match v
    case Instances(list) => Enabled(st, list, {})
    case TimeRef(t) => Enabled(st.(counter := st.counter + 1), [NewInstance(GenerateId(st.counter), t.value, None, t.references, [])], {})
    case NullValue => Enabled(st, [], {})
  }

  /** The id of the `k`-th start (or end) event of object `id` (`format!("{}_{}", id, k)`). */
  function EventId(id: string, k: nat): string {
    id + "_" + NatToString(k)
  }

  /** Events at the starts (`isStart`) or ends of the looked-up value, numbered from 0. */
  function ValueEvents(id: string, v: LookupValue, isStart: bool): (r: seq<EventForInstance>)
    ensures forall e :: e in r ==> e.isStart == isStart
    ensures v.Instances? ==> |r| == |v.list|
    ensures v.TimeRef? ==> r == [EventForInstance(v.timeRef.value, isStart, v.timeRef.references, [], EventId(id, 0))]
    ensures v.NullValue? ==> r == []
  {
    match v
    case Instances(list) => seq(|list|, k requires 0 <= k < |list| => EventForInstance(list[k].start, isStart, list[k].references, list[k].caps, EventId(id, k)))
    case TimeRef(t) => [EventForInstance(t.value, isStart, t.references, [], EventId(id, 0))]
    case NullValue => []
  }

  /** The end event `duration` after start event `s`: same id, the duration's references added,
      no caps. */
  function DurationEnd(s: EventForInstance, duration: Time, refs: set<string>): (r: EventForInstance)
    ensures !r.isStart && r.id == s.id && r.time == s.time + duration && r.references == s.references + refs && r.caps == []
  {
    EventForInstance(s.time + duration, false, s.references + refs, [], s.id)
  }

  /** An end event after every start event, in order. */
  function DurationEnds(starts: seq<EventForInstance>, duration: Time, refs: set<string>): (r: seq<EventForInstance>)
    ensures |r| <= |starts|
    ensures forall e :: e in r ==> !e.isStart
  {
    if |starts| == 0 then []
    else (if starts[0].isStart then [DurationEnd(starts[0], duration, refs)] else []) + DurationEnds(starts[1..], duration, refs)
  }

  /** The duration ends are exactly one end per start event. */
  lemma {:induction false} DurationEndsSpec(starts: seq<EventForInstance>, duration: Time, refs: set<string>)
    ensures forall e :: e in DurationEnds(starts, duration, refs) ==>
              exists s :: s in starts && s.isStart && e == DurationEnd(s, duration, refs)
    ensures forall s :: s in starts && s.isStart ==> DurationEnd(s, duration, refs) in DurationEnds(starts, duration, refs)
  {
    if |starts| > 0 {
      DurationEndsSpec(starts[1..], duration, refs);
      assert forall x :: x in starts[1..] ==> x in starts;
      assert forall x :: x in starts ==> x == starts[0] || x in starts[1..];
    }
  }

  /** The duration a duration lookup yields: a time, or the start of the only instance; more than
      one instance is refused. */
  function DurationOf(id: string, v: LookupValue): (r: Result<Option<TimeWithReference>, ResolveError>)
    ensures r.Err? <==> v.Instances? && |v.list| > 1
    ensures r.Err? ==> r.error == InstancesArrayNotSupported(id, "duration")
  {
    match v
    case Instances(list) =>
      if |list| > 1 then Err(InstancesArrayNotSupported(id, "duration"))
      else if |list| == 1 then Ok(Some(TimeWithReference(list[0].start, list[0].references)))
      else Ok(None)
    case TimeRef(t) => Ok(Some(t))
    case NullValue => Ok(None)
  }

  /** The duration used for the ends: the repeat when that is shorter. */
  function EffectiveDuration(duration: Time, repeat: Option<TimeWithReference>): (r: Time)
    ensures r <= duration && (repeat.Some? ==> r <= repeat.value.value)
    ensures r == duration || (repeat.Some? && r == repeat.value.value)
  {
    if repeat.Some? then Min(repeat.value.value, duration) else duration
  }

  /** Instances from start events and end events (from `end`, else from `duration`), swept
      without merging. */
  function EnableEvents(ctx: Ctx, st: St, id: string, enable: Enable, starts: LookupValue, repeat: Option<TimeWithReference>,
                        referToParent: bool, parents: Option<seq<TimelineInstance>>): (r: Result<Enabled, ResolveError>)
    requires Valid(ctx, st) && id in st.status && st.status[id].InProgress?
    ensures r.Ok? ==> Follows(st, r.value.st) && Valid(ctx, r.value.st)
    ensures r.Err? ==> Reachable(r.error)
    decreases PendingIds(st), 4, 1, 0
  {
    var startEvents := ValueEvents(id, starts, true);
    var ends :- EnableEnds(ctx, st, id, enable, startEvents, repeat, referToParent, parents);
    var made := IntoInstances(startEvents + ends.events, false, false, ends.st.counter);
    Ok(Enabled(ends.st.(counter := made.counter), made.value, ends.references))
  }

  /** The end events of an enable clause, with the state and references of their lookups. */
  datatype Ends = Ends(st: St, events: seq<EventForInstance>, references: set<string>)

  function EnableEnds(ctx: Ctx, st: St, id: string, enable: Enable, startEvents: seq<EventForInstance>, repeat: Option<TimeWithReference>,
                      referToParent: bool, parents: Option<seq<TimelineInstance>>): (r: Result<Ends, ResolveError>)
    requires Valid(ctx, st) && id in st.status && st.status[id].InProgress?
    ensures r.Ok? ==> Follows(st, r.value.st) && Valid(ctx, r.value.st)
    ensures r.Ok? ==> forall e :: e in r.value.events ==> !e.isStart
    ensures r.Ok? && enable.enableEnd.None? && enable.duration.None? ==> r.value.events == []
    ensures r.Err? ==> Reachable(r.error)
    decreases PendingIds(st), 4, 0, 1
  {
    if enable.enableEnd.Some? then EndsFromEnd(ctx, st, id, enable.enableEnd.value, referToParent, parents)
    else if enable.duration.Some? then EndsFromDuration(ctx, st, id, enable.duration.value, startEvents, repeat)
    else Ok(Ends(st, [], {}))
  }

  /** The end events of an `end` expression, offset by the parent when constant. */
  function EndsFromEnd(ctx: Ctx, st: St, id: string, end: Expr, referToParent: bool,
                       parents: Option<seq<TimelineInstance>>): (r: Result<Ends, ResolveError>)
    requires Valid(ctx, st) && id in st.status && st.status[id].InProgress?
    ensures r.Ok? ==> Follows(st, r.value.st) && Valid(ctx, r.value.st)
    ensures r.Ok? ==> forall e :: e in r.value.events ==> !e.isStart
    ensures r.Err? ==> Reachable(r.error)
    decreases PendingIds(st), 4, 0, 0
  {
    var expr :- Expression.Interpret(end).MapFailure(e => Bad(id, "end", e));
    var looked :- LookupExpr(ctx, st, id, expr, EndRef);
    var applied := if referToParent && Expression.IsConstant(expr) then ApplyParent(parents, looked.result.value, looked.st.counter)
                   else Counted(looked.result.value, looked.st.counter);
    var fin := Advance(looked.st, applied.counter);
    FollowsTrans(st, looked.st, fin);
    Ok(Ends(fin, ValueEvents(id, applied.value, false), looked.result.allReferences))
  }

  /** The end events of a `duration`: each start event moved by the (repeat-capped) duration. */
  function EndsFromDuration(ctx: Ctx, st: St, id: string, duration: Expr, startEvents: seq<EventForInstance>,
                            repeat: Option<TimeWithReference>): (r: Result<Ends, ResolveError>)
    requires Valid(ctx, st) && id in st.status && st.status[id].InProgress?
    ensures r.Ok? ==> Follows(st, r.value.st) && Valid(ctx, r.value.st)
    ensures r.Ok? ==> forall e :: e in r.value.events ==> !e.isStart
    ensures r.Err? ==> Reachable(r.error)
    decreases PendingIds(st), 4, 0, 0
  {
    var expr :- Expression.Interpret(duration).MapFailure(e => Bad(id, "duration", e));
    var looked :- LookupExpr(ctx, st, id, expr, DurationRef);
    var d :- DurationOf(id, looked.result.value);
    var events := if d.Some? then DurationEnds(startEvents, EffectiveDuration(d.value.value, repeat), d.value.references) else [];
    Ok(Ends(looked.st, events, looked.result.allReferences))
  }

  /** The first parent instance the child instance references. */
  function ReferredParent(parents: seq<TimelineInstance>, references: set<string>): (r: Option<TimelineInstance>)
    ensures r.Some? ==> r.value in parents && r.value.id in references
    ensures r.None? ==> forall p :: p in parents ==> p.id !in references
  {
    if |parents| == 0 then None
    else if parents[0].id in references then Some(parents[0])
    else ReferredParent(parents[1..], references)
  }

  /** `cap_instance` into one parent, recording that parent as a cap: the result lies within the
      parent. */
  function CapInto(i: TimelineInstance, p: TimelineInstance): (r: Option<TimelineInstance>)
    ensures r.None? <==> !StartsInOrSpans(i, p) && !EndsIn(i, p)
    ensures r.Some? ==> r.value.id == i.id && r.value.references == i.references &&
                        r.value.caps == i.caps + [Caps.Cap(p.id, p.start, p.end)]
    ensures r.Some? ==> r.value.start == Max(i.start, p.start) &&
                        r.value.end == (if p.end.Some? && EndOf(i) > p.end.value then p.end else i.end)
    ensures r.Some? ==> Within(r.value, p)
  {
    var c := CapInstance(i, [p]);
    if c.None? then None
    else
      assert forall q :: q in [p] ==> q == p;
      Some(c.value.(caps := c.value.caps + [Caps.Cap(p.id, p.start, p.end)]))
  }

  /** An instance lies within a parent instance: it starts no earlier and, when the parent ends,
      ends no later. */
  predicate Within(x: TimelineInstance, p: TimelineInstance) {
    x.start >= p.start && (p.end.Some? ==> EndOrMax(x.end) <= p.end.value)
  }

  /** A child instance capped into every parent instance, in order. */
  function CapIntoEach(i: TimelineInstance, parents: seq<TimelineInstance>): (r: seq<TimelineInstance>)
    ensures forall x :: x in r ==> exists p :: p in parents && CapInto(i, p) == Some(x)
  {
    if |parents| == 0 then []
    else
      var here := CapInto(i, parents[0]);
      var rest := CapIntoEach(i, parents[1..]);
      assert forall x :: x in rest ==> exists p :: p in parents && CapInto(i, p) == Some(x) by {
        forall x | x in rest ensures exists p :: p in parents && CapInto(i, p) == Some(x) {
          var p :| p in parents[1..] && CapInto(i, p) == Some(x);
          assert p in parents;
        }
      }
      (if here.Some? then [here.value] else []) + rest
  }

  /** Capping of a child's instances: into the parent instance each one references, otherwise into
      every parent instance; without parent instances nothing is left. */
  function CapIntoParents(instances: seq<TimelineInstance>, parents: Option<seq<TimelineInstance>>): (r: seq<TimelineInstance>)
    ensures parents.None? ==> r == []
    ensures forall x :: x in r ==> exists i, p :: i in instances && p in parents.value && CapInto(i, p) == Some(x)
  {
    if parents.None? || |instances| == 0 then []
    else
      var i := instances[0];
      var mine := CapOne(i, parents.value);
      var rest := CapIntoParents(instances[1..], parents);
      assert forall x :: x in rest ==> exists i, p :: i in instances && p in parents.value && CapInto(i, p) == Some(x) by {
        forall x | x in rest ensures exists i, p :: i in instances && p in parents.value && CapInto(i, p) == Some(x) {
          var i', p :| i' in instances[1..] && p in parents.value && CapInto(i', p) == Some(x);
          assert i' in instances;
        }
      }
      mine + rest
  }

  /** One child instance capped into the parent instance it references, otherwise into every
      parent instance. */
  function CapOne(i: TimelineInstance, parents: seq<TimelineInstance>): (r: seq<TimelineInstance>)
    ensures forall x :: x in r ==> exists p :: p in parents && CapInto(i, p) == Some(x)
  {
    var referred := ReferredParent(parents, i.references);
    if referred.Some? then (var c := CapInto(i, referred.value); if c.Some? then [c.value] else [])
    else CapIntoEach(i, parents)
  }

  /** Every capped instance lies within one of the parent instances and carries that parent as
      its last cap. */
  lemma CapIntoParentsWithin(instances: seq<TimelineInstance>, parents: Option<seq<TimelineInstance>>)
    ensures forall x :: x in CapIntoParents(instances, parents) ==>
              parents.Some? && |x.caps| > 0 && exists p :: p in parents.value && Within(x, p) && x.caps[|x.caps| - 1] == Caps.Cap(p.id, p.start, p.end)
  {
    forall x | x in CapIntoParents(instances, parents)
      ensures parents.Some? && |x.caps| > 0 && exists p :: p in parents.value && Within(x, p) && x.caps[|x.caps| - 1] == Caps.Cap(p.id, p.start, p.end)
    {
      var i, p :| i in instances && p in parents.value && CapInto(i, p) == Some(x);
    }
  }

  // ---------------------------------------------------------------------------------------------
  // lookup_expression

  /** `lookup_expression` for object `self`. */
  function LookupExpr(ctx: Ctx, st: St, self: string, e: Expr, default: RefType): (r: Result<Looked, ResolveError>)
    requires Valid(ctx, st) && self in st.status
    ensures r.Ok? ==> Follows(st, r.value.st) && Valid(ctx, r.value.st)
    ensures r.Err? ==> Reachable(r.error)
    ensures e.Null? ==> r == Ok(NullResult(st, {}))
    ensures e.Number? ==> r == Ok(Looked(st, LookupResult(TimeRef(TimeWithReference(Max(e.n, 0), {})), {})))
    decreases PendingIds(st), 3, ExprSize(e), 0
  {
    match e
    case Null => Ok(NullResult(st, {}))
    case Number(n) => Ok(Looked(st, LookupResult(TimeRef(TimeWithReference(Max(n, 0), {})), {})))
    case Bool(b) =>
      Ok(Looked(st, LookupResult(if b then TimeRef(TimeWithReference(0, {})) else Instances([]), {})))
    case Str(s) => LookupStr(ctx, st, self, s, default)
    case Invert(x) =>
      var inner :- LookupExpr(ctx, st, self, x, default);
      var counter := inner.st.counter;
      (match inner.result.value
       case NullValue =>
         var inv := InvertInstances([], counter);
         Ok(Looked(inner.st.(counter := inv.counter), LookupResult(Instances(inv.value), inner.result.allReferences)))
       case TimeRef(t) => Ok(inner)
       case Instances(list) =>
         var inv := InvertInstances(list, counter);
         Ok(Looked(inner.st.(counter := inv.counter), LookupResult(Instances(inv.value), inner.result.allReferences))))
    case Binary(l, o, rt) =>
      if l == Null || rt == Null then Ok(NullResult(st, {}))
      else
        var left :- LookupExpr(ctx, st, self, l, default);
        var right :- LookupExpr(ctx, left.st, self, rt, default);
        var all := left.result.allReferences + right.result.allReferences;
        if o == And || o == Or then
          var res := BooleanLookup(o, left.result, right.result, right.st.counter);
          Ok(Looked(right.st.(counter := res.counter), LookupResult(Instances(res.value), all)))
        else
          var res :- OperateOnArrays(left.result.value, right.result.value, (x, y) => ArithTimes(o, x, y), right.st.counter)
                       .MapFailure(_ => Aborted);
          Ok(Looked(right.st.(counter := res.counter), LookupResult(res.value, all)))
  }

  /** Marks `self` as self-referencing if it is in progress (naming one's own id). */
  function MarkSelf(st: St, self: string): (r: St)
    requires self in st.status
    ensures Follows(st, r) && r.counter == st.counter
    ensures st.status[self].InProgress? ==> r.status[self] == InProgress(true)
    ensures forall id :: id in st.status && id != self ==> r.status[id] == st.status[id]
  {
    if st.status[self].InProgress? then st.(status := st.status[self := InProgress(true)]) else st
  }

  /** `lookup_expression_str`: a `#id`, `.class` or `$layer` reference to other objects. */
  function LookupStr(ctx: Ctx, st: St, self: string, s: string, default: RefType): (r: Result<Looked, ResolveError>)
    requires Valid(ctx, st) && self in st.status
    ensures r.Ok? ==> Follows(st, r.value.st) && Valid(ctx, r.value.st)
    ensures r.Err? ==> Reachable(r.error)
    ensures MatchReferences(ctx.classes, ctx.layers, s).None? ==> r == Ok(NullResult(st, {}))
    ensures r.Ok? && MatchReferences(ctx.classes, ctx.layers, s).Some? ==>
              r.value.result.allReferences == MatchReferences(ctx.classes, ctx.layers, s).value.allReferences
    decreases PendingIds(st), 2, 0, 0
  {
    var m := MatchReferences(ctx.classes, ctx.layers, s);
    if m.None? then Ok(NullResult(st, {}))
    else
      var refs := m.value;
      var st1 := if self in refs.ids then MarkSelf(st, self) else st;
      var others := Filter(refs.ids, (id: string) => id != self && id in ctx.infos);
      var referenced := if IsSelfReferencing(st1.status[self]) then Filter(others, (id: string) => id in st1.status && !IsSelfReferencing(st1.status[id])) else others;
      if |referenced| == 0 then Ok(NullResult(st1, refs.allReferences))
      else
        var r := LookupReferenced(ctx, st1, self, referenced, RefTypeOf(refs.remaining, default), refs.allReferences);
        if r.Ok? then FollowsTrans(st, st1, r.value.st); r else r
  }

  /** The objects a reference names, resolved and read as durations or as start or end
      instances. */
  function LookupReferenced(ctx: Ctx, st: St, self: string, referenced: seq<string>, refType: RefType,
                            allReferences: set<string>): (r: Result<Looked, ResolveError>)
    requires Valid(ctx, st) && self in st.status
    requires forall id :: id in referenced ==> id in ctx.infos
    ensures r.Ok? ==> Follows(st, r.value.st) && Valid(ctx, r.value.st)
    ensures r.Ok? ==> r.value.result.allReferences == allReferences
    ensures r.Err? ==> Reachable(r.error)
    decreases PendingIds(st), 1, 1, 0
  {
    if refType == DurationRef then
      var found :- CollectDurations(ctx, st, self, referenced);
      var d := MinDuration(found.durations, None);
      Ok(Looked(found.st, LookupResult(if d.Some? then TimeRef(d.value) else NullValue, allReferences)))
    else
      var found :- CollectInstances(ctx, st, self, referenced);
      if |found.instances| == 0 then Ok(NullResult(found.st, allReferences))
      else
        var v := if refType == EndRef then EndInstances(found.instances, found.st.counter)
                 else CleanInstances(found.instances, true, true, found.st.counter);
        var fin := Advance(found.st, v.counter);
        FollowsTrans(st, found.st, fin);
        Ok(Looked(fin, LookupResult(Instances(v.value), allReferences)))
  }

  /** A referenced object is read unless both it and the looking object are self-referencing. */
  function Readable(st: St, self: string, id: string): (r: Option<Resolved>)
    requires self in st.status && id in st.status
    ensures r.Some? <==> st.status[id].Complete? && !(IsSelfReferencing(st.status[self]) && st.status[id].resolved.isSelfReferencing)
    ensures r.Some? ==> r.value == st.status[id].resolved
  {
    match st.status[id]
    case Complete(res) => if IsSelfReferencing(st.status[self]) && res.isSelfReferencing then None else Some(res)
    case _ => None
  }

  datatype Durations = Durations(st: St, durations: seq<TimeWithReference>)

  /** Resolves each referenced object and takes the duration of its first instance, if bounded. */
  function CollectDurations(ctx: Ctx, st: St, self: string, ids: seq<string>): (r: Result<Durations, ResolveError>)
    requires Valid(ctx, st) && self in st.status
    requires forall id :: id in ids ==> id in ctx.infos
    ensures r.Ok? ==> Follows(st, r.value.st) && Valid(ctx, r.value.st)
    ensures r.Ok? ==> |r.value.durations| <= |ids|
    ensures r.Err? ==> Reachable(r.error)
    decreases PendingIds(st), 1, 0, |ids|
  {
    if |ids| == 0 then Ok(Durations(st, []))
    else
      var st1 :- ResolveObject(ctx, st, ids[0]);
      var res := Readable(st1, self, ids[0]);
      var here := if res.Some? && |res.value.instances| > 0 && res.value.instances[0].end.Some? then
                    var first := res.value.instances[0];
                    assert Positive(first);
                    [TimeWithReference(first.end.value - first.start, first.references + {ids[0]})]
                  else [];
      var rest :- CollectDurations(ctx, st1, self, ids[1..]);
      Ok(Durations(rest.st, here + rest.durations))
  }

  datatype Collected = Collected(st: St, instances: seq<TimelineInstance>)

  /** Resolves each referenced object and collects its instances. */
  function CollectInstances(ctx: Ctx, st: St, self: string, ids: seq<string>): (r: Result<Collected, ResolveError>)
    requires Valid(ctx, st) && self in st.status
    requires forall id :: id in ids ==> id in ctx.infos
    ensures r.Ok? ==> Follows(st, r.value.st) && Valid(ctx, r.value.st)
    ensures r.Ok? ==> forall k :: 0 <= k < |r.value.instances| ==> Positive(r.value.instances[k])
    ensures r.Err? ==> Reachable(r.error)
    decreases PendingIds(st), 1, 0, |ids|
  {
    if |ids| == 0 then Ok(Collected(st, []))
    else
      var st1 :- ResolveObject(ctx, st, ids[0]);
      var res := Readable(st1, self, ids[0]);
      var here := if res.Some? then res.value.instances else [];
      var rest :- CollectInstances(ctx, st1, self, ids[1..]);
      Ok(Collected(rest.st, here + rest.instances))
  }
}

=== FILE: sorting.dfy ===
/** The stable sort the crate calls with a comparator (`slice::sort_by`). The model sorts by
    insertion: every element is moved left past the elements it compares `Less` to, which is
    what the standard library's stable sort does on short slices, and which gives the one stable
    result whenever the comparator is a total order. */
module Sorting {

  datatype Ordering = Less | Equal | Greater

  /** The comparator never claims both `a < b` and `b < a`. */
  ghost predicate Antisymmetric<T(!new)>(cmp: (T, T) -> Ordering) {
    forall a: T, b: T :: cmp(a, b) == Less ==> cmp(b, a) != Less
  }

  /** No element is `Less` than its left neighbour: what a sort guarantees even when the
      comparator is not transitive. */
  ghost predicate NoAdjacentInversion<T>(s: seq<T>, cmp: (T, T) -> Ordering) {
    forall k :: 0 < k < |s| ==> cmp(s[k], s[k - 1]) != Less
  }

  /** Dropping the last element keeps a sequence free of adjacent inversions. */
  lemma NoAdjacentInversionInit<T>(s: seq<T>, cmp: (T, T) -> Ordering)
    requires |s| > 0 && NoAdjacentInversion(s, cmp)
    ensures NoAdjacentInversion(s[..|s| - 1], cmp)
  {
    var init := s[..|s| - 1];
    forall k | 0 < k < |init| ensures cmp(init[k], init[k - 1]) != Less {
      assert init[k] == s[k] && init[k - 1] == s[k - 1];
    }
  }

  /** Inserts `x` behind the sorted `s`, moving it left while it is `Less` than its left neighbour. */
  function InsertTail<T>(s: seq<T>, x: T, cmp: (T, T) -> Ordering): (r: seq<T>)
    ensures |r| == |s| + 1
    ensures multiset(r) == multiset(s) + multiset{x}
    ensures r[|r| - 1] == x || (|s| > 0 && r[|r| - 1] == s[|s| - 1])
  {
    if |s| == 0 || cmp(x, s[|s| - 1]) != Less then s + [x]
    else
      var init := s[..|s| - 1];
      assert s == init + [s[|s| - 1]];
      InsertTail(init, x, cmp) + [s[|s| - 1]]
  }

  /** Stable insertion sort: the elements of `s` in an order with no adjacent inversion. */
  function InsertionSort<T>(s: seq<T>, cmp: (T, T) -> Ordering): (r: seq<T>)
    ensures |r| == |s|
    ensures multiset(r) == multiset(s)
  {
    if |s| == 0 then []
    else
      assert s == s[..|s| - 1] + [s[|s| - 1]];
      InsertTail(InsertionSort(s[..|s| - 1], cmp), s[|s| - 1], cmp)
  }

  lemma {:induction false} InsertTailSorted<T(!new)>(s: seq<T>, x: T, cmp: (T, T) -> Ordering)
    requires Antisymmetric(cmp)
    requires NoAdjacentInversion(s, cmp)
    ensures NoAdjacentInversion(InsertTail(s, x, cmp), cmp)
  {
    if |s| > 0 && cmp(x, s[|s| - 1]) == Less {
      var init := s[..|s| - 1];
      var last := s[|s| - 1];
      NoAdjacentInversionInit(s, cmp);
      InsertTailSorted(init, x, cmp);
      var head := InsertTail(init, x, cmp);
      var r := head + [last];
      assert r == InsertTail(s, x, cmp);
      assert cmp(last, head[|head| - 1]) != Less by {
        if head[|head| - 1] == x {
          assert cmp(last, x) != Less;
        } else {
          assert head[|head| - 1] == s[|s| - 2];
        }
      }
      forall k | 0 < k < |r| ensures cmp(r[k], r[k - 1]) != Less {
        if k < |head| {
          assert r[k] == head[k] && r[k - 1] == head[k - 1];
        }
      }
    } else if |s| > 0 {
      var r := s + [x];
      forall k | 0 < k < |r| ensures cmp(r[k], r[k - 1]) != Less {
        if k < |s| {
          assert r[k] == s[k] && r[k - 1] == s[k - 1];
        }
      }
    }
  }

  /** The sort leaves no element `Less` than its left neighbour. */
  lemma {:induction false} SortedHasNoInversion<T(!new)>(s: seq<T>, cmp: (T, T) -> Ordering)
    requires Antisymmetric(cmp)
    ensures NoAdjacentInversion(InsertionSort(s, cmp), cmp)
  {
    if |s| > 0 {
      SortedHasNoInversion(s[..|s| - 1], cmp);
      InsertTailSorted(InsertionSort(s[..|s| - 1], cmp), s[|s| - 1], cmp);
    }
  }

  /** An element that is not `Less` than the last one stays at the end. */
  lemma InsertTailStays<T>(s: seq<T>, x: T, cmp: (T, T) -> Ordering)
    requires |s| == 0 || cmp(x, s[|s| - 1]) != Less
    ensures InsertTail(s, x, cmp) == s + [x]
  {
  }

  /** The sort inserts the last element into the sorted rest. */
  lemma InsertionSortLast<T>(s: seq<T>, cmp: (T, T) -> Ordering)
    requires |s| > 0
    ensures InsertionSort(s, cmp) == InsertTail(InsertionSort(s[..|s| - 1], cmp), s[|s| - 1], cmp)
  {
  }

  /** Sorting what is already sorted changes nothing; in particular sorting is idempotent. */
  lemma {:induction false} SortKeepsSorted<T>(s: seq<T>, cmp: (T, T) -> Ordering)
    requires NoAdjacentInversion(s, cmp)
    ensures InsertionSort(s, cmp) == s
  {
    if |s| > 0 {
      var init := s[..|s| - 1];
      var last := s[|s| - 1];
      assert s == init + [last];
      NoAdjacentInversionInit(s, cmp);
      SortKeepsSorted(init, cmp);
      if |init| > 0 {
        assert init[|init| - 1] == s[|s| - 2];
      }
      InsertTailStays(init, last, cmp);
      InsertionSortLast(s, cmp);
    }
  }

  lemma SortIdempotent<T(!new)>(s: seq<T>, cmp: (T, T) -> Ordering)
    requires Antisymmetric(cmp)
    ensures InsertionSort(InsertionSort(s, cmp), cmp) == InsertionSort(s, cmp)
  {
    SortedHasNoInversion(s, cmp);
    SortKeepsSorted(InsertionSort(s, cmp), cmp);
  }

  /** A sequence with no adjacent inversion is ordered by every key the comparator decides
      first: if a smaller key always compares `Less`, keys never decrease along the sequence. */
  lemma {:induction false} SortedByKey<T(!new)>(s: seq<T>, cmp: (T, T) -> Ordering, key: T -> int)
    requires NoAdjacentInversion(s, cmp)
    requires forall a: T, b: T :: key(a) < key(b) ==> cmp(a, b) == Less
    ensures forall i, j :: 0 <= i <= j < |s| ==> key(s[i]) <= key(s[j])
  {
    if |s| > 1 {
      var init := s[..|s| - 1];
      NoAdjacentInversionInit(s, cmp);
      SortedByKey(init, cmp, key);
      assert cmp(s[|s| - 1], s[|s| - 2]) != Less;
      forall i, j | 0 <= i <= j < |s| ensures key(s[i]) <= key(s[j]) {
        if j < |s| - 1 {
          assert s[i] == init[i] && s[j] == init[j];
        } else if i < |s| - 1 {
          assert s[i] == init[i] && s[|s| - 2] == init[|s| - 2];
        }
      }
    }
  }
}

=== FILE: state.dfy ===
/** State projection (supertimeline/src/state.rs): a chronological sweep over the resolved
    instances decides, per layer, which instance holds the layer, records the layer states over
    time and the upcoming events; `get_state` is the point query over that record.

    The crate shares instances between the per-object record, the layer states and the sweep's
    current holders (`Rc<Mutex<..>>`), and caps a holder in place when it loses its layer. The
    model keeps those shared instances in a heap (`ResolvedStates.heap`) and refers to them by
    index. */
module State {
  import opened Base
  import opened InstanceTypes
  import opened Sorting
  import Api

  // ---------------------------------------------------------------------------------------------
  // String order (`String::cmp`: lexicographic, a proper prefix first)

  function StrCmp(a: string, b: string): Ordering {
    if |a| == 0 && |b| == 0 then Equal
    else if |a| == 0 then Less
    else if |b| == 0 then Greater
    else if a[0] < b[0] then Less
    else if a[0] > b[0] then Greater
    else StrCmp(a[1..], b[1..])
  }

  /** The string order is antisymmetric and `Equal` only on equal strings. */
  lemma {:induction false} StrCmpFlip(a: string, b: string)
    ensures StrCmp(a, b) == Less <==> StrCmp(b, a) == Greater
    ensures StrCmp(a, b) == Equal <==> a == b
    decreases |a|
  {
    if |a| > 0 && |b| > 0 && a[0] == b[0] {
      StrCmpFlip(a[1..], b[1..]);
      assert a == [a[0]] + a[1..] && b == [b[0]] + b[1..];
    }
  }

  /** "Not less" is transitive on strings. */
  lemma {:induction false} StrCmpGeTrans(a: string, b: string, c: string)
    requires StrCmp(a, b) != Less && StrCmp(b, c) != Less
    ensures StrCmp(a, c) != Less
    decreases |a|
  {
    if |a| > 0 && |b| > 0 && |c| > 0 && a[0] == b[0] && b[0] == c[0] {
      StrCmpGeTrans(a[1..], b[1..], c[1..]);
    }
  }

  /** Every element is "not less" than every element before it: globally sorted. */
  ghost predicate SortedBy<T>(s: seq<T>, cmp: (T, T) -> Ordering) {
    forall i, j :: 0 <= i < j < |s| ==> cmp(s[j], s[i]) != Less
  }

  // ---------------------------------------------------------------------------------------------
  // Next events

  /** `EventType`, whose discriminants order `Start < End < KeyFrame`. */
  datatype EventType = StartEvent | EndEvent | KeyFrameEvent

  function Rank(t: EventType): nat {
    match t
    case StartEvent => 0
    case EndEvent => 1
    case KeyFrameEvent => 2
  }

  /** `NextEvent`. */
  datatype NextEvent = NextEvent(eventType: EventType, time: Time, objectId: string)

  /** The order of the final `next_events`: by time, then `KeyFrame`, `End`, `Start`, then by
      object id. */
  function CompareNextEvents(a: NextEvent, b: NextEvent): Ordering {
    if a.time > b.time then Greater
    else if a.time < b.time then Less
    else if Rank(a.eventType) > Rank(b.eventType) then Less
    else if Rank(a.eventType) < Rank(b.eventType) then Greater
    else StrCmp(a.objectId, b.objectId)
  }

  lemma CompareNextEventsAntisymmetric()
    ensures Antisymmetric(CompareNextEvents)
  {
    forall a: NextEvent, b: NextEvent | CompareNextEvents(a, b) == Less ensures CompareNextEvents(b, a) != Less {
      StrCmpFlip(a.objectId, b.objectId);
    }
  }

  /** The events in the order of `CompareNextEvents`. */
  function SortNextEvents(events: seq<NextEvent>): (r: seq<NextEvent>)
    ensures multiset(r) == multiset(events)
    ensures NoAdjacentInversion(r, CompareNextEvents)
  {
    CompareNextEventsAntisymmetric();
    SortedHasNoInversion(events, CompareNextEvents);
    InsertionSort(events, CompareNextEvents)
  }

  /** Sorted next events come by time, and at one time a keyframe before an end before a start. */
  lemma SortNextEventsSpec(events: seq<NextEvent>)
    ensures var r := SortNextEvents(events);
            (forall i, j :: 0 <= i <= j < |r| ==> r[i].time <= r[j].time) &&
            (forall k :: 0 < k < |r| && r[k - 1].time == r[k].time ==> Rank(r[k - 1].eventType) >= Rank(r[k].eventType))
  {
    var r := SortNextEvents(events);
    SortedByKey(r, CompareNextEvents, (e: NextEvent) => e.time as int);
  }

  // ---------------------------------------------------------------------------------------------
  // Layer states

  /** `ResolvedTimelineObjectInstanceKeyframe`. */
  datatype KeyframeInstance = KeyframeInstance(info: ObjectInfo, keyframeEndTime: Option<Time>)

  /** `TimelineLayerState`; `instance` refers into the heap. */
  datatype LayerState = LayerState(objectId: string, instanceId: Option<string>, instance: Option<nat>, keyframes: seq<KeyframeInstance>)

  /** `AllStates`: per layer, per time, the state from then on (`None` empties the layer). */
  type AllStates = map<string, map<Time, Option<LayerState>>>

  /** `ResolvedStatesForObject`: the object's state instances by id (refs into the heap), and the
      ids in insertion order. */
  datatype StatesForObject = StatesForObject(info: ObjectInfo, instances: map<string, nat>, ids: seq<string>)

  /** `ResolvedStates`, with the heap of shared instances. */
  datatype ResolvedStates = ResolvedStates(state: AllStates, nextEvents: seq<NextEvent>, objects: map<string, StatesForObject>,
                                           layers: map<string, seq<string>>, heap: seq<TimelineInstance>)

  /** The holder of a layer: an object's state instance (`ResolvedTimelineObjectInstance`). */
  datatype Holder = Holder(info: ObjectInfo, instanceId: string, ref: nat)

  /** Every instance reference in the layer states points into a heap of size `n`. */
  ghost predicate StateRefs(state: AllStates, n: nat) {
    forall l, t :: l in state && t in state[l] && state[l][t].Some? && state[l][t].value.instance.Some? ==>
      state[l][t].value.instance.value < n
  }

  /** `set_state_at_time`: the holder (or `None`) becomes the layer's state at `time`; nothing
      else changes. */
  function SetStateAtTime(state: AllStates, layer: string, time: Time, holder: Option<Holder>): (r: AllStates)
    ensures r.Keys == state.Keys + {layer}
    ensures time in r[layer] &&
            r[layer][time] == (if holder.Some? then Some(LayerState(holder.value.info.id, Some(holder.value.instanceId), Some(holder.value.ref), [])) else None)
    ensures forall t :: layer in state && t in state[layer] && t != time ==> t in r[layer] && r[layer][t] == state[layer][t]
    ensures forall t :: t in r[layer] ==> t == time || (layer in state && t in state[layer])
    ensures forall l :: l in state && l != layer ==> r[l] == state[l]
    ensures forall n: nat :: StateRefs(state, n) && (holder.Some? ==> holder.value.ref < n) ==> StateRefs(r, n)
  {
    var states := if layer in state then state[layer] else map[];
    var entry := if holder.Some? then Some(LayerState(holder.value.info.id, Some(holder.value.instanceId), Some(holder.value.ref), [])) else None;
    state[layer := states[time := entry]]
  }

  /** `add_keyframe_at_time`: the keyframe joins the layer's state at `time`, which is created
      (without an instance) when missing; a `None` state is left alone. */
  function AddKeyframeAtTime(state: AllStates, layer: string, time: Time, kf: KeyframeInstance): (r: AllStates)
    ensures r.Keys == state.Keys + {layer} && time in r[layer]
    ensures layer in state && time in state[layer] && state[layer][time].None? ==> r == state
    ensures layer in state && time in state[layer] && state[layer][time].Some? ==>
              r[layer][time] == Some(state[layer][time].value.(keyframes := state[layer][time].value.keyframes + [kf]))
    ensures !(layer in state && time in state[layer]) ==> r[layer][time] == Some(LayerState(kf.info.id, None, None, [kf]))
    ensures forall t :: layer in state && t in state[layer] && t != time ==> t in r[layer] && r[layer][t] == state[layer][t]
    ensures forall l :: l in state && l != layer ==> r[l] == state[l]
    ensures forall n: nat :: StateRefs(state, n) ==> StateRefs(r, n)
  {
    var states := if layer in state then state[layer] else map[];
    if time in states && states[time].None? then
      assert states[time := None] == states;
      assert state[layer := states[time := None]] == state;
      state
    else
      var entry := if time in states then states[time].value else LayerState(kf.info.id, None, None, []);
      assert entry.keyframes + [kf] == (if time in states then entry.keyframes + [kf] else [kf]);
      state[layer := states[time := Some(entry.(keyframes := entry.keyframes + [kf]))]]
  }

  // ---------------------------------------------------------------------------------------------
  // get_state

  /** `TimelineLayerState2`: the holder's object, a copy of its instance, the applied keyframes. */
  datatype LayerStateAt = LayerStateAt(objectId: string, instance: TimelineInstance, keyframes: seq<KeyframeInstance>)

  /** The smallest element of a non-empty set of times. */
  function MinOf(s: set<Time>): (m: Time)
    requires s != {}
    ensures m in s && forall x :: x in s ==> m <= x
  {
    assert exists m :: m in s && forall x :: x in s ==> m <= x by {
      var m := HasMin(s);
    }
    var least :| least in s && forall x :: x in s ==> least <= x;
    least
  }

  lemma HasMin(s: set<Time>) returns (m: Time)
    requires s != {}
    ensures m in s && forall x :: x in s ==> m <= x
    decreases |s|
  {
    var y :| y in s;
    if s == {y} {
      m := y;
    } else {
      var m' := HasMin(s - {y});
      m := if y < m' then y else m';
      forall x | x in s ensures m <= x {
        if x != y {
          assert x in s - {y};
        }
      }
    }
  }

  /** The times of a set in increasing order. */
  function SortedTimes(s: set<Time>): (r: seq<Time>)
    ensures forall t :: t in r <==> t in s
    ensures forall i, j :: 0 <= i < j < |r| ==> r[i] < r[j]
    decreases |s|
  {
    if s == {} then []
    else
      var m := MinOf(s);
      [m] + SortedTimes(s - {m})
  }

  /** The keyframes of a recorded state that apply to the holder `objectId` at `request`: those
      whose parent it is and that have not ended by then. */
  function Applied(keyframes: seq<KeyframeInstance>, objectId: string, request: Time): (r: seq<KeyframeInstance>)
    ensures forall k :: k in r <==> k in keyframes && k.info.parentId == Some(objectId) && EndOrMax(k.keyframeEndTime) > request
  {
    Filter(keyframes, (k: KeyframeInstance) => k.info.parentId == Some(objectId) && EndOrMax(k.keyframeEndTime) > request)
  }

  /** One recorded state, read at `request`: an instance makes its object the layer's state; a
      state without instance and keyframes (or `None`) empties the layer; keyframes of the current
      holder that have not ended by `request` are applied. */
  function LayerStep(best: Option<LayerStateAt>, entry: Option<LayerState>, heap: seq<TimelineInstance>, request: Time): (r: Option<LayerStateAt>)
    requires entry.Some? && entry.value.instance.Some? ==> entry.value.instance.value < |heap|
    ensures entry.None? ==> r.None?
    ensures entry.Some? && entry.value.instance.Some? ==>
              r.Some? && r.value.objectId == entry.value.objectId && r.value.instance == heap[entry.value.instance.value] &&
              r.value.keyframes == Applied(entry.value.keyframes, entry.value.objectId, request)
    ensures entry.Some? && entry.value.instance.None? && |entry.value.keyframes| > 0 ==>
              (r.Some? <==> best.Some?) &&
              (best.Some? ==> r.value.objectId == best.value.objectId && r.value.instance == best.value.instance &&
                              r.value.keyframes == best.value.keyframes + Applied(entry.value.keyframes, best.value.objectId, request))
    ensures entry.Some? && entry.value.instance.None? && |entry.value.keyframes| == 0 ==> r.None?
    ensures r.Some? ==> forall k :: k in r.value.keyframes ==>
              (best.Some? && k in best.value.keyframes && entry.Some? && entry.value.instance.None?) ||
              (entry.Some? && k in entry.value.keyframes && k.info.parentId == Some(r.value.objectId) && EndOrMax(k.keyframeEndTime) > request)
  {
    match entry
    case None => None
    case Some(cs) =>
      var best1 := if cs.instance.Some? then Some(LayerStateAt(cs.objectId, heap[cs.instance.value], [])) else best;
      if |cs.keyframes| == 0 && cs.instance.None? then None
      else if best1.Some? then
        Some(best1.value.(keyframes := best1.value.keyframes + Applied(cs.keyframes, best1.value.objectId, request)))
      else None
  }

  /** The recorded states at `times[k..]` (ascending), up to `request`. */
  function LayerFold(times: seq<Time>, states: map<Time, Option<LayerState>>, heap: seq<TimelineInstance>, request: Time, k: nat,
                     best: Option<LayerStateAt>): Option<LayerStateAt>
    requires k <= |times|
    requires forall t :: t in times ==> t in states
    requires forall t :: t in states && states[t].Some? && states[t].value.instance.Some? ==> states[t].value.instance.value < |heap|
    decreases |times| - k
  {
    if k == |times| || times[k] > request then best
    else LayerFold(times, states, heap, request, k + 1, LayerStep(best, states[times[k]], heap, request))
  }

  /** `get_state_at_time_for_layer`. */
  function StateAtTimeForLayer(state: AllStates, heap: seq<TimelineInstance>, layer: string, request: Time): Option<LayerStateAt>
    requires StateRefs(state, |heap|)
  {
    if layer !in state then None
    else LayerFold(SortedTimes(state[layer].Keys), state[layer], heap, request, 0, None)
  }

  /** The fold is decided by the last recorded time it reads. */
  lemma {:induction false} LayerFoldLast(times: seq<Time>, states: map<Time, Option<LayerState>>, heap: seq<TimelineInstance>, request: Time,
                                         k: nat, best: Option<LayerStateAt>, last: nat)
    requires k <= last < |times| && times[last] <= request && (last + 1 == |times| || times[last + 1] > request)
    requires forall i, j :: 0 <= i < j < |times| ==> times[i] < times[j]
    requires forall t :: t in times ==> t in states
    requires forall t :: t in states && states[t].Some? && states[t].value.instance.Some? ==> states[t].value.instance.value < |heap|
    ensures exists b :: LayerFold(times, states, heap, request, k, best) == LayerStep(b, states[times[last]], heap, request)
    decreases |times| - k
  {
    var next := LayerStep(best, states[times[k]], heap, request);
    if k < last {
      LayerFoldLast(times, states, heap, request, k + 1, next, last);
    } else {
      assert LayerFold(times, states, heap, request, k + 1, next) == next;
    }
  }

  /** The fold up to and including the last recorded time it reads is the fold of the times
      before that one, followed by one step for it. */
  lemma {:induction false} LayerFoldSplit(times: seq<Time>, states: map<Time, Option<LayerState>>, heap: seq<TimelineInstance>, request: Time,
                                          k: nat, best: Option<LayerStateAt>, last: nat)
    requires k <= last < |times| && times[last] <= request && (last + 1 == |times| || times[last + 1] > request)
    requires forall i, j :: 0 <= i < j < |times| ==> times[i] < times[j]
    requires forall t :: t in times ==> t in states
    requires forall t :: t in states && states[t].Some? && states[t].value.instance.Some? ==> states[t].value.instance.value < |heap|
    ensures LayerFold(times, states, heap, request, k, best) ==
            LayerStep(LayerFold(times[..last], states, heap, request, k, best), states[times[last]], heap, request)
    decreases |times| - k
  {
    var next := LayerStep(best, states[times[k]], heap, request);
    if k < last {
      assert times[..last][k] == times[k] <= request;
      LayerFoldSplit(times, states, heap, request, k + 1, next, last);
    } else {
      assert LayerFold(times, states, heap, request, k + 1, next) == next;
    }
  }

  /** Who holds the layer in a folded state: its object and instance, without the keyframes. */
  function Holding(o: Option<LayerStateAt>): Option<(string, TimelineInstance)> {
    if o.None? then None else Some((o.value.objectId, o.value.instance))
  }

  /** Who holds the layer after reading a list of recorded states does not depend on the requested
      time, which only filters keyframes: folding the times before `times[last]` at any request
      from them on, and folding all times at a request that stops just before `times[last]`, give
      the same holder. */
  lemma {:induction false} LayerFoldHolding(times: seq<Time>, states: map<Time, Option<LayerState>>, heap: seq<TimelineInstance>,
                                            request: Time, before: Time, k: nat, b1: Option<LayerStateAt>, b2: Option<LayerStateAt>, last: nat)
    requires k <= last < |times| && times[last] <= request && times[last] == before + 1
    requires forall i, j :: 0 <= i < j < |times| ==> times[i] < times[j]
    requires forall t :: t in times ==> t in states
    requires forall t :: t in states && states[t].Some? && states[t].value.instance.Some? ==> states[t].value.instance.value < |heap|
    requires Holding(b1) == Holding(b2)
    ensures Holding(LayerFold(times, states, heap, before, k, b1)) == Holding(LayerFold(times[..last], states, heap, request, k, b2))
    decreases |times| - k
  {
    if k < last {
      assert times[..last][k] == times[k] < times[last];
      LayerFoldHolding(times, states, heap, request, before, k + 1, LayerStep(b1, states[times[k]], heap, before),
                       LayerStep(b2, states[times[k]], heap, request), last);
    }
  }

  /** `s` ends with `suffix`. */
  predicate EndsWith<T(==)>(s: seq<T>, suffix: seq<T>) {
    |suffix| <= |s| && s[|s| - |suffix|..] == suffix
  }

  /** `t` is the latest time recorded for `layer` that is not after `request`. */
  predicate LatestAt(state: AllStates, layer: string, request: Time, t: Time) {
    layer in state && t in state[layer] && t <= request && forall u :: u in state[layer] && u <= request ==> u <= t
  }

  /** What the latest recorded state `t` makes of the layer at `request`: `None`, or a state with
      neither instance nor keyframes, empties it; an instance makes its object the holder, with that
      state's keyframes that apply at `request`; keyframes alone keep the holder of the times before
      `t` (the layer read just before `t`) and append those of them that apply to it. */
  predicate ReadsLatest(state: AllStates, heap: seq<TimelineInstance>, layer: string, request: Time, t: Time)
    requires StateRefs(state, |heap|) && LatestAt(state, layer, request, t)
  {
    var r := StateAtTimeForLayer(state, heap, layer, request);
    var e := state[layer][t];
    (e.None? ==> r.None?) &&
    (e.Some? && e.value.instance.Some? ==>
       (r.Some? && r.value.objectId == e.value.objectId && r.value.instance == heap[e.value.instance.value] &&
        r.value.keyframes == Applied(e.value.keyframes, r.value.objectId, request))) &&
    (e.Some? && e.value.instance.None? && |e.value.keyframes| == 0 ==> r.None?) &&
    (e.Some? && e.value.instance.None? && |e.value.keyframes| > 0 ==>
       var p := if t == 0 then None else StateAtTimeForLayer(state, heap, layer, t - 1);
       (r.Some? <==> p.Some?) &&
       (r.Some? ==>
          r.value.objectId == p.value.objectId && r.value.instance == p.value.instance &&
          EndsWith(r.value.keyframes, Applied(e.value.keyframes, r.value.objectId, request))))
  }

  /** A latest recorded state that is `None`, or empty, empties the layer; one with an instance
      makes its object the holder, with its keyframes that apply at `request`. */
  lemma LatestEntry(state: AllStates, heap: seq<TimelineInstance>, layer: string, request: Time, t: Time)
    requires StateRefs(state, |heap|) && LatestAt(state, layer, request, t)
    ensures var r := StateAtTimeForLayer(state, heap, layer, request);
            var e := state[layer][t];
            (e.None? ==> r.None?) &&
            (e.Some? && e.value.instance.Some? ==>
               (r.Some? && r.value.objectId == e.value.objectId && r.value.instance == heap[e.value.instance.value] &&
                r.value.keyframes == Applied(e.value.keyframes, r.value.objectId, request))) &&
            (e.Some? && e.value.instance.None? && |e.value.keyframes| == 0 ==> r.None?)
  {
    var states := state[layer];
    var times := SortedTimes(states.Keys);
    assert t in times;
    var last :| 0 <= last < |times| && times[last] == t;
    if last + 1 < |times| {
      assert times[last + 1] in states && times[last + 1] > t;
    }
    LayerFoldLast(times, states, heap, request, 0, None, last);
  }

  /** The fold's view of `LatestKeyframesOnly`: the last time read holds only keyframes. */
  lemma FoldKeyframesOnly(times: seq<Time>, states: map<Time, Option<LayerState>>, heap: seq<TimelineInstance>, request: Time, last: nat, t: Time)
    requires last < |times| && times[last] == t && t <= request && (last + 1 == |times| || times[last + 1] > request)
    requires forall i, j :: 0 <= i < j < |times| ==> times[i] < times[j]
    requires forall t :: t in times ==> t in states
    requires forall t :: t in states && states[t].Some? && states[t].value.instance.Some? ==> states[t].value.instance.value < |heap|
    requires states[t].Some? && states[t].value.instance.None? && |states[t].value.keyframes| > 0
    ensures var r := LayerFold(times, states, heap, request, 0, None);
            var p := if t == 0 then None else LayerFold(times, states, heap, t - 1, 0, None);
            (r.Some? <==> p.Some?) &&
            (r.Some? ==>
               r.value.objectId == p.value.objectId && r.value.instance == p.value.instance &&
               EndsWith(r.value.keyframes, Applied(states[t].value.keyframes, r.value.objectId, request)))
  {
    LayerFoldSplit(times, states, heap, request, 0, None, last);
    var prefix := LayerFold(times[..last], states, heap, request, 0, None);
    var r := LayerFold(times, states, heap, request, 0, None);
    if last == 0 {
      assert prefix == None;
    } else {
      assert times[0] < times[last];
      LayerFoldHolding(times, states, heap, request, t - 1, 0, None, None, last);
    }
    if r.Some? {
      var applied := Applied(states[t].value.keyframes, r.value.objectId, request);
      assert r.value.keyframes == prefix.value.keyframes + applied;
      assert r.value.keyframes[|r.value.keyframes| - |applied|..] == applied;
    }
  }

  /** A latest recorded state holding only keyframes keeps the holder of the earlier times and
      appends its keyframes that apply to that holder at `request`. */
  lemma LatestKeyframesOnly(state: AllStates, heap: seq<TimelineInstance>, layer: string, request: Time, t: Time)
    requires StateRefs(state, |heap|) && LatestAt(state, layer, request, t)
    requires state[layer][t].Some? && state[layer][t].value.instance.None? && |state[layer][t].value.keyframes| > 0
    ensures var r := StateAtTimeForLayer(state, heap, layer, request);
            var p := if t == 0 then None else StateAtTimeForLayer(state, heap, layer, t - 1);
            (r.Some? <==> p.Some?) &&
            (r.Some? ==>
               r.value.objectId == p.value.objectId && r.value.instance == p.value.instance &&
               EndsWith(r.value.keyframes, Applied(state[layer][t].value.keyframes, r.value.objectId, request)))
  {
    var states := state[layer];
    var times := SortedTimes(states.Keys);
    assert t in times;
    var last :| 0 <= last < |times| && times[last] == t;
    if last + 1 < |times| {
      assert times[last + 1] in states && times[last + 1] > t;
    }
    FoldKeyframesOnly(times, states, heap, request, last, t);
  }

  /** The layer's state at `request` comes from the latest recorded time not after it
      (`ReadsLatest`); with no recorded time up to `request`, the layer is empty. */
  lemma StateAtTimeForLayerLatest(state: AllStates, heap: seq<TimelineInstance>, layer: string, request: Time)
    requires StateRefs(state, |heap|)
    ensures layer !in state ==> StateAtTimeForLayer(state, heap, layer, request).None?
    ensures layer in state && (forall t :: t in state[layer] ==> t > request) ==> StateAtTimeForLayer(state, heap, layer, request).None?
    ensures forall t :: LatestAt(state, layer, request, t) ==> ReadsLatest(state, heap, layer, request, t)
  {
    if layer in state {
      var states := state[layer];
      var times := SortedTimes(states.Keys);
      if forall t :: t in states ==> t > request {
        if |times| > 0 {
          assert times[0] in states;
        }
      }
    }
    forall t | LatestAt(state, layer, request, t) ensures ReadsLatest(state, heap, layer, request, t) {
      LatestEntry(state, heap, layer, request, t);
      if state[layer][t].Some? && state[layer][t].value.instance.None? && |state[layer][t].value.keyframes| > 0 {
        LatestKeyframesOnly(state, heap, layer, request, t);
      }
    }
  }

  /** `TimelineState`. */
  datatype TimelineState = TimelineState(time: Time, layers: map<string, LayerStateAt>, nextEvents: seq<NextEvent>)

  /** The first `limit` elements; no limit for `None` or 0 (`usize::MAX` in the crate). */
  function TakeLimit<T>(s: seq<T>, limit: Option<nat>): (r: seq<T>)
    ensures limit.None? || limit.value == 0 || |s| <= limit.value ==> r == s
    ensures limit.Some? && 0 < limit.value < |s| ==> r == s[..limit.value]
  {
    if limit.None? || limit.value == 0 || |s| <= limit.value then s else s[..limit.value]
  }

  /** `get_state`: the upcoming events after `time` (at most `eventLimit`) and the state of every
      known layer that has one at `time`. */
  function GetState(resolved: ResolvedStates, time: Time, eventLimit: Option<nat>): (r: TimelineState)
    requires StateRefs(resolved.state, |resolved.heap|)
    ensures r.time == time
    ensures forall e :: e in r.nextEvents ==> e in resolved.nextEvents && e.time > time
    ensures eventLimit.Some? && eventLimit.value > 0 ==> |r.nextEvents| <= eventLimit.value
    ensures (eventLimit.None? || eventLimit.value == 0) ==> forall e :: e in resolved.nextEvents && e.time > time ==> e in r.nextEvents
    ensures forall l :: l in r.layers <==> l in resolved.layers && StateAtTimeForLayer(resolved.state, resolved.heap, l, time).Some?
    ensures forall l :: l in r.layers ==> r.layers[l] == StateAtTimeForLayer(resolved.state, resolved.heap, l, time).value
  {
    var upcoming := Filter(resolved.nextEvents, (e: NextEvent) => e.time > time);
    var events := TakeLimit(upcoming, eventLimit);
    assert forall e :: e in events ==> e in upcoming;
    var layers := map l | l in resolved.layers && StateAtTimeForLayer(resolved.state, resolved.heap, l, time).Some? ::
                    StateAtTimeForLayer(resolved.state, resolved.heap, l, time).value;
    TimelineState(time, layers, events)
  }

  // ---------------------------------------------------------------------------------------------
  // resolve_all_states, step 1: points in time

  /** `ResolvedTimelineObjectInstance` as a point carries it: the object, and a copy of one of its
      resolved instances. */
  datatype PointObj = PointObj(info: ObjectInfo, instanceId: string, instance: TimelineInstance)

  /** `PointInTime` with its time. */
  datatype Point = Point(time: Time, enable: bool, obj: PointObj)

  /** `TimeEvent`. */
  datatype TimeEvent = TimeEvent(time: Time, enable: bool)

  /** Objects that take part in the layer sweep: enabled, on a layer, not keyframes. */
  predicate OnLayer(info: ObjectInfo) {
    !info.disabled && info.layer != "" && !info.isKeyframe
  }

  /** Keyframes that take part: enabled, with a parent. */
  predicate ActiveKeyframe(info: ObjectInfo) {
    !info.disabled && info.isKeyframe && info.parentId.Some?
  }

  /** Start (and end) times of instances. */
  function InstanceTimes(instances: seq<TimelineInstance>): (r: seq<TimeEvent>)
    ensures forall e :: e in r ==> exists i :: i in instances && ((e.enable && e.time == i.start) || (!e.enable && i.end == Some(e.time)))
    ensures forall i :: i in instances ==> TimeEvent(i.start, true) in r
    ensures forall i :: i in instances && i.end.Some? ==> TimeEvent(i.end.value, false) in r
  {
    if |instances| == 0 then []
    else
      var i := instances[0];
      var rest := InstanceTimes(instances[1..]);
      assert forall x :: x in instances[1..] ==> x in instances;
      [TimeEvent(i.start, true)] + (if i.end.Some? then [TimeEvent(i.end.value, false)] else []) + rest
  }

  /** `get_times_from_parent`: the instance times of the parent, its parent, and so on. The chain
      is followed at most `fuel` steps. */
  function TimesFromParent(objects: map<string, Api.ResolvedObject>, obj: Api.ResolvedObject, fuel: nat): (r: seq<TimeEvent>)
    ensures obj.info.parentId.None? || obj.info.parentId.value !in objects ==> r == []
    ensures fuel > 0 && obj.info.parentId.Some? && obj.info.parentId.value in objects ==>
              forall i :: i in objects[obj.info.parentId.value].resolved.instances ==>
                TimeEvent(i.start, true) in r && (i.end.Some? ==> TimeEvent(i.end.value, false) in r)
    decreases fuel
  {
    if fuel == 0 || obj.info.parentId.None? || obj.info.parentId.value !in objects then []
    else
      var parent := objects[obj.info.parentId.value];
      InstanceTimes(parent.resolved.instances) + TimesFromParent(objects, parent, fuel - 1)
  }

  /** `make_resolved_obj`. */
  function MakeResolvedObj(obj: Api.ResolvedObject, i: TimelineInstance): PointObj {
    PointObj(obj.info, i.id, i)
  }

  function PointsOf(events: seq<TimeEvent>, obj: PointObj): (r: seq<Point>)
    ensures |r| == |events|
    ensures forall k :: 0 <= k < |r| ==> r[k] == Point(events[k].time, events[k].enable, obj)
  {
    seq(|events|, k requires 0 <= k < |events| => Point(events[k].time, events[k].enable, obj))
  }

  /** The points of one instance of a layer object: its start, its end, and the parents' times
      strictly inside it. */
  function InstancePoints(objects: map<string, Api.ResolvedObject>, obj: Api.ResolvedObject, i: TimelineInstance, fuel: nat): (r: seq<Point>)
    ensures Point(i.start, true, MakeResolvedObj(obj, i)) in r
    ensures i.end.Some? ==> Point(i.end.value, false, MakeResolvedObj(obj, i)) in r
    ensures forall p :: p in r ==> p.obj == MakeResolvedObj(obj, i)
  {
    var own := [TimeEvent(i.start, true)] + (if i.end.Some? then [TimeEvent(i.end.value, false)] else []);
    var inside := Filter(TimesFromParent(objects, obj, fuel), (e: TimeEvent) => e.time > i.start && e.time < EndOf(i));
    var r := PointsOf(own + inside, MakeResolvedObj(obj, i));
    assert r[0] == Point(i.start, true, MakeResolvedObj(obj, i));
    assert i.end.Some? ==> r[1] == Point(i.end.value, false, MakeResolvedObj(obj, i));
    r
  }

  /** An instance is used when there is no `onlyForTime`, or it is active then. */
  predicate UseInstance(i: TimelineInstance, onlyForTime: Option<Time>) {
    onlyForTime.None? || Contains(i, onlyForTime.value)
  }

  /** The points of the used instances `k ..` of a layer object. */
  function ObjectPoints(objects: map<string, Api.ResolvedObject>, obj: Api.ResolvedObject, onlyForTime: Option<Time>, fuel: nat, k: nat): (r: seq<Point>)
    requires k <= |obj.resolved.instances|
    ensures forall p :: p in r ==> p.obj.info == obj.info && p.obj.instance in obj.resolved.instances[k..]
    decreases |obj.resolved.instances| - k
  {
    if k == |obj.resolved.instances| then []
    else
      var i := obj.resolved.instances[k];
      (if UseInstance(i, onlyForTime) then InstancePoints(objects, obj, i, fuel) else []) + ObjectPoints(objects, obj, onlyForTime, fuel, k + 1)
  }

  /** The start and end points of a keyframe's instances `k ..`. */
  function KeyframePoints(obj: Api.ResolvedObject, k: nat): (r: seq<Point>)
    requires k <= |obj.resolved.instances|
    ensures forall p :: p in r ==> p.obj.info == obj.info && p.obj.instance in obj.resolved.instances[k..]
    decreases |obj.resolved.instances| - k
  {
    if k == |obj.resolved.instances| then []
    else
      var i := obj.resolved.instances[k];
      var own := [TimeEvent(i.start, true)] + (if i.end.Some? then [TimeEvent(i.end.value, false)] else []);
      PointsOf(own, MakeResolvedObj(obj, i)) + KeyframePoints(obj, k + 1)
  }

  /** Step 1 of `resolve_all_states`: the points of every layer object, then of every keyframe, in
      the order of `objs`. Only enabled layer objects and enabled keyframes with a parent take
      part. */
  function CollectPoints(objects: map<string, Api.ResolvedObject>, objs: seq<Api.ResolvedObject>, onlyForTime: Option<Time>, fuel: nat): (r: seq<Point>)
    ensures forall p :: p in r ==>
              (OnLayer(p.obj.info) || ActiveKeyframe(p.obj.info)) &&
              (exists o :: o in objs && o.info == p.obj.info && p.obj.instance in o.resolved.instances)
  {
    LayerPoints(objects, objs, onlyForTime, fuel, 0) + AllKeyframePoints(objs, 0)
  }

  function LayerPoints(objects: map<string, Api.ResolvedObject>, objs: seq<Api.ResolvedObject>, onlyForTime: Option<Time>, fuel: nat, k: nat): (r: seq<Point>)
    requires k <= |objs|
    ensures forall p :: p in r ==> OnLayer(p.obj.info) && exists o :: o in objs && o.info == p.obj.info && p.obj.instance in o.resolved.instances
    decreases |objs| - k
  {
    if k == |objs| then []
    else
      var here := if OnLayer(objs[k].info) then ObjectPoints(objects, objs[k], onlyForTime, fuel, 0) else [];
      assert forall p :: p in here ==> OnLayer(p.obj.info) && objs[k] in objs && objs[k].info == p.obj.info && p.obj.instance in objs[k].resolved.instances;
      here + LayerPoints(objects, objs, onlyForTime, fuel, k + 1)
  }

  function AllKeyframePoints(objs: seq<Api.ResolvedObject>, k: nat): (r: seq<Point>)
    requires k <= |objs|
    ensures forall p :: p in r ==> ActiveKeyframe(p.obj.info) && exists o :: o in objs && o.info == p.obj.info && p.obj.instance in o.resolved.instances
    decreases |objs| - k
  {
    if k == |objs| then []
    else
      var here := if ActiveKeyframe(objs[k].info) then KeyframePoints(objs[k], 0) else [];
      assert forall p :: p in here ==> ActiveKeyframe(p.obj.info) && objs[k] in objs && objs[k].info == p.obj.info && p.obj.instance in objs[k].resolved.instances;
      here + AllKeyframePoints(objs, k + 1)
  }

  /** Parents before children: by depth, then by id. */
  function CompareObjects(a: Api.ResolvedObject, b: Api.ResolvedObject): Ordering {
    if a.info.depth > b.info.depth then Greater
    else if a.info.depth < b.info.depth then Less
    else StrCmp(a.info.id, b.info.id)
  }

  /** The order points at one time are handled in: keyframes first, then ends before starts, then
      shallower objects first, then by id. */
  function ComparePoints(a: Point, b: Point): Ordering {
    if a.obj.info.isKeyframe && !b.obj.info.isKeyframe then Less
    else if !a.obj.info.isKeyframe && b.obj.info.isKeyframe then Greater
    else if a.enable && !b.enable then Greater
    else if !a.enable && b.enable then Less
    else if a.obj.info.depth > b.obj.info.depth then Greater
    else if a.obj.info.depth < b.obj.info.depth then Less
    else StrCmp(a.obj.info.id, b.obj.info.id)
  }

  /** Where a point comes in the handling order of one time: keyframes, then ends, then starts. */
  function PointClass(p: Point): int {
    if p.obj.info.isKeyframe then 0 else if !p.enable then 1 else 2
  }

  lemma ComparePointsAntisymmetric()
    ensures Antisymmetric(ComparePoints)
  {
    forall a: Point, b: Point | ComparePoints(a, b) == Less ensures ComparePoints(b, a) != Less {
      StrCmpFlip(a.obj.info.id, b.obj.info.id);
    }
  }

  /** The points of one time in handling order: all keyframe points first, then the ends, then the
      starts; within each, shallower objects first. */
  function SortPoints(ps: seq<Point>): (r: seq<Point>)
    ensures multiset(r) == multiset(ps)
    ensures forall i, j :: 0 <= i <= j < |r| ==> PointClass(r[i]) <= PointClass(r[j])
    ensures forall k :: 0 < k < |r| && r[k - 1].obj.info.isKeyframe == r[k].obj.info.isKeyframe && r[k - 1].enable == r[k].enable ==>
              r[k - 1].obj.info.depth <= r[k].obj.info.depth
  {
    ComparePointsAntisymmetric();
    SortedHasNoInversion(ps, ComparePoints);
    var r := InsertionSort(ps, ComparePoints);
    SortedByKey(r, ComparePoints, PointClass);
    r
  }
}

=== FILE: state_sweep.dfy ===
/** State projection, the rest of the sweep and its result (supertimeline/src/state.rs): keyframes
    follow their parents onto the layer states, every event time is handled in order, and the
    upcoming events are collected. */
module StateSweep {
  import opened Base
  import opened InstanceTypes
  import opened Sorting
  import opened State
  import opened Holders
  import Api

  /** A point of a keyframe: it is recorded as its own object, and becomes active or inactive. */
  function KeyframePoint(time: Time, sw: Sweep, o: Point): (r: Sweep)
    requires SweepInv(sw)
    ensures SweepInv(r)
    ensures Contains(o.obj.instance, time) ==> o.obj.info.id in r.activeKeyframes && r.activeKeyframes[o.obj.info.id] == o.obj
    ensures !Contains(o.obj.instance, time) ==> o.obj.info.id !in r.activeKeyframes && o.obj.info.id !in r.checked
  {
    var id := o.obj.info.id;
    var ref := |sw.rs.heap|;
    var rs := sw.rs.(objects := sw.rs.objects[id := StatesForObject(o.obj.info, map[o.obj.instanceId := ref], [o.obj.instanceId])],
                     heap := sw.rs.heap + [o.obj.instance]);
    if Contains(o.obj.instance, time) then
      sw.(rs := rs, activeKeyframes := sw.activeKeyframes[id := o.obj],
          keyframeOrder := if id in sw.activeKeyframes then sw.keyframeOrder else sw.keyframeOrder + [id])
    else
      sw.(rs := rs, activeKeyframes := sw.activeKeyframes - {id}, keyframeOrder := Filter(sw.keyframeOrder, (k: string) => k != id),
          checked := sw.checked - {id})
  }

  /** The identifier under which a point is handled at most once per time. */
  datatype PointKey = PointKey(objectId: string, instanceId: string, enable: bool)

  /** The points `k ..` of one time, in their handling order. */
  function ProcessPoints(reading: Reading, objects: map<string, Api.ResolvedObject>, onlyForTime: Option<Time>, time: Time, sw: Sweep,
                         ps: seq<Point>, k: nat, seen: set<PointKey>): (r: Sweep)
    requires SweepInv(sw) && k <= |ps|
    ensures SweepInv(r)
    decreases |ps| - k
  {
    if k == |ps| then sw
    else
      var o := ps[k];
      var key := PointKey(o.obj.info.id, o.obj.instance.id, o.enable);
      if key in seen then ProcessPoints(reading, objects, onlyForTime, time, sw, ps, k + 1, seen)
      else
        var sw1 := if o.obj.info.isKeyframe then KeyframePoint(time, sw, o) else LayerPoint(reading, objects, onlyForTime, time, sw, o);
        ProcessPoints(reading, objects, onlyForTime, time, sw1, ps, k + 1, seen + {key})
  }

  /** Whether an active keyframe's parent currently holds a layer, and that layer. */
  function KeyframeLayer(sw: Sweep, kf: PointObj): (r: Option<string>)
    ensures r.Some? ==> r.value in sw.current && r.value != ""
  {
    if kf.info.parentId.Some? && kf.info.parentId.value in sw.active &&
       sw.active[kf.info.parentId.value].info.layer != "" && sw.active[kf.info.parentId.value].info.layer in sw.current
    then Some(sw.active[kf.info.parentId.value].info.layer)
    else None
  }

  /** The keyframe applies on its parent's layer from `time`, with a `KeyFrame` event at its start
      and, when it ends before the layer's holder, at its end. */
  function ApplyKeyframe(sw: Sweep, kf: PointObj, layer: string, time: Time): (r: Sweep)
    requires SweepInv(sw) && layer in sw.current
    ensures SweepInv(r)
    ensures r.rs.state == AddKeyframeAtTime(sw.rs.state, layer, time, KeyframeInstance(kf.info, kf.instance.end))
    ensures |r.keyframeEvents| > |sw.keyframeEvents| && r.keyframeEvents[|sw.keyframeEvents|] == NextEvent(KeyFrameEvent, kf.instance.start, kf.info.id)
    ensures r.current == sw.current && r.active == sw.active && r.activeKeyframes == sw.activeKeyframes && r.checked == sw.checked
  {
    var holder := sw.current[layer];
    var holderEnd := sw.rs.heap[holder.ref].end;
    var endsFirst := kf.instance.end.Some? && (holderEnd.None? || kf.instance.end.value < holderEnd.value);
    var events := [NextEvent(KeyFrameEvent, kf.instance.start, kf.info.id)] +
                  (if endsFirst then [NextEvent(KeyFrameEvent, kf.instance.end.value, kf.info.id)] else []);
    sw.(keyframeEvents := sw.keyframeEvents + events,
        rs := sw.rs.(state := AddKeyframeAtTime(sw.rs.state, layer, time, KeyframeInstance(kf.info, kf.instance.end))))
  }

  /** One active keyframe after the points of a time. While its parent holds a layer, a keyframe
      not marked applied is applied and marked; when the parent holds none, the mark is cleared.
      As written, the mark of a newly applied keyframe is cleared again on the same path, so it is
      applied anew at every later time; corrected, it stays marked. */
  function KeyframeStep(reading: Reading, sw: Sweep, id: string, time: Time): (r: Sweep)
    requires SweepInv(sw) && id in sw.activeKeyframes
    ensures SweepInv(r)
    ensures r.activeKeyframes == sw.activeKeyframes && r.keyframeOrder == sw.keyframeOrder
    ensures r.current == sw.current && r.active == sw.active
    ensures var kf := sw.activeKeyframes[id]; var layer := KeyframeLayer(sw, kf);
            (layer.Some? && id !in sw.checked ==>
               r.rs.state == AddKeyframeAtTime(sw.rs.state, layer.value, time, KeyframeInstance(kf.info, kf.instance.end)) &&
               |r.keyframeEvents| > |sw.keyframeEvents|) &&
            (layer.None? || id in sw.checked ==> r.rs == sw.rs && r.keyframeEvents == sw.keyframeEvents)
    ensures reading == Corrected ==> (KeyframeLayer(sw, sw.activeKeyframes[id]).Some? <==> id in r.checked)
    ensures reading == AsWritten ==> (id in r.checked <==> KeyframeLayer(sw, sw.activeKeyframes[id]).Some? && id in sw.checked)
  {
    var kf := sw.activeKeyframes[id];
    var layer := KeyframeLayer(sw, kf);
    if layer.Some? && id in sw.checked then sw
    else if layer.Some? then
      var applied := ApplyKeyframe(sw.(checked := sw.checked + {id}), kf, layer.value, time);
      if reading == AsWritten then applied.(checked := applied.checked - {id}) else applied
    else sw.(checked := sw.checked - {id})
  }

  /** As written, a keyframe whose parent holds a layer is applied and left unchecked, so the next
      time applies it again: the layer state at the later time gets it once more. */
  lemma KeyframeReappliedAsWritten(sw: Sweep, id: string, t1: Time, t2: Time)
    requires SweepInv(sw) && id in sw.activeKeyframes && id !in sw.checked
    requires KeyframeLayer(sw, sw.activeKeyframes[id]).Some?
    ensures var s1 := KeyframeStep(AsWritten, sw, id, t1);
            SweepInv(s1) && id in s1.activeKeyframes && id !in s1.checked &&
            var s2 := KeyframeStep(AsWritten, s1, id, t2);
            |s2.keyframeEvents| > |s1.keyframeEvents| > |sw.keyframeEvents| &&
            s2.rs.state == AddKeyframeAtTime(s1.rs.state, KeyframeLayer(sw, sw.activeKeyframes[id]).value, t2,
                                             KeyframeInstance(sw.activeKeyframes[id].info, sw.activeKeyframes[id].instance.end))
  {
    var kf := sw.activeKeyframes[id];
    var s1 := KeyframeStep(AsWritten, sw, id, t1);
    assert KeyframeLayer(s1, kf) == KeyframeLayer(sw, kf);
  }

  /** Corrected, a keyframe is applied once: a second step, at any later time, changes nothing. */
  lemma KeyframeAppliedOnce(sw: Sweep, id: string, t1: Time, t2: Time)
    requires SweepInv(sw) && id in sw.activeKeyframes
    requires KeyframeLayer(sw, sw.activeKeyframes[id]).Some?
    ensures var s1 := KeyframeStep(Corrected, sw, id, t1); KeyframeStep(Corrected, s1, id, t2) == s1
  {
    var s1 := KeyframeStep(Corrected, sw, id, t1);
    assert KeyframeLayer(s1, s1.activeKeyframes[id]) == KeyframeLayer(sw, sw.activeKeyframes[id]);
  }

  /** The active keyframes `order[k ..]` after the points of a time. */
  function KeyframeLoop(reading: Reading, sw: Sweep, order: seq<string>, k: nat, time: Time): (r: Sweep)
    requires SweepInv(sw) && k <= |order|
    requires forall id :: id in order ==> id in sw.activeKeyframes
    ensures SweepInv(r) && r.activeKeyframes == sw.activeKeyframes
    decreases |order| - k
  {
    if k == |order| then sw
    else KeyframeLoop(reading, KeyframeStep(reading, sw, order[k], time), order, k + 1, time)
  }

  /** One point in time: its points in handling order, then the active keyframes. */
  function ProcessTime(reading: Reading, objects: map<string, Api.ResolvedObject>, onlyForTime: Option<Time>, sw: Sweep, time: Time, points: seq<Point>): (r: Sweep)
    requires SweepInv(sw)
    ensures SweepInv(r)
  {
    var here := SortPoints(Filter(points, (p: Point) => p.time == time));
    var sw1 := ProcessPoints(reading, objects, onlyForTime, time, sw, here, 0, {});
    KeyframeLoop(reading, sw1, sw1.keyframeOrder, 0, time)
  }

  /** The points in time `times[k ..]`, in increasing order. */
  function SweepTimes(reading: Reading, objects: map<string, Api.ResolvedObject>, onlyForTime: Option<Time>, sw: Sweep, points: seq<Point>, times: seq<Time>, k: nat): (r: Sweep)
    requires SweepInv(sw) && k <= |times|
    ensures SweepInv(r)
    decreases |times| - k
  {
    if k == |times| then sw
    else SweepTimes(reading, objects, onlyForTime, ProcessTime(reading, objects, onlyForTime, sw, times[k], points), points, times, k + 1)
  }

  /** The keyframe events that join the next events: only those at a time without an event yet,
      the first at each time. */
  function NewKeyframeEvents(times: set<Time>, keyframeEvents: seq<NextEvent>): (r: seq<NextEvent>)
    ensures forall e :: e in r ==> e in keyframeEvents && e.time !in times
    ensures forall i, j :: 0 <= i < j < |r| ==> r[i].time != r[j].time
    decreases |keyframeEvents|
  {
    if |keyframeEvents| == 0 then []
    else
      var e := keyframeEvents[0];
      var rest := NewKeyframeEvents(times + {e.time}, keyframeEvents[1..]);
      assert forall x :: x in rest ==> x in keyframeEvents;
      if e.time in times then rest
      else
        var r := [e] + rest;
        assert forall j :: 0 < j < |r| ==> r[j] == rest[j - 1] && r[j] in rest;
        r
  }

  /** No keyframe event is lost but for a time that already has an event: the kept events have
      one at its time. */
  lemma {:induction false} NewKeyframeEventsCover(times: set<Time>, keyframeEvents: seq<NextEvent>, e: NextEvent) returns (x: NextEvent)
    requires e in keyframeEvents && e.time !in times
    ensures x in NewKeyframeEvents(times, keyframeEvents) && x.time == e.time
    decreases |keyframeEvents|
  {
    var head := keyframeEvents[0];
    var r := NewKeyframeEvents(times, keyframeEvents);
    if head.time !in times && head.time == e.time {
      assert r[0] == head;
      x := head;
    } else {
      assert e != head && e in keyframeEvents[1..];
      x := NewKeyframeEventsCover(times + {head.time}, keyframeEvents[1..], e);
      assert x in NewKeyframeEvents(times + {head.time}, keyframeEvents[1..]);
    }
  }

  /** The final next events: the layer events and the new keyframe events, without those not after
      `onlyForTime`, sorted. */
  function FinalEvents(sw: Sweep, onlyForTime: Option<Time>): (r: seq<NextEvent>)
    ensures NoAdjacentInversion(r, CompareNextEvents)
    ensures forall e :: e in r ==> e in sw.rs.nextEvents || e in sw.keyframeEvents
    ensures onlyForTime.Some? ==> forall e :: e in r ==> e.time > onlyForTime.value
  {
    var events := sw.rs.nextEvents + NewKeyframeEvents(sw.eventTimes, sw.keyframeEvents);
    var kept := if onlyForTime.Some? then Filter(events, (e: NextEvent) => e.time > onlyForTime.value) else events;
    var sorted := SortNextEvents(kept);
    assert forall e :: e in sorted ==> e in multiset(kept);
    assert forall e :: e in kept ==> e in events;
    assert onlyForTime.Some? ==> forall e :: e in kept ==> e.time > onlyForTime.value;
    assert forall e :: e in events ==> e in sw.rs.nextEvents || e in NewKeyframeEvents(sw.eventTimes, sw.keyframeEvents);
    sorted
  }

  /** The objects in the order they are visited: parents before children, then by id. */
  function ObjectsInOrder(resolved: Api.ResolvedTimeline, ids: seq<string>): (r: seq<Api.ResolvedObject>)
    requires forall id :: id in ids ==> id in resolved.objects
    ensures multiset(r) == multiset(seq(|ids|, k requires 0 <= k < |ids| => resolved.objects[ids[k]]))
    ensures forall i, j :: 0 <= i <= j < |r| ==> r[i].info.depth <= r[j].info.depth
  {
    CompareObjectsAntisymmetric();
    var objs := seq(|ids|, k requires 0 <= k < |ids| => resolved.objects[ids[k]]);
    SortedHasNoInversion(objs, CompareObjects);
    var r := InsertionSort(objs, CompareObjects);
    SortedByKey(r, CompareObjects, (o: Api.ResolvedObject) => o.info.depth as int);
    r
  }

  lemma CompareObjectsAntisymmetric()
    ensures Antisymmetric(CompareObjects)
  {
    forall a: Api.ResolvedObject, b: Api.ResolvedObject | CompareObjects(a, b) == Less ensures CompareObjects(b, a) != Less {
      StrCmpFlip(a.info.id, b.info.id);
    }
  }

  /** The sweep's starting state. */
  function StartSweep(): (r: Sweep)
    ensures SweepInv(r)
  {
    Sweep(map[], map[], map[], [], {}, {}, map[], [], ResolvedStates(map[], [], map[], map[], []))
  }

  /** `resolve_all_states`, under `reading` (`AsWritten` is the crate). The crate reads its objects
      out of a hash map; `ids` lists the map's keys, each once, in that iteration order. */
  function ResolveAllStates(reading: Reading, resolved: Api.ResolvedTimeline, ids: seq<string>, onlyForTime: Option<Time>): (r: ResolvedStates)
    requires forall id :: id in ids <==> id in resolved.objects
    requires forall i, j :: 0 <= i < j < |ids| ==> ids[i] != ids[j]
    ensures StateRefs(r.state, |r.heap|)
    ensures NoAdjacentInversion(r.nextEvents, CompareNextEvents)
    ensures onlyForTime.Some? ==> forall e :: e in r.nextEvents ==> e.time > onlyForTime.value
  {
    var objs := ObjectsInOrder(resolved, ids);
    var points := CollectPoints(resolved.objects, objs, onlyForTime, |ids|);
    var times := SortedTimes(set p | p in points :: p.time);
    var sw := SweepTimes(reading, resolved.objects, onlyForTime, StartSweep(), points, times, 0);
    sw.rs.(nextEvents := FinalEvents(sw, onlyForTime))
  }
}

=== FILE: util.dfy ===
/** The interval algebra of supertimeline/src/util.rs: cleaning (merging) and inverting instance
    lists, clipping a child into its parent, repeating, and index-wise arithmetic on lookups. */
module Util {
  import opened Base
  import opened Ast
  import opened InstanceTypes
  import opened Events
  import Caps

  // ---------------------------------------------------------------------------------------------
  // clean_instances

  /** The events `clean_instances` builds: a start for every instance and an end for every bounded
      one, carrying the instance's id, references and caps. */
  function EventsOf(instances: seq<TimelineInstance>): (r: seq<EventForInstance>)
    ensures forall i :: i in instances ==> EventForInstance(i.start, true, i.references, i.caps, i.id) in r
  {
    if |instances| == 0 then []
    else
      var i := instances[0];
      var own := [EventForInstance(i.start, true, i.references, i.caps, i.id)] +
                 (if i.end.Some? then [EventForInstance(i.end.value, false, i.references, i.caps, i.id)] else []);
      assert instances == [i] + instances[1..];
      own + EventsOf(instances[1..])
  }

  /** Every event is the start, or the end, of one of the instances. */
  lemma {:induction false} EventsOfSound(instances: seq<TimelineInstance>, e: EventForInstance)
    requires e in EventsOf(instances)
    ensures exists i :: i in instances && e.id == i.id && e.references == i.references && e.caps == i.caps &&
                        (if e.isStart then e.time == i.start else i.end == Some(e.time))
  {
    var i := instances[0];
    var own := [EventForInstance(i.start, true, i.references, i.caps, i.id)] +
               (if i.end.Some? then [EventForInstance(i.end.value, false, i.references, i.caps, i.id)] else []);
    assert EventsOf(instances) == own + EventsOf(instances[1..]);
    if e !in own {
      EventsOfSound(instances[1..], e);
      var j :| j in instances[1..] && e.id == j.id && e.references == j.references && e.caps == j.caps &&
               (if e.isStart then e.time == j.start else j.end == Some(e.time));
      assert j in instances;
    }
  }

  /** `clean_instances`: nothing stays nothing; one instance is kept, recording its own bounds as
      the original ones; more go through the event sweep. The result is ordered by start and
      free of overlaps. */
  function CleanInstances(instances: seq<TimelineInstance>, allowMerge: bool, allowZeroGaps: bool, counter: nat): (r: Counted<seq<TimelineInstance>>)
    ensures |r.value| == 0 <==> |instances| == 0
    ensures |instances| != 1 || WellFormed(instances[0]) ==> Chained(r.value)
    ensures |instances| == 1 ==> r.value == [instances[0].(originalStart := Some(instances[0].start), originalEnd := instances[0].end)]
    ensures r.counter >= counter
  {
    if |instances| == 0 then Counted([], counter)
    else if |instances| == 1 then
      Counted([instances[0].(originalStart := Some(instances[0].start), originalEnd := instances[0].end)], counter)
    else
      var events := EventsOf(instances);
      assert EventForInstance(instances[0].start, true, instances[0].references, instances[0].caps, instances[0].id) in events;
      IntoInstances(events, allowMerge, allowZeroGaps, counter)
  }

  // ---------------------------------------------------------------------------------------------
  // invert_instances

  /** The gap that opens where `i` ends, as `invert_instances` builds it. */
  function GapAfter(i: TimelineInstance, id: string): TimelineInstance
    requires i.end.Some?
  {
    TimelineInstance(id, false, i.end.value, None, None, None, i.references + {i.id}, i.caps, None)
  }

  /** The loop of `invert_instances` over the cleaned instances: each instance closes the open
      gap at its start, and a bounded one opens the next gap at its end. */
  function FillGaps(acc: seq<TimelineInstance>, rest: seq<TimelineInstance>, counter: nat): (r: Counted<seq<TimelineInstance>>)
    ensures r.counter >= counter
    decreases |rest|
  {
    if |rest| == 0 then Counted(acc, counter)
    else
      var i := rest[0];
      var closed := if |acc| > 0 then CloseLast(acc, i.start) else acc;
      if i.end.Some? then FillGaps(closed + [GapAfter(i, GenerateId(counter))], rest[1..], counter + 1)
      else FillGaps(closed, rest[1..], counter)
  }

  /** `invert_instances`: the complement of the cleaned instances within `[0, ∞)`. */
  function InvertInstances(instances: seq<TimelineInstance>, counter: nat): (r: Counted<seq<TimelineInstance>>)
    ensures |instances| == 0 ==> |r.value| == 1 && r.value[0].isFirst && r.value[0].start == 0 && r.value[0].end.None?
    ensures |instances| > 0 && (forall k :: 0 <= k < |instances| ==> WellFormed(instances[k])) ==>
              forall x :: Covers(r.value, x) <==> !Covers(CleanInstances(instances, true, true, counter).value, x)
    ensures r.counter >= counter
  {
    if |instances| == 0 then
      Counted([TimelineInstance(GenerateId(counter), true, 0, None, None, None, {}, [], None)], counter + 1)
    else
      var cleaned := CleanInstances(instances, true, true, counter);
      var c := cleaned.value;
      var first := c[0];
      var head := if first.start != 0 then [TimelineInstance(GenerateId(cleaned.counter), true, 0, None, None, None, first.references + {first.id}, [], None)] else [];
      var r := FillGaps(head, c, if first.start != 0 then cleaned.counter + 1 else cleaned.counter);
      InvertCovers(head, c);
      assert c[0..] == c;
      r
  }

  // ---------------------------------------------------------------------------------------------
  // Proof that inverting yields the complement

  lemma CoversAppend(r: seq<TimelineInstance>, i: TimelineInstance, x: Time)
    ensures Covers(r + [i], x) <==> Covers(r, x) || Contains(i, x)
  {
    if Covers(r, x) {
      var k :| 0 <= k < |r| && Contains(r[k], x);
      assert (r + [i])[k] == r[k];
    }
    if Contains(i, x) {
      assert (r + [i])[|r|] == i;
    }
    if Covers(r + [i], x) {
      var k :| 0 <= k < |r + [i]| && Contains((r + [i])[k], x);
      if k < |r| {
        assert (r + [i])[k] == r[k];
      }
    }
  }

  lemma CoversEmpty(x: Time)
    ensures !Covers([], x)
  {
  }

  /** Every instance before `j` in a chained list ends by the time `c[j]` starts. */
  lemma {:induction false} ChainedBefore(c: seq<TimelineInstance>, k: int, j: int)
    requires Chained(c) && 0 <= k < j < |c|
    ensures c[k].end.Some? && c[k].end.value <= c[j].start
    decreases j - k
  {
    if k + 1 < j {
      ChainedBefore(c, k + 1, j);
    }
  }

  lemma PrefixCovers(c: seq<TimelineInstance>, j: int, x: Time)
    requires Chained(c) && 0 <= j < |c|
    ensures Covers(c[..j + 1], x) <==> Covers(c[..j], x) || Contains(c[j], x)
    ensures Covers(c[..j], x) ==> x < c[j].start
  {
    assert c[..j + 1] == c[..j] + [c[j]];
    CoversAppend(c[..j], c[j], x);
    if Covers(c[..j], x) {
      var k :| 0 <= k < j && Contains(c[..j][k], x);
      ChainedBefore(c, k, j);
    }
  }

  /** Closing the open last gap at `b`, when every other gap already ends by `b`. */
  lemma CoversCloseLast(acc: seq<TimelineInstance>, b: Time, x: Time)
    requires |acc| > 0 && acc[|acc| - 1].end.None?
    requires forall k :: 0 <= k < |acc| - 1 ==> acc[k].end.Some? && acc[k].end.value <= b
    ensures Covers(CloseLast(acc, b), x) <==> Covers(acc, x) && x < b
  {
    var n := |acc| - 1;
    var closed := CloseLast(acc, b);
    assert closed == acc[..n] + [acc[n].(end := Some(b))];
    CoversAppend(acc[..n], acc[n].(end := Some(b)), x);
    assert acc == acc[..n] + [acc[n]];
    CoversAppend(acc[..n], acc[n], x);
    if Covers(acc[..n], x) {
      var k :| 0 <= k < n && Contains(acc[..n][k], x);
      assert acc[..n][k] == acc[k];
    }
  }

  /** What holds before the loop handles `c[j]`, and the complement once it is done. */
  ghost predicate GapInv(acc: seq<TimelineInstance>, c: seq<TimelineInstance>, j: int) {
    0 <= j <= |c| &&
    (j < |c| ==>
      (|acc| == 0 ==> j == 0 && c[0].start == 0) &&
      (|acc| > 0 ==> acc[|acc| - 1].end.None?) &&
      (forall k :: 0 <= k < |acc| ==> acc[k].start <= c[j].start) &&
      (forall k :: 0 <= k < |acc| - 1 ==> acc[k].end.Some? && acc[k].end.value <= c[j].start) &&
      (forall x: Time :: x < c[j].start ==> (Covers(acc, x) <==> !Covers(c[..j], x)))) &&
    (j == |c| ==> forall x: Time :: Covers(acc, x) <==> !Covers(c, x))
  }

  /** After closing at `c[j].start`, `acc` covers exactly the complement of `c[..j]` below it. */
  lemma ClosedCovers(acc: seq<TimelineInstance>, c: seq<TimelineInstance>, j: int, x: Time)
    requires Chained(c) && GapInv(acc, c, j) && j < |c|
    ensures Covers(if |acc| > 0 then CloseLast(acc, c[j].start) else acc, x) <==> x < c[j].start && !Covers(c[..j], x)
  {
    if |acc| > 0 {
      CoversCloseLast(acc, c[j].start, x);
    } else {
      CoversEmpty(x);
    }
  }

  lemma ClosedBounds(acc: seq<TimelineInstance>, c: seq<TimelineInstance>, j: int)
    requires Chained(c) && GapInv(acc, c, j) && j < |c|
    ensures var closed := if |acc| > 0 then CloseLast(acc, c[j].start) else acc;
            forall k :: 0 <= k < |closed| ==> closed[k].start <= c[j].start && closed[k].end.Some? && closed[k].end.value <= c[j].start
  {
  }

  lemma GapStep(acc: seq<TimelineInstance>, c: seq<TimelineInstance>, j: int, id: string)
    requires Chained(c) && GapInv(acc, c, j) && j < |c|
    ensures var closed := if |acc| > 0 then CloseLast(acc, c[j].start) else acc;
            GapInv(if c[j].end.Some? then closed + [GapAfter(c[j], id)] else closed, c, j + 1)
  {
    var i := c[j];
    var closed := if |acc| > 0 then CloseLast(acc, i.start) else acc;
    var next := if i.end.Some? then closed + [GapAfter(i, id)] else closed;
    ClosedBounds(acc, c, j);
    forall x: Time ensures Covers(next, x) <==> (x < i.start && !Covers(c[..j], x)) || (i.end.Some? && i.end.value <= x) {
      ClosedCovers(acc, c, j, x);
      if i.end.Some? {
        CoversAppend(closed, GapAfter(i, id), x);
      }
    }
    forall x: Time ensures Covers(c[..j + 1], x) <==> Covers(c[..j], x) || Contains(i, x)
    ensures Covers(c[..j], x) ==> x < i.start {
      PrefixCovers(c, j, x);
    }
    if j + 1 < |c| {
      var b := c[j + 1].start;
      assert i.end.Some? && i.end.value <= b;
      assert next[|next| - 1] == GapAfter(i, id);
      forall k | 0 <= k < |next| ensures next[k].start <= b {
        if k < |closed| {
          assert next[k] == closed[k];
        }
      }
      forall k | 0 <= k < |next| - 1 ensures next[k].end.Some? && next[k].end.value <= b {
        assert next[k] == closed[k];
      }
      forall x: Time | x < b ensures Covers(next, x) <==> !Covers(c[..j + 1], x) {
        ClosedCovers(acc, c, j, x);
        CoversAppend(closed, GapAfter(i, id), x);
        PrefixCovers(c, j, x);
      }
    } else {
      assert c[..j + 1] == c;
      forall x: Time ensures Covers(next, x) <==> !Covers(c, x) {
        ClosedCovers(acc, c, j, x);
        if i.end.Some? {
          CoversAppend(closed, GapAfter(i, id), x);
        }
        PrefixCovers(c, j, x);
      }
    }
  }

  lemma {:induction false} FillGapsCovers(acc: seq<TimelineInstance>, c: seq<TimelineInstance>, j: int, counter: nat)
    requires Chained(c) && GapInv(acc, c, j)
    ensures forall x: Time :: Covers(FillGaps(acc, c[j..], counter).value, x) <==> !Covers(c, x)
    decreases |c| - j
  {
    if j < |c| {
      var i := c[j];
      var closed := if |acc| > 0 then CloseLast(acc, i.start) else acc;
      GapStep(acc, c, j, GenerateId(counter));
      assert c[j..][1..] == c[j + 1..];
      if i.end.Some? {
        FillGapsCovers(closed + [GapAfter(i, GenerateId(counter))], c, j + 1, counter + 1);
      } else {
        FillGapsCovers(closed, c, j + 1, counter);
      }
    }
  }

  lemma InvertCovers(head: seq<TimelineInstance>, c: seq<TimelineInstance>)
    requires |c| > 0
    requires |head| == if c[0].start != 0 then 1 else 0
    requires |head| == 1 ==> head[0].start == 0 && head[0].end.None?
    ensures Chained(c) ==> forall counter: nat, x: Time :: Covers(FillGaps(head, c[0..], counter).value, x) <==> !Covers(c, x)
  {
    if !Chained(c) {
      return;
    }
    assert GapInv(head, c, 0) by {
      forall x: Time | x < c[0].start ensures Covers(head, x) <==> !Covers(c[..0], x) {
        assert Contains(head[0], x);
        CoversEmpty(x);
        assert c[..0] == [];
      }
    }
    forall counter: nat ensures forall x: Time :: Covers(FillGaps(head, c[0..], counter).value, x) <==> !Covers(c, x) {
      FillGapsCovers(head, c, 0, counter);
    }
  }

  // ---------------------------------------------------------------------------------------------
  // operate_on_arrays

  /** The operation `operate_on_arrays` applies to a pair of times; `Err(Panic)` stands for an
      arithmetic panic of the crate. */
  type Operate = (Option<TimeWithReference>, Option<TimeWithReference>) -> Result<Option<TimeWithReference>, ExpressionError>

  /** The list an operand contributes: `get_existing_array_to_operate` for instances, and
      `get_converted_array_to_operate`'s zero-length instance for a time. */
  function Operand(v: LookupValue): (r: Option<seq<TimelineInstance>>)
    ensures r.None? <==> v.NullValue?
    ensures v.TimeRef? ==> r == Some([TimelineInstance("", false, v.timeRef.value, Some(v.timeRef.value), None, None, v.timeRef.references, [], None)])
    ensures v.Instances? ==> r == Some(v.list)
  {
    match v
    case NullValue => None
    case TimeRef(t) => Some([TimelineInstance("", false, t.value, Some(t.value), None, None, t.references, [], None)])
    case Instances(l) => Some(l)
  }

  /** How many pairs are formed: a time pairs with every element of the other side, two times
      form one pair, two lists pair up to the shorter length. */
  function PairCount(a: LookupValue, b: LookupValue): nat {
    match (a, b)
    case (TimeRef(_), TimeRef(_)) => 1
    case (TimeRef(_), Instances(l)) => |l|
    case (Instances(l), TimeRef(_)) => |l|
    case (Instances(l), Instances(m)) => Min(|l|, |m|)
    case _ => 0
  }

  /** Element `i` of an operand list, falling back to the first (`get(i).or_else(|| get(0))`). */
  function At(list: seq<TimelineInstance>, i: nat): TimelineInstance
    requires |list| > 0
  {
    if i < |list| then list[i] else list[0]
  }

  /** The time an operand contributes to `operate`: its own references plus its id. */
  function Tagged(x: TimelineInstance, t: Time): TimeWithReference {
    TimeWithReference(t, x.references + {x.id})
  }

  /** The start of the pair `(a, b)`: an `is_first` operand passes its own start through,
      otherwise the two starts are combined. */
  function PairStart(a: TimelineInstance, b: TimelineInstance, operate: Operate): Result<Option<TimeWithReference>, ExpressionError> {
    if a.isFirst then Ok(Some(TimeWithReference(a.start, a.references)))
    else if b.isFirst then Ok(Some(TimeWithReference(b.start, b.references)))
    else operate(Some(Tagged(a, a.start)), Some(Tagged(b, b.start)))
  }

  /** The end of the pair `(a, b)`, chosen the same way; an unbounded end is passed as `None`. */
  function PairEnd(a: TimelineInstance, b: TimelineInstance, operate: Operate): Result<Option<TimeWithReference>, ExpressionError> {
    if a.isFirst then Ok(if a.end.Some? then Some(TimeWithReference(a.end.value, a.references)) else None)
    else if b.isFirst then Ok(if b.end.Some? then Some(TimeWithReference(b.end.value, b.references)) else None)
    else
      operate(if a.end.Some? then Some(Tagged(a, a.end.value)) else None,
              if b.end.Some? then Some(Tagged(b, b.end.value)) else None)
  }

  /** The instance the pair `(a, b)` yields, if any (its id is assigned later). */
  function PairInstance(a: TimelineInstance, b: TimelineInstance, operate: Operate): (r: Result<Option<TimelineInstance>, ExpressionError>)
    ensures r.Ok? && r.value.Some? ==> r.value.value.caps == MergeCaps(a.caps, b.caps) && !r.value.value.isFirst
    ensures a.isFirst ==> r.Ok? && r.value.Some? && r.value.value.start == a.start && r.value.value.end == a.end &&
                          r.value.value.references == a.references
    ensures !a.isFirst && b.isFirst ==> r.Ok? && r.value.Some? && r.value.value.start == b.start && r.value.value.end == b.end &&
                                        r.value.value.references == b.references
  {
    var start :- PairStart(a, b, operate);
    if start.None? then Ok(None)
    else
      var end :- PairEnd(a, b, operate);
      var refs := start.value.references + (if end.Some? then end.value.references else {});
      Ok(Some(NewInstance("", start.value.value, if end.Some? then Some(end.value.value) else None, refs, MergeCaps(a.caps, b.caps))))
  }

  /** The pairs `i .. n` of `xs` and `ys`, in order, stopping at the first panic. */
  function OperatePairs(xs: seq<TimelineInstance>, ys: seq<TimelineInstance>, i: nat, n: nat, operate: Operate): (r: Result<seq<TimelineInstance>, ExpressionError>)
    requires |xs| > 0 && |ys| > 0 && i <= n
    ensures r.Ok? ==> |r.value| <= n - i
    decreases n - i
  {
    if i == n then Ok([])
    else
      var p :- PairInstance(At(xs, i), At(ys, i), operate);
      var rest :- OperatePairs(xs, ys, i + 1, n, operate);
      Ok((if p.Some? then [p.value] else []) + rest)
  }

  /** Gives each instance the next generated id, in order. */
  function AssignIds(list: seq<TimelineInstance>, counter: nat): (r: Counted<seq<TimelineInstance>>)
    ensures |r.value| == |list| && r.counter == counter + |list|
    ensures forall k :: 0 <= k < |list| ==> r.value[k] == list[k].(id := GenerateId(counter + k))
    decreases |list|
  {
    if |list| == 0 then Counted([], counter)
    else
      var rest := AssignIds(list[1..], counter + 1);
      Counted([list[0].(id := GenerateId(counter))] + rest.value, rest.counter)
  }

  /** `operate_on_arrays`: Null if either side is Null, otherwise the cleaned list of the pairs. */
  function OperateOnArrays(a: LookupValue, b: LookupValue, operate: Operate, counter: nat): (r: Result<Counted<LookupValue>, ExpressionError>)
    ensures r.Ok? && (a.NullValue? || b.NullValue?) ==> r.value.value.NullValue?
    ensures r.Ok? && !a.NullValue? && !b.NullValue? ==> r.value.value.Instances?
    ensures r.Ok? && PairCount(a, b) == 0 ==> r.value.value.NullValue? || r.value.value == Instances([])
    ensures r.Ok? ==> r.value.counter >= counter
    ensures (a.NullValue? || b.NullValue? || (forall x, y :: operate(x, y).Ok?)) ==> r.Ok?
  {
    var xs := Operand(a);
    var ys := Operand(b);
    if xs.None? || ys.None? then Ok(Counted(NullValue, counter))
    else if PairCount(a, b) == 0 then Ok(Counted(Instances([]), counter))
    else
      assert |xs.value| > 0 && |ys.value| > 0;
      OperatePairsTotal(xs.value, ys.value, 0, PairCount(a, b), operate);
      var pairs :- OperatePairs(xs.value, ys.value, 0, PairCount(a, b), operate);
      var named := AssignIds(pairs, counter);
      var cleaned := CleanInstances(named.value, false, false, named.counter);
      Ok(Counted(Instances(cleaned.value), cleaned.counter))
  }

  /** A pairing never fails when the operation never panics. */
  lemma {:induction false} OperatePairsTotal(xs: seq<TimelineInstance>, ys: seq<TimelineInstance>, i: nat, n: nat, operate: Operate)
    requires |xs| > 0 && |ys| > 0 && i <= n
    ensures (forall x, y :: operate(x, y).Ok?) ==> OperatePairs(xs, ys, i, n, operate).Ok?
    decreases n - i
  {
    if i < n {
      OperatePairsTotal(xs, ys, i + 1, n, operate);
    }
  }

  /** Every instance the pairing yields is the instance of some pair `k` in range, and every pair
      that yields an instance contributes it. */
  lemma {:induction false} OperatePairsSpec(xs: seq<TimelineInstance>, ys: seq<TimelineInstance>, i: nat, n: nat, operate: Operate)
    requires |xs| > 0 && |ys| > 0 && i <= n
    requires OperatePairs(xs, ys, i, n, operate).Ok?
    ensures forall x :: x in OperatePairs(xs, ys, i, n, operate).value ==>
              exists k :: i <= k < n && PairInstance(At(xs, k), At(ys, k), operate) == Ok(Some(x))
    ensures forall k :: i <= k < n ==> PairInstance(At(xs, k), At(ys, k), operate).Ok?
    ensures forall k :: i <= k < n && PairInstance(At(xs, k), At(ys, k), operate).value.Some? ==>
              PairInstance(At(xs, k), At(ys, k), operate).value.value in OperatePairs(xs, ys, i, n, operate).value
    decreases n - i
  {
    if i < n {
      OperatePairsCons(xs, ys, i, n, operate);
      OperatePairsSpec(xs, ys, i + 1, n, operate);
      var p := PairInstance(At(xs, i), At(ys, i), operate).value;
      var rest := OperatePairs(xs, ys, i + 1, n, operate).value;
      var all := OperatePairs(xs, ys, i, n, operate).value;
      forall x | x in all
        ensures exists k :: i <= k < n && PairInstance(At(xs, k), At(ys, k), operate) == Ok(Some(x))
      {
        if x !in rest {
          assert PairInstance(At(xs, i), At(ys, i), operate) == Ok(Some(x));
        }
      }
      forall k | i <= k < n
        ensures PairInstance(At(xs, k), At(ys, k), operate).Ok?
      {
        if k != i {
          assert i + 1 <= k < n;
        }
      }
      forall k | i <= k < n && PairInstance(At(xs, k), At(ys, k), operate).value.Some?
        ensures PairInstance(At(xs, k), At(ys, k), operate).value.value in all
      {
        if k > i {
          assert PairInstance(At(xs, k), At(ys, k), operate).value.value in rest;
        }
      }
    }
  }

  /** One step of the pairing: the pair `i`, then the pairs after it. */
  lemma OperatePairsCons(xs: seq<TimelineInstance>, ys: seq<TimelineInstance>, i: nat, n: nat, operate: Operate)
    requires |xs| > 0 && |ys| > 0 && i < n
    requires OperatePairs(xs, ys, i, n, operate).Ok?
    ensures PairInstance(At(xs, i), At(ys, i), operate).Ok? && OperatePairs(xs, ys, i + 1, n, operate).Ok?
    ensures var p := PairInstance(At(xs, i), At(ys, i), operate).value;
            OperatePairs(xs, ys, i, n, operate).value == (if p.Some? then [p.value] else []) + OperatePairs(xs, ys, i + 1, n, operate).value
  {
  }

  // ---------------------------------------------------------------------------------------------
  // apply_parent_instances

  /** The operation `apply_parent_instances` uses: the sum of two times with the union of their
      references, or nothing when either is missing. */
  function AddTimes(a: Option<TimeWithReference>, b: Option<TimeWithReference>): (r: Result<Option<TimeWithReference>, ExpressionError>)
    ensures r.Ok?
    ensures r.value.Some? <==> a.Some? && b.Some?
    ensures r.value.Some? ==> r.value.value.value == a.value.value + b.value.value &&
                              r.value.value.references == a.value.references + b.value.references
  {
    if a.Some? && b.Some? then Ok(Some(TimeWithReference(a.value.value + b.value.value, a.value.references + b.value.references)))
    else Ok(None)
  }

  /** `apply_parent_instances`: Null without parent instances, otherwise the value offset
      index-wise by the parents' starts. */
  function ApplyParent(parents: Option<seq<TimelineInstance>>, value: LookupValue, counter: nat): (r: Counted<LookupValue>)
    ensures parents.None? || value.NullValue? ==> r.value.NullValue?
    ensures parents.Some? && !value.NullValue? ==> r.value.Instances?
    ensures parents == Some([]) ==> r.value == NullValue || r.value == Instances([])
    ensures r.counter >= counter
  {
    if parents.None? then Counted(NullValue, counter)
    else OperateOnArrays(Instances(parents.value), value, AddTimes, counter).value
  }

  /** A parent that is not `is_first`, paired with a time offset, yields itself shifted by the
      offset (both bounds, an unbounded end staying unbounded); an `is_first` parent passes through
      unshifted. */
  lemma ParentShift(p: TimelineInstance, t: TimeWithReference)
    ensures var x := Operand(TimeRef(t)).value[0];
            var r := PairInstance(p, x, AddTimes);
            r.Ok? && r.value.Some? &&
            (p.isFirst ==> r.value.value.start == p.start && r.value.value.end == p.end) &&
            (!p.isFirst ==> r.value.value.start == p.start + t.value &&
                            r.value.value.end == (if p.end.Some? then Some(p.end.value + t.value) else None) &&
                            r.value.value.references == p.references + {p.id} + t.references + {""})
  {
  }

  // ---------------------------------------------------------------------------------------------
  // apply_repeating_instances

  /** `ResolveOptions` (supertimeline/src/api.rs:44-53). */
  datatype ResolveOptions = ResolveOptions(time: Time, limitCount: Option<nat>, limitTime: Option<Time>)

  /** `DEFAULT_LIMIT_COUNT`. */
  const DEFAULT_LIMIT_COUNT: nat := 2

  /** The start of the first repetition: the latest start `start + k * repeat` not after `time`,
      computed with the truncating remainder on signed integers. */
  function FirstRepeatStart(time: Time, start: Time, repeat: nat): Time
    requires repeat > 0
  {
    var v := time - TruncRem(time - start, repeat);
    TruncRemBounds(time - start, repeat);
    Max(v, start)
  }

  /** Before `start` the first repetition is the instance itself; from `start` on it is the last
      repetition `start + k * repeat` starting at or before `time`. */
  lemma FirstRepeatStartSpec(time: Time, start: Time, repeat: nat)
    requires repeat > 0
    ensures time < start ==> FirstRepeatStart(time, start, repeat) == start
    ensures time >= start ==> FirstRepeatStart(time, start, repeat) == start + ((time - start) / repeat) * repeat
    ensures time >= start ==> time - repeat < FirstRepeatStart(time, start, repeat) <= time
  {
    var m := RemOfAbs(time - start, repeat);
    if time >= start {
      DivMod(time - start, repeat);
    } else {
      DivMod(start - time, repeat);
    }
  }

  lemma DivMod(a: nat, b: nat)
    requires b > 0
    ensures a == (a / b) * b + a % b && 0 <= a % b < b && a % b <= a
  {
  }

  /** The first cap of the instance whose id it references. */
  function RepeatCap(caps: seq<Caps.Cap>, references: set<string>): (r: Option<Caps.Cap>)
    ensures r.Some? ==> r.value in caps && r.value.id in references
    ensures r.None? ==> forall c :: c in caps ==> c.id !in references
  {
    if |caps| == 0 then None
    else if caps[0].id in references then Some(caps[0])
    else RepeatCap(caps[1..], references)
  }

  /** The start of a copy, moved up to the cap's start. */
  function CappedStart(cap: Option<Caps.Cap>, start: Time): Time {
    if cap.Some? then Max(cap.value.start, start) else start
  }

  /** The end of a copy, moved down to the cap's end when both are bounded. */
  function CappedEnd(cap: Option<Caps.Cap>, end: Option<Time>): Option<Time> {
    if end.None? then None
    else if cap.Some? && cap.value.end.Some? then Some(Min(cap.value.end.value, end.value))
    else end
  }

  /** An optional end moved later by `d`. */
  function Shift(end: Option<Time>, d: nat): Option<Time> {
    if end.Some? then Some(end.value + d) else None
  }

  /** Copy number `k` of an instance repeating every `repeat` from `start`, after capping. */
  function CopyAt(refs: set<string>, cap: Option<Caps.Cap>, start: Time, end: Option<Time>, repeat: nat, k: nat): TimelineInstance {
    NewInstance("", CappedStart(cap, start + k * repeat), CappedEnd(cap, Shift(end, k * repeat)), refs, [])
  }

  /** The inner loop of `apply_repeating_instances` for one instance: up to `remaining` copies
      spaced by `repeat`, stopping at the first one that starts at or after `limitTime`, each capped
      and kept only if it is not empty. */
  function Copies(refs: set<string>, cap: Option<Caps.Cap>, start: Time, end: Option<Time>, repeat: nat,
                  remaining: nat, limitTime: Option<Time>): (r: seq<TimelineInstance>)
    ensures |r| <= remaining
    decreases remaining
  {
    if remaining == 0 || (limitTime.Some? && start >= limitTime.value) then []
    else
      var here := CopyAt(refs, cap, start, end, repeat, 0);
      (if EndOrMax(here.end) > here.start then [here] else []) +
      Copies(refs, cap, start + repeat, Shift(end, repeat), repeat, remaining - 1, limitTime)
  }

  /** Each copy kept is copy `k` of the series for some `k` below the count limit whose
      uncapped start is before the time limit, and it is not empty. */
  lemma {:induction false} CopiesSpec(refs: set<string>, cap: Option<Caps.Cap>, start: Time, end: Option<Time>, repeat: nat,
                                      remaining: nat, limitTime: Option<Time>, x: TimelineInstance)
    requires x in Copies(refs, cap, start, end, repeat, remaining, limitTime)
    ensures EndOrMax(x.end) > x.start && x.start >= start
    ensures exists k :: 0 <= k < remaining && x == CopyAt(refs, cap, start, end, repeat, k) &&
                        (limitTime.Some? ==> start + k * repeat < limitTime.value)
    decreases remaining
  {
    var here := CopyAt(refs, cap, start, end, repeat, 0);
    var rest := Copies(refs, cap, start + repeat, Shift(end, repeat), repeat, remaining - 1, limitTime);
    if x != here || EndOrMax(here.end) <= here.start {
      assert x in rest;
      CopiesSpec(refs, cap, start + repeat, Shift(end, repeat), repeat, remaining - 1, limitTime, x);
      var k :| 0 <= k < remaining - 1 && x == CopyAt(refs, cap, start + repeat, Shift(end, repeat), repeat, k) &&
               (limitTime.Some? ==> start + repeat + k * repeat < limitTime.value);
      CopyAtShift(refs, cap, start, end, repeat, k);
    } else {
      assert x == CopyAt(refs, cap, start, end, repeat, 0);
    }
  }

  /** Copy `k` of the series started one period later is copy `k + 1` of this one. */
  lemma CopyAtShift(refs: set<string>, cap: Option<Caps.Cap>, start: Time, end: Option<Time>, repeat: nat, k: nat)
    ensures CopyAt(refs, cap, start + repeat, Shift(end, repeat), repeat, k) == CopyAt(refs, cap, start, end, repeat, k + 1)
    ensures start + repeat + k * repeat == start + (k + 1) * repeat
  {
    assert (k + 1) * repeat == k * repeat + repeat;
  }

  /** The copies of one instance, starting from the repetition current at `options.time`. */
  function RepeatOne(i: TimelineInstance, repeat: TimeWithReference, options: ResolveOptions): seq<TimelineInstance>
    requires repeat.value > 0
  {
    var start := FirstRepeatStart(options.time, i.start, repeat.value);
    Copies({i.id} + i.references + repeat.references, RepeatCap(i.caps, i.references), start,
           Shift(i.end, start - i.start), repeat.value, options.limitCount.GetOr(DEFAULT_LIMIT_COUNT), options.limitTime)
  }

  /** The copies of every instance, in order. */
  function RepeatAll(instances: seq<TimelineInstance>, repeat: TimeWithReference, options: ResolveOptions): (r: seq<TimelineInstance>)
    requires repeat.value > 0
    ensures |r| <= |instances| * options.limitCount.GetOr(DEFAULT_LIMIT_COUNT)
    ensures forall x :: x in r ==> exists i :: i in instances && x in RepeatOne(i, repeat, options)
  {
    if |instances| == 0 then []
    else
      var rest := RepeatAll(instances[1..], repeat, options);
      assert |instances| * options.limitCount.GetOr(DEFAULT_LIMIT_COUNT) ==
             options.limitCount.GetOr(DEFAULT_LIMIT_COUNT) + |instances[1..]| * options.limitCount.GetOr(DEFAULT_LIMIT_COUNT);
      assert forall x :: x in rest ==> exists i :: i in instances && x in RepeatOne(i, repeat, options) by {
        forall x | x in rest ensures exists i :: i in instances && x in RepeatOne(i, repeat, options) {
          var i :| i in instances[1..] && x in RepeatOne(i, repeat, options);
          assert i in instances;
        }
      }
      RepeatOne(instances[0], repeat, options) + rest
  }

  /** `apply_repeating_instances`: without a (non-zero) repeat the instances are returned as they
      are; otherwise every instance is expanded into its copies and the copies are cleaned. */
  function ApplyRepeating(instances: seq<TimelineInstance>, repeat: Option<TimeWithReference>, options: ResolveOptions, counter: nat): (r: Counted<seq<TimelineInstance>>)
    ensures repeat.None? || repeat.value.value == 0 ==> r == Counted(instances, counter)
    ensures r.counter >= counter
    ensures |instances| == 0 ==> r.value == []
  {
    if repeat.None? || repeat.value.value == 0 then Counted(instances, counter)
    else
      var copies := RepeatAll(instances, repeat.value, options);
      var named := AssignIds(copies, counter);
      CleanInstances(named.value, false, false, named.counter)
  }

  /** Every copy an instance yields starts at or after the instance, is not empty, starts (before
      capping) before the time limit, and there are at most as many as the count limit. */
  lemma RepeatOneSpec(i: TimelineInstance, repeat: TimeWithReference, options: ResolveOptions)
    requires repeat.value > 0
    ensures |RepeatOne(i, repeat, options)| <= options.limitCount.GetOr(DEFAULT_LIMIT_COUNT)
    ensures forall x :: x in RepeatOne(i, repeat, options) ==>
              x.start >= i.start && EndOrMax(x.end) > x.start && x.caps == [] &&
              x.references == {i.id} + i.references + repeat.references
  {
    FirstRepeatStartSpec(options.time, i.start, repeat.value);
    var start := FirstRepeatStart(options.time, i.start, repeat.value);
    var r := RepeatOne(i, repeat, options);
    forall x | x in r
      ensures x.start >= i.start && EndOrMax(x.end) > x.start && x.caps == [] &&
              x.references == {i.id} + i.references + repeat.references
    {
      CopiesSpec({i.id} + i.references + repeat.references, RepeatCap(i.caps, i.references), start,
                 Shift(i.end, start - i.start), repeat.value, options.limitCount.GetOr(DEFAULT_LIMIT_COUNT), options.limitTime, x);
    }
  }

  // ---------------------------------------------------------------------------------------------
  // cap_instance

  /** The first pass's test: the instance starts inside `p`, or starts before `p` and ends after it. */
  predicate StartsInOrSpans(i: TimelineInstance, p: TimelineInstance) {
    (i.start >= p.start && i.start < EndOf(p)) || (i.start < p.start && EndOf(i) > EndOf(p))
  }

  /** The second pass's test: the instance ends inside `p`. */
  predicate EndsIn(i: TimelineInstance, p: TimelineInstance) {
    EndOf(i) > p.start && EndOf(i) <= EndOf(p)
  }

  /** The first pass: among the parents passing `StartsInOrSpans`, the first one with the latest end. */
  function WidestParent(i: TimelineInstance, ps: seq<TimelineInstance>, best: Option<TimelineInstance>): (r: Option<TimelineInstance>)
    ensures r.None? <==> best.None? && forall p :: p in ps ==> !StartsInOrSpans(i, p)
    ensures r.Some? ==> r == best || (r.value in ps && StartsInOrSpans(i, r.value))
    ensures r.Some? ==> forall p :: p in ps && StartsInOrSpans(i, p) ==> EndOf(p) <= EndOf(r.value)
    ensures r.Some? && best.Some? ==> EndOf(best.value) <= EndOf(r.value)
    decreases |ps|
  {
    if |ps| == 0 then best
    else
      var p := ps[0];
      var best' := if StartsInOrSpans(i, p) && (best.None? || EndOf(p) > EndOf(best.value)) then Some(p) else best;
      assert forall q :: q in ps ==> q == p || q in ps[1..];
      WidestParent(i, ps[1..], best')
  }

  /** The second pass: the last parent the instance ends in. */
  function LastEndingIn(i: TimelineInstance, ps: seq<TimelineInstance>): (r: Option<TimelineInstance>)
    ensures r.None? <==> forall p :: p in ps ==> !EndsIn(i, p)
    ensures r.Some? ==> r.value in ps && EndsIn(i, r.value)
    decreases |ps|
  {
    if |ps| == 0 then None
    else
      var last := ps[|ps| - 1];
      assert forall q :: q in ps ==> q == last || q in ps[..|ps| - 1];
      if EndsIn(i, last) then Some(last) else LastEndingIn(i, ps[..|ps| - 1])
  }

  /** The parent `cap_instance` clips into. */
  function ChooseParent(i: TimelineInstance, ps: seq<TimelineInstance>): Option<TimelineInstance> {
    var first := WidestParent(i, ps, None);
    if first.Some? then first else LastEndingIn(i, ps)
  }

  /** `cap_instance`: the instance clipped into the parent it starts in (or spans, or else ends in);
      `None` when no parent qualifies. */
  function CapInstance(i: TimelineInstance, ps: seq<TimelineInstance>): (r: Option<TimelineInstance>)
    ensures r.None? <==> forall p :: p in ps ==> !StartsInOrSpans(i, p) && !EndsIn(i, p)
    ensures r.Some? ==> r.value.id == i.id && r.value.references == i.references && r.value.caps == i.caps
    ensures r.Some? ==> exists p :: p in ps && r.value.start == Max(i.start, p.start) &&
                                    r.value.end == (if p.end.Some? && EndOf(i) > p.end.value then p.end else i.end)
  {
    var parent := ChooseParent(i, ps);
    if parent.None? then None
    else
      var p := parent.value;
      var ended := if p.end.Some? && EndOf(i) > p.end.value then SetEndTime(i, p.end.value) else i;
      Some(if i.start < p.start then SetStartTime(ended, p.start) else ended)
  }

  /** The chosen parent is the widest one the instance starts in or spans, and failing that the
      last one it ends in; the clipped instance lies within it. */
  lemma CapInstanceSpec(i: TimelineInstance, ps: seq<TimelineInstance>)
    requires CapInstance(i, ps).Some?
    ensures var p := ChooseParent(i, ps).value;
            var r := CapInstance(i, ps).value;
            p in ps && r.start >= p.start && (p.end.Some? ==> EndOrMax(r.end) <= p.end.value) &&
            (StartsInOrSpans(i, p) ==> forall q :: q in ps && StartsInOrSpans(i, q) ==> EndOf(q) <= EndOf(p)) &&
            (!StartsInOrSpans(i, p) ==> EndsIn(i, p) && forall q :: q in ps ==> !StartsInOrSpans(i, q))
  {
    var first := WidestParent(i, ps, None);
    var p := ChooseParent(i, ps).value;
    if first.Some? {
      assert p == first.value && StartsInOrSpans(i, p);
    } else {
      assert p == LastEndingIn(i, ps).value;
      assert EndsIn(i, p);
    }
  }

  /** Clipping a non-empty instance into non-empty parents never produces an empty instance. */
  lemma CapInstanceNotEmpty(i: TimelineInstance, ps: seq<TimelineInstance>)
    requires i.start < EndOf(i)
    requires forall p :: p in ps ==> p.start < EndOf(p)
    requires CapInstance(i, ps).Some?
    ensures CapInstance(i, ps).value.start < EndOrMax(CapInstance(i, ps).value.end)
  {
  }
}

=== FILE: words.dfy ===
/** Tokenising and parenthesis grouping of expression strings (supertimeline/src/expression.rs,
    `OPERATOR_REGEX`, the first two steps of `interpret_expression_string`, `wrap_expression`).
    The crate surrounds every operator or parenthesis character with spaces and then splits on
    whitespace; `Pad` and `SplitWhitespace` do exactly that, and `Tokenize` is the one-pass
    tokenizer they amount to. */
module Words {
  import opened Base
  import opened Ast

  /** Rust's `char::is_whitespace`, the separator of `str::split_whitespace`. */
  predicate IsWhitespace(c: char) {
    ('\t' <= c <= '\r') || c == ' ' || c == '\U{85}' || c == '\U{A0}' || c == '\U{1680}'
    || ('\U{2000}' <= c <= '\U{200A}') || c == '\U{2028}' || c == '\U{2029}' || c == '\U{202F}'
    || c == '\U{205F}' || c == '\U{3000}'
  }

  /** The character class of `OPERATOR_REGEX`: the eight operators, backslash (the raw
      pattern's `\\` is a literal backslash) and the two parentheses. */
  predicate IsSplitChar(c: char) {
    c == '&' || c == '|' || c == '+' || c == '-' || c == '*' || c == '/' || c == '%' || c == '!'
    || c == '\\' || c == '(' || c == ')'
  }

  /** `OPERATOR_REGEX.replace_all(s, " $1 ")`. */
  function Pad(s: string): string {
    if |s| == 0 then ""
    else (if IsSplitChar(s[0]) then [' ', s[0], ' '] else [s[0]]) + Pad(s[1..])
  }

  function Flush(word: string): seq<string> {
    if word == "" then [] else [word]
  }

  /** `str::split_whitespace`, with `word` the word read so far. */
  function SplitFrom(s: string, word: string): seq<string> {
    if |s| == 0 then Flush(word)
    else if IsWhitespace(s[0]) then Flush(word) + SplitFrom(s[1..], "")
    else SplitFrom(s[1..], word + [s[0]])
  }

  function SplitWhitespace(s: string): seq<string> {
    SplitFrom(s, "")
  }

  /** A plain word character: neither whitespace nor an operator or parenthesis. */
  predicate IsWordChar(c: char) {
    !IsWhitespace(c) && !IsSplitChar(c)
  }

  predicate AllWordChars(w: string) {
    forall i :: 0 <= i < |w| ==> IsWordChar(w[i])
  }

  /** A token: a single operator or parenthesis character, or a non-empty run of word characters. */
  predicate IsToken(w: string) {
    (|w| == 1 && IsSplitChar(w[0])) || (|w| > 0 && AllWordChars(w))
  }

  /** One-pass tokenizer: whitespace separates, and every operator or parenthesis character is a
      token of its own. */
  function TokenizeFrom(s: string, word: string): (r: seq<string>)
    requires AllWordChars(word)
    ensures forall i :: 0 <= i < |r| ==> IsToken(r[i])
  {
    if |s| == 0 then Flush(word)
    else if IsWhitespace(s[0]) then Flush(word) + TokenizeFrom(s[1..], "")
    else if IsSplitChar(s[0]) then Flush(word) + [[s[0]]] + TokenizeFrom(s[1..], "")
    else TokenizeFrom(s[1..], word + [s[0]])
  }

  function Tokenize(s: string): seq<string> {
    TokenizeFrom(s, "")
  }

  lemma SplitPadded(c: char, p: string, word: string)
    requires IsSplitChar(c)
    ensures SplitFrom([' ', c, ' '] + p, word) == Flush(word) + [[c]] + SplitFrom(p, "")
  {
    var a := [' ', c, ' '] + p;
    assert a[0] == ' ' && a[1..] == [c, ' '] + p;
    var b := [c, ' '] + p;
    assert b[0] == c && b[1..] == [' '] + p;
    assert "" + [c] == [c];
    var d := [' '] + p;
    assert d[0] == ' ' && d[1..] == p;
    assert SplitFrom(d, [c]) == [[c]] + SplitFrom(p, "");
  }

  /** Padding operators with spaces and splitting on whitespace is the one-pass tokenizer. */
  lemma {:induction false} PadThenSplit(s: string, word: string)
    requires AllWordChars(word)
    ensures SplitFrom(Pad(s), word) == TokenizeFrom(s, word)
  {
    if |s| > 0 {
      var c, rest := s[0], s[1..];
      PadThenSplit(rest, "");
      if IsSplitChar(c) {
        assert Pad(s) == [' ', c, ' '] + Pad(rest);
        SplitPadded(c, Pad(rest), word);
      } else {
        assert Pad(s) == [c] + Pad(rest);
        assert ([c] + Pad(rest))[1..] == Pad(rest);
        if !IsWhitespace(c) {
          assert AllWordChars(word + [c]) by {
            forall i | 0 <= i < |word + [c]|
              ensures IsWordChar((word + [c])[i])
            {
              if i < |word| {
                assert (word + [c])[i] == word[i];
              }
            }
          }
          PadThenSplit(rest, word + [c]);
        }
      }
    }
  }

  /** The words `interpret_expression_string` hands to `wrap_expression`. */
  lemma WordsAreTokens(s: string)
    ensures SplitWhitespace(Pad(s)) == Tokenize(s)
    ensures forall i :: 0 <= i < |Tokenize(s)| ==> IsToken(Tokenize(s)[i])
  {
    PadThenSplit(s, "");
  }

  /** A string yields no words exactly when it is empty or all whitespace. */
  lemma {:induction false} NoWordsIffBlank(s: string, word: string)
    requires AllWordChars(word)
    ensures TokenizeFrom(s, word) == [] <==> word == "" && forall i :: 0 <= i < |s| ==> IsWhitespace(s[i])
  {
    if |s| > 0 {
      var c, rest := s[0], s[1..];
      if IsWhitespace(c) {
        NoWordsIffBlank(rest, "");
        assert forall i :: 0 <= i < |rest| ==> rest[i] == s[i + 1];
      } else if IsSplitChar(c) {
      } else {
        NoWordsIffBlank(rest, word + [c]);
      }
    }
  }

  /** A word that is a single token comes back from the tokenizer unchanged. */
  lemma {:induction false} TokenizeWordChars(s: string, word: string)
    requires AllWordChars(word) && AllWordChars(s) && |word + s| > 0
    ensures TokenizeFrom(s, word) == [word + s]
  {
    if |s| == 0 {
      assert word + s == word;
    } else {
      assert IsWordChar(s[0]);
      assert word + s == (word + [s[0]]) + s[1..];
      assert AllWordChars(word + [s[0]]) by {
        forall i | 0 <= i < |word + [s[0]]|
          ensures IsWordChar((word + [s[0]])[i])
        {
          if i < |word| {
            assert (word + [s[0]])[i] == word[i];
          }
        }
      }
      assert AllWordChars(s[1..]) by {
        forall i | 0 <= i < |s[1..]|
          ensures IsWordChar(s[1..][i])
        {
          assert s[1..][i] == s[i + 1];
        }
      }
      TokenizeWordChars(s[1..], word + [s[0]]);
    }
  }

  lemma TokenizeToken(w: string)
    requires IsToken(w)
    ensures Tokenize(w) == [w]
  {
    if |w| == 1 && IsSplitChar(w[0]) {
      assert !IsWhitespace(w[0]);
      assert w == [w[0]];
      assert TokenizeFrom(w[1..], "") == [];
      assert Tokenize(w) == Flush("") + [[w[0]]] + TokenizeFrom(w[1..], "");
    } else {
      TokenizeWordChars(w, "");
      assert "" + w == w;
    }
  }

  /** A word character extends a run of word characters. */
  lemma WordSnoc(word: string, c: char)
    requires AllWordChars(word) && IsWordChar(c)
    ensures AllWordChars(word + [c])
  {
    forall i | 0 <= i < |word + [c]|
      ensures IsWordChar((word + [c])[i])
    {
      if i < |word| {
        assert (word + [c])[i] == word[i];
      }
    }
  }

  /** What a separator emits: the pending word, and the separator itself unless it is whitespace. */
  function Emitted(word: string, c: char): seq<string> {
    if IsWhitespace(c) then Flush(word) else Flush(word) + [[c]]
  }

  /** A separator at the head ends the pending word. */
  lemma TokenizeSeparator(c: char, rest: string, word: string)
    requires AllWordChars(word) && !IsWordChar(c)
    ensures TokenizeFrom([c] + rest, word) == Emitted(word, c) + TokenizeFrom(rest, "")
  {
    assert ([c] + rest)[0] == c && ([c] + rest)[1..] == rest;
  }

  /** Tokenising distributes over a split made just after a separator. */
  lemma {:induction false} TokenizeAppend(a: string, b: string, word: string)
    requires AllWordChars(word)
    requires |a| > 0 && !IsWordChar(a[|a| - 1])
    ensures TokenizeFrom(a + b, word) == TokenizeFrom(a, word) + Tokenize(b)
  {
    var c := a[0];
    assert a + b == [c] + (a[1..] + b) && a == [c] + a[1..];
    if |a| == 1 {
      assert a[1..] + b == b;
      TokenizeSeparator(c, b, word);
      TokenizeSeparator(c, "", word);
      assert TokenizeFrom(a, word) == Emitted(word, c);
    } else if !IsWordChar(c) {
      TokenizeSeparator(c, a[1..] + b, word);
      TokenizeSeparator(c, a[1..], word);
      TokenizeAppend(a[1..], b, "");
      assert Emitted(word, c) + (TokenizeFrom(a[1..], "") + Tokenize(b)) ==
             (Emitted(word, c) + TokenizeFrom(a[1..], "")) + Tokenize(b);
    } else {
      WordSnoc(word, c);
      assert TokenizeFrom(a + b, word) == TokenizeFrom(a[1..] + b, word + [c]);
      assert TokenizeFrom(a, word) == TokenizeFrom(a[1..], word + [c]);
      TokenizeAppend(a[1..], b, word + [c]);
    }
  }

  /** A run of word characters followed by one separator. */
  lemma TokenizeChunk(w: string, c: char)
    requires AllWordChars(w) && !IsWordChar(c)
    ensures IsSplitChar(c) ==> Tokenize(w + [c]) == Flush(w) + [[c]]
    ensures !IsSplitChar(c) ==> Tokenize(w + [c]) == Flush(w)
  {
    ChunkFrom(w, c, "");
    assert "" + w == w;
  }

  lemma {:induction false} ChunkFrom(w: string, c: char, word: string)
    requires AllWordChars(w) && AllWordChars(word) && !IsWordChar(c)
    ensures IsSplitChar(c) ==> TokenizeFrom(w + [c], word) == Flush(word + w) + [[c]]
    ensures !IsSplitChar(c) ==> TokenizeFrom(w + [c], word) == Flush(word + w)
  {
    if |w| == 0 {
      assert w + [c] == [c] && [c][1..] == "";
      assert word + w == word;
    } else {
      assert (w + [c])[0] == w[0] && (w + [c])[1..] == w[1..] + [c];
      assert IsWordChar(w[0]);
      assert AllWordChars(word + [w[0]]) by {
        forall i | 0 <= i < |word + [w[0]]|
          ensures IsWordChar((word + [w[0]])[i])
        {
          if i < |word| {
            assert (word + [w[0]])[i] == word[i];
          }
        }
      }
      assert AllWordChars(w[1..]) by {
        forall i | 0 <= i < |w[1..]|
          ensures IsWordChar(w[1..][i])
        {
          assert w[1..][i] == w[i + 1];
        }
      }
      ChunkFrom(w[1..], c, word + [w[0]]);
      assert (word + [w[0]]) + w[1..] == word + w;
    }
  }

  lemma {:induction false} WordThenFrom(a: string, rest: string, word: string)
    requires AllWordChars(a) && AllWordChars(word)
    ensures TokenizeFrom(a + rest, word) == TokenizeFrom(rest, word + a)
  {
    if |a| == 0 {
      assert a + rest == rest && word + a == word;
    } else {
      assert (a + rest)[0] == a[0] && (a + rest)[1..] == a[1..] + rest;
      assert IsWordChar(a[0]);
      assert AllWordChars(word + [a[0]]) by {
        forall i | 0 <= i < |word + [a[0]]|
          ensures IsWordChar((word + [a[0]])[i])
        {
          if i < |word| {
            assert (word + [a[0]])[i] == word[i];
          }
        }
      }
      assert AllWordChars(a[1..]) by {
        forall i | 0 <= i < |a[1..]|
          ensures IsWordChar(a[1..][i])
        {
          assert a[1..][i] == a[i + 1];
        }
      }
      WordThenFrom(a[1..], rest, word + [a[0]]);
      assert (word + [a[0]]) + a[1..] == word + a;
    }
  }

  /** A run of word characters up to a separator (or the end) is one token. */
  lemma TokenizeWordThen(a: string, rest: string)
    requires |a| > 0 && AllWordChars(a)
    requires |rest| == 0 || !IsWordChar(rest[0])
    ensures Tokenize(a + rest) == [a] + Tokenize(rest)
  {
    WordThenFrom(a, rest, "");
    assert "" + a == a;
  }

  /** An operator or parenthesis character is a token of its own. */
  lemma TokenizeSplitThen(c: char, rest: string)
    requires IsSplitChar(c)
    ensures Tokenize([c] + rest) == [[c]] + Tokenize(rest)
  {
    assert !IsWhitespace(c);
    assert ([c] + rest)[0] == c && ([c] + rest)[1..] == rest;
  }

  /** Whitespace only separates. */
  lemma TokenizeSpaceThen(c: char, rest: string)
    requires IsWhitespace(c)
    ensures Tokenize([c] + rest) == Tokenize(rest)
  {
    assert ([c] + rest)[0] == c && ([c] + rest)[1..] == rest;
  }

  /** `wrap_expression`, read word by word: `(` opens a level, `)` closes the innermost one (an
      error when none is open) and any other word is appended to the current level. A level
      still open at the end is an error. */
  function WrapFrom(words: seq<string>, stack: seq<seq<Wrapped>>, current: seq<Wrapped>)
    : Result<seq<Wrapped>, ExpressionError>
  {
    if |words| == 0 then
      if |stack| == 0 then Ok(current) else Err(MismatchedParenthesis)
    else if words[0] == "(" then
      WrapFrom(words[1..], stack + [current], [])
    else if words[0] == ")" then
      if |stack| == 0 then Err(MismatchedParenthesis)
      else WrapFrom(words[1..], stack[..|stack| - 1], stack[|stack| - 1] + [Group(current)])
    else
      WrapFrom(words[1..], stack, current + [Single(words[0])])
  }

  function Wrap(words: seq<string>): Result<seq<Wrapped>, ExpressionError> {
    WrapFrom(words, [], [])
  }

  predicate NotParen(w: string) {
    w != "(" && w != ")"
  }

  /** The words before the innermost open level, each open level written back with its `(`. */
  function Opened(stack: seq<seq<Wrapped>>): seq<string> {
    if |stack| == 0 then []
    else Opened(stack[..|stack| - 1]) + Flatten(stack[|stack| - 1]) + ["("]
  }

  lemma OpenedPush(stack: seq<seq<Wrapped>>, current: seq<Wrapped>)
    ensures Opened(stack + [current]) == Opened(stack) + Flatten(current) + ["("]
  {
    assert (stack + [current])[..|stack|] == stack;
  }

  lemma FlattenSnoc(current: seq<Wrapped>, x: Wrapped)
    ensures x.Single? ==> Flatten(current + [x]) == Flatten(current) + [x.word]
    ensures x.Group? ==> Flatten(current + [x]) == Flatten(current) + ["("] + Flatten(x.items) + [")"]
  {
    FlattenAppend(current, [x]);
    FlattenOne(x);
  }

  /** Grouping loses nothing: a successful `wrap_expression` flattens back to its input. */
  lemma {:induction false} WrapFlattens(words: seq<string>, stack: seq<seq<Wrapped>>, current: seq<Wrapped>)
    requires WrapFrom(words, stack, current).Ok?
    ensures Flatten(WrapFrom(words, stack, current).value) == Opened(stack) + Flatten(current) + words
    decreases |words|, 1
  {
    if |words| == 0 {
    } else if words[0] == "(" {
      WrapFlattensOpen(words, stack, current);
    } else if words[0] == ")" {
      WrapFlattensClose(words, stack, current);
    } else {
      WrapFlattensWord(words, stack, current);
    }
  }

  lemma {:induction false} WrapFlattensOpen(words: seq<string>, stack: seq<seq<Wrapped>>, current: seq<Wrapped>)
    requires |words| > 0 && words[0] == "("
    requires WrapFrom(words, stack, current).Ok?
    ensures Flatten(WrapFrom(words, stack, current).value) == Opened(stack) + Flatten(current) + words
    decreases |words|, 0
  {
    assert WrapFrom(words, stack, current) == WrapFrom(words[1..], stack + [current], []);
    WrapFlattens(words[1..], stack + [current], []);
    OpenedPush(stack, current);
    assert words == ["("] + words[1..];
  }

  lemma {:induction false} WrapFlattensClose(words: seq<string>, stack: seq<seq<Wrapped>>, current: seq<Wrapped>)
    requires |words| > 0 && words[0] == ")"
    requires WrapFrom(words, stack, current).Ok?
    ensures Flatten(WrapFrom(words, stack, current).value) == Opened(stack) + Flatten(current) + words
    decreases |words|, 0
  {
    assert |stack| > 0;
    var top := stack[|stack| - 1];
    var below := stack[..|stack| - 1];
    WrapCloseStep(words, stack, current);
    WrapFlattens(words[1..], below, top + [Group(current)]);
    FlattenSnoc(top, Group(current));
    assert stack == below + [top];
    OpenedPush(below, top);
    assert words == [")"] + words[1..];
  }

  /** A `)` with a level open closes it. */
  lemma WrapCloseStep(words: seq<string>, stack: seq<seq<Wrapped>>, current: seq<Wrapped>)
    requires |words| > 0 && words[0] == ")" && |stack| > 0
    ensures WrapFrom(words, stack, current) == WrapFrom(words[1..], stack[..|stack| - 1], stack[|stack| - 1] + [Group(current)])
  {
  }

  lemma {:induction false} WrapFlattensWord(words: seq<string>, stack: seq<seq<Wrapped>>, current: seq<Wrapped>)
    requires |words| > 0 && words[0] != "(" && words[0] != ")"
    requires WrapFrom(words, stack, current).Ok?
    ensures Flatten(WrapFrom(words, stack, current).value) == Opened(stack) + Flatten(current) + words
    decreases |words|, 0
  {
    var w := words[0];
    assert WrapFrom(words, stack, current) == WrapFrom(words[1..], stack, current + [Single(w)]);
    WrapFlattens(words[1..], stack, current + [Single(w)]);
    FlattenSnoc(current, Single(w));
    assert words == [w] + words[1..];
  }

  /** Every word of a successful `wrap_expression` result is one of its input words other than a
      parenthesis. */
  lemma {:induction false} WrapWords(words: seq<string>, stack: seq<seq<Wrapped>>, current: seq<Wrapped>, p: string -> bool)
    requires WrapFrom(words, stack, current).Ok?
    requires forall i :: 0 <= i < |words| ==> NotParen(words[i]) ==> p(words[i])
    requires forall i :: 0 <= i < |stack| ==> AllWords(stack[i], p)
    requires AllWords(current, p)
    ensures AllWords(WrapFrom(words, stack, current).value, p)
  {
    if |words| > 0 {
      if words[0] == "(" {
        WrapWords(words[1..], stack + [current], [], p);
      } else if words[0] == ")" {
        var top := stack[|stack| - 1];
        AllWordsAppend(top, [Group(current)], p);
        WrapWords(words[1..], stack[..|stack| - 1], top + [Group(current)], p);
      } else {
        AllWordsAppend(current, [Single(words[0])], p);
        WrapWords(words[1..], stack, current + [Single(words[0])], p);
      }
    }
  }

  lemma FlattenCons(ws: seq<Wrapped>)
    requires |ws| > 0
    ensures ws[0].Single? ==> Flatten(ws) == [ws[0].word] + Flatten(ws[1..])
    ensures ws[0].Group? ==> Flatten(ws) == ["("] + Flatten(ws[0].items) + [")"] + Flatten(ws[1..])
  {
  }

  /** Round trip: grouping the flattened form of a phrase whose words are not parentheses gives
      the phrase back; the levels below are untouched. */
  lemma {:induction false} WrapOfFlatten(ws: seq<Wrapped>, rest: seq<string>, stack: seq<seq<Wrapped>>, current: seq<Wrapped>)
    requires AllWords(ws, NotParen)
    ensures WrapFrom(Flatten(ws) + rest, stack, current) == WrapFrom(rest, stack, current + ws)
    decreases ws
  {
    if |ws| == 0 {
      assert current + ws == current;
      assert Flatten(ws) + rest == rest;
    } else {
      AllWordsSlice(ws, 1, |ws|, NotParen);
      var tail := Flatten(ws[1..]) + rest;
      FlattenCons(ws);
      if ws[0].Single? {
        var w := ws[0].word;
        assert NotParen(w);
        var input := Flatten(ws) + rest;
        assert input == [w] + tail;
        assert input[0] == w && input[1..] == tail;
        assert WrapFrom(input, stack, current) == WrapFrom(tail, stack, current + [Single(w)]);
        WrapOfFlatten(ws[1..], rest, stack, current + [Single(w)]);
        assert current + [Single(w)] + ws[1..] == current + ws;
      } else {
        GroupStep(ws, rest, stack, current);
      }
    }
  }

  lemma {:induction false} GroupStep(ws: seq<Wrapped>, rest: seq<string>, stack: seq<seq<Wrapped>>, current: seq<Wrapped>)
    requires |ws| > 0 && ws[0].Group?
    requires AllWords(ws, NotParen)
    ensures WrapFrom(Flatten(ws) + rest, stack, current) == WrapFrom(rest, stack, current + ws)
    decreases ws, 0
  {
    var g := ws[0].items;
    assert AllWords(g, NotParen);
    AllWordsSlice(ws, 1, |ws|, NotParen);
    FlattenCons(ws);
    var input := Flatten(ws) + rest;
    var after := [")"] + (Flatten(ws[1..]) + rest);
    assert input == ["("] + (Flatten(g) + after);
    WrapOpen(Flatten(g) + after, stack, current);
    WrapOfFlatten(g, after, stack + [current], []);
    assert [] + g == g;
    WrapClose(Flatten(ws[1..]) + rest, stack, current, g);
    WrapOfFlatten(ws[1..], rest, stack, current + [Group(g)]);
    assert current + [Group(g)] + ws[1..] == current + ws;
  }

  /** An opening parenthesis starts a new level. */
  lemma WrapOpen(words: seq<string>, stack: seq<seq<Wrapped>>, current: seq<Wrapped>)
    ensures WrapFrom(["("] + words, stack, current) == WrapFrom(words, stack + [current], [])
  {
    assert (["("] + words)[1..] == words;
  }

  /** A closing parenthesis closes the innermost level into a group of the level below. */
  lemma WrapClose(words: seq<string>, stack: seq<seq<Wrapped>>, current: seq<Wrapped>, g: seq<Wrapped>)
    ensures WrapFrom([")"] + words, stack + [current], g) == WrapFrom(words, stack, current + [Group(g)])
  {
    assert ([")"] + words)[1..] == words;
    assert (stack + [current])[..|stack|] == stack;
  }

  /** `wrap_expression` inverts flattening for phrases whose words are not parentheses. */
  lemma WrapRoundTrip(ws: seq<Wrapped>)
    requires AllWords(ws, NotParen)
    ensures Wrap(Flatten(ws)) == Ok(ws)
  {
    WrapOfFlatten(ws, [], [], []);
    assert Flatten(ws) + [] == Flatten(ws);
    assert [] + ws == ws;
  }

  function SinglesOf(words: seq<string>): (r: seq<Wrapped>)
    ensures |r| == |words| && forall i :: 0 <= i < |words| ==> r[i] == Single(words[i])
  {
    seq(|words|, i requires 0 <= i < |words| => Single(words[i]))
  }

  /** Without parentheses, grouping just wraps every word. */
  lemma {:induction false} WrapPlain(words: seq<string>, current: seq<Wrapped>)
    requires forall i :: 0 <= i < |words| ==> NotParen(words[i])
    ensures WrapFrom(words, [], current) == Ok(current + SinglesOf(words))
  {
    if |words| == 0 {
      assert current + SinglesOf(words) == current;
    } else {
      WrapPlain(words[1..], current + [Single(words[0])]);
      assert current + [Single(words[0])] + SinglesOf(words[1..]) == current + SinglesOf(words);
    }
  }

  /** A `)` with nothing open is reported at once, whatever follows. */
  lemma UnopenedCloseFails(rest: seq<string>)
    ensures Wrap([")"] + rest) == Err(MismatchedParenthesis)
  {
  }

  /** A `(` that is never closed is reported. */
  lemma UnclosedOpenFails(ws: seq<Wrapped>)
    requires AllWords(ws, NotParen)
    ensures Wrap(["("] + Flatten(ws)) == Err(MismatchedParenthesis)
  {
    var input := ["("] + Flatten(ws);
    assert input[1..] == Flatten(ws) + [];
    var none: seq<seq<Wrapped>> := [];
    assert none + [[]] == [[]];
    assert Wrap(input) == WrapFrom(Flatten(ws) + [], none + [[]], []);
    WrapOfFlatten(ws, [], [[]], []);
  }
}
